=== FILE: README.md ===
# bight23checker core, modelled in Dafny

bight23checker validates uploads to the Southern California Bight 2023
regional monitoring survey. A submission is a set of tables: sediment and
tissue chemistry, field occupations, grabs and trawls, fish and invertebrate
catch, ocean-acidification casts, water-quality loggers and trawl sensors.
Each rule module turns its tables into a list of findings. A finding is a
record naming a table, the offending row ids, the columns, an error type and
a message. Every module is built from the same few row-set primitives: the
finding recorder `checkData`, the existence checks `checkLogic` and
`mismatch`, multi-value lookups, grouped presence checks, pass-fraction
aggregators, threshold predicates with the -88 "no value" sentinel, and the
SQL literal renderer that loads accepted data.

The model is one Dafny module per source file of the core, plus shared
modules:

- `Wrappers`: `Option`, and `Result` with Python's exceptions.
- `Text`: `strip`, `split`/`join`, and string order.
- `Numeric`: float64 quotients with infinities and NaN, RPD, pass fractions, interval overlap, and descending sort.
- `Frames`: row selection, joins, and column-wise versus tuple-wise existence.
- `Grouping`: `groupby`, `unique`, and `drop_duplicates`.
- `OneShot`: `in` on a one-shot `zip` iterator.
- `Catch`: the biomass record, its zero-weight rule, rounding and the depth-range warning, all shared by fish and invertebrates.
- `ChemTables`: the chemistry result record.
- `TimeFormat`: the two `HH:MM:SS` regular expressions.

The per-file modules are `Functions` (proj/custom/functions.py),
`ChemFunctions`, `ChemQaPlan`, `Chemistry`, `ChemistryTissue`,
`ChemistryIntercal`, `Field`, `FieldGrab`, `FieldTrawl`,
`OceanAcidification`, `Logger`, `PtSensor`, `Fish`, `Invert` (the matching
files under proj/custom/) and `Db` (proj/utils/db.py).

Tables are sequences of typed records, each carrying its `tmp_row`. Findings
are `Option<Finding>`, where `None` is the empty dict `{}`. Exceptions are
`Result.Raise` values, never preconditions. Numbers are exact `real`s. Times
and dates are integers: seconds since midnight, or days. Lookup lists,
assignment tables and trawl events read from the database are parameters.

Where a module's code does something other than what its comments or
messages say, the model keeps both readings. The member named `…AsWritten`
follows the code. The other member is the intended behaviour, and the rest
of the model uses it. The differences are listed under "## Findings".

## Model

| member | source | states |
|---|---|---|
| Wrappers.Need | proj/custom/functions.py:134-136 | an `assert cond, msg` succeeds exactly when `cond` holds, and otherwise raises `AssertionError` |
| Functions.CheckData | proj/custom/functions.py:13-34 | an empty `badrows` gives `{}` and leaves the queue alone; a non-empty one gives the record of exactly the arguments, pushed once on the queue when there is one |
| Functions.NonEmpty | proj/custom/ocean_acidification_custom.py:142 | dropping the empty findings keeps every non-empty one and nothing else, and leaves nothing exactly when all were empty |
| Functions.FindingsAreNeverEmpty | proj/custom/functions.py:13-34 | every finding that survives the clean-up names at least one row |
| Functions.CheckLogic | proj/custom/functions.py:47-70 | raises unless both frames have the lower-cased key columns; otherwise reports a df1 index label exactly when some key value of that row occurs nowhere in df2's same column; nothing is reported exactly when every value is found |
| Functions.Mismatch | proj/custom/functions.py:72-82 | `KeyError` unless both frames have the columns; otherwise reports the positions, all in `[0, len(df1))`, of the df1 rows whose whole key tuple equals no df2 tuple |
| Functions.CheckAgainstItself | proj/custom/functions.py:65-82 | a frame checked against itself has no orphans, column-wise or tuple-wise |
| Functions.CheckLogicWeakerThanMismatch | proj/custom/functions.py:65-81 | with unique labels, every row `checkLogic` flags is also flagged by `mismatch` |
| Functions.MismatchIgnoresDuplicates | proj/custom/functions.py:76 | only the set of reference tuples matters, so duplicates in df2 change nothing |
| Functions.MultivalueLookupCheck | proj/custom/functions.py:131-149 | asserts that the display column (lower-cased) and the field exist; the bad column is the display name, defaulting to the field; the type is "Lookup Error"; a row is reported by `tmp_row`, or by its index when the frame has no `tmp_row`, exactly when its stripped tokens are not all lookup values |
| Functions.StripIdentity | proj/custom/functions.py:143 | stripping a value with no surrounding whitespace changes nothing |
| Functions.TokenSetOfJoin | proj/custom/functions.py:143 | the tokens of a separated list are its stripped entries |
| Functions.TokensListedMeaning | proj/custom/functions.py:143 | a list passes the lookup exactly when each stripped entry is a lookup value |
| Functions.SingleValueLookup | proj/custom/functions.py:143 | a single unpadded value passes exactly when it is a lookup value |
| Functions.MissingCellLookup | proj/custom/functions.py:143 | a missing cell is the token "nan", so it passes only when "nan" is itself a lookup value |
| Frames.Select | proj/custom/fish_custom.py:283-289 | a boolean mask keeps exactly the ids of the rows satisfying it, and keeps nothing exactly when no row does |
| Frames.SelectMonotone | proj/custom/fish_custom.py:295-302 | a stronger mask selects a subset, and never an id outside the table |
| Frames.SelectCongruent | proj/custom/functions.py:76 | masks that agree on every row select the same ids |
| Frames.Orphans | proj/custom/functions.py:72-82 | on typed rows, `mismatch` reports exactly the positions whose key is not a reference key |
| Frames.InnerJoin | proj/custom/fish_custom.py:207-212 | an inner merge pairs every row with every lookup row that agrees with it, and pairs nothing else |
| Frames.Partners | proj/custom/fish_custom.py:207-212 | one row's partners in the merge are exactly the agreeing lookup rows |
| Frames.TupleFoundIsColumnwiseFound | proj/custom/functions.py:65 | a key found as a whole tuple also passes the column-wise `isin(...).all(axis=1)` |
| Frames.ColumnwiseFoundIsWeaker | proj/custom/functions.py:65 | the converse fails: `(1, 2)` passes column-wise against `[(1, 3), (4, 2)]`, which does not contain it |
| Frames.FoundReflexive | proj/custom/functions.py:65 | a key drawn from the reference passes both tests |
| Grouping.Members | proj/custom/chem_functions_custom.py:40-42 | a group holds exactly the rows in scope with its key, and at least one of them |
| Grouping.RowsOfGroups | proj/custom/chem_functions_custom.py:55-58 | merging the failing groups back reports every row with a failing key, in scope or not, and nothing else |
| Grouping.Distinct | proj/custom/ocean_acidification_custom.py:147-150 | `unique()` keeps each value once, loses none, and is empty only for an empty column |
| Grouping.DistinctSingle | proj/custom/ocean_acidification_custom.py:147-150 | `len(col.unique()) == 1` exactly when the column is non-empty and constant |
| Grouping.DropDuplicates | proj/custom/functions.py:76 | `drop_duplicates()` keeps exactly the first row of each key |
| Grouping.FirstOfKindExists | proj/custom/functions.py:76 | every key keeps one row after `drop_duplicates()` |
| Text.TrimStart | proj/custom/functions.py:143 | `lstrip` removes the leading whitespace and nothing else |
| Text.TrimEnd | proj/custom/functions.py:143 | `rstrip` removes the trailing whitespace and nothing else |
| Text.StripNormalises | proj/custom/functions.py:143 | a stripped string has no whitespace at either end, and stripping it again changes nothing |
| Text.JoinCons | proj/custom/functions.py:143 | joining after prefixing the first piece prefixes the join |
| Text.Split | proj/custom/functions.py:143 | `split(sep)` gives at least one piece, no piece contains the separator, and joining the pieces gives the string back |
| Text.SplitJoin | proj/custom/functions.py:143 | splitting a join of separator-free pieces gives the pieces back |
| Text.StrLtTotal | proj/custom/field.py:256-288 | Python's string order is total |
| Text.StrLtTransitive | proj/custom/field.py:256-288 | Python's string order is transitive |
| Text.StrLtIrreflexive | proj/custom/field.py:256-288 | Python's string order is irreflexive |
| Text.MinString | proj/custom/field.py:256-288 | `min()` of a non-empty column is one of its values and no value is below it |
| Numeric.Max | proj/custom/chemistry_custom.py:746 | `max()` of a non-empty group is a member and bounds every member |
| Numeric.Min | proj/custom/chemistry_custom.py:746 | `min()` of a non-empty group is a member and bounds every member from below |
| Numeric.RpdOfAgreeingReplicates | proj/custom/chemistry_custom.py:744-763 | identical replicates have RPD 0, except all-zero ones, whose 0/0 is NaN |
| Numeric.RpdOfPositiveReplicates | proj/custom/chemistry_custom.py:744-763 | positive replicates have a finite RPD in [0, 2) |
| Numeric.RpdOrderInsensitive | proj/custom/chemistry_custom.py:746 | the RPD of a pair does not depend on its order |
| Numeric.CountTrue | proj/custom/chemistry_custom.py:936 | `sum(bools)` is at most the length, equal to it exactly when all are true, and 0 exactly when none are |
| Numeric.CountTrueMonotone | proj/custom/chemistry_custom.py:936 | turning entries true never lowers the count |
| Numeric.FractionAtLeastMonotone | proj/custom/chemistry_custom.py:902-912 | improving members of a passing group keeps it passing |
| Numeric.FractionOfAllPassing | proj/custom/chemistry_custom.py:902-912 | a group whose members all pass meets any threshold up to 1 |
| Numeric.OverlapsMeansSharedDepth | proj/custom/fish_custom.py:244 | the in-range test holds exactly when some depth of the tow lies in the species' range, whichever end of the tow comes first |
| Numeric.OutsideExceptMissingMeaning | proj/custom/logger.py:98 | with the sentinel below the range, the test is "outside the closed range and not -88" |
| Numeric.CountAbove | proj/custom/fish_custom.py:335-344 | no more values lie above a bar than there are values |
| Numeric.CountAboveCons | proj/custom/fish_custom.py:335-344 | a value counts above a bar exactly when it exceeds it |
| Numeric.InsertDesc | proj/custom/fish_custom.py:336 | inserting into a descending list keeps it descending and adds exactly the new value |
| Numeric.InsertDescCount | proj/custom/fish_custom.py:336 | inserting a value raises the count above a bar by one exactly when the value exceeds the bar |
| Numeric.SortDesc | proj/custom/fish_custom.py:336 | `sorted(..., reverse=True)` is descending, a permutation of its input, and keeps every count above a bar |
| Numeric.NoneAbove | proj/custom/fish_custom.py:335-344 | no value lies above a bar that bounds them all |
| Numeric.FewAboveThird | proj/custom/fish_custom.py:336 | in a descending list, at most two values lie above the third |
| Numeric.AtMostTwoAboveThird | proj/custom/fish_custom.py:336 | whatever the values, at most two exceed the third largest |
| Numeric.CountAboveMonotone | proj/custom/fish_custom.py:335-344 | a higher bar has no more values above it |
| OneShot.Lookup | proj/custom/ptsensor_custom.py:52-57 | `x in it` is true exactly when `x` is in what is left of the iterator; a hit consumes up to the first equal element, and a miss consumes everything |
| OneShot.Scan | proj/custom/ptsensor_custom.py:69-73 | one answer per key, in order; a key is found only when it was in the iterator, and what is left afterwards is a suffix |
| OneShot.Unfound | proj/custom/ptsensor_custom.py:70-73 | reports exactly the ids of the rows whose answer was no, and at most one per row |
| OneShot.SuffixMembers | proj/custom/ptsensor_custom.py:52-57 | what is left of an iterator was in it to begin with |
| OneShot.MissExhausts | proj/custom/ptsensor_custom.py:69-73 | after one miss the iterator is exhausted |
| OneShot.LookupEmpties | proj/custom/ptsensor_custom.py:69-73 | one lookup in a one-element iterator empties it |
| OneShot.EmptyStaysEmpty | proj/custom/ptsensor_custom.py:69-73 | an exhausted iterator stays exhausted |
| OneShot.NothingFoundInEmpty | proj/custom/ptsensor_custom.py:69-73 | an exhausted iterator answers every key with no |
| ChemTables.PercentRecovery | proj/custom/chemistry_custom.py:44-49 | spikes and reference materials get result / truevalue × 100, and raise `ZeroDivisionError` exactly on a zero TrueValue; other rows get -88 |
| ChemTables.Prepare | proj/custom/chemistry_custom.py:33-49 | `tmp_row` is the upload position; the inner merge keeps exactly the rows with a known analyte, in order and with their class; the module raises ZeroDivisionError exactly when a kept spike or reference row has TrueValue 0, and ValueError exactly when the merge keeps no row (an empty upload, or no known analyte) |
| ChemTables.Kept | proj/custom/chemistry_custom.py:37-41 | the rows from a position on that survive the merge, faithful to the upload and ascending |
| ChemTables.KeptCons | proj/custom/chemistry_custom.py:37-41 | a kept row in front of the kept rest is still faithful and ascending |
| ChemTables.QualifierRulesMeaning | proj/custom/chemistry_custom.py:240-281 | for 0 ≤ MDL ≤ RL the four qualifier rules reject a row exactly when its qualifier's promise fails, with or without "less than" in the wrong-qualifier list |
| ChemTables.WrongQualifierMissesLessThan | proj/custom/chemistry_custom.py:261-268 | a "less than" row with a result above the RL passes the wrong-qualifier rule as written, though its message names "less than" |
| ChemTables.WrongQualifierCorrection | proj/custom/chemistry_custom.py:261-268 | the corrected rule differs from the written one by exactly the "less than" rows above the RL |
| ChemFunctions.RowsWithKey | proj/custom/chem_functions_custom.py:55-58 | merging a group back gives exactly the `tmp_row`s with its key |
| ChemFunctions.SampletypeFinding | proj/custom/chem_functions_custom.py:55-69 | a failing group's entry names the missing types, "SampleType" and "Missing Required Data", and covers every row of the group |
| ChemFunctions.ChkRequiredSampletypes | proj/custom/chem_functions_custom.py:34-71 | nothing when no row has the class; otherwise exactly one entry per group that lacks a required sample type |
| ChemFunctions.MissingIffNotSubset | proj/custom/chem_functions_custom.py:42-49 | "required minus observed is non-empty" is "not all required were observed" |
| ChemFunctions.RequiredSampletypesPerRow | proj/custom/chem_functions_custom.py:40-69 | a row of the class is reported, with its whole group, exactly when the group lacks a required type |
| ChemFunctions.RequiredSampletypesMonotone | proj/custom/chem_functions_custom.py:40-49 | requiring more sample types never clears a group |
| ChemFunctions.CrmFinding | proj/custom/chem_functions_custom.py:113-127 | a group's CRM entry has "SampleType", "Missing Required Data" and every row of the group |
| ChemFunctions.CheckRequiredCrm | proj/custom/chem_functions_custom.py:95-131 | raises exactly when no row has a listed class; otherwise one entry per group none of whose sample types mentions "reference" |
| ChemFunctions.CrmReportedIffMissing | proj/custom/chem_functions_custom.py:97-106 | a group holding a reference material is never reported; a group without one is reported with the row |
| ChemFunctions.PyrethroidAnalyteLogicCheckAsWritten | proj/custom/chem_functions_custom.py:143-159 | as written: "Logic Error" on every listed-analyte row of a batch with any Pyrethroid row, whether or not the batch holds all the analytes |
| ChemFunctions.PyrethroidAnalyteLogicCheck | proj/custom/chem_functions_custom.py:143-159 | as its message states: only the listed-analyte rows of batches whose Pyrethroid rows hold all of them |
| ChemFunctions.PyrethroidFlagsOnlyCompleteBatches | proj/custom/chem_functions_custom.py:143-150 | a listed Pyrethroid row is reported exactly when its batch holds every analyte |
| ChemFunctions.PyrethroidReportsIncompleteBatch | proj/custom/chem_functions_custom.py:143-150 | a batch with only one analyte of a pair is reported as written and not when corrected |
| ChemFunctions.AnalyteFinding | proj/custom/chem_functions_custom.py:177-195 | a failing group's entry names the missing analytes, "AnalyteName" and "Missing Required Data", and covers every row of the table with its key |
| ChemFunctions.CheckReqAnalytes | proj/custom/chem_functions_custom.py:172-197 | nothing when the mask selects nothing; otherwise exactly one entry per masked group lacking a required analyte |
| ChemFunctions.ReqAnalytesReachesUnmaskedRows | proj/custom/chem_functions_custom.py:174-178 | a row outside the mask is reported when its key's masked group lacks an analyte |
| ChemFunctions.ReqAnalytesCompleteGroupSilent | proj/custom/chem_functions_custom.py:174-178 | a group whose masked rows hold every required analyte is not reported |
| ChemQaPlan.PairsWith | proj/custom/chem_qaplan_checks.py:18 | a Result row pairs with exactly the blanks of its batch, matrix and analyte |
| ChemQaPlan.MergePairs | proj/custom/chem_qaplan_checks.py:18 | the inner merge yields exactly the (Result, blank) pairs that agree on batch, matrix and analyte |
| ChemQaPlan.Results | proj/custom/chem_qaplan_checks.py:16 | exactly the rows of sample type "Result" |
| ChemQaPlan.Blanks | proj/custom/chem_qaplan_checks.py:15 | exactly the rows of sample type "Method blank" |
| ChemQaPlan.BlankFinding | proj/custom/chem_qaplan_checks.py:25-36 | one (batch, analyte, sample) entry: "Result", "Value Error", and the Result rows of its flagged pairs |
| ChemQaPlan.Pairs | proj/custom/chem_qaplan_checks.py:15-18 | the pairs the merge makes from one table |
| ChemQaPlan.MbResultLessThanMdl | proj/custom/chem_qaplan_checks.py:15-36 | one non-empty entry per (batch, analyte, sample) with a flagged pair, every flagged pair covered, and `[]` exactly when no pair is flagged |
| ChemQaPlan.UnpairedResultsNotReported | proj/custom/chem_qaplan_checks.py:18 | a Result row without a matching blank is never reported |
| ChemQaPlan.BlankBelowMdlPasses | proj/custom/chem_qaplan_checks.py:20 | a blank below its own MDL clears every pair it is in |
| Chemistry.OrphanBatchLabels | proj/custom/chemistry_custom.py:79-81 | the batch rows without results are exactly the reported index labels |
| Chemistry.OrphanResultLabels | proj/custom/chemistry_custom.py:85-87 | after the merge the results index holds positions, so results orphans are reported by position, not by `tmp_row` |
| Chemistry.LogicCheckAsWritten | proj/custom/chemistry_custom.py:79-88 | as written, `dict.update` of the returned label list raises `TypeError` exactly when there is an orphan on either side |
| Chemistry.LogicCheck | proj/custom/chemistry_custom.py:79-88 | as intended: batch orphans by index and results orphans by `tmp_row`, exactly the rows without a partner on (lab, preparationbatchid) |
| Chemistry.LogicCheckRaisesOnOrphan | proj/custom/chemistry_custom.py:79-82 | one batch record without results aborts the module as written and is reported as intended |
| Chemistry.GrainSplit | proj/custom/chemistry_custom.py:91-92 | the grain-size rows and the other rows split the table, and each side is empty exactly when no row of its kind exists |
| Chemistry.RouteOf | proj/custom/chemistry_custom.py:95-116 | all-grain (an empty table included, which the preparation never lets through) takes the grain branch; all-chemistry takes the chemistry branch; a mixture reports the smaller side, the non-grain rows on a tie, and stops |
| Chemistry.GrainUnitRows | proj/custom/chemistry_custom.py:118-125 | exactly the grain-size rows whose units are not "%" |
| Chemistry.GrainSumFinding | proj/custom/chemistry_custom.py:139-157 | a failing group's entry has "Result", "Value Error" and every row of the group |
| Chemistry.GrainSumCheck | proj/custom/chemistry_custom.py:127-160 | one entry per (station, field duplicate, lab replicate) group whose sum lies outside [99.8, 100.2], covering its rows, and nothing exactly when every sum is inside |
| Chemistry.GrainSumBounds | proj/custom/chemistry_custom.py:133 | sums of exactly 100, 99.8 or 100.2 are never reported |
| Chemistry.GroupSumOfSingleRow | proj/custom/chemistry_custom.py:128 | a group of one row sums to its result |
| Chemistry.RequiredSampletypesReported | proj/custom/chemistry_custom.py:318-335 | with the duplicate checks left out, a row is reported with its (batch, class) group exactly when its class is listed and the group lacks a sample type listed for that class |
| Chemistry.SampletypeLoopAsWritten | proj/custom/chemistry_custom.py:331-351 | as written, the loop raises NameError on its first pass, whatever the data, because `check_sample_dups` is defined nowhere |
| Chemistry.SampleDupsHidesMissingBlankSpike | proj/custom/chemistry_custom.py:331-351 | an Inorganics batch without a blank spike makes the loop as written raise before anything is reported, while the loop without the duplicate checks reports it |
| Chemistry.SedimentInorganicsNeedBlankSpike | proj/custom/chemistry_custom.py:318-335 | an Inorganics group without a "Blank Spike" row is reported |
| Chemistry.YearHoldingTimeCheck | proj/custom/chemistry_custom.py:441-456 | a "Sample Past Holding Time" error on SampleDate, AnalysisDate naming exactly the rows of a listed class analysed 365 days or more after sampling |
| Chemistry.MercuryHoldingTimeCheck | proj/custom/chemistry_custom.py:458-471 | a "Sample Past Holding Time" error naming exactly the Mercury rows analysed 183 days or more after sampling |
| Chemistry.YearOldMercuryFlaggedTwice | proj/custom/chemistry_custom.py:441-471 | a Mercury row of a listed class a year old or more is named by both holding-time errors |
| Chemistry.HalfYearMercuryFlaggedOnce | proj/custom/chemistry_custom.py:441-471 | with distinct row ids, a Mercury row 183 to 364 days old is named by the Mercury error only |
| Chemistry.ApplyRule | proj/custom/chemistry_custom.py:196-305 | a row rule reports exactly the `tmp_row`s of the rows it flags, with its column and "Value Error", and nothing exactly when it flags none |
| Chemistry.ArgsOf | proj/custom/chemistry_custom.py:196-305 | the findings of one severity are exactly those of the rules of that severity |
| Chemistry.RunRowRules | proj/custom/chemistry_custom.py:196-305 | every rule lands in the errors or the warnings according to its severity |
| Chemistry.UnflaggedRowNotReported | proj/custom/chemistry_custom.py:196-305 | a row no rule flags is in no finding |
| Chemistry.BrokenQualifierPromiseRejected | proj/custom/chemistry_custom.py:239-282 | with 0 ≤ MDL ≤ RL, a row whose qualifier breaks its promise is in some error finding |
| Chemistry.FlaggedRowReported | proj/custom/chemistry_custom.py:196-305 | a row flagged by an error rule is in that rule's error finding |
| Chemistry.FlaggedRowWarned | proj/custom/chemistry_custom.py:217-225 | a row flagged by a warning rule is in that rule's warning finding |
| Chemistry.ReportedRowFires | proj/custom/chemistry_custom.py:196-305 | a reported row was flagged by a rule of that severity |
| Chemistry.CrmRangeCheck | proj/custom/chemistry_custom.py:640-670 | exactly the inorganic reference rows outside their certified range, both bounds inclusive; analytes without a range are not checked |
| Chemistry.SpikeBatches | proj/custom/chemistry_custom.py:681-682 | the groups are exactly the batches with an in-scope matrix spike |
| Chemistry.SpikeRecoveryCheck | proj/custom/chemistry_custom.py:675-728 | in a failing batch, exactly the matrix-spike rows of the whole table whose recovery lies outside the window |
| Chemistry.TwentyPercentImpliesThirty | proj/custom/chemistry_custom.py:681-711 | a batch passing the 20% test passes the 30% test |
| Chemistry.MissingReplicatePasses | proj/custom/chemistry_custom.py:684-687 | a batch with no replicate-1 spikes passes the 30% test, because `all([])` is true |
| Chemistry.RpdThresholdByMethod | proj/custom/chemistry_custom.py:759-763 | a group fails at RPD ≥ 0.20 for the 20% methods and at RPD ≥ 0.30 otherwise |
| Chemistry.RpdFinding | proj/custom/chemistry_custom.py:750-790 | one entry per method message, covering the in-scope rows of that method whose group fails |
| Chemistry.InorganicRpdCheck | proj/custom/chemistry_custom.py:730-791 | one non-empty entry per method with a failing group, covering every failing row, and nothing exactly when no group fails |
| Chemistry.PahSpikeRecoveryCheck | proj/custom/chemistry_custom.py:900-922 | exactly the matrix-spike rows of a failing sample that recovered below 60 or above 140 |
| Chemistry.WellRecoveredSamplePasses | proj/custom/chemistry_custom.py:902-907 | a sample whose analytes all recovered within (60, 140) passes |
| Chemistry.BoundaryRecoveryUnreported | proj/custom/chemistry_custom.py:906-912 | a lone spike at exactly 60 fails its sample, yet no row of it is reported |
| Chemistry.PahDuplicateRpdCheck | proj/custom/chemistry_custom.py:926-970 | every PAH matrix-spike row of a batch where fewer than 70% of the duplicates agree |
| Chemistry.AgreeingBatchPasses | proj/custom/chemistry_custom.py:936 | a batch whose duplicates all agree within 40% is not reported |
| Chemistry.PahCrmCheck | proj/custom/chemistry_custom.py:973-1011 | exactly the reference rows, merged with a CRM value, of a batch where fewer than 80% are within 40% of that value |
| Chemistry.AccurateReferencesPass | proj/custom/chemistry_custom.py:990-1000 | a batch whose references are all within 40%, or have no CRM value, is not reported |
| Chemistry.ReferenceUnitsInvertedAsWritten | proj/custom/chemistry_custom.py:517-540 | as written, a PAH reference in mg/kg dw, a unit its message allows, is rejected, and one in ng/g dw is not |
| Chemistry.ReferenceUnitsCorrected | proj/custom/chemistry_custom.py:517-567 | corrected, a reference is rejected exactly when its units are outside the set its message allows, the complement of the written rule |
| Chemistry.FipronilUnitsNeverReported | proj/custom/chemistry_custom.py:569-593 | as written, a FIPRONIL or Pyrethroid sediment sample that is neither a reference nor a method blank is in no unit finding, whatever its units, because that check's arguments are never appended |
| Chemistry.FipronilUnitsReported | proj/custom/chemistry_custom.py:569-593 | corrected, a FIPRONIL or Pyrethroid sediment row not in ng/g dw is in an error finding |
| ChemistryTissue.TablesDifferOnlyForInorganics | proj/custom/chemistry_tissue_custom.py:335-345 | the tissue table of required sample types has the sediment table's classes and differs only for inorganics, where it wants "Blank spiked" and the sediment table wants "Blank Spike" |
| ChemistryTissue.BlankSpikedSatisfiesTissueOnly | proj/custom/chemistry_tissue_custom.py:335-352 | an inorganics batch holding a method blank, a "Blank spiked" sample and a result passes the tissue check, and the sediment table would report it |
| ChemistryTissue.TissueRulesComposition | proj/custom/chemistry_tissue_custom.py:186-600 | the tissue row rules flag a row exactly when a shared rule or a unit rule flags it |
| ChemistryTissue.TissueRulesLeaveOutBlankSpike | proj/custom/chemistry_tissue_custom.py:186-600 | the tissue row rules hold none of the blank-spike recovery rules |
| ChemistryIntercal.GuardedRecovery | proj/custom/chemistry_intercal_custom.py:41-49 | for a spike or reference with a non-zero TrueValue, the recovery times TrueValue is 100 times the result; otherwise it is -88 |
| ChemistryIntercal.GuardedRecoveryAgrees | proj/custom/chemistry_intercal_custom.py:41-49 | wherever the unguarded sediment computation succeeds the two agree, and where it raises the guarded one gives -88 |
| ChemistryIntercal.IntercalKept | proj/custom/chemistry_intercal_custom.py:32-49 | the rows from a position on that survive the inner join with the analyte list, in upload order, each with its guarded recovery |
| ChemistryIntercal.IntercalPrepare | proj/custom/chemistry_intercal_custom.py:32-49 | no TrueValue makes it raise; it raises ValueError exactly when the merge keeps no row, and otherwise keeps exactly the upload rows whose analyte is known, in upload order, with distinct row ids |
| ChemistryIntercal.KeptAgrees | proj/custom/chemistry_intercal_custom.py:41-49 | where the sediment preparation raises nowhere from a position on, both keep the same rows with the same recoveries |
| ChemistryIntercal.PreparationsAgree | proj/custom/chemistry_intercal_custom.py:32-49 | whenever the sediment/tissue preparation succeeds, this module succeeds too and prepares the same table |
| ChemistryIntercal.NoneRulesDiffer | proj/custom/chemistry_intercal_custom.py:178 | this module's 'none' rule flags results strictly below the RL; the shared rule also flags a result equal to the RL |
| ChemistryIntercal.IntercalErrorChecks | proj/custom/chemistry_intercal_custom.py:97-213 | the error rules of this module are exactly the non-positive result, MDL over RL, negative MDL, wrong qualifier, 'none' below RL and zero TrueValue checks |
| ChemistryIntercal.SharedErrorFor | proj/custom/chemistry_intercal_custom.py:97-183 | a row failing a check that both modules treat as an error is in a shared error finding |
| ChemistryIntercal.IntercalErrorsAreSharedErrors | proj/custom/chemistry_intercal_custom.py:97-213 | apart from a zero TrueValue, every row this module rejects the sediment/tissue rules reject too |
| ChemistryIntercal.ZeroTrueValueReported | proj/custom/chemistry_intercal_custom.py:41-49 | a spike with TrueValue 0 makes the sediment preparation raise ZeroDivisionError, while here the preparation succeeds and the row is kept with recovery -88 and reported by the zero-TrueValue rule |
| ChemistryIntercal.LessThanNotWrongQualifier | proj/custom/chemistry_intercal_custom.py:162-173 | the wrong-qualifier rule as written does not test the 'less than' code |
| ChemistryIntercal.NonDetectPassesIntercalErrors | proj/custom/chemistry_intercal_custom.py:97-213 | a 'less than' row with a positive result, 0 ≤ MDL < RL and a non-zero TrueValue fails none of this module's error rules |
| ChemistryIntercal.NonDetectNotIntercalError | proj/custom/chemistry_intercal_custom.py:140-148 | such a row is in none of this module's error findings |
| ChemistryIntercal.NonDetectWithValueOnlyWarned | proj/custom/chemistry_intercal_custom.py:140-148 | such a row, which reports a value, is an error for the shared rules but only a warning here |
| TimeFormat.Fields | proj/custom/field.py:162 | a string matching the time pattern starts with an hour of at most two digits and minutes and seconds below 60 |
| TimeFormat.TwoDigits | proj/custom/field.py:162 | a two-digit field reads back as the number it was written from |
| TimeFormat.Clock | proj/custom/field.py:162 | a clock reading is eight characters long |
| TimeFormat.ClockRoundTrip | proj/custom/field.py:162 | every HH:MM:SS reading passes both patterns, whatever follows it for the unanchored one, and reads back as its fields |
| TimeFormat.AnchoredIsClock | proj/custom/ocean_acidification_custom.py:100 | conversely, an eight-character string the anchored pattern accepts, unless a one-digit hour is followed by a newline, is the clock reading of its fields |
| TimeFormat.TwoDigitsOf | proj/custom/field.py:162 | two digits read and written back are the same two digits |
| TimeFormat.AnchoredIsPrefix | proj/custom/ocean_acidification_custom.py:100 | whatever the anchored pattern accepts, the unanchored one accepts too |
| TimeFormat.PrefixTimeExtends | proj/custom/field.py:162-166 | `str.match` ignores whatever follows the time |
| TimeFormat.PatternsDiffer | proj/custom/ocean_acidification_custom.py:100-103 | "12:30:45 PM" passes only the unanchored pattern, "99:59:59" passes both, and "1230" passes neither |
| TimeFormat.MissingCellIsNoTime | proj/custom/field.py:166 | a missing cell is rendered "nan", which neither pattern accepts |
| TimeFormat.BadTimes | proj/custom/field.py:162-170 | exactly the rows whose rendered value does not start with a time, and none exactly when every row does |
| TimeFormat.BadTimesMeaning | proj/custom/field.py:166 | a missing cell is always reported, and a cell starting with a clock reading matches the pattern |
| Field.NormaliseStratum | proj/custom/field.py:63-65 | the stratum "Bay" is renamed "Bays" and every other stratum is kept |
| Field.StrataLookup | proj/custom/field.py:61-66 | the dictionary holds one entry per normalised (region, stratum) key, none under "Bay", each the first shape of the last group with that key |
| Field.BayAndBaysShareAnEntry | proj/custom/field.py:62-66 | a "Bay" group and a "Bays" group of one region share one entry, which the later group's shape wins |
| Field.NotGrabRows | proj/custom/field.py:75-82 | a grab-only submission reports exactly the occupation rows whose collection type is not "Grab" |
| Field.NotTrawlRows | proj/custom/field.py:85-92 | a trawl-only submission reports exactly the occupation rows of neither trawl type |
| Field.NoRowPassesBothKinds | proj/custom/field.py:75-92 | every occupation row is flagged by one of the two single-kind checks, and a trawl row by the grab-only one |
| Field.EventExistence | proj/custom/field.py:97-156 | with no occupation of the event's types the whole occupation table is reported; otherwise exactly the events no occupation of those types matches on station, date and organisation |
| Field.OccupiedEventsPass | proj/custom/field.py:100-111 | events copied from occupation rows of the right type are never reported |
| Field.OtherTypesIgnored | proj/custom/field.py:100-130 | an occupation row of another collection type does not change the verdict |
| Field.CheckTime | proj/custom/field.py:162-171 | a "Formatting Error" on the table and column exactly when some row does not start with HH:MM:SS, naming exactly those rows |
| Field.FieldTimeChecks | proj/custom/field.py:175-185 | seven time checks in order: occupation, five trawl columns and the grab sample time, a missing table contributing `{}` |
| Field.OccupationTimeVerdicts | proj/custom/field.py:175-178 | a blank occupation time is always reported, and a clock reading never is |
| Field.FeetRows | proj/custom/field.py:194 | exactly the rows whose depth units are "ft" or "f", and none exactly when no row uses them |
| Field.MetresPass | proj/custom/field.py:194 | a table in metres is never reported |
| Field.AbandonedWithoutComment | proj/custom/field.py:228-236 | exactly the occupation rows marked abandoned "Yes" without a comment |
| Field.AbandonedCommentMeaning | proj/custom/field.py:230 | with unique row ids, a row is reported exactly when it is abandoned and has no comment |
| Field.Orgs | proj/custom/field.py:256 | the distinct organisations of the occupation table, each once |
| Field.SeveralOrgs | proj/custom/field.py:257-265 | rows are reported exactly when there is more than one organisation, and then they are the rows of the smallest organisation name |
| Field.OrgRowsAsWritten | proj/custom/field.py:267-285 | as written, each organisation's warnings cover every non-grab row outside its trawl stations and every grab row outside its grab stations, whoever sampled them |
| Field.OrgRowsCorrected | proj/custom/field.py:267-285 | corrected, only the organisation's own rows are judged against its assigned stations |
| Field.OrgChecks | proj/custom/field.py:256-288 | raises "No sampling organization detected" exactly for an empty occupation table; otherwise one pair of station warnings per organisation |
| Field.OneOrgNoDifference | proj/custom/field.py:256-285 | with one organisation there is no several-agencies warning, and the written and corrected station warnings agree |
| Field.OtherOrgsRowsReported | proj/custom/field.py:267-276 | with A and B each trawling its own assigned station, as written A is warned about B's row; corrected, neither is warned |
| Field.TrawlSequence | proj/custom/field.py:422-446 | exactly the trawls, at stations trawled more than once, whose number differs from their average rank by date and time |
| Field.DistinctTimesRank | proj/custom/field.py:436-441 | without ties the rank is one more than the number of earlier trawls, so a trawl is out of sequence exactly when its number is not that |
| Field.TiedPairReported | proj/custom/field.py:436-441 | two trawls of a station at the same time, and no third, both get a rank ending in .5 and are both reported |
| Field.SingleTrawlNotReported | proj/custom/field.py:428 | a station trawled once is never reported |
| Field.TenPercentOffMeaning | proj/custom/field.py:461 | for a positive depth the test is "differs by more than a tenth"; a zero depth fails against any non-zero reference; a negative depth never fails |
| Field.DepthOffRows | proj/custom/field.py:449-476 | exactly the trawls with some trawl occupation at the station whose depth is more than 10% off the trawl's |
| Field.DepthOffNeedsPartner | proj/custom/field.py:456 | a trawl at a station with no trawl occupation is never reported, and an occupation of the same depth never makes it so |
| Field.WindowRows | proj/custom/field.py:484-520 | exactly the trawls breaking the window that share a station with an occupation of the collection type |
| Field.TrawlWindows | proj/custom/field.py:484-520 | the four window warnings in order: 10-minute distance, 5-minute distance, 10-minute duration, 5-minute duration |
| Field.WindowsMeaning | proj/custom/field.py:484-520 | a trawl of 8 to 16 minutes covering at least 650 m passes both 10-minute checks; as the merge is on station only, a 12-minute trawl at a station with a 5-minute occupation is reported by the 5-minute duration check |
| Field.PtManufacturerMissing | proj/custom/field.py:591-601 | exactly the trawls with PT sensor "Yes" and no manufacturer |
| Field.PtSerialMissingAsWritten | proj/custom/field.py:603-612 | as written, the serial-number check reports exactly the rows of the manufacturer check |
| Field.PtSerialMissing | proj/custom/field.py:603-612 | corrected, exactly the trawls with PT sensor "Yes" and no serial number |
| Field.SerialCheckMissesSerial | proj/custom/field.py:605-607 | a sensor with a manufacturer and no serial passes as written and is reported when corrected |
| Field.GrabAssignment | proj/custom/field.py:747-768 | exactly the grabs whose station is not in the field assignment table; the strata check runs exactly when there are none |
| FieldGrab.Partners | proj/custom/field_grab_custom.py:92-98 | the merged rows of a grab with partners are one per occupation matching it on station, date and organisation, each with the marker "yes"; there are none exactly when no occupation matches |
| FieldGrab.MergeOne | proj/custom/field_grab_custom.py:92-98 | a grab always contributes a row, and one with the occupation side missing exactly when no occupation matches it |
| FieldGrab.RightMerge | proj/custom/field_grab_custom.py:92-98 | every grab survives the right merge, always marked "yes"; an unmatched one appears with its occupation side missing |
| FieldGrab.GrabExistenceAsWritten | proj/custom/field_grab_custom.py:92-107 | as written, the marker sits on the kept side of the right merge and is never null, so no grab is ever reported |
| FieldGrab.GrabExistence | proj/custom/field_grab_custom.py:91-107 | corrected, exactly the grabs no occupation of any collection type matches on station, date and organisation |
| FieldGrab.MissingOccupationRows | proj/custom/field_grab_custom.py:92-100 | the merged rows without an occupation side are exactly the unoccupied grabs |
| FieldGrab.OrphanGrabMissed | proj/custom/field_grab_custom.py:92-100 | a grab without any occupation passes as written and is reported when corrected |
| FieldGrab.AnyTypeIsWeaker | proj/custom/field_grab_custom.py:92-98 | every grab the corrected check reports, field.py's check against grab occupations reports too |
| FieldGrab.TrawlOccupationSuffices | proj/custom/field_grab_custom.py:92-98 | a grab occupied only by a trawl crew passes here, while field.py reports the whole occupation table for having no grab occupation |
| FieldGrab.GrabTimeChecks | proj/custom/field_grab_custom.py:113-128 | two time findings, occupation and sample time, each present exactly when some row does not start with a time |
| FieldGrab.SameTimeChecksAsField | proj/custom/field_grab_custom.py:124-128 | the two checks are the corresponding entries of field.py's time checks |
| FieldGrab.OccupationUnitsFinding | proj/custom/field_grab_custom.py:141-148 | a finding on OccupationDepthUnits exactly when some occupation is in feet, naming exactly those rows |
| FieldGrab.GrabUnitsFinding | proj/custom/field_grab_custom.py:151-158 | a finding on stationwaterdepthunits exactly when some grab is in feet, naming exactly those rows |
| FieldGrab.AbandonedFinding | proj/custom/field_grab_custom.py:161-168 | a "Missing Required Data" finding on Comments exactly when some occupation is abandoned without a comment, naming exactly those rows |
| FieldGrab.ExistenceFinding | proj/custom/field_grab_custom.py:100-107 | as written never a finding; corrected, a "Logic Error" exactly when some grab is unoccupied |
| FieldGrab.GrabErrors | proj/custom/field_grab_custom.py:91-169 | six errors in order; as written the abandoned slot repeats the grab unit finding, and corrected it is the abandoned-comment finding |
| FieldGrab.GrabErrorsLeadingSlots | proj/custom/field_grab_custom.py:91-135 | the first three errors are the existence finding and the occupation and grab time findings, in that order |
| FieldGrab.SoleAbandonedRow | proj/custom/field_grab_custom.py:161-169 | a lone abandoned occupation without a comment is reported, and it alone |
| FieldGrab.AbandonedCommentLost | proj/custom/field_grab_custom.py:161-169 | an abandoned station without a comment is lost as written, while a grab in feet is reported twice; corrected, the abandoned row is reported |
| FieldGrab.ArrayText | proj/custom/field_grab_custom.py:198 | the rendered `unique()` array starts with a bracket |
| FieldGrab.AgencyText | proj/custom/field_grab_custom.py:198-209 | the text put between quotes in the station queries is the rendered array as written and the organisation itself when corrected |
| FieldGrab.AgencyChecks | proj/custom/field_grab_custom.py:186-216 | several organisations give the several-agencies warning of field.py and no query; otherwise, as written, the database rejects the station query exactly when the quoted rendered array is not one SQL literal, and when it is the stations are looked up under the value it reads as; corrected, under the organisation |
| FieldGrab.SingleAgencyRaises | proj/custom/field_grab_custom.py:196-198 | as written, a submission from one organisation whose name is not empty and does not start with a quote makes the station query a syntax error |
| FieldGrab.EmptyTableQuiet | proj/custom/field_grab_custom.py:196-216 | as written, an empty occupation table renders as `[]`, a valid literal, and gets two empty warnings rather than an error |
| FieldGrab.CorrectedMatchesField | proj/custom/field_grab_custom.py:186-216 | corrected, a single-agency submission gets field.py's warnings, and an empty one gets none where field.py raises |
| FieldGrab.GrabDepthRows | proj/custom/field_grab_custom.py:356-380 | exactly the grabs with some grab occupation at their station whose depth is more than 10% off |
| FieldGrab.GrabDepthMeaning | proj/custom/field_grab_custom.py:372-378 | for a positive water depth, a grab is reported exactly when some grab occupation of its station differs by more than a tenth of it |
| FieldGrab.OtherDateCounts | proj/custom/field_grab_custom.py:368-372 | as the merge is on station only, an occupation of another date reports a grab whose own occupation agrees with it |
| FieldTrawl.MergeKeys | proj/custom/field_trawl_custom.py:88 | `merge(on=keys)` succeeds exactly when both frames have every key, and otherwise raises `KeyError` on the first missing one |
| FieldTrawl.TrawlExistence | proj/custom/field_trawl_custom.py:87-95 | as its message asks, exactly the trawls no occupation matches on station, date and organisation |
| FieldTrawl.TrawlExistenceAsWritten | proj/custom/field_trawl_custom.py:88 | as written the merge keys on the misspelt "staitonid" and always raises `KeyError` |
| FieldTrawl.KeyErrorWhateverTheData | proj/custom/field_trawl_custom.py:88-89 | a fully occupied submission and an unoccupied one fail alike as written, though the intended check tells them apart |
| FieldTrawl.TrawlTimeChecks | proj/custom/field_trawl_custom.py:103-122 | six time findings, occupation then the five trawl columns, each present exactly when some row does not start with a time |
| FieldTrawl.SameTimeChecksAsField | proj/custom/field_trawl_custom.py:114-122 | they are the first six of field.py's time checks |
| FieldTrawl.TrawlFeet | proj/custom/field_trawl_custom.py:140 | exactly the trawls whose depth units are feet |
| FieldTrawl.WireoutFixed | proj/custom/field_trawl_custom.py:319-320 | a wire-out of 0 becomes -88 and every other value is kept, so the divisor is never 0 |
| FieldTrawl.TimeToBottom | proj/custom/field_trawl_custom.py:321 | the time to bottom is always finite and times the fixed wire-out gives the over-distance |
| FieldTrawl.ReplacementAvoidsZeroDivision | proj/custom/field_trawl_custom.py:319-321 | without the replacement a zero wire-out gives no finite quotient; with it, the distance over -88 |
| FieldTrawl.FiveMinuteDistanceAsWritten | proj/custom/field_trawl_custom.py:402-409 | as written, `collectiontype == 5` never holds of the text column, so nothing is reported |
| FieldTrawl.FiveMinuteTimeAsWritten | proj/custom/field_trawl_custom.py:420-427 | as written, `(trawltime < 4) & (trawltime > 8)` never holds, so nothing is reported |
| FieldTrawl.TrawlWindowsAsWritten | proj/custom/field_trawl_custom.py:391-427 | as written the two 10-minute checks are field.py's and the two 5-minute checks are empty |
| FieldTrawl.FiveMinuteTrawlMissed | proj/custom/field_trawl_custom.py:402-427 | a short, quick trawl at a 5-minute station is reported twice when corrected and not at all as written |
| FieldTrawl.TenMinuteWindowsKept | proj/custom/field_trawl_custom.py:393-418 | a long, short-distance trawl at a 10-minute station is reported by both 10-minute checks as written |
| FieldTrawl.TrawlChecks | proj/custom/field_trawl_custom.py:87-510 | the trawl module's checks: existence, times, feet, abandoned comments, sequence, windows, and the serial check as written or corrected |
| FieldTrawl.TrawlModule | proj/custom/field_trawl_custom.py:88 | as written the misspelt merge raises and nothing else runs; corrected, every modelled check runs |
| FieldTrawl.SequenceAsInField | proj/custom/field_trawl_custom.py:326-353 | as in field.py, a tied pair of trawls at a station is reported by the trawl module too |
| OceanAcidification.CleanCtdRow | proj/custom/ocean_acidification_custom.py:97 | a cleaned CTD row differs from the submitted one only in its sample time |
| OceanAcidification.CleanedClock | proj/custom/ocean_acidification_custom.py:97 | a clock reading is left as it is by the clean-up |
| OceanAcidification.StripAround | proj/custom/ocean_acidification_custom.py:97 | blanks around a value are stripped and the value kept |
| OceanAcidification.FormatRows | proj/custom/ocean_acidification_custom.py:100-118 | exactly the rows whose cleaned time is not a whole time string; the `isnull` guard tests the string `str()` already produced, so it never excuses a row |
| OceanAcidification.PaddedClockPasses | proj/custom/ocean_acidification_custom.py:97-103 | after cleaning, a clock reading passes whatever whitespace surrounds it |
| OceanAcidification.MissingCellReported | proj/custom/ocean_acidification_custom.py:97-103 | a missing time, cleaned to "nan", is reported |
| OceanAcidification.SuffixedClockReported | proj/custom/ocean_acidification_custom.py:100-103 | a reading followed by " PM" is reported by the anchored pattern |
| OceanAcidification.FormatOnSubmittedRows | proj/custom/ocean_acidification_custom.py:97-108 | a CTD row is reported exactly when its cleaned time is not a whole time string |
| OceanAcidification.HourCheckAsWritten | proj/custom/ocean_acidification_custom.py:122-131 | as written the pattern has no group, so `groups()[0]` raises on any non-empty table; an empty table reports nothing |
| OceanAcidification.HourCheckAlwaysRaises | proj/custom/ocean_acidification_custom.py:100-131 | one valid clock reading passes the format test and then raises `IndexError` in the hour test |
| OceanAcidification.Hour | proj/custom/ocean_acidification_custom.py:100 | the hour of an accepted time string is at most 99 |
| OceanAcidification.HourRows | proj/custom/ocean_acidification_custom.py:120-139 | corrected, exactly the rows with an accepted time whose hour exceeds 23 |
| OceanAcidification.ClockHourFlagged | proj/custom/ocean_acidification_custom.py:122 | a clock reading is reported by the hour test exactly when its hour exceeds 23 |
| OceanAcidification.TimeChecksPass | proj/custom/ocean_acidification_custom.py:100-139 | both time tests pass a column exactly when every time is good |
| OceanAcidification.AllGoodMeaning | proj/custom/ocean_acidification_custom.py:100-139 | a good column is one where every time is an accepted string with an hour of at most 23 |
| OceanAcidification.TimeFinding | proj/custom/ocean_acidification_custom.py:104-109 | a "Formatting Error" exactly when some row is reported |
| OceanAcidification.NoneOfFour | proj/custom/ocean_acidification_custom.py:142 | four records clean up to nothing exactly when all are `{}` |
| OceanAcidification.Stage1 | proj/custom/ocean_acidification_custom.py:100-142 | at most four formatting findings, and none exactly when both tables' times are good |
| OceanAcidification.OneValueFinding | proj/custom/ocean_acidification_custom.py:147-155 | every row of the table is reported exactly when the column holds more than one distinct value |
| OceanAcidification.Stage2 | proj/custom/ocean_acidification_custom.py:144-156 | at most four findings, each covering a whole table, and none exactly when each table has one agency and one season |
| OceanAcidification.OneValueNone | proj/custom/ocean_acidification_custom.py:147-148 | one column's one-value test stays silent exactly when every row holds the first row's value; an empty table reports no rows |
| OceanAcidification.PartsInjective | proj/custom/ocean_acidification_custom.py:164 | two keys with the same six parts are the same key |
| OceanAcidification.LogicRows | proj/custom/ocean_acidification_custom.py:162-166 | exactly the bottle rows some part of whose key occurs in no CTD row's same column |
| OceanAcidification.Stage3 | proj/custom/ocean_acidification_custom.py:162-170 | at most one finding, and none exactly when every bottle row's key parts all occur in the CTD table |
| OceanAcidification.PartneredBottlePasses | proj/custom/ocean_acidification_custom.py:164 | a bottle row with a CTD row of its exact key passes |
| OceanAcidification.DepthRows | proj/custom/ocean_acidification_custom.py:175-225 | exactly the bottle rows with CTD partners of which none lies within range of the bottle depth |
| OceanAcidification.DepthAgreement | proj/custom/ocean_acidification_custom.py:201-221 | the row-by-row scan computes exactly the rows the merge, `between` and group-wise sum pick |
| OceanAcidification.DepthMeaning | proj/custom/ocean_acidification_custom.py:201-221 | a bottle row sampled at a partner's depth passes, and one without any partner passes whatever its depth |
| OceanAcidification.ClockSeconds | proj/custom/ocean_acidification_custom.py:246-247 | a clock reading is that many seconds after midnight |
| OceanAcidification.LateRows | proj/custom/ocean_acidification_custom.py:240-253 | exactly the bottle rows of a key group where a CTD cast runs more than four hours after a bottle, each once |
| OceanAcidification.TimeGroupReportedTogether | proj/custom/ocean_acidification_custom.py:253 | a late pair reports every bottle row of its key group |
| OceanAcidification.NoLateCastNoReport | proj/custom/ocean_acidification_custom.py:250 | no cast more than four hours after a bottle of its group means nothing is reported |
| OceanAcidification.TimeOneDirectional | proj/custom/ocean_acidification_custom.py:250 | a cast five hours after its bottle is reported, and a bottle five hours after its cast is not |
| OceanAcidification.ReplicateRows | proj/custom/ocean_acidification_custom.py:260-286 | the first CTD row of each cast key at a station where a replicate 2 precedes a replicate 1 |
| OceanAcidification.EveryInvalidStationReported | proj/custom/ocean_acidification_custom.py:283-286 | every station with replicates out of order is reported through some row |
| OceanAcidification.OrderedReplicatesPass | proj/custom/ocean_acidification_custom.py:283 | replicates in order report nothing |
| OceanAcidification.RangeRows | proj/custom/ocean_acidification_custom.py:303-316 | exactly the CTD rows whose measure lies outside its inclusive bounds |
| OceanAcidification.RangesInclusive | proj/custom/ocean_acidification_custom.py:303-316 | both ends of a range are accepted and anything beyond is reported |
| OceanAcidification.Stage4 | proj/custom/ocean_acidification_custom.py:173-316 | the fourth stage's eight records: depth, time, replicates and five ranges |
| OceanAcidification.Gated | proj/custom/ocean_acidification_custom.py:142-173 | the fourth stage's eight records appear exactly when the first three stages report nothing |
| OceanAcidification.GatesMeaning | proj/custom/ocean_acidification_custom.py:142-173 | reaching the fourth stage means good times, one agency and season per table, and every bottle key part found; a bad time leaves only formatting errors |
| OceanAcidification.AsWrittenNeverPastStageOne | proj/custom/ocean_acidification_custom.py:122-131 | as written any row in either table stops the module at the hour test |
| OceanAcidification.OrphanBottleUnreported | proj/custom/ocean_acidification_custom.py:164-201 | column-wise key matching passes a bottle row no CTD row partners, and the depth check passes it too |
| Logger.Apply | proj/custom/logger.py:95-316 | one rule's `checkData`: `{}` when no row of its source table fails the test, otherwise a non-core finding on the filed table and column listing exactly the failing rows |
| Logger.MissingDataFinding | proj/custom/logger.py:71-87 | the missing-data record names only the minidot table, row 0 and every column of that table, because the loop returns in its first iteration |
| Logger.Run | proj/custom/logger.py:71-317 | an upload with no data gets only the missing-data record; otherwise one error per rule and the two warnings |
| Logger.LoggerAsWritten | proj/custom/logger.py:9-317 | as written, a single error exactly when the upload has no data |
| Logger.LoggerCorrected | proj/custom/logger.py:9-317 | corrected, a single error exactly when the upload has no data |
| Logger.RequiredDataRule | proj/custom/logger.py:71-87 | no data gives the one minidot record; data in any table gives seventeen error records and two warnings |
| Logger.ReportedIffFails | proj/custom/logger.py:95-316 | a row is in a rule's error record exactly when it belongs to the rule's source table and fails the test |
| Logger.RangeTestMeaning | proj/custom/logger.py:98 | the two-sided test rejects exactly the present values other than -88 outside [lo, hi]; a blank passes |
| Logger.OneSidedTestMeaning | proj/custom/logger.py:109-120 | the lower-bound test exempts -88 and the upper-bound test rejects exactly the values above the bound |
| Logger.RuleSentinel | proj/custom/logger.py:95-316 | corrected, no error rule rejects the -88 sentinel |
| Logger.SentinelAccepted | proj/custom/logger.py:95-316 | corrected, no error or warning rule rejects -88 |
| Logger.LabelsMatchSources | proj/custom/logger.py:236-245 | corrected, every rule is filed under the table it reads |
| Logger.AsWrittenDiffers | proj/custom/logger.py:226-245 | as written, the pH rule rejects -88 and the other-table conductivity rule is filed under the CTD table; every other rule equals its corrected form |
| Logger.SentinelPhReported | proj/custom/logger.py:226-234 | an other-table row with pH -88 is reported as written and not when corrected |
| Logger.HighSaturationOnlyWarned | proj/custom/logger.py:105-126 | a minidot row above 110% saturation, otherwise in range, gets no error and is in the warning |
| PtSensor.NoEventsFinding | proj/custom/ptsensor_custom.py:84-95 | with no trawl events on file, every sensor record is reported under stationid as an Undefined Error, and nothing is reported for an empty submission |
| PtSensor.PtSensorAsWritten | proj/custom/ptsensor_custom.py:48-95 | as written, one error entry; with events on file it is a Logic Error on the four key columns, computed from the second pass over the one-shot iterator |
| PtSensor.PtSensor | proj/custom/ptsensor_custom.py:48-95 | corrected, a record is reported exactly when its four-column key is not among the trawl events, and nothing is reported when all match |
| PtSensor.KeyTuple | proj/custom/ptsensor_custom.py:52-65 | the key as a four-part tuple |
| PtSensor.KeyTupleMembership | proj/custom/ptsensor_custom.py:67-73 | a tuple is among the event tuples exactly when its key agrees with some event on all four columns |
| PtSensor.AsWrittenReportsUnmatched | proj/custom/ptsensor_custom.py:68-73 | every record the corrected check reports is also reported as written |
| PtSensor.SingleEventReportsEverything | proj/custom/ptsensor_custom.py:68-73 | with one trawl event on file, every record is reported as written, even when all records match it, while the corrected check reports none |
| Catch.Round1 | proj/custom/fish_custom.py:295 | round(x, 1) lies within 0.05 of x and is a whole number of tenths |
| Catch.RoundedBelowTenth | proj/custom/fish_custom.py:295 | a biomass rounds below 0.1 exactly when it is at most 0.05 |
| Catch.RoundedIsTenth | proj/custom/fish_custom.py:295 | a biomass rounds to 0.1 exactly when it lies strictly between 0.05 and 0.15, ties going to the even tenth |
| Catch.RoundNonNegative | proj/custom/fish_custom.py:295 | rounding keeps a weight non-negative |
| Catch.RoundKeepsTenths | proj/custom/fish_custom.py:295 | a value already in tenths is unchanged by rounding |
| Catch.TowMatches | proj/custom/fish_custom.py:237 | the trawls merged onto one record and range are exactly those sharing the record's key |
| Catch.RangeMatches | proj/custom/fish_custom.py:237 | the merged rows for one record are exactly the pairs of a depth range of its species and a trawl with its key |
| Catch.DepthMatches | proj/custom/fish_custom.py:237 | the double merge yields exactly every combination of a record, a depth range of its species and a trawl with its key |
| Catch.DepthWarnings | proj/custom/fish_custom.py:244-260 | one warning per merged row whose depths do not overlap the species range, as many warnings as such rows with duplicate combinations kept, and no other warnings |
| Catch.OutOfDepthMeaning | proj/custom/fish_custom.py:244 | with an ordered range, a row is out of depth exactly when no depth between the trawl's start and end lies in the species range, whichever end is deeper |
| Catch.OutOfDepthWarned | proj/custom/fish_custom.py:244-260 | every out-of-depth combination gets a warning naming its record |
| Catch.WarningHasCause | proj/custom/fish_custom.py:244-260 | every depth warning names a record with an out-of-depth combination |
| Fish.Error | proj/custom/fish_custom.py:91-105 | an error call reports nothing when it has no rows, and otherwise a non-core finding naming exactly those rows |
| Fish.AbundanceEventOrphans | proj/custom/fish_custom.py:87-97 | an abundance record is reported exactly when its four-column key is no trawl event's |
| Fish.BiomassEventOrphans | proj/custom/fish_custom.py:99-105 | a biomass record is reported exactly when its four-column key is no trawl event's |
| Fish.AnomalyRows | proj/custom/fish_custom.py:111-124 | a record is reported exactly when some comma-separated anomaly entry, stripped, is not on the lookup list |
| Fish.AnomalyAbundanceRows | proj/custom/fish_custom.py:126-137 | a record is warned about exactly when it has an anomaly other than 'None' and a count above one |
| Fish.QualifierRows | proj/custom/fish_custom.py:142-154 | a record is reported exactly when some comma-separated qualifier entry, stripped, is not on the lookup list |
| Fish.CommentRows | proj/custom/fish_custom.py:158-179 | a record is reported exactly when it lists a severe anomaly and has no comment |
| Fish.SevereEntry | proj/custom/fish_custom.py:163 | the stripped entries meet the severe anomalies exactly when one entry is severe |
| Fish.CommentRuleMeaning | proj/custom/fish_custom.py:158-171 | a comment is demanded exactly when some stripped entry is a skeletal deformity, a tumor or a lesion and the comment is missing or empty |
| Fish.Uncommented | proj/custom/fish_custom.py:160-167 | after blanking, a comment reads as empty exactly when it is missing or the empty string |
| Fish.SevereInList | proj/custom/fish_custom.py:163 | an anomaly list is severe exactly when one of its stripped entries is severe |
| Fish.NoAnomalyNoComment | proj/custom/fish_custom.py:158-171 | a record without an anomaly never needs a comment |
| Fish.AbundanceFatRows | proj/custom/fish_custom.py:185-200 | an abundance record is selected exactly when its station and organisation are not an assigned pair, which is every record when nothing is assigned |
| Fish.BiomassFatRows | proj/custom/fish_custom.py:318-329 | a biomass record is reported exactly when its station and organisation are not an assigned pair, which is every record when nothing is assigned |
| Fish.SizeClassRows | proj/custom/fish_custom.py:207-219 | a record is reported exactly when a lookup row of its species has a smaller maximum and the species has some maximum other than -88 |
| Fish.SizeClassRowsMeaning | proj/custom/fish_custom.py:211-212 | filtering the merged rows reports exactly the records that have such a lookup row |
| Fish.SizeClassOneRange | proj/custom/fish_custom.py:211-212 | with one lookup row for the species, a record is reported exactly when that maximum is not -88 and the size class exceeds it |
| Fish.PlaceholderBesideLimit | proj/custom/fish_custom.py:212 | a species listed both with -88 and with a real maximum has its small records reported, because -88 is compared too |
| Fish.DepthRangeWarnings | proj/custom/fish_custom.py:222-260 | every depth warning is an Undefined Warning on the abundance table under FishSpecies naming one record |
| Fish.BiomassOrphans | proj/custom/fish_custom.py:266-276 | a biomass record is reported exactly when no abundance record shares its station, date, organisation and species |
| Catch.ZeroRows | proj/custom/fish_custom.py:282-289 | a biomass record is reported exactly when its weight is 0; the invertebrate module applies the same rule |
| Fish.BelowTenthRows | proj/custom/fish_custom.py:295-302 | a record is reported exactly when its rounded weight is below 0.1 and its qualifier is not 'less than' |
| Fish.QualifiedNotTenthRows | proj/custom/fish_custom.py:306-313 | a record is reported exactly when its qualifier is 'less than' or '<' and its rounded weight is not 0.1 |
| Fish.BiomassAccepted | proj/custom/fish_custom.py:282-313 | a weight passes the three value rules exactly when a less-than qualifier goes with a weight strictly between 0.05 and 0.15, and any other qualifier with a weight above 0.05 |
| Fish.ZeroAlsoFlaggedByRounding | proj/custom/fish_custom.py:282-313 | a zero weight always breaks one of the two rounding rules too |
| Fish.LargeRows | proj/custom/fish_custom.py:336 | a record of the species is selected exactly when its rounded weight exceeds the limit |
| Fish.LargeWarnings | proj/custom/fish_custom.py:335-344 | one warning per species with a record above the limit, naming exactly those records, and no other warnings |
| Fish.LargeBiomassAsWritten | proj/custom/fish_custom.py:335-344 | as written, the loop raises IndexError exactly when the table has one or two records |
| Fish.LargeBiomass | proj/custom/fish_custom.py:335-344 | corrected, a table with fewer than three records gets no warning, and a longer one gets the warnings as written |
| Fish.ShortBiomassCrashes | proj/custom/fish_custom.py:336 | one biomass record makes the module as written raise IndexError, while the corrected loop warns about nothing |
| Fish.AtMostTwoLargeRows | proj/custom/fish_custom.py:336 | with non-negative weights at most two records exceed twice the third largest, and each warned row does |
| Fish.Errors | proj/custom/fish_custom.py:91-329 | twelve error entries; entry k is empty exactly when its check finds no rows, and otherwise names exactly those rows under that check's table and message |
| Fish.OnlySixthCallIsFat | proj/custom/fish_custom.py:91-329 | only the sixth call reports unassigned abundance records |
| Fish.UnassignedAbundanceReported | proj/custom/fish_custom.py:185-201 | when no station is assigned, the sixth error names every abundance record |
| Fish.EarlyWarnings | proj/custom/fish_custom.py:126-260 | the anomaly-count warning, empty exactly when no record has one, followed by the depth warnings |
| Fish.FishAsWritten | proj/custom/fish_custom.py:9-349 | as written, the module raises exactly when the size-range table is empty (ValueError, first) or the biomass table has one or two records, and otherwise reports the twelve error entries |
| Fish.Fish | proj/custom/fish_custom.py:9-349 | corrected, the twelve error entries; whenever the size-range table is not empty and the module as written does not crash on a short biomass table, it is exactly the as-written report |
| Fish.EmptySizeTableRaises | proj/custom/fish_custom.py:206-219 | an empty size-range table makes the module as written raise ValueError, while the corrected module finds no size-class error |
| Invert.Error | proj/custom/invert_custom.py:99-108 | an error call reports nothing when it has no rows, and otherwise a non-core finding naming exactly those rows |
| Invert.EmptyEventFindings | proj/custom/invert_custom.py:128-153 | with no trawl events on file, each table is reported whole, as an Abundance Error and a Biomass Error, and an empty table is not reported; as written the module never returns these findings (see Invert.EmptyEventsNeverReported) |
| Invert.EventFindingsAsWritten | proj/custom/invert_custom.py:65-153 | as written, two entries; with no events they are the empty-table findings, which the module then loses to a ValueError, and otherwise both are Logic Errors from the two passes over one iterator |
| Invert.EventFindings | proj/custom/invert_custom.py:58-153 | corrected, each table's entry is empty exactly when all its records match a trawl event, and names exactly the unmatched records |
| Invert.AsWrittenReportsUnmatched | proj/custom/invert_custom.py:91-127 | every record the corrected check reports is also reported as written |
| Invert.FewerFound | proj/custom/invert_custom.py:91-127 | a membership test that finds less reports a superset of the rows |
| Invert.BiomassPassStarved | proj/custom/invert_custom.py:110-127 | with one event and one matching record in each table, the biomass record is reported as written because the abundance pass used up the iterator; the corrected check reports nothing |
| Invert.UnlistedAbundance | proj/custom/invert_custom.py:166-189 | an abundance record is reported exactly when some comma-separated entry of the checked cell is not on the lookup list |
| Invert.UnlistedBiomass | proj/custom/invert_custom.py:191-200 | a biomass record is reported exactly when some comma-separated qualifier entry is not on the lookup list |
| Invert.ListedSpecies | proj/custom/invert_custom.py:208-333 | a record is reported exactly when its species is on the list, which is the synonym list or the list of species not allowed |
| Invert.Key5 | proj/custom/invert_custom.py:243-245 | the five compared columns as one tuple |
| Invert.BiomassOrphansAsWritten | proj/custom/invert_custom.py:241-258 | as written, a biomass record is reported exactly when some one of its five values occurs nowhere in the same abundance column |
| Invert.BiomassOrphans | proj/custom/invert_custom.py:241-258 | corrected, a biomass record is reported exactly when no abundance record has the same trawl and species |
| Invert.Key5Injective | proj/custom/invert_custom.py:243-245 | two records give the same five values only when they agree on trawl and species |
| Invert.TupleTestIsIntended | proj/custom/invert_custom.py:241-258 | the tuple-wise test finds a key exactly when an abundance record has the same trawl and species |
| Invert.PartnerPasses | proj/custom/invert_custom.py:243-247 | a biomass record with an abundance partner passes the column-wise test |
| Invert.AsWrittenOrphansAreOrphans | proj/custom/invert_custom.py:243-247 | every orphan the column-wise test reports is a true orphan |
| Invert.OrphanMissed | proj/custom/invert_custom.py:243-247 | a biomass record whose species was caught only in another trawl of the same station passes the column-wise test, although it is an orphan |
| Invert.OtherRows | proj/custom/invert_custom.py:335-353 | a record is reported exactly when its anomaly is 'Other' and its comment is empty or missing |
| Invert.SingleAnomalyRows | proj/custom/invert_custom.py:356-376 | a record is warned about exactly when no other record shares its trawl and species and its anomaly is not 'None' |
| Invert.PairedRecordsNotWarned | proj/custom/invert_custom.py:358-364 | a record that shares its trawl and species with another is never warned about, whatever its anomaly |
| Invert.BiomassDepthAsWritten | proj/custom/invert_custom.py:386-418 | as written, the loop raises KeyError exactly when an out-of-range biomass merge row has no abundance merge row at its position, and otherwise warns once per out-of-range row |
| Invert.BiomassDepth | proj/custom/invert_custom.py:386-418 | corrected, one warning per out-of-range biomass merge row, naming that row and its own species, and no other warnings |
| Invert.BiomassDepthKeyError | proj/custom/invert_custom.py:403-414 | an out-of-range biomass record with no abundance merge row stops the module as written, while the corrected loop warns about it |
| Invert.BiomassDepthWrongSpecies | proj/custom/invert_custom.py:403-414 | with an abundance merge row at the same position, the warning as written names the abundance row's species instead of the biomass record's |
| Invert.BelowTenthRows | proj/custom/invert_custom.py:459-478 | a record is reported exactly when its rounded weight is below 0.1, whatever its qualifier |
| Invert.QualifiedNotTenthRows | proj/custom/invert_custom.py:480-496 | a record is reported exactly when its qualifier is '<' and its rounded weight is not 0.1 |
| Invert.BiomassAccepted | proj/custom/invert_custom.py:423-496 | a weight passes the three value rules exactly when it is above 0.05 and, with the '<' qualifier, below 0.15 too |
| Invert.LaterErrors | proj/custom/invert_custom.py:166-496 | nine error entries after the logic check, the fourth being the orphan error built from the given rows |
| Invert.InvertAsWritten | proj/custom/invert_custom.py:65-529 | as written, the module raises ValueError when the synonym, trawl-event, depth-range or not-allowed read returns no row, and otherwise raises exactly when the biomass depth loop meets a position missing from the abundance merge; when it returns, eleven errors, the first two from the one-iterator logic check |
| Invert.Invert | proj/custom/invert_custom.py:65-529 | corrected, eleven errors whose logic entries are the intended ones for the events on file, the empty-table findings when there are none, and whose orphan entry is the tuple-wise one |
| Invert.EmptyEventsNeverReported | proj/custom/invert_custom.py:128-279 | with no trawl event on file, the logic block yields the "Table is Empty" findings, the module as written raises ValueError at the second read of the events, and the corrected module reports those findings first |
| Db.CheckDtype | proj/utils/db.py:5-10 | the conversion is accepted exactly when it does not raise |
| Db.Literal | proj/utils/db.py:47-62 | a missing or blank value becomes NULL, a value holding an object-id call is inlined stripped, and any other value becomes a single-quoted literal |
| Db.ReadBodyDoubled | proj/utils/db.py:60-62 | reading a quote-doubled body back stops at the first lone quote and gives the original text |
| Db.LiteralRoundTrip | proj/utils/db.py:60-62 | a quoted literal reads back as exactly the value's text, whatever quotes it holds |
| Db.ReadLiteralPlain | proj/custom/field_grab_custom.py:198 | a quote, a text without quotes and a closing quote read as that text when nothing follows, and are rejected when anything not starting with a quote follows |
| Db.PercentRoundTrip | proj/utils/db.py:72 | undoing the driver's percent escape gives back exactly the statement that was built |
| Db.ToGeodb | proj/utils/db.py:20-76 | the load raises AssertionError exactly when the frame has a column the table lacks; otherwise it executes nothing exactly when the frame is empty, and any statement it executes carries no lone percent sign |
| Db.RegistrationId | proj/utils/db.py:81-86 | the first registered id, and AssertionError exactly when there is none |

## Left out

- Database reads, `g.eng` and `current_app`: lookup lists, CRM values, assignment tables, trawl events, depth ranges and table columns are parameters of the members that use them.
- Flask routes, sessions, the e-mail and download views, the app's dataset registry and all `print` logging: these are I/O and have no contract.
- Message text: the HTML links built from `script_root`, and the depths and values that depth and range messages interpolate, are not modelled. Messages are their constant parts.
- Row order of merge, `groupby` and `unique` results: findings are compared as the sets of rows they name wherever pandas' order is not part of the rule.
- Floating point: numbers are exact reals. `round(x, 1)` is modelled exactly on reals, with ties to the even tenth, and float64 quotients keep only their infinities and NaN.
- Datetime parsing (`pd.to_datetime`, `Timestamp`, `timedelta`): times are integer seconds and dates integer days.
- Geodesy and geometry: `haversine_np`, `check_distance`, `check_time`, the shapely and ArcGIS calls, and the strata containment tests `check_strata_grab` and `check_strata_trawl`. Only the strata-key normalisation and the assignment gate in front of the containment test are modelled.
- proj/custom/discretewq.py: it rebinds `all_dfs` to a list, so it cannot run.
- `yeahbuoy`, `check_dups` and `sample_assignment_check` are called from logger.py and chemistry_tissue_custom.py but are not part of this model.
- The duplicate checks of chemistry_custom.py:336-370 (`check_sample_dups` and the regular-expression merge of its Inorganics results): the function is defined nowhere, so what it would report is unknown. Chemistry.SampletypeLoopAsWritten models the NameError it raises, and the corrected loop keeps only `chk_required_sampletypes`.
- Chemistry.YearHoldingTimeCheck, Chemistry.MercuryHoldingTimeCheck: dates are whole days and never missing. A time of day on either date, or a missing date (NaT, which compares false), is not modelled. The tissue module runs the same two checks at chemistry_tissue_custom.py:462-487.
- The misbound positional `checkData` calls in ocean_acidification_custom.py: the model gives each finding the fields the call evidently means. As written, the third argument, which `checkData` takes as the bad rows, is a column name, so the two lines below describe behaviour the model does not have.
- OceanAcidification.Gated: at ocean_acidification_custom.py:166 the bottle-to-CTD match as written always yields a record, even when every bottle matches, so the depth and replicate checks at lines 173-316 never run; the model runs them once the first three stages pass.
- OceanAcidification.OneValueFinding: at ocean_acidification_custom.py:147-155 an empty table has no distinct agency or season, and as written gets a record whose bad rows are the text "Agency" or "Season"; the model gives it none.
- The `datetime.datetime` NameError at ocean_acidification_custom.py:269: replicate times are compared as integers.
- Regex extraction of batch ids from rendered messages in the chemistry modules: batch ids are carried as data.
- `next_objectid` (proj/utils/db.py:89-97): it only chains two database reads.
- Text.LowerChar: `str.lower()` is modelled on the ASCII letters only. Outside ASCII, Python also folds letters, and a few of them, such as the Kelvin sign, fold to ASCII ones, so a sample type spelt with them would match where the model says it does not.
- FieldGrab.AgencyChecks: as written, the statement is modelled as rejected whenever the quoted rendered array is not exactly one SQL literal. An organisation name that itself holds SQL could make the statement parse and select other stations; that case is not modelled.
- FieldTrawl.TrawlModule: the corrected module runs only the modelled checks. The occupation checks it leaves out are listed in the four lines below.
- The comment required by certain StationFail values (field_trawl_custom.py:160-172): another lookup-table join, not modelled.
- The organisation block (field_trawl_custom.py:175-205): the same code as the grab module's, modelled there as FieldGrab.AgencyChecks.
- The salinity required at estuary stations (field_trawl_custom.py:208-222): not modelled.
- The two StationFail and Abandoned consistency warnings (field_trawl_custom.py:264-293): not modelled.
- Unguarded lookup reads in the field modules: field.py, field_grab_custom.py and field_trawl_custom.py also build frames by hand from `fetchall()` and then name their columns. Examples are field_grab_custom.py:358-359 and field_trawl_custom.py:268-269. These reads raise ValueError on an empty lookup table. The model has no whole-module member for field.py or field_grab_custom.py, and the field_trawl_custom.py module as written raises KeyError before any such read, so in the model the lookups are parameters, and the corrected FieldTrawl.TrawlModule reads an empty one as an empty table that matches nothing.
- Functions.MultivalueLookupCheck: when the frame has no `tmp_row` column, the source adds one to the caller's frame (proj/custom/functions.py:139-140). The model returns the finding only and does not change the table.
- Db.ToGeodb: the columns are written in the frame's order, whereas the source writes them in the iteration order of a Python set. Rows and columns stay aligned either way.
- Db.CheckDtype: it is a faithful, trivial wrapper. The only call to it in the source is commented out.
- KeyErrors from missing columns in a submitted table are not modelled, because records are typed. The misspelt merge key in field_trawl_custom.py:88 is the exception: it fails on every input, so the model keeps it.

## Findings

| source | as written | input that shows it | evidently intended | confidence | as-written member | corrected member |
|---|---|---|---|---|---|---|
| proj/custom/chemistry_custom.py:79-88 | `dict.update` is given the list that `checkLogic` returns | one batch record with no results | the orphan batch records are reported | not executed; high | Chemistry.LogicCheckAsWritten, Chemistry.LogicCheckRaisesOnOrphan | Chemistry.LogicCheck |
| proj/custom/chemistry_custom.py:517-540 | the reference-unit masks select rows whose units are in the allowed set | a PAH reference in mg/kg dw | rows whose units are outside the allowed set are rejected | not executed; high | Chemistry.ReferenceUnitsInvertedAsWritten | Chemistry.ReferenceUnitsCorrected |
| proj/custom/chemistry_custom.py:569-593 | the FIPRONIL and Pyrethroid unit finding is built but never appended | a FIPRONIL sample in ug/kg dw | the row is in an error finding | not executed; high | Chemistry.FipronilUnitsNeverReported | Chemistry.FipronilUnitsReported |
| proj/custom/chemistry_custom.py:341-351 | `check_sample_dups` is called, but neither this module nor chem_functions_custom.py, the module it imports every name from, defines it | any submission that reaches the chemistry branch, such as an Inorganics batch without a blank spike | the required-sample-type findings, and the checks after them, are reported | not executed; high | Chemistry.SampletypeLoopAsWritten, Chemistry.SampleDupsHidesMissingBlankSpike | Chemistry.RequiredSampletypeFindings, Chemistry.RequiredSampletypesReported |
| proj/custom/chem_functions_custom.py:143-159 | the computed `failed_check` flag is never used | a Pyrethroid batch holding only one analyte of a listed pair | only batches that hold every listed analyte are reported | not executed; medium | ChemFunctions.PyrethroidAnalyteLogicCheckAsWritten, ChemFunctions.PyrethroidReportsIncompleteBatch | ChemFunctions.PyrethroidAnalyteLogicCheck |
| proj/custom/field.py:267-285 | each organisation's station test runs over every row of the table | organisations A and B, each trawling its own assigned station | only the organisation's own rows are judged | not executed; high | Field.OrgRowsAsWritten, Field.OtherOrgsRowsReported | Field.OrgRowsCorrected |
| proj/custom/field.py:603-612 | the serial-number check reads the manufacturer column | a PT sensor with a manufacturer and no serial number | the serial number column is read | not executed; high | Field.PtSerialMissingAsWritten, Field.SerialCheckMissesSerial | Field.PtSerialMissing |
| proj/custom/field_grab_custom.py:92-107 | the presence marker sits on the kept side of a right merge | a grab with no occupation | unoccupied grabs are reported | not executed; high | FieldGrab.GrabExistenceAsWritten, FieldGrab.OrphanGrabMissed | FieldGrab.GrabExistence |
| proj/custom/field_grab_custom.py:161-169 | the abandoned-comment check passes the stale grab arguments | an abandoned station without a comment | the abandoned rows are reported | not executed; high | FieldGrab.GrabErrors with `corrected` false, FieldGrab.AbandonedCommentLost | FieldGrab.GrabErrors with `corrected` true |
| proj/custom/field_grab_custom.py:198-209 | the rendered `unique()` array, quotes included, is put between single quotes in the SQL, so its own quotes end the literal | a submission whose one organisation is named `A` gives `WHERE trawlagency = '['A']'` | the stations assigned to the organisation are looked up by its name | not executed; high | FieldGrab.AgencyChecks with `corrected` false, FieldGrab.SingleAgencyRaises | FieldGrab.CorrectedMatchesField |
| proj/custom/field_trawl_custom.py:88 | the merge keys on the misspelt "staitonid" | any submission | the merge keys on stationid | not executed; high | FieldTrawl.TrawlExistenceAsWritten, FieldTrawl.KeyErrorWhateverTheData | FieldTrawl.TrawlExistence |
| proj/custom/field_trawl_custom.py:402-409 | the 5-minute distance check compares the text column with the number 5 | a 200 m trawl at a 5-minute station | trawls at 5-minute stations shorter than 325 m are reported | not executed; high | FieldTrawl.FiveMinuteDistanceAsWritten, FieldTrawl.FiveMinuteTrawlMissed | Field.TrawlWindows |
| proj/custom/field_trawl_custom.py:420-427 | the 5-minute time window is `(time < 4) & (time > 8)` | a 2-minute trawl at a 5-minute station | trawls outside 4 to 8 minutes are reported | not executed; high | FieldTrawl.FiveMinuteTimeAsWritten, FieldTrawl.FiveMinuteTrawlMissed | Field.TrawlWindows |
| proj/custom/fish_custom.py:335-344 | the limit indexes the third largest biomass of the table | a biomass table with one record | short tables get no large-biomass warning | not executed; high | Fish.LargeBiomassAsWritten, Fish.ShortBiomassCrashes | Fish.LargeBiomass |
| proj/custom/fish_custom.py:208-209 | the size-range read names the columns of a frame built from the fetched rows, with no guard | an empty size-range lookup table | the size-class check finds nothing and the other checks run | not executed; medium | Fish.FishAsWritten, Fish.EmptySizeTableRaises | Fish.Fish |
| proj/custom/invert_custom.py:65-127 | one `zip` iterator serves both membership passes | one trawl event, and one abundance and one biomass record from it | each record is compared with every trawl event | not executed; high | Invert.EventFindingsAsWritten, Invert.BiomassPassStarved | Invert.EventFindings |
| proj/custom/invert_custom.py:241-258 | the orphan test is a column-wise `isin` | a biomass record whose species was caught only in another trawl at the same station | a record is an orphan when no abundance record has its trawl and species | not executed; high | Invert.BiomassOrphansAsWritten, Invert.OrphanMissed | Invert.BiomassOrphans |
| proj/custom/invert_custom.py:386-418 | the biomass depth message reads the abundance merge at the same position | an out-of-range biomass record with no abundance merge | the message names the biomass record's own species | not executed; high | Invert.BiomassDepthAsWritten, Invert.BiomassDepthKeyError, Invert.BiomassDepthWrongSpecies | Invert.BiomassDepth |
| proj/custom/invert_custom.py:278-279 | the second read of `tbl_trawlevent` names the columns of a frame built from the fetched rows without the guard the first read has | no trawl event on file | the "Table is Empty" findings of lines 128-153 are reported | not executed; high | Invert.InvertAsWritten, Invert.EmptyEventsNeverReported | Invert.Invert |
| proj/custom/ocean_acidification_custom.py:122-131 | the hour is read from a group the pattern does not have | one valid clock reading | times with an hour above 23 are reported | not executed; high | OceanAcidification.HourCheckAsWritten, OceanAcidification.HourCheckAlwaysRaises | OceanAcidification.HourRows |
| proj/custom/logger.py:226-234 | the pH range has no -88 exemption | an other-table row with pH -88 | -88 is accepted, as the message says | not executed; medium | Logger.AsWrittenDiffers, Logger.SentinelPhReported | Logger.SentinelAccepted |
| proj/custom/logger.py:236-245 | the other-table conductivity rule is filed under the CTD table | an other-table row with conductivity 20 | the finding names the table the rule reads | not executed; high | Logger.AsWrittenDiffers | Logger.LabelsMatchSources |
| proj/custom/ptsensor_custom.py:68-73 | the one-shot iterator is consumed by a `print` before the counted pass | one trawl event and one sensor record that matches it | unmatched records only are reported | not executed; high | PtSensor.PtSensorAsWritten, PtSensor.SingleEventReportsEverything | PtSensor.PtSensor |

=== FILE: catch.dfy ===
/** What the fish and invertebrate catch modules share
    (proj/custom/fish_custom.py, proj/custom/invert_custom.py): the biomass
    record and its zero-weight rule, Python's `round(x, 1)` on the biomass
    column, and the depth-range warning, which
    joins each catch record to the species' depth range and to the trawl's
    start and end depths and warns when the two ranges do not overlap.
 */
module Catch {
  import opened Numeric
  import opened Frames
  import opened Functions
  import PtSensor

  // ---------------------------------------------------------------------
  // Biomass records
  // ---------------------------------------------------------------------

  /** A `tbl_trawlfishbiomass` or `tbl_trawlinvertebratebiomass` record:
      its `tmp_row`, trawl event, species, weight in kg and qualifier. */
  datatype Biomass = Biomass(row: int, event: PtSensor.EventKey, species: string, biomass: real, qualifier: Cell)

  function BiomassRow(b: Biomass): int { b.row }

  /** The records weighing exactly zero, a rule both modules apply. */
  function ZeroRows(bio: seq<Biomass>): (ids: seq<int>)
    ensures forall x :: x in ids <==> exists i :: 0 <= i < |bio| && bio[i].row == x && bio[i].biomass == 0.0
  {
    Select(bio, (b: Biomass) => b.biomass == 0.0, BiomassRow)
  }

  // ---------------------------------------------------------------------
  // Rounding to one decimal
  // ---------------------------------------------------------------------

  /** `x` is a whole number of tenths. */
  predicate IsTenths(r: real) {
    (10.0 * r).Floor as real == 10.0 * r
  }

  /** `round(x, 1)`: the nearest tenth, a tie going to the even tenth. */
  function Round1(x: real): (r: real)
    ensures -0.05 <= r - x <= 0.05
    ensures IsTenths(r)
  {
    var n := (10.0 * x).Floor;
    var f := 10.0 * x - n as real;
    var k := if f > 0.5 then n + 1 else if f < 0.5 then n else if n % 2 == 0 then n else n + 1;
    k as real / 10.0
  }

  /** A value rounds below 0.1 exactly when it is at most 0.05. */
  lemma {:induction false} RoundedBelowTenth(x: real)
    ensures Round1(x) < 0.1 <==> x <= 0.05
  {
    var n := (10.0 * x).Floor;
    if x <= 0.05 {
      assert n <= 0;
    } else {
      assert n >= 0;
    }
  }

  /** A value rounds to exactly 0.1 when it lies strictly between 0.05 and
      0.15; both ties round away from 0.1, to the even tenths 0.0 and 0.2. */
  lemma {:induction false} RoundedIsTenth(x: real)
    ensures Round1(x) == 0.1 <==> 0.05 < x < 0.15
  {
    var n := (10.0 * x).Floor;
    if 0.05 < x < 0.15 {
      assert n == 0 || n == 1;
    } else if x <= 0.05 {
      assert n <= 0;
    } else {
      assert n >= 1;
    }
  }

  /** Rounding keeps a weight non-negative. */
  lemma {:induction false} RoundNonNegative(x: real)
    requires x >= 0.0
    ensures Round1(x) >= 0.0
  {
    var n := (10.0 * x).Floor;
    assert n >= 0;
  }

  /** Values already given in tenths are left alone. */
  lemma {:induction false} RoundKeepsTenths(k: int)
    ensures Round1(k as real / 10.0) == k as real / 10.0
  {
    assert 10.0 * (k as real / 10.0) == k as real;
  }

  // ---------------------------------------------------------------------
  // Depth ranges
  // ---------------------------------------------------------------------

  /** A row of the species depth-range lookup list. */
  datatype SpeciesDepth = SpeciesDepth(species: string, minDepth: real, maxDepth: real)

  /** A trawl's start and end depth, with the key it is merged on. */
  datatype TowDepth<K> = TowDepth(key: K, startDepth: real, endDepth: real)

  /** One row of the double merge: the catch record's `tmp_row` and species,
      the trawl's depths and the species' depth range. */
  datatype DepthMatch = DepthMatch(row: int, species: string, startDepth: real, endDepth: real, minDepth: real, maxDepth: real)

  function TowMatches<K(==,!new)>(row: int, species: string, key: K, d: SpeciesDepth, tows: seq<TowDepth<K>>): (ms: seq<DepthMatch>)
    ensures forall m :: m in ms <==> exists t :: t in tows && t.key == key && m == DepthMatch(row, species, t.startDepth, t.endDepth, d.minDepth, d.maxDepth)
  {
    if |tows| == 0 then []
    else
      var rest := TowMatches(row, species, key, d, tows[1..]);
      assert forall t :: t in tows <==> t == tows[0] || t in tows[1..];
      (if tows[0].key == key then [DepthMatch(row, species, tows[0].startDepth, tows[0].endDepth, d.minDepth, d.maxDepth)] else []) + rest
  }

  function RangeMatches<K(==,!new)>(row: int, species: string, key: K, ranges: seq<SpeciesDepth>, tows: seq<TowDepth<K>>): (ms: seq<DepthMatch>)
    ensures forall m :: m in ms <==> exists d, t :: d in ranges && d.species == species && t in tows && t.key == key && m == DepthMatch(row, species, t.startDepth, t.endDepth, d.minDepth, d.maxDepth)
  {
    if |ranges| == 0 then []
    else
      var here := if ranges[0].species == species then TowMatches(row, species, key, ranges[0], tows) else [];
      var rest := RangeMatches(row, species, key, ranges[1..], tows);
      assert forall d :: d in ranges <==> d == ranges[0] || d in ranges[1..];
      here + rest
  }

  /** `rows.merge(ranges, on=species).merge(tows, on=key)`: every combination
      of a record, a depth range of its species and a trawl with its key. */
  function DepthMatches<R, K(==,!new)>(rows: seq<R>, species: R -> string, key: R -> K, id: R -> int, ranges: seq<SpeciesDepth>, tows: seq<TowDepth<K>>): (ms: seq<DepthMatch>)
    ensures forall m :: m in ms <==> exists i, d, t :: 0 <= i < |rows| && d in ranges && d.species == species(rows[i]) && t in tows && t.key == key(rows[i]) && m == DepthMatch(id(rows[i]), species(rows[i]), t.startDepth, t.endDepth, d.minDepth, d.maxDepth)
  {
    if |rows| == 0 then []
    else
      var r := rows[0];
      var here := RangeMatches(id(r), species(r), key(r), ranges, tows);
      var rest := DepthMatches(rows[1..], species, key, id, ranges, tows);
      assert forall i :: 1 <= i < |rows| ==> rows[i] == rows[1..][i - 1];
      assert forall m :: m in rest ==> exists i, d, t :: 0 <= i < |rows| && d in ranges && d.species == species(rows[i]) && t in tows && t.key == key(rows[i]) && m == DepthMatch(id(rows[i]), species(rows[i]), t.startDepth, t.endDepth, d.minDepth, d.maxDepth) by {
        forall m | m in rest ensures exists i, d, t :: 0 <= i < |rows| && d in ranges && d.species == species(rows[i]) && t in tows && t.key == key(rows[i]) && m == DepthMatch(id(rows[i]), species(rows[i]), t.startDepth, t.endDepth, d.minDepth, d.maxDepth) {
          var i, d, t :| 0 <= i < |rows[1..]| && d in ranges && d.species == species(rows[1..][i]) && t in tows && t.key == key(rows[1..][i]) && m == DepthMatch(id(rows[1..][i]), species(rows[1..][i]), t.startDepth, t.endDepth, d.minDepth, d.maxDepth);
          assert rows[1..][i] == rows[i + 1];
        }
      }
      here + rest
  }

  /** The trawl's depths and the species' range share no depth. */
  predicate OutOfDepth(m: DepthMatch) {
    !Overlaps(m.startDepth, m.endDepth, m.minDepth, m.maxDepth)
  }

  /** The warning for one out-of-range combination. The message starts with
      the species; the depths it goes on to print are not modelled. */
  function DepthWarning(table: string, column: string, tail: string, m: DepthMatch): Finding {
    Finding(table, [m.row], column, "Undefined Warning", false, m.species + tail)
  }

  /** Which merged combinations are out of depth, one flag per row. */
  function OutOfDepthMask(ms: seq<DepthMatch>): (bs: seq<bool>)
    ensures |bs| == |ms|
    ensures forall k :: 0 <= k < |ms| ==> (bs[k] <==> OutOfDepth(ms[k]))
  {
    seq(|ms|, k requires 0 <= k < |ms| => OutOfDepth(ms[k]))
  }

  /** The loop over the out-of-range combinations: one warning for each, so
      as many warnings as out-of-depth rows, duplicate combinations
      included. */
  function DepthWarnings(ms: seq<DepthMatch>, table: string, column: string, tail: string): (fs: seq<Finding>)
    ensures |fs| == CountTrue(OutOfDepthMask(ms))
    ensures forall f :: f in fs <==> exists k :: 0 <= k < |ms| && OutOfDepth(ms[k]) && f == DepthWarning(table, column, tail, ms[k])
  {
    if |ms| == 0 then []
    else
      var rest := DepthWarnings(ms[1..], table, column, tail);
      assert forall k :: 1 <= k < |ms| ==> ms[k] == ms[1..][k - 1];
      assert OutOfDepthMask(ms)[1..] == OutOfDepthMask(ms[1..]);
      (if OutOfDepth(ms[0]) then [DepthWarning(table, column, tail, ms[0])] else []) + rest
  }

  /** With the range in the usual order, a combination is out of depth
      exactly when no depth between the trawl's start and end lies in the
      species' range, whichever end of the trawl was deeper. */
  lemma {:induction false} OutOfDepthMeaning(m: DepthMatch)
    requires m.minDepth <= m.maxDepth
    ensures OutOfDepth(m) <==> !exists x :: Between(x, m.startDepth, m.endDepth) && Between(x, m.minDepth, m.maxDepth)
  {
    OverlapsMeansSharedDepth(m.startDepth, m.endDepth, m.minDepth, m.maxDepth);
  }

  /** Every out-of-depth combination of a record, a range of its species
      and a trawl with its key gets a warning naming the record. */
  lemma {:induction false} OutOfDepthWarned<R, K(!new)>(rows: seq<R>, species: R -> string, key: R -> K, id: R -> int, ranges: seq<SpeciesDepth>, tows: seq<TowDepth<K>>, table: string, column: string, tail: string, i: int, d: SpeciesDepth, t: TowDepth<K>)
    requires 0 <= i < |rows| && d in ranges && t in tows
    requires d.species == species(rows[i]) && t.key == key(rows[i])
    requires OutOfDepth(DepthMatch(id(rows[i]), species(rows[i]), t.startDepth, t.endDepth, d.minDepth, d.maxDepth))
    ensures exists f :: f in DepthWarnings(DepthMatches(rows, species, key, id, ranges, tows), table, column, tail) && f.rows == [id(rows[i])]
  {
    var m := DepthMatch(id(rows[i]), species(rows[i]), t.startDepth, t.endDepth, d.minDepth, d.maxDepth);
    var ms := DepthMatches(rows, species, key, id, ranges, tows);
    assert m in ms;
    var k :| 0 <= k < |ms| && ms[k] == m;
    assert DepthWarning(table, column, tail, m) in DepthWarnings(ms, table, column, tail);
  }

  /** Conversely, every warning names a record with such a combination. */
  lemma {:induction false} WarningHasCause<R, K(!new)>(rows: seq<R>, species: R -> string, key: R -> K, id: R -> int, ranges: seq<SpeciesDepth>, tows: seq<TowDepth<K>>, table: string, column: string, tail: string, f: Finding)
    requires f in DepthWarnings(DepthMatches(rows, species, key, id, ranges, tows), table, column, tail)
    ensures exists i, d, t :: 0 <= i < |rows| && d in ranges && d.species == species(rows[i]) && t in tows && t.key == key(rows[i]) && f.rows == [id(rows[i])] && OutOfDepth(DepthMatch(id(rows[i]), species(rows[i]), t.startDepth, t.endDepth, d.minDepth, d.maxDepth))
  {
    var ms := DepthMatches(rows, species, key, id, ranges, tows);
    var k :| 0 <= k < |ms| && OutOfDepth(ms[k]) && f == DepthWarning(table, column, tail, ms[k]);
    assert ms[k] in ms;
  }
}

=== FILE: chem_functions.dfy ===
/** The grouped presence checks of proj/custom/chem_functions_custom.py:
    required sample types per batch and class, a certified reference
    material per batch and class, forbidden pyrethroid analyte pairs, and
    required analytes per group.

    Each check reports a group by all of the rows that carry its key, which
    is what the `merge(..., how='inner')` of the table with the failing
    groups produces. Message texts are not modelled; the group key and the
    missing items they would name are kept as data.
 */
module ChemFunctions {
  import opened Wrappers
  import opened Text
  import opened Frames
  import opened Grouping
  import opened Functions
  import opened ChemTables

  /** One `{badrows, badcolumn, error_type, error_message}` entry for a
      failing group: the group's key, what it lacks, and its rows. */
  datatype GroupFinding<K> = GroupFinding(key: K, missing: set<string>, badrows: seq<int>, badcolumn: string, errorType: string)

  /** (analysisbatchid, analyteclass). */
  type BatchClass = (string, string)

  function BatchClassOf(r: ChemResult): BatchClass {
    (r.u.batch, r.analyteClass)
  }

  function RowId(r: ChemResult): int {
    r.row
  }

  /** `tmp_row` of every row whose key is `k`. */
  function RowsWithKey<K(==)>(df: seq<ChemResult>, key: ChemResult -> K, k: K): (ids: seq<int>)
    ensures forall x :: x in ids <==> exists i :: 0 <= i < |df| && key(df[i]) == k && df[i].row == x
  {
    Select(df, (r: ChemResult) => key(r) == k, RowId)
  }

  // ----- chk_required_sampletypes -----

  /** The sample types observed in one (batch, class) group. */
  function ObservedSampleTypes(df: seq<ChemResult>, k: BatchClass): set<string> {
    set i | 0 <= i < |df| && BatchClassOf(df[i]) == k :: df[i].u.sampleType
  }

  /** The (batch, class) groups of the rows of class `cls`. */
  function ClassGroups(df: seq<ChemResult>, cls: string): (ks: set<BatchClass>)
    ensures forall k :: k in ks <==> exists i :: 0 <= i < |df| && df[i].analyteClass == cls && BatchClassOf(df[i]) == k
  {
    set i | 0 <= i < |df| && df[i].analyteClass == cls :: BatchClassOf(df[i])
  }

  /** The entry for a group that lacks some of `sampletypes`. */
  function SampletypeFinding(df: seq<ChemResult>, sampletypes: set<string>, k: BatchClass): (f: GroupFinding<BatchClass>)
    ensures f.key == k && f.missing == sampletypes - ObservedSampleTypes(df, k)
    ensures f.badcolumn == "SampleType" && f.errorType == "Missing Required Data"
    ensures forall x :: x in f.badrows <==> exists i :: 0 <= i < |df| && BatchClassOf(df[i]) == k && df[i].row == x
  {
    GroupFinding(k, sampletypes - ObservedSampleTypes(df, k), RowsWithKey(df, BatchClassOf, k), "SampleType", "Missing Required Data")
  }

  /** `chk_required_sampletypes(df, sampletypes, analyteclass)`: one entry per
      (batch, class) group of class `cls` that lacks a required sample type,
      naming the missing types and covering every row of the group. */
  function ChkRequiredSampletypes(df: seq<ChemResult>, sampletypes: set<string>, cls: string): (args: set<GroupFinding<BatchClass>>)
    ensures (forall i :: 0 <= i < |df| ==> df[i].analyteClass != cls) ==> args == {}
    ensures forall f :: f in args ==>
      f.key in ClassGroups(df, cls) && f.missing != {} && f == SampletypeFinding(df, sampletypes, f.key)
    ensures forall k :: k in ClassGroups(df, cls) && !(sampletypes <= ObservedSampleTypes(df, k)) ==>
      SampletypeFinding(df, sampletypes, k) in args
  {
    if forall i | 0 <= i < |df| :: df[i].analyteClass != cls then {}
    else
      MissingIffNotSubset(sampletypes);
      set k | k in ClassGroups(df, cls) && sampletypes - ObservedSampleTypes(df, k) != {} ::
        SampletypeFinding(df, sampletypes, k)
  }

  /** "Required minus observed is non-empty" is "not all required were observed". */
  lemma {:induction false} MissingIffNotSubset(required: set<string>)
    ensures forall observed: set<string> :: required - observed != {} <==> !(required <= observed)
  {
    forall observed: set<string> ensures required - observed != {} <==> !(required <= observed) {
      if !(required <= observed) {
        var x :| x in required && x !in observed;
        assert x in required - observed;
      }
    }
  }

  /** Row by row: a row of class `cls` is reported, with the rest of its
      group, exactly when its group lacks a required sample type. */
  lemma {:induction false} RequiredSampletypesPerRow(df: seq<ChemResult>, sampletypes: set<string>, cls: string, i: int)
    requires 0 <= i < |df| && df[i].analyteClass == cls
    ensures (exists f :: f in ChkRequiredSampletypes(df, sampletypes, cls) && df[i].row in f.badrows && f.key == BatchClassOf(df[i]))
      <==> !(sampletypes <= ObservedSampleTypes(df, BatchClassOf(df[i])))
  {
    var k := BatchClassOf(df[i]);
    assert k in ClassGroups(df, cls);
    var f := SampletypeFinding(df, sampletypes, k);
    assert df[i].row in f.badrows;
  }

  /** Requiring more sample types never clears a group: every group reported
      for a smaller requirement is reported for a larger one. */
  lemma {:induction false} RequiredSampletypesMonotone(df: seq<ChemResult>, fewer: set<string>, more: set<string>, cls: string, f: GroupFinding<BatchClass>)
    requires fewer <= more
    requires f in ChkRequiredSampletypes(df, fewer, cls)
    ensures SampletypeFinding(df, more, f.key) in ChkRequiredSampletypes(df, more, cls)
  {
  }

  // ----- check_required_crm -----

  /** The sample type names a reference material (`'reference' in str(x).lower()`). */
  predicate IsReference(r: ChemResult) {
    ContainsIgnoreCase(r.u.sampleType, "reference")
  }

  predicate GroupHasReference(df: seq<ChemResult>, k: BatchClass) {
    exists i | 0 <= i < |df| :: BatchClassOf(df[i]) == k && IsReference(df[i])
  }

  /** The (batch, class) groups over the listed classes. */
  function ListedGroups(df: seq<ChemResult>, classes: set<string>): (ks: set<BatchClass>)
    ensures forall k :: k in ks <==> exists i :: 0 <= i < |df| && df[i].analyteClass in classes && BatchClassOf(df[i]) == k
  {
    set i | 0 <= i < |df| && df[i].analyteClass in classes :: BatchClassOf(df[i])
  }

  /** The entry for a group without a reference material. */
  function CrmFinding(df: seq<ChemResult>, k: BatchClass): (f: GroupFinding<BatchClass>)
    ensures f.key == k && f.badcolumn == "SampleType" && f.errorType == "Missing Required Data"
    ensures forall x :: x in f.badrows <==> exists i :: 0 <= i < |df| && BatchClassOf(df[i]) == k && df[i].row == x
  {
    GroupFinding(k, {}, RowsWithKey(df, BatchClassOf, k), "SampleType", "Missing Required Data")
  }

  /** `check_required_crm(df, analyteclasses)`: a (batch, class) group of a
      listed class fails iff none of its sample types mentions "reference";
      with no row of a listed class at all, the grouped frame is empty and
      the assertion after the groupby raises. */
  function CheckRequiredCrm(df: seq<ChemResult>, classes: set<string>): (r: Result<set<GroupFinding<BatchClass>>>)
    ensures r.Raise? <==> forall i :: 0 <= i < |df| ==> df[i].analyteClass !in classes
    ensures r.Ok? ==> forall f :: f in r.value ==>
      f.key in ListedGroups(df, classes) && !GroupHasReference(df, f.key) && f == CrmFinding(df, f.key)
    ensures r.Ok? ==> forall k :: k in ListedGroups(df, classes) && !GroupHasReference(df, k) ==>
      CrmFinding(df, k) in r.value
  {
    if forall i | 0 <= i < |df| :: df[i].analyteClass !in classes then
      Raise(AssertionError("grouped frame is empty"))
    else
      Ok(set k | k in ListedGroups(df, classes) && !GroupHasReference(df, k) :: CrmFinding(df, k))
  }

  /** A group that holds a reference material is never reported, and a group
      of a listed class without one is reported with all of its rows. */
  lemma {:induction false} CrmReportedIffMissing(df: seq<ChemResult>, classes: set<string>, i: int)
    requires 0 <= i < |df| && df[i].analyteClass in classes
    ensures CheckRequiredCrm(df, classes).Ok?
    ensures IsReference(df[i]) ==> forall f :: f in CheckRequiredCrm(df, classes).value ==> f.key != BatchClassOf(df[i])
    ensures !GroupHasReference(df, BatchClassOf(df[i])) ==>
      exists f :: f in CheckRequiredCrm(df, classes).value && f.key == BatchClassOf(df[i]) && df[i].row in f.badrows
  {
    var k := BatchClassOf(df[i]);
    assert k in ListedGroups(df, classes);
    if !GroupHasReference(df, k) {
      var f := CrmFinding(df, k);
      assert df[i].row in f.badrows;
    }
  }

  // ----- pyrethroid_analyte_logic_check -----

  /** The four analyte pairs the chemistry modules test. */
  const PyrethroidPairs: seq<set<string>> := [
    {"Deltamethrin/Tralomethrin", "Deltamethrin"},
    {"Esfenvalerate/Fenvalerate", "Esfenvalerate"},
    {"Permethrin, cis", "Permethrin (cis/trans)"},
    {"Permethrin, trans", "Permethrin (cis/trans)"}]

  /** The batches that hold at least one Pyrethroid row. */
  function PyrethroidBatches(df: seq<ChemResult>): set<string> {
    set i | 0 <= i < |df| && df[i].analyteClass == "Pyrethroid" :: df[i].u.batch
  }

  /** The analytes of the Pyrethroid rows of one batch. */
  function PyrethroidAnalytes(df: seq<ChemResult>, b: string): set<string> {
    set i | 0 <= i < |df| && df[i].analyteClass == "Pyrethroid" && df[i].u.batch == b :: df[i].u.analyte
  }

  /** `pyrethroid_analyte_logic_check(df, analytes)` as written: the per-batch
      "contains all of them" flag is computed but never used to filter, so
      every row naming one of the analytes in a batch with any Pyrethroid
      row is reported. */
  function PyrethroidAnalyteLogicCheckAsWritten(df: seq<ChemResult>, analytes: set<string>): (a: RowArgs)
    ensures a.badcolumn == "AnalysisBatchID, AnalyteName" && a.errorType == "Logic Error"
    ensures forall x :: x in a.badrows <==>
      (exists i :: 0 <= i < |df| && df[i].row == x && df[i].u.analyte in analytes && df[i].u.batch in PyrethroidBatches(df))
  {
    var batches := PyrethroidBatches(df);
    RowArgs(Select(df, (r: ChemResult) => r.u.batch in batches && r.u.analyte in analytes, RowId),
            "AnalysisBatchID, AnalyteName", "Logic Error")
  }

  /** The batches whose Pyrethroid rows contain every analyte of the pair. */
  function BatchesWithAll(df: seq<ChemResult>, analytes: set<string>): set<string> {
    set b | b in PyrethroidBatches(df) && analytes <= PyrethroidAnalytes(df, b)
  }

  /** The check as its message states it: only the listed rows of batches
      that contain all of the analytes. */
  function PyrethroidAnalyteLogicCheck(df: seq<ChemResult>, analytes: set<string>): (a: RowArgs)
    ensures a.badcolumn == "AnalysisBatchID, AnalyteName" && a.errorType == "Logic Error"
    ensures forall x :: x in a.badrows <==>
      (exists i :: 0 <= i < |df| && df[i].row == x && df[i].u.analyte in analytes && df[i].u.batch in BatchesWithAll(df, analytes))
  {
    var batches := BatchesWithAll(df, analytes);
    RowArgs(Select(df, (r: ChemResult) => r.u.batch in batches && r.u.analyte in analytes, RowId),
            "AnalysisBatchID, AnalyteName", "Logic Error")
  }

  /** The corrected check reports a batch exactly when its Pyrethroid rows
      hold every analyte, and then only rows of those analytes. */
  lemma {:induction false} PyrethroidFlagsOnlyCompleteBatches(df: seq<ChemResult>, analytes: set<string>, i: int)
    requires DistinctRows(df)
    requires 0 <= i < |df| && df[i].analyteClass == "Pyrethroid" && df[i].u.analyte in analytes
    ensures df[i].row in PyrethroidAnalyteLogicCheck(df, analytes).badrows <==>
      analytes <= PyrethroidAnalytes(df, df[i].u.batch)
  {
    var b := df[i].u.batch;
    var bad := PyrethroidAnalyteLogicCheck(df, analytes).badrows;
    assert b in PyrethroidBatches(df);
    if df[i].row in bad {
      var j :| 0 <= j < |df| && df[j].row == df[i].row && df[j].u.analyte in analytes && df[j].u.batch in BatchesWithAll(df, analytes);
      assert j == i;
    } else {
      assert b !in BatchesWithAll(df, analytes);
    }
  }

  /** A batch holding only one analyte of a pair is reported as written,
      though it does not contain both. */
  lemma {:induction false} PyrethroidReportsIncompleteBatch()
    ensures var r := ChemResult(0, "Pyrethroid", -88.0, Upload("L", "P", "B", "Deltamethrin", "Result", "S", "sediment", "M",
        1, 1, "X", "ng/g dw", "none", None, 1.0, 0.1, 0.5, -88.0, 0, 0));
      && 0 in PyrethroidAnalyteLogicCheckAsWritten([r], PyrethroidPairs[0]).badrows
      && 0 !in PyrethroidAnalyteLogicCheck([r], PyrethroidPairs[0]).badrows
  {
    var r := ChemResult(0, "Pyrethroid", -88.0, Upload("L", "P", "B", "Deltamethrin", "Result", "S", "sediment", "M",
        1, 1, "X", "ng/g dw", "none", None, 1.0, 0.1, 0.5, -88.0, 0, 0));
    var df := [r];
    assert "B" in PyrethroidBatches(df);
    assert PyrethroidAnalytes(df, "B") == {"Deltamethrin"};
    assert "Deltamethrin/Tralomethrin" !in PyrethroidAnalytes(df, "B");
    assert "B" !in BatchesWithAll(df, PyrethroidPairs[0]);
  }

  // ----- check_req_analytes -----

  /** The analytes present among the masked rows of group `k`. */
  function ObservedAnalytes<K(==)>(df: seq<ChemResult>, mask: ChemResult -> bool, key: ChemResult -> K, k: K): set<string> {
    set i | 0 <= i < |df| && mask(df[i]) && key(df[i]) == k :: df[i].u.analyte
  }

  /** The entry for a group that lacks some required analyte: note that its
      rows are taken from the whole table. */
  function AnalyteFinding<K(==)>(df: seq<ChemResult>, mask: ChemResult -> bool, key: ChemResult -> K, required: set<string>, k: K): (f: GroupFinding<K>)
    ensures f.key == k && f.missing == required - ObservedAnalytes(df, mask, key, k)
    ensures f.badcolumn == "AnalyteName" && f.errorType == "Missing Required Data"
    ensures forall x :: x in f.badrows <==> exists i :: 0 <= i < |df| && key(df[i]) == k && df[i].row == x
  {
    GroupFinding(k, required - ObservedAnalytes(df, mask, key, k), RowsWithKey(df, key, k), "AnalyteName", "Missing Required Data")
  }

  /** `check_req_analytes(df, mask, groupingcols, required_analytes, ...)`:
      groups are formed from the masked rows, but a failing group is merged
      back onto the whole table, so its finding covers every row with the
      group's key, masked or not. */
  function CheckReqAnalytes<K(==,!new)>(df: seq<ChemResult>, mask: ChemResult -> bool, key: ChemResult -> K, required: set<string>): (args: set<GroupFinding<K>>)
    ensures (forall i :: 0 <= i < |df| ==> !mask(df[i])) ==> args == {}
    ensures forall f :: f in args ==>
      f.key in GroupKeys(df, mask, key) && f.missing != {} && f == AnalyteFinding(df, mask, key, required, f.key)
    ensures forall k :: k in GroupKeys(df, mask, key) && !(required <= ObservedAnalytes(df, mask, key, k)) ==>
      AnalyteFinding(df, mask, key, required, k) in args
  {
    MissingIffNotSubset(required);
    set k | k in GroupKeys(df, mask, key) && required - ObservedAnalytes(df, mask, key, k) != {} ::
      AnalyteFinding(df, mask, key, required, k)
  }

  /** A row outside the mask is still reported when a masked row with the
      same key belongs to a group that lacks a required analyte. */
  lemma {:induction false} ReqAnalytesReachesUnmaskedRows<K(!new)>(df: seq<ChemResult>, mask: ChemResult -> bool, key: ChemResult -> K, required: set<string>, i: int, j: int)
    requires 0 <= i < |df| && 0 <= j < |df|
    requires mask(df[i]) && !mask(df[j]) && key(df[i]) == key(df[j])
    requires !(required <= ObservedAnalytes(df, mask, key, key(df[i])))
    ensures exists f :: f in CheckReqAnalytes(df, mask, key, required) && df[j].row in f.badrows
  {
    var k := key(df[i]);
    assert k in GroupKeys(df, mask, key);
    var f := AnalyteFinding(df, mask, key, required, k);
    assert df[j].row in f.badrows;
  }

  /** A group whose masked rows hold every required analyte is not
      reported, whatever the rows outside the mask hold. */
  lemma {:induction false} ReqAnalytesCompleteGroupSilent<K(!new)>(df: seq<ChemResult>, mask: ChemResult -> bool, key: ChemResult -> K, required: set<string>, k: K)
    requires required <= ObservedAnalytes(df, mask, key, k)
    ensures forall f :: f in CheckReqAnalytes(df, mask, key, required) ==> f.key != k
  {
  }
}

=== FILE: chem_qaplan.dfy ===
/** `MB_ResultLessThanMDL` of proj/custom/chem_qaplan_checks.py: every
    'Result' row is paired with every 'Method blank' row of the same
    (analysisbatchid, matrix, analytename); a pair is flagged when the blank
    is neither below its own MDL nor below 5% of the sample's result, and
    flagged pairs are reported per (analysisbatchid, analytename, sampleid)
    by the Result rows' `tmp_row`.
 */
module ChemQaPlan {
  import opened Frames
  import opened ChemTables
  import opened ChemFunctions

  /** A (Result row, Method blank row) pair of the inner merge. */
  type Pair = (ChemResult, ChemResult)

  predicate IsResult(r: ChemResult) { r.u.sampleType == "Result" }
  predicate IsBlank(r: ChemResult) { r.u.sampleType == "Method blank" }

  /** The merge keys agree. */
  predicate SameBlankKey(res: ChemResult, mb: ChemResult) {
    res.u.batch == mb.u.batch && res.u.matrix == mb.u.matrix && res.u.analyte == mb.u.analyte
  }

  /** `~((result_mb < mdl_mb) | (result_mb < 0.05 * result))`. */
  predicate BlankTooHigh(p: Pair) {
    !(p.1.u.result < p.1.u.mdl || p.1.u.result < 0.05 * p.0.u.result)
  }

  /** The blanks of `blanks` that pair with `res`, in order. */
  function PairsWith(res: ChemResult, blanks: seq<ChemResult>): (ps: seq<Pair>)
    ensures forall p :: p in ps <==> p.0 == res && p.1 in blanks && SameBlankKey(res, p.1)
  {
    if |blanks| == 0 then []
    else (if SameBlankKey(res, blanks[0]) then [(res, blanks[0])] else []) + PairsWith(res, blanks[1..])
  }

  /** `res.merge(methodblanks, on=[...], how='inner')`: one pair per
      matching (Result, blank) combination, in the Result rows' order. */
  function MergePairs(results: seq<ChemResult>, blanks: seq<ChemResult>): (ps: seq<Pair>)
    ensures forall p :: p in ps <==> p.0 in results && p.1 in blanks && SameBlankKey(p.0, p.1)
  {
    if |results| == 0 then []
    else PairsWith(results[0], blanks) + MergePairs(results[1..], blanks)
  }

  function Results(df: seq<ChemResult>): (rs: seq<ChemResult>)
    ensures forall r :: r in rs <==> r in df && IsResult(r)
  {
    if |df| == 0 then [] else (if IsResult(df[0]) then [df[0]] else []) + Results(df[1..])
  }

  function Blanks(df: seq<ChemResult>): (rs: seq<ChemResult>)
    ensures forall r :: r in rs <==> r in df && IsBlank(r)
  {
    if |df| == 0 then [] else (if IsBlank(df[0]) then [df[0]] else []) + Blanks(df[1..])
  }

  /** (analysisbatchid, analytename, sampleid) of a pair's Result row. */
  type SampleKey = (string, string, string)

  function SampleKeyOf(p: Pair): SampleKey {
    (p.0.u.batch, p.0.u.analyte, p.0.u.sampleId)
  }

  function ResultRowOf(p: Pair): int {
    p.0.row
  }

  /** The entry for one (batch, analyte, sample): the Result rows of its
      flagged pairs, once per flagged blank. */
  function BlankFinding(ps: seq<Pair>, k: SampleKey): (f: GroupFinding<SampleKey>)
    ensures f.key == k && f.badcolumn == "Result" && f.errorType == "Value Error"
    ensures forall x :: x in f.badrows <==> exists p :: p in ps && BlankTooHigh(p) && SampleKeyOf(p) == k && p.0.row == x
  {
    var rows := Select(ps, (p: Pair) => BlankTooHigh(p) && SampleKeyOf(p) == k, ResultRowOf);
    assert forall x :: x in rows ==> exists p :: p in ps && BlankTooHigh(p) && SampleKeyOf(p) == k && p.0.row == x;
    GroupFinding(k, {}, rows, "Result", "Value Error")
  }

  /** The pairs the merge produces from one table. */
  function Pairs(df: seq<ChemResult>): (ps: seq<Pair>)
    ensures forall p :: p in ps <==> p.0 in df && p.1 in df && IsResult(p.0) && IsBlank(p.1) && SameBlankKey(p.0, p.1)
  {
    MergePairs(Results(df), Blanks(df))
  }

  /** `MB_ResultLessThanMDL(dataframe)`: one entry per (batch, analyte,
      sample) with a flagged pair, none at all when no pair is flagged. */
  function MbResultLessThanMdl(df: seq<ChemResult>): (args: set<GroupFinding<SampleKey>>)
    ensures forall f :: f in args ==> f == BlankFinding(Pairs(df), f.key) && f.badrows != []
    ensures forall p :: p in Pairs(df) && BlankTooHigh(p) ==> BlankFinding(Pairs(df), SampleKeyOf(p)) in args
    ensures args == {} <==> forall p :: p in Pairs(df) ==> !BlankTooHigh(p)
  {
    var ps := Pairs(df);
    var keys := set p | p in ps && BlankTooHigh(p) :: SampleKeyOf(p);
    var args := set k | k in keys :: BlankFinding(ps, k);
    assert forall p :: p in ps && BlankTooHigh(p) ==> BlankFinding(ps, SampleKeyOf(p)) in args;
    assert forall f :: f in args ==> f.badrows != [] by {
      forall f | f in args ensures f.badrows != [] {
        var p :| p in ps && BlankTooHigh(p) && SampleKeyOf(p) == f.key;
        assert p.0.row in f.badrows;
      }
    }
    args
  }

  /** A Result row without a Method blank of the same batch, matrix and
      analyte is never reported. */
  lemma {:induction false} UnpairedResultsNotReported(df: seq<ChemResult>, res: ChemResult)
    requires DistinctRows(df) && res in df && IsResult(res)
    requires forall mb :: mb in df && IsBlank(mb) ==> !SameBlankKey(res, mb)
    ensures forall f :: f in MbResultLessThanMdl(df) ==> res.row !in f.badrows
  {
    var j :| 0 <= j < |df| && df[j] == res;
    forall p | p in Pairs(df) ensures p.0.row != res.row {
      var i :| 0 <= i < |df| && df[i] == p.0;
      assert df[i] != df[j];
    }
  }

  /** A blank below its own MDL clears every pair it is in, whatever the
      sample's result. */
  lemma {:induction false} BlankBelowMdlPasses(res: ChemResult, mb: ChemResult)
    requires mb.u.result < mb.u.mdl
    ensures !BlankTooHigh((res, mb))
  {
  }

  /** Otherwise the blank must be below 5% of the sample: a blank at 1 with
      MDL 0.5 fails against a sample of 10 and passes against one of 40. */
  lemma {:induction false} FivePercentRule(res: ChemResult, mb: ChemResult)
    requires mb.u.result == 1.0 && mb.u.mdl == 0.5
    ensures res.u.result == 10.0 ==> BlankTooHigh((res, mb))
    ensures res.u.result == 40.0 ==> !BlankTooHigh((res, mb))
  {
  }
}

=== FILE: chem_tables.dfy ===
/** The chemistry results table as the three chemistry rule modules see it
    (sediment: proj/custom/chemistry_custom.py, tissue:
    proj/custom/chemistry_tissue_custom.py, intercalibration:
    proj/custom/chemistry_intercal_custom.py), the preparation step they
    share, and the row-level value rules they share verbatim.
 */
module ChemTables {
  import opened Wrappers
  import opened Text
  import opened Numeric

  /** One uploaded row of tbl_chemresults (the columns the checks read). */
  datatype Upload = Upload(
    lab: string,
    preparationBatch: string,
    batch: string,
    analyte: string,
    sampleType: string,
    sampleId: string,
    matrix: string,
    analysisMethod: string,
    labReplicate: int,
    fieldDuplicate: int,
    stationId: string,
    units: string,
    qualifier: string,
    comments: Option<string>,
    result: real,
    mdl: real,
    rl: real,
    trueValue: real,
    sampleDate: int,
    analysisDate: int)

  /** A result row after preparation: its `tmp_row`, the analyte class
      joined from lu_analytes, and the computed percent recovery. */
  datatype ChemResult = ChemResult(row: int, analyteClass: string, percentRecovery: real, u: Upload)

  /** "spike" or "reference" occurs in the sample type, ignoring case. */
  predicate IsSpikeOrReference(sampleType: string) {
    ContainsIgnoreCase(sampleType, "spike") || ContainsIgnoreCase(sampleType, "reference")
  }

  /** Percent recovery as the sediment and tissue modules compute it:
      `float(result) / float(truevalue) * 100` for spikes and reference
      materials, -88 otherwise. Python float division raises on a zero
      TrueValue. */
  function PercentRecovery(u: Upload): (r: Result<real>)
    ensures r.Raise? <==> IsSpikeOrReference(u.sampleType) && u.trueValue == 0.0
    ensures r.Ok? && IsSpikeOrReference(u.sampleType) ==> r.value * u.trueValue == u.result * 100.0
    ensures r.Ok? && !IsSpikeOrReference(u.sampleType) ==> r.value == Missing
  {
    if IsSpikeOrReference(u.sampleType) then
      if u.trueValue == 0.0 then Raise(ZeroDivisionError)
      else Ok(u.result / u.trueValue * 100.0)
    else Ok(Missing)
  }

  /** A row that survives the lookup join and whose percent recovery divides by zero. */
  predicate RaisesAt(u: Upload, classes: map<string, string>) {
    u.analyte in classes && PercentRecovery(u).Raise?
  }

  /** No upload row has an analyte of lu_analytes, so the inner merge keeps no row. */
  predicate NoneKept(uploads: seq<Upload>, classes: map<string, string>) {
    forall i :: 0 <= i < |uploads| ==> uploads[i].analyte !in classes
  }

  /** `results['percentrecovery'] = results.apply(f, axis=1)` on a merged
      table with no row: pandas calls `f` once on a row of NaN, `lower()` of
      the NaN sample type raises, so `apply` hands back a copy of the whole
      frame, and a frame of several columns cannot be stored in one. */
  const RecoveryAssignError := ValueError("Cannot set a DataFrame with multiple columns to the single column percentrecovery")

  /** The preparation both modules run first: `tmp_row` is taken from the
      upload's index, the inner merge with lu_analytes (here the map
      `classes` from analyte to class) drops rows with unknown analytes, and
      percent recovery is computed row by row, so one spike with TrueValue 0
      aborts the module, and so does a merge that keeps no row at all. */
  function Prepare(uploads: seq<Upload>, classes: map<string, string>): (r: Result<seq<ChemResult>>)
    ensures r == Raise(ZeroDivisionError) <==> (exists i :: 0 <= i < |uploads| && RaisesAt(uploads[i], classes))
    ensures r == Raise(RecoveryAssignError) <==> NoneKept(uploads, classes)
    ensures r.Raise? ==> r == Raise(ZeroDivisionError) || r == Raise(RecoveryAssignError)
    ensures r.Ok? ==> KeptRowsFaithful(uploads, classes, r.value) && Ascending(r.value)
    ensures r.Ok? ==> DistinctRows(r.value) && |r.value| > 0
    ensures r.Ok? ==> forall i :: 0 <= i < |uploads| ==>
      (uploads[i].analyte in classes <==> exists j :: 0 <= j < |r.value| && r.value[j].row == i)
  {
    if exists i | 0 <= i < |uploads| :: RaisesAt(uploads[i], classes) then Raise(ZeroDivisionError)
    else
      var rs := Kept(uploads, classes, 0);
      KeptNothing(uploads, classes);
      if rs == [] then Raise(RecoveryAssignError)
      else
        AscendingDistinct(rs);
        Ok(rs)
  }

  /** The merge keeps no row exactly when no analyte is known. */
  lemma {:induction false} KeptNothing(uploads: seq<Upload>, classes: map<string, string>)
    requires forall i :: 0 <= i < |uploads| ==> !RaisesAt(uploads[i], classes)
    ensures Kept(uploads, classes, 0) == [] <==> NoneKept(uploads, classes)
  {
    var rs := Kept(uploads, classes, 0);
    if rs != [] {
      assert uploads[rs[0].row].analyte in classes;
    }
  }

  lemma {:induction false} AscendingDistinct(rs: seq<ChemResult>)
    requires Ascending(rs)
    ensures DistinctRows(rs)
  {
    forall j, k | 0 <= j < |rs| && 0 <= k < |rs| && j != k ensures rs[j].row != rs[k].row {
      if j < k { assert rs[j].row < rs[k].row; } else { assert rs[k].row < rs[j].row; }
    }
  }

  /** Each kept row carries the upload it came from, under the id it had in
      the upload, with its class and percent recovery. */
  ghost predicate KeptRowsFaithful(uploads: seq<Upload>, classes: map<string, string>, rs: seq<ChemResult>) {
    forall j :: 0 <= j < |rs| ==>
      && 0 <= rs[j].row < |uploads|
      && rs[j].u == uploads[rs[j].row]
      && rs[j].u.analyte in classes
      && rs[j].analyteClass == classes[rs[j].u.analyte]
      && PercentRecovery(rs[j].u) == Ok(rs[j].percentRecovery)
  }

  /** The rows keep upload order, so no id occurs twice. */
  ghost predicate Ascending(rs: seq<ChemResult>) {
    forall j, k :: 0 <= j < k < |rs| ==> rs[j].row < rs[k].row
  }

  /** No two rows share a `tmp_row`. */
  ghost predicate DistinctRows(rs: seq<ChemResult>) {
    forall j, k :: 0 <= j < |rs| && 0 <= k < |rs| && rs[j].row == rs[k].row ==> j == k
  }

  /** The rows from position `start` on that survive the join. */
  function Kept(uploads: seq<Upload>, classes: map<string, string>, start: nat): (rs: seq<ChemResult>)
    requires start <= |uploads|
    requires forall i :: start <= i < |uploads| ==> !RaisesAt(uploads[i], classes)
    ensures KeptRowsFaithful(uploads, classes, rs) && Ascending(rs)
    ensures forall j :: 0 <= j < |rs| ==> start <= rs[j].row
    ensures forall i :: start <= i < |uploads| ==>
      (uploads[i].analyte in classes <==> exists j :: 0 <= j < |rs| && rs[j].row == i)
    decreases |uploads| - start
  {
    if start == |uploads| then []
    else
      var rest := Kept(uploads, classes, start + 1);
      var u := uploads[start];
      if u.analyte !in classes then rest
      else
        assert !RaisesAt(u, classes);
        var rs := [ChemResult(start, classes[u.analyte], PercentRecovery(u).value, u)] + rest;
        KeptCons(uploads, classes, start, rs[0], rest);
        rs
  }

  lemma {:induction false} KeptCons(uploads: seq<Upload>, classes: map<string, string>, start: nat, head: ChemResult, rest: seq<ChemResult>)
    requires start < |uploads| && head.row == start && head.u == uploads[start]
    requires KeptRowsFaithful(uploads, classes, [head]) && Ascending(rest)
    requires KeptRowsFaithful(uploads, classes, rest)
    requires forall j :: 0 <= j < |rest| ==> start + 1 <= rest[j].row
    requires forall i :: start + 1 <= i < |uploads| ==>
      (uploads[i].analyte in classes <==> exists j :: 0 <= j < |rest| && rest[j].row == i)
    ensures KeptRowsFaithful(uploads, classes, [head] + rest) && Ascending([head] + rest)
    ensures forall i :: start <= i < |uploads| ==>
      (uploads[i].analyte in classes <==> exists j :: 0 <= j < |[head] + rest| && ([head] + rest)[j].row == i)
  {
    KeptConsOrdered(uploads, classes, start, head, rest);
    assert [head][0] == head;
    KeptConsCovers(uploads, classes, start, head, rest);
  }

  lemma {:induction false} KeptConsOrdered(uploads: seq<Upload>, classes: map<string, string>, start: nat, head: ChemResult, rest: seq<ChemResult>)
    requires head.row == start
    requires KeptRowsFaithful(uploads, classes, [head]) && Ascending(rest)
    requires KeptRowsFaithful(uploads, classes, rest)
    requires forall j :: 0 <= j < |rest| ==> start + 1 <= rest[j].row
    ensures KeptRowsFaithful(uploads, classes, [head] + rest) && Ascending([head] + rest)
  {
    var rs := [head] + rest;
    assert forall j :: 1 <= j < |rs| ==> rs[j] == rest[j - 1];
  }

  /** Putting the row of upload `start` in front of the kept rows after it
      gives the kept rows from `start` on; the intercalibration preparation
      shares this step. */
  lemma {:induction false} KeptConsCovers(uploads: seq<Upload>, classes: map<string, string>, start: nat, head: ChemResult, rest: seq<ChemResult>)
    requires start < |uploads| && head.row == start && uploads[start].analyte in classes
    requires forall j :: 0 <= j < |rest| ==> start + 1 <= rest[j].row
    requires forall i :: start + 1 <= i < |uploads| ==>
      (uploads[i].analyte in classes <==> exists j :: 0 <= j < |rest| && rest[j].row == i)
    ensures forall i :: start <= i < |uploads| ==>
      (uploads[i].analyte in classes <==> exists j :: 0 <= j < |[head] + rest| && ([head] + rest)[j].row == i)
  {
    var rs := [head] + rest;
    assert forall j :: 1 <= j < |rs| ==> rs[j] == rest[j - 1];
    forall i | start < i < |uploads| && uploads[i].analyte in classes
      ensures exists j :: 0 <= j < |rs| && rs[j].row == i
    {
      var j :| 0 <= j < |rest| && rest[j].row == i;
      assert rs[j + 1].row == i;
    }
    assert rs[0].row == start;
  }

  // ----- Row-level value rules shared verbatim by the sediment and tissue modules -----

  /** Not a spike or reference material, yet TrueValue is not -88 (warning). */
  predicate TrueValueWithoutSpike(r: ChemResult) {
    !IsSpikeOrReference(r.u.sampleType) && r.u.trueValue != Missing
  }

  /** A spike or reference material with a negative TrueValue (warning). */
  predicate SpikeWithoutTrueValue(r: ChemResult) {
    IsSpikeOrReference(r.u.sampleType) && r.u.trueValue < 0.0
  }

  /** A 'Result' row whose result is neither -88 nor positive (error). */
  predicate ResultNotPositive(r: ChemResult) {
    r.u.sampleType == "Result" && r.u.result != Missing && r.u.result <= 0.0
  }

  predicate MdlAboveRl(r: ChemResult) { r.u.mdl > r.u.rl }
  predicate MdlEqualsRl(r: ChemResult) { r.u.mdl == r.u.rl }
  predicate MdlNegative(r: ChemResult) { r.u.mdl < 0.0 }

  /** 'less than' / 'below method detection limit' with a reported value. */
  predicate LessThanWithValue(r: ChemResult) {
    r.u.qualifier in {"less than", "below method detection limit"} && r.u.result != Missing
  }

  /** 'estimated' / 'below reporting level' outside [MDL, RL]. */
  predicate EstimatedOutOfRange(r: ChemResult) {
    r.u.qualifier in {"estimated", "below reporting level"} && (r.u.result < r.u.mdl || r.u.result > r.u.rl)
  }

  /** The qualifier codes the wrong-qualifier rule tests, as the list is
      written (it repeats "estimated" and leaves out "less than"). */
  const WrongQualifierCodesAsWritten: set<string> :=
    {"estimated", "below reporting level", "below method detection limit", "estimated"}

  /** The codes the rule's own message names. */
  const WrongQualifierCodes: set<string> :=
    {"less than", "below method detection limit", "below reporting level", "estimated"}

  /** A non-detect or estimate qualifier on a result above the RL, as written. */
  predicate WrongQualifierAsWritten(r: ChemResult) {
    r.u.qualifier in WrongQualifierCodesAsWritten && r.u.result > r.u.rl
  }

  /** The same rule over the codes its message names. */
  predicate WrongQualifier(r: ChemResult) {
    r.u.qualifier in WrongQualifierCodes && r.u.result > r.u.rl
  }

  /** Qualifier 'none' on a result at or below the RL (error). */
  predicate NoneAtOrBelowRl(r: ChemResult) {
    r.u.qualifier == "none" && r.u.result <= r.u.rl
  }

  /** `df.fillna('').comments == ''`. */
  predicate CommentEmpty(c: Option<string>) {
    c.None? || c.value == ""
  }

  /** A qualifier that requires an explanation, without a comment. */
  predicate CommentMissing(r: ChemResult) {
    r.u.qualifier in {"analyst error", "contaminated", "interference"} && CommentEmpty(r.u.comments)
  }

  /** A Method blank with a value below the MDL that is not -88. */
  predicate BlankBelowMdl(r: ChemResult) {
    r.u.sampleType == "Method blank" && r.u.result < r.u.mdl && r.u.result != Missing
  }

  /** A Method blank with a value whose qualifier is neither
      'below method detection limit' nor 'none'. */
  predicate BlankQualifier(r: ChemResult) {
    r.u.sampleType == "Method blank" && r.u.result != Missing &&
    r.u.qualifier !in {"below method detection limit", "none"}
  }

  /** What each qualifier code promises about the result, as the rule
      messages state it. */
  predicate QualifierPromiseHolds(q: string, result: real, mdl: real, rl: real) {
    if q in {"less than", "below method detection limit"} then result == Missing
    else if q in {"estimated", "below reporting level"} then mdl <= result <= rl
    else if q == "none" then result > rl
    else true
  }

  /** The four qualifier rules of the sediment and tissue modules together
      reject a row exactly when its qualifier's promise fails (for
      0 <= MDL <= RL). The missing "less than" in the wrong-qualifier list
      therefore changes which message is shown, not whether the row is
      rejected. */
  lemma {:induction false} QualifierRulesMeaning(r: ChemResult)
    requires 0.0 <= r.u.mdl <= r.u.rl
    ensures (LessThanWithValue(r) || EstimatedOutOfRange(r) || WrongQualifierAsWritten(r) || NoneAtOrBelowRl(r))
      <==> !QualifierPromiseHolds(r.u.qualifier, r.u.result, r.u.mdl, r.u.rl)
    ensures (LessThanWithValue(r) || EstimatedOutOfRange(r) || WrongQualifier(r) || NoneAtOrBelowRl(r))
      <==> !QualifierPromiseHolds(r.u.qualifier, r.u.result, r.u.mdl, r.u.rl)
  {
  }

  /** The wrong-qualifier rule as written lets a 'less than' row with a result
      above the RL through, though its message names 'less than'. */
  lemma {:induction false} WrongQualifierMissesLessThan(u: Upload)
    requires u.qualifier == "less than" && u.result == 5.0 && u.rl == 1.0
    ensures !WrongQualifierAsWritten(ChemResult(0, "PAH", Missing, u))
    ensures WrongQualifier(ChemResult(0, "PAH", Missing, u))
  {
    assert "less than" !in WrongQualifierCodesAsWritten by {
      assert "less than" != "estimated";
      assert "less than" != "below reporting level";
      assert "less than" != "below method detection limit";
    }
  }

  /** The corrected list differs from the written one by exactly
      "less than". */
  lemma {:induction false} WrongQualifierCorrection(r: ChemResult)
    ensures WrongQualifier(r) <==> WrongQualifierAsWritten(r) || (r.u.qualifier == "less than" && r.u.result > r.u.rl)
  {
    assert WrongQualifierCodes == WrongQualifierCodesAsWritten + {"less than"};
  }

  /** The MDL rules sort every row into exactly one of: error (MDL > RL),
      warning (MDL == RL), fine (MDL < RL); a negative MDL is an error
      independently. */
  lemma {:induction false} MdlRulesPartition(r: ChemResult)
    ensures MdlAboveRl(r) || MdlEqualsRl(r) || r.u.mdl < r.u.rl
    ensures !(MdlAboveRl(r) && MdlEqualsRl(r))
  {
  }
}

=== FILE: chemistry.dfy ===
/** The sediment chemistry rule module, proj/custom/chemistry_custom.py.

    After the shared preparation (ChemTables.Prepare) the module runs the
    batch/results logic check, then routes the submission: a mixture of
    grain-size and other analytes is stopped with one finding, a pure
    grain-size submission gets the grain-size checks, and everything else
    gets the chemistry checks. The tissue module
    (proj/custom/chemistry_tissue_custom.py) runs the same skeleton.
 */
module Chemistry {
  import opened Wrappers
  import opened Text
  import opened Numeric
  import opened Frames
  import opened Grouping
  import opened Functions
  import opened ChemTables
  import opened ChemFunctions

  // ----- Batch / results logic check -----

  /** A row of tbl_chembatch: its index and the two key columns. */
  datatype BatchRow = BatchRow(row: int, lab: string, preparationBatch: string)

  const LogicColumns: seq<string> := ["lab", "preparationbatchid"]

  function KeyCells(lab: string, prep: string): map<string, string> {
    map["lab" := lab, "preparationbatchid" := prep]
  }

  function BatchFrame(batch: seq<BatchRow>): (df: Frame<string>)
    ensures df.Valid() && |df.rows| == |batch|
  {
    Frame({"lab", "preparationbatchid"},
          seq(|batch|, i requires 0 <= i < |batch| => batch[i].row),
          seq(|batch|, i requires 0 <= i < |batch| => KeyCells(batch[i].lab, batch[i].preparationBatch)))
  }

  /** The prepared results as a frame indexed by `index`: the merge leaves a
      fresh RangeIndex (positions), while `tmp_row` holds the upload's ids. */
  function ResultsFrame(results: seq<ChemResult>, byTmpRow: bool): (df: Frame<string>)
    ensures df.Valid() && |df.rows| == |results|
  {
    Frame({"lab", "preparationbatchid"},
          seq(|results|, i requires 0 <= i < |results| => if byTmpRow then results[i].row else i),
          seq(|results|, i requires 0 <= i < |results| => KeyCells(results[i].u.lab, results[i].u.preparationBatch)))
  }

  function BatchKey(b: BatchRow): seq<string> { [b.lab, b.preparationBatch] }
  function ResultKey(r: ChemResult): seq<string> { [r.u.lab, r.u.preparationBatch] }

  function BatchKeys(batch: seq<BatchRow>): seq<seq<string>> {
    seq(|batch|, j requires 0 <= j < |batch| => BatchKey(batch[j]))
  }

  function ResultKeys(results: seq<ChemResult>): seq<seq<string>> {
    seq(|results|, j requires 0 <= j < |results| => ResultKey(results[j]))
  }

  /** Batch row `i` has no results row agreeing with it column by column. */
  predicate BatchOrphan(batch: seq<BatchRow>, results: seq<ChemResult>, i: int)
    requires 0 <= i < |batch|
  {
    !ColumnwiseFound(BatchKey(batch[i]), ResultKeys(results))
  }

  /** Results row `i` has no batch row agreeing with it column by column. */
  predicate ResultOrphan(batch: seq<BatchRow>, results: seq<ChemResult>, i: int)
    requires 0 <= i < |results|
  {
    !ColumnwiseFound(ResultKey(results[i]), BatchKeys(batch))
  }

  lemma {:induction false} LogicColumnsLower()
    ensures LowerAll(LogicColumns) == LogicColumns
  {
    assert Lower("lab") == "lab";
    assert Lower("preparationbatchid") == "preparationbatchid";
  }

  lemma {:induction false} FrameKeys(batch: seq<BatchRow>, results: seq<ChemResult>, byTmpRow: bool)
    ensures forall i :: 0 <= i < |batch| ==> KeyOf(BatchFrame(batch).rows[i], LogicColumns) == BatchKey(batch[i])
    ensures forall i :: 0 <= i < |results| ==> KeyOf(ResultsFrame(results, byTmpRow).rows[i], LogicColumns) == ResultKey(results[i])
    ensures HasColumns(BatchFrame(batch), LogicColumns) && HasColumns(ResultsFrame(results, byTmpRow), LogicColumns)
    ensures Keys(BatchFrame(batch), LogicColumns) == BatchKeys(batch)
    ensures Keys(ResultsFrame(results, byTmpRow), LogicColumns) == ResultKeys(results)
  {
  }

  /** `checkLogic(batch, results, ['lab', 'preparationbatchid'])`: the
      index labels of batch rows without results. */
  function OrphanBatchLabels(batch: seq<BatchRow>, results: seq<ChemResult>): (ids: seq<int>)
    ensures forall x :: x in ids <==> exists i :: 0 <= i < |batch| && batch[i].row == x && BatchOrphan(batch, results, i)
    ensures ids == [] <==> forall i :: 0 <= i < |batch| ==> !BatchOrphan(batch, results, i)
  {
    LogicColumnsLower();
    FrameKeys(batch, results, true);
    var bf, rf := BatchFrame(batch), ResultsFrame(results, true);
    var r := CheckLogic(bf, rf, LogicColumns);
    assert forall i :: 0 <= i < |batch| ==>
      bf.index[i] == batch[i].row &&
      (BatchOrphan(batch, results, i) <==> !ColumnwiseFound(KeyOf(bf.rows[i], LowerAll(LogicColumns)), Keys(rf, LowerAll(LogicColumns))));
    r.value
  }

  /** The reverse call: the index labels of results rows without a batch
      record. After the merge the index holds positions, so the labels are
      positions unless the frame is indexed by `tmp_row`. */
  function OrphanResultLabels(batch: seq<BatchRow>, results: seq<ChemResult>, byTmpRow: bool): (ids: seq<int>)
    ensures forall x :: x in ids <==> exists i :: 0 <= i < |results| && (if byTmpRow then results[i].row else i) == x && ResultOrphan(batch, results, i)
    ensures ids == [] <==> forall i :: 0 <= i < |results| ==> !ResultOrphan(batch, results, i)
  {
    ResultFrameFacts(batch, results, byTmpRow);
    CheckLogic(ResultsFrame(results, byTmpRow), BatchFrame(batch), LogicColumns).value
  }

  /** What `CheckLogic` sees of the results frame: its labels, and which of
      its rows are orphans. */
  lemma {:induction false} ResultFrameFacts(batch: seq<BatchRow>, results: seq<ChemResult>, byTmpRow: bool)
    ensures HasColumns(ResultsFrame(results, byTmpRow), LowerAll(LogicColumns)) && HasColumns(BatchFrame(batch), LowerAll(LogicColumns))
    ensures forall i :: 0 <= i < |results| ==>
      ResultsFrame(results, byTmpRow).index[i] == (if byTmpRow then results[i].row else i) &&
      (ResultOrphan(batch, results, i) <==>
        !ColumnwiseFound(KeyOf(ResultsFrame(results, byTmpRow).rows[i], LowerAll(LogicColumns)), Keys(BatchFrame(batch), LowerAll(LogicColumns))))
  {
    LogicColumnsLower();
    FrameKeys(batch, results, byTmpRow);
  }

  const UpdateError := TypeError("dictionary update sequence element #0 is not a sequence")

  /** The two `checkLogic` calls as written: each returns a list of row
      labels, which is then passed to `dict.update`; a non-empty list of
      integers makes `update` raise `TypeError`, so an orphan anywhere
      aborts the module instead of producing a finding. */
  function LogicCheckAsWritten(batch: seq<BatchRow>, results: seq<ChemResult>): (r: Result<()>)
    ensures r.Ok? <==>
      && (forall i :: 0 <= i < |batch| ==> !BatchOrphan(batch, results, i))
      && (forall i :: 0 <= i < |results| ==> !ResultOrphan(batch, results, i))
    ensures r.Raise? ==> r.exception.TypeError?
  {
    if OrphanBatchLabels(batch, results) != [] then Raise(UpdateError)
    else if OrphanResultLabels(batch, results, false) != [] then Raise(UpdateError)
    else Ok(())
  }

  /** The check as its comments intend it: batch rows reported by their
      index, results rows by `tmp_row`, each side one `Logic Error`. */
  function LogicCheck(batch: seq<BatchRow>, results: seq<ChemResult>): (r: (seq<int>, seq<int>))
    ensures forall x :: x in r.0 <==> exists i :: 0 <= i < |batch| && batch[i].row == x && BatchOrphan(batch, results, i)
    ensures forall x :: x in r.1 <==> exists i :: 0 <= i < |results| && results[i].row == x && ResultOrphan(batch, results, i)
  {
    (OrphanBatchLabels(batch, results), OrphanResultLabels(batch, results, true))
  }

  /** A batch record without results aborts the module as written, while
      the intended check reports that batch row. */
  lemma {:induction false} LogicCheckRaisesOnOrphan()
    ensures LogicCheckAsWritten([BatchRow(0, "L", "P")], []) == Raise(UpdateError)
    ensures LogicCheck([BatchRow(0, "L", "P")], []).0 == [0]
  {
    var batch := [BatchRow(0, "L", "P")];
    assert ResultKeys([]) == [];
    assert BatchKey(batch[0])[0] == "L";
    assert BatchOrphan(batch, [], 0);
    var r := LogicCheck(batch, []).0;
    assert 0 in r;
    assert forall x :: x in r ==> x == 0;
    LogicColumnsLower();
    assert |r| <= 1 by {
      assert r == CheckLogic(BatchFrame(batch), ResultsFrame([], true), LogicColumns).value;
    }
  }

  // ----- Grain-size routing -----

  predicate IsGrain(r: ChemResult, grain: set<string>) {
    r.u.analyte in grain
  }

  /** `tmp_row` of the grain-size rows and of the other rows, in order. */
  function GrainSplit(results: seq<ChemResult>, grain: set<string>): (s: (seq<int>, seq<int>))
    ensures |s.0| + |s.1| == |results|
    ensures forall x :: x in s.0 <==> exists i :: 0 <= i < |results| && results[i].row == x && IsGrain(results[i], grain)
    ensures forall x :: x in s.1 <==> exists i :: 0 <= i < |results| && results[i].row == x && !IsGrain(results[i], grain)
    ensures s.0 == [] <==> forall i :: 0 <= i < |results| ==> !IsGrain(results[i], grain)
    ensures s.1 == [] <==> forall i :: 0 <= i < |results| ==> IsGrain(results[i], grain)
  {
    if |results| == 0 then ([], [])
    else
      var rest := GrainSplit(results[1..], grain);
      assert forall i :: 1 <= i < |results| ==> results[i] == results[1..][i - 1];
      if IsGrain(results[0], grain) then ([results[0].row] + rest.0, rest.1)
      else (rest.0, [results[0].row] + rest.1)
  }

  /** Where a submission goes after the logic check. */
  datatype Route =
    | MixedStop(grainFlagged: bool, badrows: seq<int>)
    | GrainBranch
    | ChemistryBranch

  /** The routing of lines 95-116: `all(grain_bool)` is true of an empty
      table, so an empty submission takes the grain-size branch. A mixture
      reports the smaller side; a tie reports the non-grain rows. */
  function RouteOf(results: seq<ChemResult>, grain: set<string>): (r: Route)
    ensures r.GrainBranch? <==> forall i :: 0 <= i < |results| ==> IsGrain(results[i], grain)
    ensures r.ChemistryBranch? <==> |results| > 0 && forall i :: 0 <= i < |results| ==> !IsGrain(results[i], grain)
    ensures r.MixedStop? ==> 2 * |r.badrows| <= |results|
    ensures r.MixedStop? ==> r.badrows == if r.grainFlagged then GrainSplit(results, grain).0 else GrainSplit(results, grain).1
    ensures r.MixedStop? ==> (r.grainFlagged <==> 2 * |GrainSplit(results, grain).0| < |results|)
  {
    var s := GrainSplit(results, grain);
    if s.1 == [] then GrainBranch
    else if s.0 == [] then ChemistryBranch
    else
      var fewerGrain := |s.0| < |s.1|;
      MixedStop(fewerGrain, if fewerGrain then s.0 else s.1)
  }

  // ----- Grain-size branch -----

  /** Grain-size rows whose units are not '%'. */
  function GrainUnitRows(results: seq<ChemResult>): (ids: seq<int>)
    ensures forall x :: x in ids <==> exists i :: 0 <= i < |results| && results[i].row == x && results[i].u.units != "%"
  {
    Select(results, (r: ChemResult) => r.u.units != "%", RowId)
  }

  /** (stationid, fieldduplicate, labreplicate). */
  type GrainKey = (string, int, int)

  function GrainKeyOf(r: ChemResult): GrainKey {
    (r.u.stationId, r.u.fieldDuplicate, r.u.labReplicate)
  }

  function Sum(xs: seq<real>): real {
    if |xs| == 0 then 0.0 else xs[0] + Sum(xs[1..])
  }

  function ResultOf(r: ChemResult): real {
    r.u.result
  }

  function Everything(r: ChemResult): bool {
    true
  }

  /** `df.result.sum()` of one group. */
  function GroupSum(results: seq<ChemResult>, k: GrainKey): real {
    Sum(Column(Members(results, Everything, GrainKeyOf, k), ResultOf))
  }

  /** The fractions of a group may add up to anything in [99.8, 100.2]. */
  predicate SumAcceptable(total: real) {
    99.8 <= total <= 100.2
  }

  function GrainSumFinding(results: seq<ChemResult>, k: GrainKey): (f: GroupFinding<GrainKey>)
    ensures f.key == k && f.badcolumn == "Result" && f.errorType == "Value Error"
    ensures forall x :: x in f.badrows <==> exists i :: 0 <= i < |results| && GrainKeyOf(results[i]) == k && results[i].row == x
  {
    GroupFinding(k, {}, RowsWithKey(results, GrainKeyOf, k), "Result", "Value Error")
  }

  /** One finding per (station, field duplicate, lab replicate) whose
      results do not sum to 100 within 0.2, covering all of its rows. */
  function GrainSumCheck(results: seq<ChemResult>): (args: set<GroupFinding<GrainKey>>)
    ensures forall f :: f in args ==>
      f == GrainSumFinding(results, f.key) && !SumAcceptable(GroupSum(results, f.key)) && f.badrows != []
    ensures forall i :: 0 <= i < |results| && !SumAcceptable(GroupSum(results, GrainKeyOf(results[i]))) ==>
      GrainSumFinding(results, GrainKeyOf(results[i])) in args
    ensures args == {} <==> forall i :: 0 <= i < |results| ==> SumAcceptable(GroupSum(results, GrainKeyOf(results[i])))
  {
    var fails := (r: ChemResult) => !SumAcceptable(GroupSum(results, GrainKeyOf(r)));
    var args := KeyedFindings(results, fails, GrainKeyOf, (k: GrainKey) => GrainSumFinding(results, k));
    forall f | f in args ensures f == GrainSumFinding(results, f.key) && !SumAcceptable(GroupSum(results, f.key)) && f.badrows != [] {
      var i :| 0 <= i < |results| && fails(results[i]) && f == GrainSumFinding(results, GrainKeyOf(results[i]));
      assert results[i].row in f.badrows;
    }
    args
  }

  /** A complete grain-size distribution (the group's percentages add up to
      exactly 100) is never reported, and neither are the two bounds. */
  lemma {:induction false} GrainSumBounds(results: seq<ChemResult>, k: GrainKey)
    requires GroupSum(results, k) == 100.0 || GroupSum(results, k) == 99.8 || GroupSum(results, k) == 100.2
    ensures forall f :: f in GrainSumCheck(results) ==> f.key != k
  {
  }

  /** A lone row of 100% is a complete distribution. */
  lemma {:induction false} GroupSumOfSingleRow(r: ChemResult)
    ensures GroupSum([r], GrainKeyOf(r)) == r.u.result
  {
    var g := Members([r], Everything, GrainKeyOf, GrainKeyOf(r));
    assert Members([r][1..], Everything, GrainKeyOf, GrainKeyOf(r)) == [];
    assert g == [r];
    assert Column(g, ResultOf) == [r.u.result];
    assert Sum([r.u.result]) == r.u.result + Sum([r.u.result][1..]);
    assert [r.u.result][1..] == [];
  }

  // ----- Required sample types and reference materials -----

  /** `required_sampletypes` of the sediment module, per analyte class. */
  const SedimentRequiredSampletypes: map<string, set<string>> := map[
    "Inorganics" := {"Method blank", "Blank Spike", "Result"},
    "PAH" := {"Method blank", "Matrix spike", "Result"},
    "PCB" := {"Method blank", "Matrix spike", "Result"},
    "Chlorinated Hydrocarbons" := {"Method blank", "Matrix spike", "Result"},
    "PBDE" := {"Method blank", "Matrix spike", "Result"},
    "Pyrethroid" := {"Method blank", "Matrix spike", "Result"},
    "FIPRONIL" := {"Method blank", "Matrix spike", "Result"},
    "TN" := {"Method blank", "Result"},
    "TOC" := {"Method blank", "Result"}
  ]

  /** `requires_crm`: the classes whose batches need a reference material. */
  const RequiresCrm: set<string> := {"Inorganics", "PAH", "PCB", "Chlorinated Hydrocarbons", "PBDE", "TOC"}

  /** The entries of `chk_required_sampletypes` over every class of a table. */
  function RequiredSampletypeFindings(results: seq<ChemResult>, table: map<string, set<string>>): (fs: set<GroupFinding<BatchClass>>)
    ensures forall c, f :: c in table && f in ChkRequiredSampletypes(results, table[c], c) ==> f in fs
    ensures forall f :: f in fs ==> exists c :: c in table && f in ChkRequiredSampletypes(results, table[c], c)
  {
    set c, f | c in table && f in ChkRequiredSampletypes(results, table[c], c) :: f
  }

  /** A sediment batch of inorganics is reported for a required type exactly
      when its (batch, class) group has no row of that sample type; the
      blank-spike checks further down select 'Blank spiked', a different
      string from the required 'Blank Spike'. */
  lemma {:induction false} SedimentInorganicsNeedBlankSpike(results: seq<ChemResult>, i: int)
    requires 0 <= i < |results| && results[i].analyteClass == "Inorganics"
    requires forall j :: 0 <= j < |results| && BatchClassOf(results[j]) == BatchClassOf(results[i]) ==> results[j].u.sampleType != "Blank Spike"
    ensures SampletypeFinding(results, SedimentRequiredSampletypes["Inorganics"], BatchClassOf(results[i])) in RequiredSampletypeFindings(results, SedimentRequiredSampletypes)
  {
    var k := BatchClassOf(results[i]);
    var req := SedimentRequiredSampletypes["Inorganics"];
    assert "Blank Spike" in req && "Blank Spike" !in ObservedSampleTypes(results, k);
    assert k in ClassGroups(results, "Inorganics");
  }

  /** Row by row over the whole table: a row is reported with its group
      exactly when its class is listed and its (batch, class) group lacks
      one of the sample types listed for that class. */
  lemma {:induction false} RequiredSampletypesReported(results: seq<ChemResult>, table: map<string, set<string>>, i: int)
    requires 0 <= i < |results|
    ensures (exists f :: f in RequiredSampletypeFindings(results, table) && f.key == BatchClassOf(results[i]) && results[i].row in f.badrows)
      <==> results[i].analyteClass in table && !(table[results[i].analyteClass] <= ObservedSampleTypes(results, BatchClassOf(results[i])))
  {
    var c := results[i].analyteClass;
    if exists f :: f in RequiredSampletypeFindings(results, table) && f.key == BatchClassOf(results[i]) && results[i].row in f.badrows {
      var f :| f in RequiredSampletypeFindings(results, table) && f.key == BatchClassOf(results[i]) && results[i].row in f.badrows;
      ReportedGroupLacks(results, table, f);
    }
    if c in table && !(table[c] <= ObservedSampleTypes(results, BatchClassOf(results[i]))) {
      RequiredSampletypesPerRow(results, table[c], c, i);
    }
  }

  /** A reported group belongs to a listed class and lacks one of its types. */
  lemma {:induction false} ReportedGroupLacks(results: seq<ChemResult>, table: map<string, set<string>>, f: GroupFinding<BatchClass>)
    requires f in RequiredSampletypeFindings(results, table)
    ensures f.key.1 in table && !(table[f.key.1] <= ObservedSampleTypes(results, f.key))
  {
    var c :| c in table && f in ChkRequiredSampletypes(results, table[c], c);
    var j :| 0 <= j < |results| && results[j].analyteClass == c && BatchClassOf(results[j]) == f.key;
    assert f.key.1 == c;
    MissingIffNotSubset(table[c]);
  }

  /** The order in which the loop of lines 331-370 visits the classes of
      `required_sampletypes` (a dict keeps insertion order). */
  const SedimentClassOrder: seq<string> :=
    ["Inorganics", "PAH", "PCB", "Chlorinated Hydrocarbons", "PBDE", "Pyrethroid", "FIPRONIL", "TN", "TOC"]

  /** `check_sample_dups`, called at lines 341-342 and 350-351, is defined
      neither in this module nor in chem_functions_custom.py, the module it
      imports every name from. */
  const SampleDupsUndefined := NameError("check_sample_dups")

  /** The loop of lines 331-370 as written: each pass adds the class's
      required-sample-type entries and then calls `check_sample_dups` on
      either branch, so the first pass raises, whatever the data, and the
      errors collected so far are lost with it. */
  function SampletypeLoopAsWritten(results: seq<ChemResult>, order: seq<string>): (r: Result<set<GroupFinding<BatchClass>>>)
    ensures r.Raise? <==> |order| > 0
    ensures r.Raise? ==> r == Raise(SampleDupsUndefined)
    ensures r.Ok? ==> r.value == {}
  {
    if order == [] then Ok({}) else Raise(SampleDupsUndefined)
  }

  /** An inorganics batch without a blank spike: as written the sediment
      module stops at the undefined name before reporting it; with the
      duplicate checks left out, the loop reports its group. */
  lemma {:induction false} SampleDupsHidesMissingBlankSpike(results: seq<ChemResult>, i: int)
    requires 0 <= i < |results| && results[i].analyteClass == "Inorganics"
    requires forall j :: 0 <= j < |results| && BatchClassOf(results[j]) == BatchClassOf(results[i]) ==> results[j].u.sampleType != "Blank Spike"
    ensures SampletypeLoopAsWritten(results, SedimentClassOrder) == Raise(SampleDupsUndefined)
    ensures exists f :: f in RequiredSampletypeFindings(results, SedimentRequiredSampletypes) && results[i].row in f.badrows
    ensures forall c :: c in SedimentClassOrder <==> c in SedimentRequiredSampletypes
  {
    SedimentInorganicsNeedBlankSpike(results, i);
    var f := SampletypeFinding(results, SedimentRequiredSampletypes["Inorganics"], BatchClassOf(results[i]));
    assert results[i].row in f.badrows;
  }

  // ----- Holding times -----

  /** The classes whose samples must be analysed within a year. */
  const HoldingTimeClasses: set<string> :=
    {"Inorganics", "PAH", "PCB", "Chlorinated Hydrocarbons", "PBDE", "Pyrethroid", "FIPRONIL", "TOC", "TN"}

  /** Days from sampling to analysis; both dates are whole days. */
  function HoldingDays(r: ChemResult): int {
    r.u.analysisDate - r.u.sampleDate
  }

  /** The one-year holding time: a row of a listed class analysed 365 days
      or more after it was sampled. */
  function YearHoldingTimeCheck(results: seq<ChemResult>): (a: RowArgs)
    ensures a.badcolumn == "SampleDate, AnalysisDate" && a.errorType == "Sample Past Holding Time"
    ensures forall x :: x in a.badrows <==>
      exists i :: 0 <= i < |results| && results[i].row == x && results[i].analyteClass in HoldingTimeClasses && HoldingDays(results[i]) >= 365
  {
    RowArgs(Select(results, (r: ChemResult) => r.analyteClass in HoldingTimeClasses && HoldingDays(r) >= 365, RowId),
      "SampleDate, AnalysisDate", "Sample Past Holding Time")
  }

  /** The Mercury holding time, six months written as 183 days: a Mercury
      row analysed 183 days or more after it was sampled, whatever its class. */
  function MercuryHoldingTimeCheck(results: seq<ChemResult>): (a: RowArgs)
    ensures a.badcolumn == "SampleDate, AnalysisDate" && a.errorType == "Sample Past Holding Time"
    ensures forall x :: x in a.badrows <==>
      exists i :: 0 <= i < |results| && results[i].row == x && results[i].u.analyte == "Mercury" && HoldingDays(results[i]) >= 183
  {
    RowArgs(Select(results, (r: ChemResult) => r.u.analyte == "Mercury" && HoldingDays(r) >= 183, RowId),
      "SampleDate, AnalysisDate", "Sample Past Holding Time")
  }

  /** The two rules overlap: a Mercury row of a listed class a year old or
      more is flagged by both, so it gets two errors. */
  lemma {:induction false} YearOldMercuryFlaggedTwice(results: seq<ChemResult>, i: int)
    requires 0 <= i < |results| && results[i].u.analyte == "Mercury"
    requires results[i].analyteClass in HoldingTimeClasses && HoldingDays(results[i]) >= 365
    ensures results[i].row in YearHoldingTimeCheck(results).badrows
    ensures results[i].row in MercuryHoldingTimeCheck(results).badrows
  {
  }

  /** Between six months and a year, a Mercury row is flagged by the Mercury
      rule only. */
  lemma {:induction false} HalfYearMercuryFlaggedOnce(results: seq<ChemResult>, i: int)
    requires DistinctRows(results) && 0 <= i < |results| && results[i].u.analyte == "Mercury"
    requires 183 <= HoldingDays(results[i]) < 365
    ensures results[i].row in MercuryHoldingTimeCheck(results).badrows
    ensures results[i].row !in YearHoldingTimeCheck(results).badrows
  {
  }

  // ----- Row rules -----

  datatype Severity = Error | Warning

  /** The row predicates the rule lists draw on. */
  datatype RowCheck =
    | TrueValueNotMissing | TrueValueMissing | NonPositiveResult
    | MdlOverRl | MdlIsRl | NegativeMdl
    | NonDetectWithValue | EstimateOutsideLimits | WrongQualifierCode | NoneNotAboveRl
    | CommentRequired | AnalystErrorNoted
    | UnitsForInorganics | BlankValueBelowMdl | BlankQualifierCode
    | BlankSpike25 | BlankSpike15
    | ReferenceNotSediment
    | PahUnits | PahReferenceUnitsAsWritten | PahReferenceUnits
    | OrganicUnits | OrganicReferenceUnitsAsWritten | OrganicReferenceUnits
    | FipronilPyrethroidUnits
    | NoneBelowRl | ZeroTrueValue

  /** Whether check `c` flags row `r`. */
  predicate Fires(c: RowCheck, r: ChemResult) {
    match c
    case TrueValueNotMissing => TrueValueWithoutSpike(r)
    case TrueValueMissing => SpikeWithoutTrueValue(r)
    case NonPositiveResult => ResultNotPositive(r)
    case MdlOverRl => MdlAboveRl(r)
    case MdlIsRl => MdlEqualsRl(r)
    case NegativeMdl => MdlNegative(r)
    case NonDetectWithValue => LessThanWithValue(r)
    case EstimateOutsideLimits => EstimatedOutOfRange(r)
    case WrongQualifierCode => WrongQualifierAsWritten(r)
    case NoneNotAboveRl => NoneAtOrBelowRl(r)
    case CommentRequired => CommentMissing(r)
    case AnalystErrorNoted => AnalystError(r)
    case UnitsForInorganics => InorganicUnits(r)
    case BlankValueBelowMdl => BlankBelowMdl(r)
    case BlankQualifierCode => BlankQualifier(r)
    case BlankSpike25 => BlankSpikeOff25(r)
    case BlankSpike15 => BlankSpikeOff15(r)
    case ReferenceNotSediment => IsReference(r) && r.u.matrix != "sediment"
    case PahUnits => PahInSediment(r) && !IsReference(r) && r.u.units != "ng/g dw"
    case PahReferenceUnitsAsWritten => PahInSediment(r) && IsReference(r) && r.u.units in PahReferenceUnitSet
    case PahReferenceUnits => PahInSediment(r) && IsReference(r) && r.u.units !in PahReferenceUnitSet
    case OrganicUnits => OrganicInSediment(r) && !IsReference(r) && r.u.units != "ng/g dw"
    case OrganicReferenceUnitsAsWritten => OrganicInSediment(r) && IsReference(r) && r.u.units in OrganicReferenceUnitSet
    case OrganicReferenceUnits => OrganicInSediment(r) && IsReference(r) && r.u.units !in OrganicReferenceUnitSet
    case FipronilPyrethroidUnits =>
      r.u.matrix == "sediment" && r.analyteClass in {"FIPRONIL", "Pyrethroid"} && r.u.units != "ng/g dw"
    case NoneBelowRl => r.u.qualifier == "none" && r.u.result < r.u.rl
    case ZeroTrueValue => r.u.trueValue == 0.0
  }

  /** PAH in the sediment matrix (lab water excluded, unlike the QA tables). */
  predicate PahInSediment(r: ChemResult) {
    r.u.matrix == "sediment" && r.analyteClass == "PAH"
  }

  /** Chlorinated hydrocarbons, PBDE and PCB in the sediment matrix. */
  predicate OrganicInSediment(r: ChemResult) {
    r.u.matrix == "sediment" && r.analyteClass in {"Chlorinated Hydrocarbons", "PBDE", "PCB"}
  }

  /** The units the messages allow for PAH reference materials. */
  const PahReferenceUnitSet: set<string> := {"ug/g dw", "mg/kg dw"}

  /** The units the messages allow for organic reference materials. */
  const OrganicReferenceUnitSet: set<string> := {"ng/g dw", "ug/kg dw"}

  /** One row-level rule: the rows it flags, the column it names, and
      whether its finding joins the errors or the warnings. */
  datatype RowRule = RowRule(check: RowCheck, badcolumn: string, severity: Severity)

  /** The rule's `checkData` arguments: every flagged row's `tmp_row`. */
  function ApplyRule(results: seq<ChemResult>, rule: RowRule): (a: RowArgs)
    ensures a.badcolumn == rule.badcolumn && a.errorType == "Value Error"
    ensures forall x :: x in a.badrows <==> exists i :: 0 <= i < |results| && results[i].row == x && Fires(rule.check, results[i])
    ensures a.badrows == [] <==> forall i :: 0 <= i < |results| ==> !Fires(rule.check, results[i])
  {
    RowArgs(Select(results, (r: ChemResult) => Fires(rule.check, r), RowId), rule.badcolumn, "Value Error")
  }

  predicate AnalystError(r: ChemResult) {
    r.u.qualifier == "analyst error"
  }

  /** The row rules the sediment and tissue modules share, in order. */
  const SharedRowRules: seq<RowRule> := [
    RowRule(TrueValueNotMissing, "TrueValue", Warning),
    RowRule(TrueValueMissing, "TrueValue", Warning),
    RowRule(NonPositiveResult, "Result", Error),
    RowRule(MdlOverRl, "MDL", Error),
    RowRule(MdlIsRl, "MDL", Warning),
    RowRule(NegativeMdl, "MDL", Error),
    RowRule(NonDetectWithValue, "Qualifier, Result", Error),
    RowRule(EstimateOutsideLimits, "Qualifier, Result", Error),
    RowRule(WrongQualifierCode, "Qualifier", Error),
    RowRule(NoneNotAboveRl, "Qualifier, Result", Error),
    RowRule(CommentRequired, "Comments", Error),
    RowRule(AnalystErrorNoted, "Qualifier", Warning)
  ]

  /** Inorganics must be in ug/g dw; reference materials may also use mg/kg dw. */
  predicate InorganicUnits(r: ChemResult) {
    r.analyteClass == "Inorganics" &&
    if IsReference(r) then r.u.units !in {"mg/kg dw", "ug/g dw"} else r.u.units != "ug/g dw"
  }

  /** The analysis methods whose blank spikes must recover within 15%. */
  const Methods15: set<string> := {"CVAA", "FAA", "GFAA", "HAA", "EPA245.7m", "EPA245.5", "EPA7473", "SW846 7471", "EPA7471B"}

  /** A blank spike recovering outside 100 +/- 25 percent. */
  predicate BlankSpikeOff25(r: ChemResult) {
    r.u.sampleType == "Blank spiked" && AbsReal(r.percentRecovery - 100.0) > 25.0
  }

  /** The same, for the methods held to 15 percent. */
  predicate BlankSpikeOff15(r: ChemResult) {
    r.u.sampleType == "Blank spiked" && r.u.analysisMethod in Methods15 && AbsReal(r.percentRecovery - 100.0) > 15.0
  }

  /** The unit, method-blank and matrix rules both modules apply after the
      shared ones, as written: the two reference-material unit rules flag
      the units their messages allow, and the FIPRONIL/Pyrethroid units
      finding is built but never appended, so it is not in the list. */
  const UnitRulesAsWritten: seq<RowRule> := [
    RowRule(UnitsForInorganics, "Units", Error),
    RowRule(BlankValueBelowMdl, "Result", Error),
    RowRule(BlankQualifierCode, "Qualifier", Error),
    RowRule(ReferenceNotSediment, "SampleType, Matrix", Error),
    RowRule(PahUnits, "Units", Error),
    RowRule(PahReferenceUnitsAsWritten, "Units", Error),
    RowRule(OrganicUnits, "Units", Error),
    RowRule(OrganicReferenceUnitsAsWritten, "Units", Error)
  ]

  /** The same rules as their messages state them. */
  const UnitRules: seq<RowRule> := [
    RowRule(UnitsForInorganics, "Units", Error),
    RowRule(BlankValueBelowMdl, "Result", Error),
    RowRule(BlankQualifierCode, "Qualifier", Error),
    RowRule(ReferenceNotSediment, "SampleType, Matrix", Error),
    RowRule(PahUnits, "Units", Error),
    RowRule(PahReferenceUnits, "Units", Error),
    RowRule(OrganicUnits, "Units", Error),
    RowRule(OrganicReferenceUnits, "Units", Error),
    RowRule(FipronilPyrethroidUnits, "Units", Error)
  ]

  /** The blank-spike recovery rules of the sediment QA tables (warnings). */
  const BlankSpikeRules: seq<RowRule> := [
    RowRule(BlankSpike25, "Result", Warning),
    RowRule(BlankSpike15, "Result", Warning)
  ]

  /** The arguments of the rules of one severity, in list order. */
  function ArgsOf(results: seq<ChemResult>, rules: seq<RowRule>, sev: Severity): (args: seq<RowArgs>)
    ensures forall a :: a in args <==> exists k :: 0 <= k < |rules| && rules[k].severity == sev && a == ApplyRule(results, rules[k])
  {
    if |rules| == 0 then []
    else
      var rest := ArgsOf(results, rules[1..], sev);
      assert forall k :: 1 <= k < |rules| ==> rules[k] == rules[1..][k - 1];
      (if rules[0].severity == sev then [ApplyRule(results, rules[0])] else []) + rest
  }

  /** Every rule's arguments, sorted into errors and warnings by severity. */
  function RunRowRules(results: seq<ChemResult>, rules: seq<RowRule>): (out: (seq<RowArgs>, seq<RowArgs>))
    ensures forall a :: a in out.0 <==> exists k :: 0 <= k < |rules| && rules[k].severity == Error && a == ApplyRule(results, rules[k])
    ensures forall a :: a in out.1 <==> exists k :: 0 <= k < |rules| && rules[k].severity == Warning && a == ApplyRule(results, rules[k])
  {
    (ArgsOf(results, rules, Error), ArgsOf(results, rules, Warning))
  }

  /** A row that no rule flags appears in no finding (row ids being unique). */
  lemma {:induction false} UnflaggedRowNotReported(results: seq<ChemResult>, rules: seq<RowRule>, i: int)
    requires DistinctRows(results) && 0 <= i < |results|
    requires forall k :: 0 <= k < |rules| ==> !Fires(rules[k].check, results[i])
    ensures forall a :: a in RunRowRules(results, rules).0 ==> results[i].row !in a.badrows
    ensures forall a :: a in RunRowRules(results, rules).1 ==> results[i].row !in a.badrows
  {
    var out := RunRowRules(results, rules);
    forall a | a in out.0 + out.1 ensures results[i].row !in a.badrows {
      var k :| 0 <= k < |rules| && a == ApplyRule(results, rules[k]);
      forall j | 0 <= j < |results| && results[j].row == results[i].row ensures !Fires(rules[k].check, results[j]) {
        assert j == i;
      }
    }
  }

  /** With 0 <= MDL <= RL, a row whose qualifier breaks its promise is
      rejected: some error finding of the shared rules holds its row. (The
      wrong-qualifier rule is never the only one to fire under these limits.) */
  lemma {:induction false} BrokenQualifierPromiseRejected(results: seq<ChemResult>, i: int)
    requires 0 <= i < |results| && 0.0 <= results[i].u.mdl <= results[i].u.rl
    requires !QualifierPromiseHolds(results[i].u.qualifier, results[i].u.result, results[i].u.mdl, results[i].u.rl)
    ensures exists a :: a in RunRowRules(results, SharedRowRules).0 && results[i].row in a.badrows
  {
    var r := results[i];
    QualifierRulesMeaning(r);
    var rule: RowRule;
    if LessThanWithValue(r) {
      rule := SharedRowRules[6];
    } else if EstimatedOutOfRange(r) {
      rule := SharedRowRules[7];
    } else {
      rule := SharedRowRules[9];
    }
    assert rule in SharedRowRules && Fires(rule.check, r) && rule.severity == Error;
    FlaggedRowReported(results, SharedRowRules, rule, i);
  }

  /** A row flagged by an error rule of the list is in that rule's error finding. */
  lemma {:induction false} FlaggedRowReported(results: seq<ChemResult>, rules: seq<RowRule>, rule: RowRule, i: int)
    requires 0 <= i < |results| && rule in rules && rule.severity == Error && Fires(rule.check, results[i])
    ensures exists a :: a in RunRowRules(results, rules).0 && results[i].row in a.badrows
  {
    var a := ApplyRule(results, rule);
    assert results[i].row in a.badrows;
    var k :| 0 <= k < |rules| && rules[k] == rule;
    assert a in RunRowRules(results, rules).0;
  }

  /** A row flagged by a warning rule of the list is in that rule's warning finding. */
  lemma {:induction false} FlaggedRowWarned(results: seq<ChemResult>, rules: seq<RowRule>, rule: RowRule, i: int)
    requires 0 <= i < |results| && rule in rules && rule.severity == Warning && Fires(rule.check, results[i])
    ensures exists a :: a in RunRowRules(results, rules).1 && results[i].row in a.badrows
  {
    var a := ApplyRule(results, rule);
    assert results[i].row in a.badrows;
    var k :| 0 <= k < |rules| && rules[k] == rule;
    assert a in RunRowRules(results, rules).1;
  }

  /** A row in some finding of one severity was flagged by a rule of that
      severity in the list. */
  lemma {:induction false} ReportedRowFires(results: seq<ChemResult>, rules: seq<RowRule>, sev: Severity, x: int) returns (k: int, j: int)
    requires exists a :: a in ArgsOf(results, rules, sev) && x in a.badrows
    ensures 0 <= k < |rules| && rules[k].severity == sev
    ensures 0 <= j < |results| && results[j].row == x && Fires(rules[k].check, results[j])
  {
    var a :| a in ArgsOf(results, rules, sev) && x in a.badrows;
    k :| 0 <= k < |rules| && rules[k].severity == sev && a == ApplyRule(results, rules[k]);
    j :| 0 <= j < |results| && results[j].row == x && Fires(rules[k].check, results[j]);
  }

  // ----- Table 5-3: inorganics in sediment and lab water -----

  predicate InorganicSediment(r: ChemResult) {
    r.analyteClass == "Inorganics" && r.u.matrix in {"sediment", "labwater"}
  }

  /** `sampletype.str.contains('Matrix spike', case=False)`. */
  predicate IsMatrixSpike(r: ChemResult) {
    ContainsIgnoreCase(r.u.sampleType, "matrix spike")
  }

  function BatchOf(r: ChemResult): string {
    r.u.batch
  }

  /** Check #3: an inorganic reference material outside its certified range
      (both bounds inclusive); analytes without a range are not checked. */
  function CrmRangeCheck(results: seq<ChemResult>, crm: map<string, (real, real)>): (a: RowArgs)
    ensures a.badcolumn == "Result" && a.errorType == "Value Error"
    ensures forall x :: x in a.badrows <==> exists i :: 0 <= i < |results| && results[i].row == x && CrmOutOfRange(crm, results[i])
  {
    RowArgs(Select(results, (r: ChemResult) => CrmOutOfRange(crm, r), RowId), "Result", "Value Error")
  }

  /** An inorganic reference row whose result lies outside the closed range
      certified for its analyte. */
  predicate CrmOutOfRange(crm: map<string, (real, real)>, r: ChemResult) {
    InorganicSediment(r) && IsReference(r) && r.u.analyte in crm &&
    !(crm[r.u.analyte].0 <= r.u.result <= crm[r.u.analyte].1)
  }

  predicate SpikeInScope(r: ChemResult) {
    InorganicSediment(r) && IsMatrixSpike(r)
  }

  /** `all(lo < pr < hi)` over the matrix spikes of batch `b` with lab
      replicate `rep`; true when there are none. */
  predicate ReplicateWithin(results: seq<ChemResult>, b: string, rep: int, lo: real, hi: real) {
    forall i :: 0 <= i < |results| && SpikeInScope(results[i]) && results[i].u.batch == b && results[i].u.labReplicate == rep ==>
      lo < results[i].percentRecovery < hi
  }

  /** Check #4 passes a batch when either replicate set is wholly within
      (70, 130); check #4a needs both within (80, 120). */
  predicate SpikeBatchPasses(results: seq<ChemResult>, b: string, lo: real, hi: real, both: bool) {
    if both then ReplicateWithin(results, b, 1, lo, hi) && ReplicateWithin(results, b, 2, lo, hi)
    else ReplicateWithin(results, b, 1, lo, hi) || ReplicateWithin(results, b, 2, lo, hi)
  }

  /** The batches with an in-scope matrix spike: the groups of the check. */
  function SpikeBatches(results: seq<ChemResult>): (bs: set<string>)
    ensures forall b :: b in bs <==> exists i :: 0 <= i < |results| && SpikeInScope(results[i]) && results[i].u.batch == b
  {
    GroupKeys(results, SpikeInScope, BatchOf)
  }

  predicate SpikeRowFails(results: seq<ChemResult>, r: ChemResult, lo: real, hi: real, both: bool) {
    r.u.batch in SpikeBatches(results) && IsMatrixSpike(r) &&
    !SpikeBatchPasses(results, r.u.batch, lo, hi, both) && (r.percentRecovery < lo || r.percentRecovery > hi)
  }

  /** Checks #4 and #4a: in a failing batch, every matrix-spike row of the
      whole table (of any class or matrix) whose recovery lies outside
      [lo, hi]. */
  function SpikeRecoveryCheck(results: seq<ChemResult>, lo: real, hi: real, both: bool): (a: RowArgs)
    ensures a.badcolumn == "Result" && a.errorType == "Value Error"
    ensures forall x :: x in a.badrows <==> exists i :: 0 <= i < |results| && results[i].row == x && SpikeRowFails(results, results[i], lo, hi, both)
  {
    RowArgs(Select(results, (r: ChemResult) => SpikeRowFails(results, r, lo, hi, both), RowId), "Result", "Value Error")
  }

  /** A batch passing the 20% test passes the 30% test. */
  lemma {:induction false} TwentyPercentImpliesThirty(results: seq<ChemResult>, b: string)
    requires SpikeBatchPasses(results, b, 80.0, 120.0, true)
    ensures SpikeBatchPasses(results, b, 70.0, 130.0, false)
  {
    forall i | 0 <= i < |results| && SpikeInScope(results[i]) && results[i].u.batch == b && results[i].u.labReplicate == 1
      ensures 70.0 < results[i].percentRecovery < 130.0
    {
      assert 80.0 < results[i].percentRecovery < 120.0;
    }
  }

  /** A batch without replicate-1 spikes passes the 30% test whatever its
      replicate-2 spikes recovered (`all([])` is true). */
  lemma {:induction false} MissingReplicatePasses(results: seq<ChemResult>, b: string)
    requires forall i :: 0 <= i < |results| && SpikeInScope(results[i]) && results[i].u.batch == b ==> results[i].u.labReplicate != 1
    ensures SpikeBatchPasses(results, b, 70.0, 130.0, false)
  {
  }

  /** (analysisbatchid, analysismethod, sampletype, analytename, sampleid). */
  type RpdKey = (string, string, string, string, string)

  function RpdKeyOf(r: ChemResult): RpdKey {
    (r.u.batch, r.u.analysisMethod, r.u.sampleType, r.u.analyte, r.u.sampleId)
  }

  predicate RpdScope(r: ChemResult) {
    InorganicSediment(r) && r.u.sampleType in {"Matrix spike", "Result"}
  }

  /** The methods held to 20% RPD; every other method is held to 30%. */
  const Methods20: set<string> := {"ICPAES", "EPA200.7", "EPA 6010B"}

  /** The RPD of the results of one group (NaN for a key with no rows). */
  function GroupRpd(results: seq<ChemResult>, k: RpdKey): Float {
    var xs := Column(Members(results, RpdScope, RpdKeyOf, k), ResultOf);
    if |xs| == 0 then NaN else Rpd(xs)
  }

  /** `(rpd >= .20 and method in methods_20rpd) or rpd >= .30`. */
  predicate RpdFails(q: Float, m: string) {
    (Ge(q, 0.20) && m in Methods20) || Ge(q, 0.30)
  }

  /** The threshold decides by method: 20% for the listed methods, 30%
      otherwise. */
  lemma {:induction false} RpdThresholdByMethod(q: Float, m: string)
    ensures RpdFails(q, m) <==> Ge(q, if m in Methods20 then 0.20 else 0.30)
  {
  }

  predicate RpdRowFails(results: seq<ChemResult>, r: ChemResult, m: string) {
    RpdScope(r) && r.u.analysisMethod == m && RpdFails(GroupRpd(results, RpdKeyOf(r)), m)
  }

  /** The entry for one message, i.e. one method: the in-scope rows of that
      method whose group fails. */
  function RpdFinding(results: seq<ChemResult>, m: string): (f: GroupFinding<string>)
    ensures f.key == m && f.badcolumn == "Result" && f.errorType == "Value Error"
    ensures forall x :: x in f.badrows <==> exists i :: 0 <= i < |results| && results[i].row == x && RpdRowFails(results, results[i], m)
  {
    GroupFinding(m, {}, Select(results, (r: ChemResult) => RpdRowFails(results, r, m), RowId), "Result", "Value Error")
  }

  /** Checks #5 and #6: the failing groups' rows, one entry per method
      (the message names the method and its threshold). */
  function InorganicRpdCheck(results: seq<ChemResult>): (args: set<GroupFinding<string>>)
    ensures forall f :: f in args ==> f == RpdFinding(results, f.key) && f.badrows != []
    ensures forall i :: 0 <= i < |results| && RpdRowFails(results, results[i], results[i].u.analysisMethod) ==>
      RpdFinding(results, results[i].u.analysisMethod) in args
    ensures args == {} <==> forall i :: 0 <= i < |results| ==> !RpdRowFails(results, results[i], results[i].u.analysisMethod)
  {
    var fails := (r: ChemResult) => RpdRowFails(results, r, r.u.analysisMethod);
    var args := KeyedFindings(results, fails, (r: ChemResult) => r.u.analysisMethod, (m: string) => RpdFinding(results, m));
    forall f | f in args ensures f.badrows != [] {
      var i :| 0 <= i < |results| && RpdRowFails(results, results[i], results[i].u.analysisMethod) && f == RpdFinding(results, results[i].u.analysisMethod);
      RpdFindingHasRow(results, i);
    }
    args
  }

  /** A failing row is among its method's reported rows. */
  lemma {:induction false} RpdFindingHasRow(results: seq<ChemResult>, i: int)
    requires 0 <= i < |results| && RpdRowFails(results, results[i], results[i].u.analysisMethod)
    ensures results[i].row in RpdFinding(results, results[i].u.analysisMethod).badrows
  {
  }

  /** A duplicate pair of 1.0 and 1.25 has an RPD of 2/9: a failure for an
      ICPAES analysis and a pass for an ICPMS one. */
  lemma {:induction false} RpdOfDuplicatePair()
    ensures Rpd([1.0, 1.25]) == Finite(2.0 / 9.0)
    ensures RpdFails(Rpd([1.0, 1.25]), "ICPAES") && !RpdFails(Rpd([1.0, 1.25]), "ICPMS")
  {
    assert Max([1.0, 1.25]) == 1.25 by { assert Max([1.0, 1.25][1..]) == 1.25; }
    assert Min([1.0, 1.25]) == 1.0 by { assert Min([1.0, 1.25][1..]) == 1.25; }
  }

  // ----- Table 5-4: PAH in sediment and lab water -----

  predicate PahSediment(r: ChemResult) {
    r.analyteClass == "PAH" && r.u.matrix in {"sediment", "labwater"}
  }

  predicate PahSpike(r: ChemResult) {
    PahSediment(r) && IsMatrixSpike(r)
  }

  /** (analysisbatchid, sampleid, labreplicate). */
  type SpikeSampleKey = (string, string, int)

  function SpikeSampleKeyOf(r: ChemResult): SpikeSampleKey {
    (r.u.batch, r.u.sampleId, r.u.labReplicate)
  }

  function RecoveredWithin40(r: ChemResult): bool {
    60.0 < r.percentRecovery < 140.0
  }

  /** A spike sample fails when fewer than 80% of its analytes recovered
      within (60, 140); only keys with PAH spike rows are groups. */
  predicate SpikeSampleFails(results: seq<ChemResult>, k: SpikeSampleKey) {
    var flags := Column(Members(results, PahSpike, SpikeSampleKeyOf, k), RecoveredWithin40);
    |flags| >= 1 && !FractionAtLeast(flags, 0.8)
  }

  predicate PahSpikeRowFails(results: seq<ChemResult>, r: ChemResult) {
    IsMatrixSpike(r) && SpikeSampleFails(results, SpikeSampleKeyOf(r)) && (r.percentRecovery < 60.0 || r.percentRecovery > 140.0)
  }

  /** Check #3: the matrix-spike rows of the whole table that share a failing
      sample's key and recovered below 60 or above 140. */
  function PahSpikeRecoveryCheck(results: seq<ChemResult>): (a: RowArgs)
    ensures a.badcolumn == "AnalysisBatchID, SampleType, SampleID, LabReplicate, Result" && a.errorType == "Value Error"
    ensures forall x :: x in a.badrows <==> exists i :: 0 <= i < |results| && results[i].row == x && PahSpikeRowFails(results, results[i])
  {
    RowArgs(Select(results, (r: ChemResult) => PahSpikeRowFails(results, r), RowId),
            "AnalysisBatchID, SampleType, SampleID, LabReplicate, Result", "Value Error")
  }

  /** A spike sample whose analytes all recovered within (60, 140) passes. */
  lemma {:induction false} WellRecoveredSamplePasses(results: seq<ChemResult>, k: SpikeSampleKey)
    requires forall i :: 0 <= i < |results| && PahSpike(results[i]) && SpikeSampleKeyOf(results[i]) == k ==> RecoveredWithin40(results[i])
    ensures !SpikeSampleFails(results, k)
  {
    var g := Members(results, PahSpike, SpikeSampleKeyOf, k);
    var flags := Column(g, RecoveredWithin40);
    if |flags| >= 1 {
      forall j | 0 <= j < |flags| ensures flags[j] {
        assert g[j] in results;
        var i :| 0 <= i < |results| && results[i] == g[j];
      }
      FractionOfAllPassing(flags, 0.8);
    }
  }

  /** A recovery of exactly 60 counts against its sample but is not itself
      reported: a lone spike at 60 fails the sample and yields no row. */
  lemma {:induction false} BoundaryRecoveryUnreported(r: ChemResult)
    requires PahSpike(r) && r.percentRecovery == 60.0
    ensures SpikeSampleFails([r], SpikeSampleKeyOf(r))
    ensures !PahSpikeRowFails([r], r)
  {
    var g := Members([r], PahSpike, SpikeSampleKeyOf, SpikeSampleKeyOf(r));
    assert Members([r][1..], PahSpike, SpikeSampleKeyOf, SpikeSampleKeyOf(r)) == [];
    assert g == [r];
    var flags := Column(g, RecoveredWithin40);
    assert flags == [false];
    assert CountTrue(flags) == 0;
  }

  /** (analysisbatchid, analytename, sampleid): a duplicate-spike pair. */
  type DuplicateKey = (string, string, string)

  function DuplicateKeyOf(r: ChemResult): DuplicateKey {
    (r.u.batch, r.u.analyte, r.u.sampleId)
  }

  /** The pair's RPD is at most 40%; NaN (a pair of zeros) is not. */
  predicate DuplicateAgrees(results: seq<ChemResult>, k: DuplicateKey) {
    var xs := Column(Members(results, PahSpike, DuplicateKeyOf, k), ResultOf);
    |xs| >= 1 && Le(Rpd(xs), 0.4)
  }

  /** The duplicate pairs of batch `b`. */
  function BatchDuplicates(results: seq<ChemResult>, b: string): (ks: set<DuplicateKey>)
    ensures forall k :: k in ks <==> exists i :: 0 <= i < |results| && PahSpike(results[i]) && results[i].u.batch == b && DuplicateKeyOf(results[i]) == k
  {
    set i | 0 <= i < |results| && PahSpike(results[i]) && results[i].u.batch == b :: DuplicateKeyOf(results[i])
  }

  /** The pairs of batch `b` that agree within 40%. */
  function AgreeingDuplicates(results: seq<ChemResult>, b: string): (ks: set<DuplicateKey>)
    ensures ks <= BatchDuplicates(results, b)
    ensures forall k :: k in ks <==> k in BatchDuplicates(results, b) && DuplicateAgrees(results, k)
  {
    set k | k in BatchDuplicates(results, b) && DuplicateAgrees(results, k)
  }

  /** A batch fails when fewer than 70% of its pairs agree within 40%. */
  predicate BatchDuplicatesFail(results: seq<ChemResult>, b: string) {
    var ks := BatchDuplicates(results, b);
    |ks| >= 1 && (|AgreeingDuplicates(results, b)| as real) / (|ks| as real) < 0.7
  }

  predicate PahDuplicateRowFails(results: seq<ChemResult>, r: ChemResult) {
    PahSpike(r) && BatchDuplicatesFail(results, r.u.batch)
  }

  /** Check #4: every PAH matrix-spike row of a failing batch. */
  function PahDuplicateRpdCheck(results: seq<ChemResult>): (a: RowArgs)
    ensures a.badcolumn == "Result" && a.errorType == "Value Error"
    ensures forall x :: x in a.badrows <==> exists i :: 0 <= i < |results| && results[i].row == x && PahDuplicateRowFails(results, results[i])
  {
    RowArgs(Select(results, (r: ChemResult) => PahDuplicateRowFails(results, r), RowId), "Result", "Value Error")
  }

  /** A batch whose duplicate pairs all agree within 40% is not reported. */
  lemma {:induction false} AgreeingBatchPasses(results: seq<ChemResult>, b: string)
    requires forall k :: k in BatchDuplicates(results, b) ==> DuplicateAgrees(results, k)
    ensures !BatchDuplicatesFail(results, b)
  {
    var ks := BatchDuplicates(results, b);
    var agree := AgreeingDuplicates(results, b);
    assert agree == ks;
    if |ks| >= 1 {
      WholeFraction(|ks|);
    }
  }

  /** A reference row of the merge: PAH in sediment, reference material, and
      an analyte listed in the CRM table. */
  predicate CrmMerged(crm: map<string, Option<real>>, r: ChemResult) {
    PahSediment(r) && IsReference(r) && r.u.analyte in crm
  }

  /** Within 40% of the certified value; a null CRM value counts as within. */
  predicate Within40(result: real, c: Option<real>) {
    c.None? || 0.6 * c.value <= result <= 1.4 * c.value
  }

  function Within40Flag(crm: map<string, Option<real>>, r: ChemResult): bool {
    r.u.analyte in crm && Within40(r.u.result, crm[r.u.analyte])
  }

  /** A batch fails when fewer than 80% of its merged reference rows are
      within 40% of the CRM value. */
  predicate BatchCrmFails(results: seq<ChemResult>, crm: map<string, Option<real>>, b: string) {
    var flags := Column(Members(results, (r: ChemResult) => CrmMerged(crm, r), BatchOf, b), (r: ChemResult) => Within40Flag(crm, r));
    |flags| >= 1 && !FractionAtLeast(flags, 0.8)
  }

  predicate CrmRowFails(results: seq<ChemResult>, crm: map<string, Option<real>>, r: ChemResult) {
    CrmMerged(crm, r) && BatchCrmFails(results, crm, r.u.batch)
  }

  /** Check #5: every merged reference row of a failing batch. */
  function PahCrmCheck(results: seq<ChemResult>, crm: map<string, Option<real>>): (a: RowArgs)
    ensures a.badcolumn == "AnalysisBatchID" && a.errorType == "Value Error"
    ensures forall x :: x in a.badrows <==> exists i :: 0 <= i < |results| && results[i].row == x && CrmRowFails(results, crm, results[i])
  {
    RowArgs(Select(results, (r: ChemResult) => CrmRowFails(results, crm, r), RowId), "AnalysisBatchID", "Value Error")
  }

  /** A batch whose reference rows are all within 40% (or have no CRM
      value) is not reported. */
  lemma {:induction false} AccurateReferencesPass(results: seq<ChemResult>, crm: map<string, Option<real>>, b: string)
    requires forall i :: 0 <= i < |results| && CrmMerged(crm, results[i]) && results[i].u.batch == b ==> Within40(results[i].u.result, crm[results[i].u.analyte])
    ensures !BatchCrmFails(results, crm, b)
  {
    var g := Members(results, (r: ChemResult) => CrmMerged(crm, r), BatchOf, b);
    var flags := Column(g, (r: ChemResult) => Within40Flag(crm, r));
    if |flags| >= 1 {
      forall j | 0 <= j < |flags| ensures flags[j] {
        assert g[j] in results;
        var i :| 0 <= i < |results| && results[i] == g[j];
      }
      FractionOfAllPassing(flags, 0.8);
    }
  }

  /** As written, a PAH reference material reported in mg/kg dw, a unit its
      message allows, is rejected, and one in ng/g dw is not. */
  lemma {:induction false} ReferenceUnitsInvertedAsWritten(r: ChemResult)
    requires PahInSediment(r) && IsReference(r)
    ensures r.u.units == "mg/kg dw" ==> Fires(PahReferenceUnitsAsWritten, r)
    ensures r.u.units == "ng/g dw" ==> !Fires(PahReferenceUnitsAsWritten, r)
  {
  }

  /** Corrected, a reference material is rejected exactly when its units are
      outside the set its message allows; the corrected rule and the written
      one flag complementary sets of reference rows. */
  lemma {:induction false} ReferenceUnitsCorrected(r: ChemResult)
    requires IsReference(r)
    ensures PahInSediment(r) ==> (Fires(PahReferenceUnits, r) <==> r.u.units !in PahReferenceUnitSet)
    ensures OrganicInSediment(r) ==> (Fires(OrganicReferenceUnits, r) <==> r.u.units !in OrganicReferenceUnitSet)
    ensures PahInSediment(r) ==> (Fires(PahReferenceUnits, r) <==> !Fires(PahReferenceUnitsAsWritten, r))
    ensures OrganicInSediment(r) ==> (Fires(OrganicReferenceUnits, r) <==> !Fires(OrganicReferenceUnitsAsWritten, r))
  {
  }

  /** As written no rule of the list checks FIPRONIL/Pyrethroid units: a
      sediment sample of those classes, whatever its units, is in no unit
      finding. */
  lemma {:induction false} FipronilUnitsNeverReported(results: seq<ChemResult>, i: int)
    requires DistinctRows(results) && 0 <= i < |results|
    requires results[i].u.matrix == "sediment" && results[i].analyteClass in {"FIPRONIL", "Pyrethroid"}
    requires !IsReference(results[i]) && results[i].u.sampleType != "Method blank"
    ensures forall a :: a in RunRowRules(results, UnitRulesAsWritten).0 ==> results[i].row !in a.badrows
  {
    var r := results[i];
    assert r.analyteClass != "Inorganics" && r.analyteClass != "PAH";
    assert !OrganicInSediment(r);
    forall k | 0 <= k < |UnitRulesAsWritten| ensures !Fires(UnitRulesAsWritten[k].check, r) {
    }
    UnflaggedRowNotReported(results, UnitRulesAsWritten, i);
  }

  /** Corrected, a FIPRONIL or Pyrethroid sediment row not in ng/g dw is in an
      error finding. */
  lemma {:induction false} FipronilUnitsReported(results: seq<ChemResult>, i: int)
    requires 0 <= i < |results| && results[i].u.matrix == "sediment"
    requires results[i].analyteClass in {"FIPRONIL", "Pyrethroid"} && results[i].u.units != "ng/g dw"
    ensures exists a :: a in RunRowRules(results, UnitRules).0 && results[i].row in a.badrows
  {
    var rule := UnitRules[8];
    assert rule in UnitRules && Fires(rule.check, results[i]) && rule.severity == Error;
    FlaggedRowReported(results, UnitRules, rule, i);
  }
}

=== FILE: chemistry_intercal.dfy ===
/** The intercalibration chemistry rule module,
    proj/custom/chemistry_intercal_custom.py.

    It has no logic check, no grain-size branch and no QA tables: it prepares
    the rows like the other two modules, except that percent recovery is
    guarded against a zero TrueValue, and then runs one list of row rules.
    Against the shared sediment/tissue list it demotes the non-detect,
    estimate and comment rules to warnings, lets a 'none' result equal to
    the RL through, and adds an error for a zero TrueValue.
 */
module ChemistryIntercal {
  import opened Wrappers
  import opened Numeric
  import opened ChemTables
  import opened Chemistry

  /** Percent recovery of the intercalibration module: computed only for a
      spike or reference material with a non-zero TrueValue, -88 otherwise. */
  function GuardedRecovery(u: Upload): (pr: real)
    ensures IsSpikeOrReference(u.sampleType) && u.trueValue != 0.0 ==> pr * u.trueValue == u.result * 100.0
    ensures !IsSpikeOrReference(u.sampleType) || u.trueValue == 0.0 ==> pr == Missing
  {
    if IsSpikeOrReference(u.sampleType) && u.trueValue != 0.0 then u.result / u.trueValue * 100.0 else Missing
  }

  /** Wherever the unguarded computation succeeds the two agree; where it
      raises, the guarded one yields -88. */
  lemma {:induction false} GuardedRecoveryAgrees(u: Upload)
    ensures PercentRecovery(u).Ok? ==> GuardedRecovery(u) == PercentRecovery(u).value
    ensures PercentRecovery(u).Raise? ==> GuardedRecovery(u) == Missing
  {
  }

  /** Each prepared row carries its upload, its class and the guarded recovery. */
  ghost predicate IntercalRowsFaithful(uploads: seq<Upload>, classes: map<string, string>, rs: seq<ChemResult>) {
    forall j :: 0 <= j < |rs| ==>
      && 0 <= rs[j].row < |uploads|
      && rs[j].u == uploads[rs[j].row]
      && rs[j].u.analyte in classes
      && rs[j].analyteClass == classes[rs[j].u.analyte]
      && rs[j].percentRecovery == GuardedRecovery(rs[j].u)
  }

  /** The rows from position `start` on that survive the lookup join. */
  function IntercalKept(uploads: seq<Upload>, classes: map<string, string>, start: nat): (rs: seq<ChemResult>)
    requires start <= |uploads|
    ensures IntercalRowsFaithful(uploads, classes, rs) && Ascending(rs)
    ensures forall j :: 0 <= j < |rs| ==> start <= rs[j].row
    ensures forall i :: start <= i < |uploads| ==>
      (uploads[i].analyte in classes <==> exists j :: 0 <= j < |rs| && rs[j].row == i)
    decreases |uploads| - start
  {
    if start == |uploads| then []
    else
      var rest := IntercalKept(uploads, classes, start + 1);
      var u := uploads[start];
      if u.analyte !in classes then rest
      else
        var rs := [ChemResult(start, classes[u.analyte], GuardedRecovery(u), u)] + rest;
        IntercalKeptCons(uploads, classes, start, rs[0], rest);
        rs
  }

  lemma {:induction false} IntercalKeptCons(uploads: seq<Upload>, classes: map<string, string>, start: nat, head: ChemResult, rest: seq<ChemResult>)
    requires start < |uploads| && head.row == start && head.u == uploads[start]
    requires IntercalRowsFaithful(uploads, classes, [head]) && Ascending(rest)
    requires IntercalRowsFaithful(uploads, classes, rest)
    requires forall j :: 0 <= j < |rest| ==> start + 1 <= rest[j].row
    requires forall i :: start + 1 <= i < |uploads| ==>
      (uploads[i].analyte in classes <==> exists j :: 0 <= j < |rest| && rest[j].row == i)
    ensures IntercalRowsFaithful(uploads, classes, [head] + rest) && Ascending([head] + rest)
    ensures forall i :: start <= i < |uploads| ==>
      (uploads[i].analyte in classes <==> exists j :: 0 <= j < |[head] + rest| && ([head] + rest)[j].row == i)
  {
    IntercalKeptConsOrdered(uploads, classes, start, head, rest);
    assert [head][0] == head;
    KeptConsCovers(uploads, classes, start, head, rest);
  }

  lemma {:induction false} IntercalKeptConsOrdered(uploads: seq<Upload>, classes: map<string, string>, start: nat, head: ChemResult, rest: seq<ChemResult>)
    requires head.row == start
    requires IntercalRowsFaithful(uploads, classes, [head]) && Ascending(rest)
    requires IntercalRowsFaithful(uploads, classes, rest)
    requires forall j :: 0 <= j < |rest| ==> start + 1 <= rest[j].row
    ensures IntercalRowsFaithful(uploads, classes, [head] + rest) && Ascending([head] + rest)
  {
    var rs := [head] + rest;
    assert forall j :: 1 <= j < |rs| ==> rs[j] == rest[j - 1];
  }

  /** The preparation of the intercalibration module. No TrueValue makes it
      raise: every upload row with a known analyte is kept, in upload order.
      A merge that keeps no row raises as in the other two modules, because
      the recovery is assigned the same way. */
  function IntercalPrepare(uploads: seq<Upload>, classes: map<string, string>): (r: Result<seq<ChemResult>>)
    ensures r.Raise? <==> NoneKept(uploads, classes)
    ensures r.Raise? ==> r == Raise(RecoveryAssignError)
    ensures r.Ok? ==> IntercalRowsFaithful(uploads, classes, r.value) && Ascending(r.value) && DistinctRows(r.value)
    ensures r.Ok? ==> forall i :: 0 <= i < |uploads| ==>
      (uploads[i].analyte in classes <==> exists j :: 0 <= j < |r.value| && r.value[j].row == i)
  {
    var rs := IntercalKept(uploads, classes, 0);
    if rs == [] then Raise(RecoveryAssignError)
    else
      assert !NoneKept(uploads, classes) by {
        assert uploads[rs[0].row].analyte in classes;
      }
      AscendingDistinct(rs);
      Ok(rs)
  }

  /** Where the sediment/tissue preparation succeeds from `start` on, the
      guarded one keeps the same rows with the same recoveries. */
  lemma {:induction false} KeptAgrees(uploads: seq<Upload>, classes: map<string, string>, start: nat)
    requires start <= |uploads|
    requires forall i :: start <= i < |uploads| ==> !RaisesAt(uploads[i], classes)
    ensures IntercalKept(uploads, classes, start) == Kept(uploads, classes, start)
    decreases |uploads| - start
  {
    if start < |uploads| {
      KeptAgrees(uploads, classes, start + 1);
      GuardedRecoveryAgrees(uploads[start]);
    }
  }

  /** The two preparations agree whenever the unguarded one succeeds. */
  lemma {:induction false} PreparationsAgree(uploads: seq<Upload>, classes: map<string, string>)
    requires Prepare(uploads, classes).Ok?
    ensures IntercalPrepare(uploads, classes) == Prepare(uploads, classes)
  {
    KeptAgrees(uploads, classes, 0);
  }

  /** The rules of the intercalibration module, in order. */
  const IntercalRowRules: seq<RowRule> := [
    RowRule(TrueValueNotMissing, "TrueValue", Warning),
    RowRule(TrueValueMissing, "TrueValue", Warning),
    RowRule(NonPositiveResult, "Result", Error),
    RowRule(MdlOverRl, "MDL", Error),
    RowRule(MdlIsRl, "MDL", Warning),
    RowRule(NegativeMdl, "MDL", Error),
    RowRule(NonDetectWithValue, "Qualifier, Result", Warning),
    RowRule(EstimateOutsideLimits, "Qualifier, Result", Warning),
    RowRule(WrongQualifierCode, "Qualifier", Error),
    RowRule(NoneBelowRl, "Qualifier, Result", Error),
    RowRule(CommentRequired, "Comments", Warning),
    RowRule(AnalystErrorNoted, "Qualifier", Warning),
    RowRule(ZeroTrueValue, "truevalue", Error)
  ]

  /** The 'none' rule of this module flags strictly below the RL; the
      shared one also flags a result equal to the RL. */
  lemma {:induction false} NoneRulesDiffer(r: ChemResult)
    ensures Fires(NoneBelowRl, r) <==> Fires(NoneNotAboveRl, r) && r.u.result != r.u.rl
  {
  }

  /** The checks behind the error rules of this module. */
  lemma {:induction false} IntercalErrorChecks(k: int)
    requires 0 <= k < |IntercalRowRules| && IntercalRowRules[k].severity == Error
    ensures IntercalRowRules[k].check in {NonPositiveResult, MdlOverRl, NegativeMdl, WrongQualifierCode, NoneBelowRl, ZeroTrueValue}
  {
  }

  /** A row that fails one of the checks the two lists both treat as
      errors (or the stricter 'none' check) is in a shared error finding. */
  lemma {:induction false} SharedErrorFor(results: seq<ChemResult>, i: int, c: RowCheck)
    requires 0 <= i < |results| && Fires(c, results[i])
    requires c in {NonPositiveResult, MdlOverRl, NegativeMdl, WrongQualifierCode, NoneBelowRl}
    ensures exists a :: a in RunRowRules(results, SharedRowRules).0 && results[i].row in a.badrows
  {
    var k := if c == NoneBelowRl then 9
      else if c == NonPositiveResult then 2
      else if c == MdlOverRl then 3
      else if c == NegativeMdl then 5
      else 8;
    var rule := SharedRowRules[k];
    assert Fires(rule.check, results[i]) && rule.severity == Error;
    FlaggedRowReported(results, SharedRowRules, rule, i);
  }

  /** Apart from a zero TrueValue, a row this module rejects is rejected by
      the shared sediment/tissue rules too. */
  lemma {:induction false} IntercalErrorsAreSharedErrors(results: seq<ChemResult>, i: int)
    requires DistinctRows(results) && 0 <= i < |results| && results[i].u.trueValue != 0.0
    requires exists a :: a in RunRowRules(results, IntercalRowRules).0 && results[i].row in a.badrows
    ensures exists a :: a in RunRowRules(results, SharedRowRules).0 && results[i].row in a.badrows
  {
    var k, j := ReportedRowFires(results, IntercalRowRules, Error, results[i].row);
    assert j == i;
    IntercalErrorChecks(k);
    SharedErrorFor(results, i, IntercalRowRules[k].check);
  }

  /** A spike with TrueValue 0 and a known analyte makes the sediment/tissue
      preparation raise, while here it is kept with recovery -88 and
      rejected by the zero-TrueValue rule. */
  lemma {:induction false} ZeroTrueValueReported(uploads: seq<Upload>, classes: map<string, string>, i: int)
    requires 0 <= i < |uploads| && uploads[i].analyte in classes
    requires IsSpikeOrReference(uploads[i].sampleType) && uploads[i].trueValue == 0.0
    ensures Prepare(uploads, classes) == Raise(ZeroDivisionError)
    ensures IntercalPrepare(uploads, classes).Ok?
    ensures exists r :: r in IntercalPrepare(uploads, classes).value && r.row == i && r.percentRecovery == Missing
    ensures exists a :: a in RunRowRules(IntercalPrepare(uploads, classes).value, IntercalRowRules).0 && i in a.badrows
  {
    assert RaisesAt(uploads[i], classes);
    assert !NoneKept(uploads, classes);
    var rs := IntercalPrepare(uploads, classes).value;
    var j :| 0 <= j < |rs| && rs[j].row == i;
    assert rs[j].u == uploads[i];
    var rule := IntercalRowRules[12];
    assert rule in IntercalRowRules && Fires(rule.check, rs[j]) && rule.severity == Error;
    FlaggedRowReported(rs, IntercalRowRules, rule, j);
  }

  /** The 'less than' code is not among the codes the wrong-qualifier rule
      tests as written. */
  lemma {:induction false} LessThanNotWrongQualifier(r: ChemResult)
    requires r.u.qualifier == "less than"
    ensures !Fires(WrongQualifierCode, r)
  {
    assert "less than" != "estimated";
    assert "less than" != "below reporting level";
    assert "less than" != "below method detection limit";
  }

  /** A reported non-detect: 'less than' with a positive result, a
      non-negative MDL below the RL and a non-zero TrueValue. */
  predicate PlainNonDetect(r: ChemResult) {
    && r.u.qualifier == "less than"
    && r.u.result > 0.0
    && 0.0 <= r.u.mdl < r.u.rl
    && r.u.trueValue != 0.0
  }

  /** Such a row fails none of this module's error rules. */
  lemma {:induction false} NonDetectPassesIntercalErrors(r: ChemResult, k: int)
    requires PlainNonDetect(r)
    requires 0 <= k < |IntercalRowRules| && IntercalRowRules[k].severity == Error
    ensures !Fires(IntercalRowRules[k].check, r)
  {
    IntercalErrorChecks(k);
    LessThanNotWrongQualifier(r);
  }

  /** Such a row is in none of this module's error findings. */
  lemma {:induction false} NonDetectNotIntercalError(results: seq<ChemResult>, i: int)
    requires DistinctRows(results) && 0 <= i < |results| && PlainNonDetect(results[i])
    ensures forall a :: a in RunRowRules(results, IntercalRowRules).0 ==> results[i].row !in a.badrows
  {
    if exists a :: a in RunRowRules(results, IntercalRowRules).0 && results[i].row in a.badrows {
      var k, j := ReportedRowFires(results, IntercalRowRules, Error, results[i].row);
      assert j == i;
      NonDetectPassesIntercalErrors(results[i], k);
      assert false;
    }
  }

  /** Such a row, which reports a value, is rejected by the shared rules but
      only warned about here. */
  lemma {:induction false} NonDetectWithValueOnlyWarned(results: seq<ChemResult>, i: int)
    requires DistinctRows(results) && 0 <= i < |results| && PlainNonDetect(results[i])
    ensures exists a :: a in RunRowRules(results, SharedRowRules).0 && results[i].row in a.badrows
    ensures forall a :: a in RunRowRules(results, IntercalRowRules).0 ==> results[i].row !in a.badrows
    ensures exists a :: a in RunRowRules(results, IntercalRowRules).1 && results[i].row in a.badrows
  {
    var r := results[i];
    assert Fires(SharedRowRules[6].check, r);
    FlaggedRowReported(results, SharedRowRules, SharedRowRules[6], i);
    NonDetectNotIntercalError(results, i);
    var rule := IntercalRowRules[6];
    assert Fires(rule.check, r) && rule.severity == Warning;
    FlaggedRowWarned(results, IntercalRowRules, rule, i);
  }
}

=== FILE: chemistry_tissue.dfy ===
/** The tissue chemistry rule module, proj/custom/chemistry_tissue_custom.py.

    It runs the sediment module's skeleton unchanged: the same preparation
    (ChemTables.Prepare, unguarded percent recovery), the same logic check
    and grain-size routing (Chemistry.LogicCheckAsWritten, Chemistry.RouteOf,
    Chemistry.GrainSumCheck), and the same shared, unit and method-blank row
    rules. What differs is the required sample types table, and that the
    tissue QA-plan sections are empty, so none of the sediment QA tables'
    aggregate checks run.
 */
module ChemistryTissue {
  import opened ChemTables
  import opened ChemFunctions
  import opened Chemistry

  /** `required_sampletypes` of the tissue module: inorganics need a
      'Blank spiked' sample where the sediment module asks for 'Blank Spike'. */
  const TissueRequiredSampletypes: map<string, set<string>> := map[
    "Inorganics" := {"Method blank", "Blank spiked", "Result"},
    "PAH" := {"Method blank", "Matrix spike", "Result"},
    "PCB" := {"Method blank", "Matrix spike", "Result"},
    "Chlorinated Hydrocarbons" := {"Method blank", "Matrix spike", "Result"},
    "PBDE" := {"Method blank", "Matrix spike", "Result"},
    "Pyrethroid" := {"Method blank", "Matrix spike", "Result"},
    "FIPRONIL" := {"Method blank", "Matrix spike", "Result"},
    "TN" := {"Method blank", "Result"},
    "TOC" := {"Method blank", "Result"}
  ]

  /** The row rules of the tissue module, in order: the shared value rules,
      then the unit, method-blank and matrix rules as written. */
  const TissueRowRules: seq<RowRule> := SharedRowRules + UnitRulesAsWritten

  /** The two tables differ only in the inorganics entry. */
  lemma {:induction false} TablesDifferOnlyForInorganics()
    ensures TissueRequiredSampletypes.Keys == SedimentRequiredSampletypes.Keys
    ensures forall c :: c in TissueRequiredSampletypes && c != "Inorganics" ==>
      TissueRequiredSampletypes[c] == SedimentRequiredSampletypes[c]
    ensures TissueRequiredSampletypes["Inorganics"] - SedimentRequiredSampletypes["Inorganics"] == {"Blank spiked"}
    ensures SedimentRequiredSampletypes["Inorganics"] - TissueRequiredSampletypes["Inorganics"] == {"Blank Spike"}
  {
  }

  /** A batch of inorganics with a method blank, a 'Blank spiked' sample and
      a result satisfies the tissue table but is reported by the sediment
      table, which wants 'Blank Spike'. */
  lemma {:induction false} BlankSpikedSatisfiesTissueOnly(results: seq<ChemResult>, k: BatchClass)
    requires k in ClassGroups(results, "Inorganics")
    requires ObservedSampleTypes(results, k) == {"Method blank", "Blank spiked", "Result"}
    ensures forall f :: f in ChkRequiredSampletypes(results, TissueRequiredSampletypes["Inorganics"], "Inorganics") ==> f.key != k
    ensures SampletypeFinding(results, SedimentRequiredSampletypes["Inorganics"], k) in
      ChkRequiredSampletypes(results, SedimentRequiredSampletypes["Inorganics"], "Inorganics")
  {
    assert TissueRequiredSampletypes["Inorganics"] <= ObservedSampleTypes(results, k);
    assert "Blank Spike" !in ObservedSampleTypes(results, k);
    assert "Blank Spike" in SedimentRequiredSampletypes["Inorganics"];
  }

  /** A row is flagged by a concatenation of rule lists exactly when it is
      flagged by one of the two lists. */
  lemma {:induction false} FiresInConcat(a: seq<RowRule>, b: seq<RowRule>, r: ChemResult)
    ensures (exists k :: 0 <= k < |a + b| && Fires((a + b)[k].check, r)) <==>
      (exists k :: 0 <= k < |a| && Fires(a[k].check, r)) || (exists k :: 0 <= k < |b| && Fires(b[k].check, r))
  {
    var ab := a + b;
    if exists k :: 0 <= k < |ab| && Fires(ab[k].check, r) {
      var k :| 0 <= k < |ab| && Fires(ab[k].check, r);
      if k >= |a| {
        assert ab[k] == b[k - |a|];
      } else {
        assert ab[k] == a[k];
      }
    }
    if exists k :: 0 <= k < |b| && Fires(b[k].check, r) {
      var k :| 0 <= k < |b| && Fires(b[k].check, r);
      assert ab[k + |a|] == b[k];
    }
    if exists k :: 0 <= k < |a| && Fires(a[k].check, r) {
      var k :| 0 <= k < |a| && Fires(a[k].check, r);
      assert ab[k] == a[k];
    }
  }

  /** The tissue rules flag a row exactly when one of the shared rules or one
      of the unit rules flags it. */
  lemma {:induction false} TissueRulesComposition(r: ChemResult)
    ensures (exists k :: 0 <= k < |TissueRowRules| && Fires(TissueRowRules[k].check, r)) <==>
      (exists k :: 0 <= k < |SharedRowRules| && Fires(SharedRowRules[k].check, r)) ||
      (exists k :: 0 <= k < |UnitRulesAsWritten| && Fires(UnitRulesAsWritten[k].check, r))
  {
    FiresInConcat(SharedRowRules, UnitRulesAsWritten, r);
  }

  /** The blank-spike recovery rules of the sediment QA tables are not among
      the tissue rules. */
  lemma {:induction false} TissueRulesLeaveOutBlankSpike()
    ensures forall k :: 0 <= k < |TissueRowRules| ==> TissueRowRules[k].check !in {BlankSpike25, BlankSpike15}
  {
  }
}

=== FILE: db.dfy ===
/** Loading a checked submission into the database (proj/utils/db.py).

    `GeoDBDataFrame.to_geodb` writes one `INSERT` statement by hand: each
    value becomes the SQL keyword NULL, a raw token (the geodatabase's
    `sde.next_…` object-id calls) or a single-quoted literal with its
    quotes doubled, and every `%` of the finished statement is doubled for
    the driver's parameter syntax. The model builds the same statement and
    proves two round trips: a single-quoted literal reads back as exactly
    its value's text, and undoing the `%%` escape gives back exactly the
    statement that was built. A missing or blank value, which becomes NULL,
    and an object-id call, which is inlined stripped, are not literals and
    do not read back.
 */
module Db {
  import opened Wrappers
  import opened Text

  // ---------------------------------------------------------------------
  // check_dtype
  // ---------------------------------------------------------------------

  /** `check_dtype(t, x)`: whether the conversion `t` accepts `x`; any
      exception it raises is caught. */
  function CheckDtype<A, B>(t: A -> Result<B>, x: A): (ok: bool)
    ensures ok <==> !t(x).Raise?
  {
    match t(x)
    case Ok(_) => true
    case Raise(_) => false
  }

  // ---------------------------------------------------------------------
  // Values
  // ---------------------------------------------------------------------

  /** A cell of the frame: missing (`isnull`), or present with `str(val)`. */
  datatype Value = Missing | Present(text: string)

  const NextObjectid := "sde.next_"

  /** The value becomes NULL: missing, or nothing but whitespace. */
  predicate IsNull(v: Value) {
    v.Missing? || Strip(v.text) == ""
  }

  /** `s.replace(c, c + c)`: the escape both the SQL literal (`'`) and the
      driver's parameter syntax (`%`) use. */
  function Double(s: string, c: char): (r: string)
    ensures |r| >= |s|
  {
    if |s| == 0 then ""
    else (if s[0] == c then [c, c] else [s[0]]) + Double(s[1..], c)
  }

  /** `str(val).replace("'", "''")`. */
  function DoubleQuotes(s: string): string {
    Double(s, '\'')
  }

  /** The SQL text for one value. */
  function Literal(v: Value): (lit: string)
    ensures IsNull(v) ==> lit == "NULL"
    ensures !IsNull(v) && Contains(v.text, NextObjectid) ==> lit == Strip(v.text)
    ensures !IsNull(v) && !Contains(v.text, NextObjectid) ==> |lit| >= 2 && lit[0] == '\'' && lit[|lit| - 1] == '\''
  {
    if IsNull(v) then "NULL"
    else if Contains(v.text, NextObjectid) then Strip(v.text)
    else "'" + DoubleQuotes(v.text) + "'"
  }

  // ---------------------------------------------------------------------
  // Reading a literal back
  // ---------------------------------------------------------------------

  /** The body of a quoted SQL literal up to its closing quote, reading a
      doubled quote as one quote: the text and what follows the closing
      quote, or None when the literal is not closed. */
  function ReadBody(s: string): (r: Option<(string, string)>)
    ensures r.Some? ==> |r.value.1| < |s|
  {
    if |s| == 0 then None
    else if s[0] != '\'' then
      match ReadBody(s[1..])
      case None => None
      case Some(p) => Some(([s[0]] + p.0, p.1))
    else if |s| >= 2 && s[1] == '\'' then
      match ReadBody(s[2..])
      case None => None
      case Some(p) => Some(("'" + p.0, p.1))
    else Some(("", s[1..]))
  }

  /** How SQL reads a string literal: an opening quote, then a body. */
  function ReadLiteral(lit: string): (r: Option<string>) {
    if |lit| >= 1 && lit[0] == '\'' then
      match ReadBody(lit[1..])
      case Some(p) => if p.1 == "" then Some(p.0) else None
      case None => None
    else None
  }

  /** Reading a doubled body back stops at the first lone quote and gives
      the original text. */
  lemma {:induction false} ReadBodyDoubled(s: string, rest: string)
    requires |rest| == 0 || rest[0] != '\''
    ensures ReadBody(DoubleQuotes(s) + "'" + rest) == Some((s, rest))
    decreases |s|
  {
    if |s| == 0 {
      assert DoubleQuotes(s) + "'" + rest == "'" + rest;
      assert ("'" + rest)[1..] == rest;
    } else if s[0] == '\'' {
      var t := DoubleQuotes(s) + "'" + rest;
      assert t == "''" + (DoubleQuotes(s[1..]) + "'" + rest);
      assert t[2..] == DoubleQuotes(s[1..]) + "'" + rest;
      ReadBodyDoubled(s[1..], rest);
      assert "'" + s[1..] == s;
    } else {
      var t := DoubleQuotes(s) + "'" + rest;
      assert t == [s[0]] + (DoubleQuotes(s[1..]) + "'" + rest);
      assert t[1..] == DoubleQuotes(s[1..]) + "'" + rest;
      ReadBodyDoubled(s[1..], rest);
      assert [s[0]] + s[1..] == s;
    }
  }

  /** A body without quotes ends at the first quote after it. */
  lemma {:induction false} ReadBodyPlain(t: string, rest: string)
    requires '\'' !in t
    requires |rest| == 0 || rest[0] != '\''
    ensures ReadBody(t + "'" + rest) == Some((t, rest))
    decreases |t|
  {
    var s := t + "'" + rest;
    if |t| == 0 {
      assert s == "'" + rest;
      assert s[1..] == rest;
    } else {
      assert s[0] == t[0] && s[1..] == t[1..] + "'" + rest;
      ReadBodyPlain(t[1..], rest);
      assert [t[0]] + t[1..] == t;
    }
  }

  /** What reading `"'" + t + "'"` gives for a quote-free `t` followed by
      more text: the literal closes before the text, so it is not one
      literal; with nothing after it, it is the literal of `t`. */
  lemma {:induction false} ReadLiteralPlain(t: string, rest: string)
    requires '\'' !in t
    requires |rest| == 0 || rest[0] != '\''
    ensures ReadLiteral("'" + t + "'" + rest) == if rest == "" then Some(t) else None
  {
    var lit := "'" + t + "'" + rest;
    assert lit[1..] == t + "'" + rest;
    ReadBodyPlain(t, rest);
  }

  /** A quoted literal reads back as the value's text, whatever quotes it
      holds. */
  lemma {:induction false} LiteralRoundTrip(v: Value)
    requires !IsNull(v) && !Contains(v.text, NextObjectid)
    ensures ReadLiteral(Literal(v)) == Some(v.text)
  {
    var lit := "'" + DoubleQuotes(v.text) + "'";
    assert Literal(v) == lit;
    ReadBodyDoubled(v.text, "");
    assert lit[1..] == DoubleQuotes(v.text) + "'" + "";
  }

  // ---------------------------------------------------------------------
  // The statement
  // ---------------------------------------------------------------------

  /** `sep.join(parts)`. */
  function JoinWith(parts: seq<string>, sep: string): (r: string)
    ensures |parts| == 1 ==> r == parts[0]
    ensures |parts| == 0 ==> r == ""
  {
    if |parts| == 0 then ""
    else if |parts| == 1 then parts[0]
    else parts[0] + sep + JoinWith(parts[1..], sep)
  }

  /** `s.replace("%", "%%")`. */
  function DoublePercent(s: string): string {
    Double(s, '%')
  }

  /** How the driver reads `%%` back as `%`; a lone `%` would start a
      parameter and is not text. */
  function UndoublePercent(s: string): (r: Option<string>) {
    if |s| == 0 then Some("")
    else if s[0] != '%' then
      match UndoublePercent(s[1..])
      case None => None
      case Some(t) => Some([s[0]] + t)
    else if |s| >= 2 && s[1] == '%' then
      match UndoublePercent(s[2..])
      case None => None
      case Some(t) => Some("%" + t)
    else None
  }

  /** The driver sees exactly the statement that was built. */
  lemma {:induction false} PercentRoundTrip(s: string)
    ensures UndoublePercent(DoublePercent(s)) == Some(s)
  {
    if |s| > 0 {
      PercentRoundTrip(s[1..]);
      if s[0] == '%' {
        assert DoublePercent(s)[2..] == DoublePercent(s[1..]);
      } else {
        assert DoublePercent(s)[1..] == DoublePercent(s[1..]);
      }
      assert [s[0]] + s[1..] == s;
    }
  }

  /** A frame to load: its column names and its rows, one value per column. */
  datatype Frame = Frame(columns: seq<string>, rows: seq<seq<Value>>)

  predicate WellFormed(f: Frame) {
    forall i :: 0 <= i < |f.rows| ==> |f.rows[i]| == |f.columns|
  }

  /** `DataFrame.empty`: no columns or no rows. */
  predicate Empty(f: Frame) {
    |f.columns| == 0 || |f.rows| == 0
  }

  function Tuple(row: seq<Value>): (r: string) {
    "(" + JoinWith(seq(|row|, i requires 0 <= i < |row| => Literal(row[i])), ", ") + ")"
  }

  function Statement(table: string, f: Frame): string {
    var tuples := seq(|f.rows|, i requires 0 <= i < |f.rows| => Tuple(f.rows[i]));
    DoublePercent("\n                INSERT INTO " + table + " \n(" + JoinWith(f.columns, ", ") + ") \nVALUES " + JoinWith(tuples, ",\n") + "\n                ")
  }

  const ColumnsMessage := "Dataframe has columns not found in table"

  /** `to_geodb(tablename, eng)`: the statement it executes, None when the
      frame is empty, and the assertion error when the frame has a column
      the table lacks. */
  function ToGeodb(table: string, f: Frame, tableColumns: set<string>): (r: Result<Option<string>>)
    requires WellFormed(f)
    ensures r.Raise? <==> exists c :: c in f.columns && c !in tableColumns
    ensures r.Raise? ==> r.exception.AssertionError?
    ensures r.Ok? ==> (r.value.None? <==> Empty(f))
    ensures r.Ok? && r.value.Some? ==> UndoublePercent(r.value.value).Some?
  {
    if exists c :: c in f.columns && c !in tableColumns then Raise(AssertionError(ColumnsMessage + " " + table))
    else if Empty(f) then Ok(None)
    else
      var stmt := Statement(table, f);
      PercentRoundTrip("\n                INSERT INTO " + table + " \n(" + JoinWith(f.columns, ", ") + ") \nVALUES "
        + JoinWith(seq(|f.rows|, i requires 0 <= i < |f.rows| => Tuple(f.rows[i])), ",\n") + "\n                ");
      Ok(Some(stmt))
  }

  // ---------------------------------------------------------------------
  // registration_id
  // ---------------------------------------------------------------------

  /** `registration_id(tablename, conn)` given the ids the registry query
      returned: the first one, or the assertion error when there is none. */
  function RegistrationId(table: string, regIds: seq<int>): (r: Result<int>)
    ensures r.Raise? <==> regIds == []
    ensures r.Ok? ==> r.value in regIds && r.value == regIds[0]
  {
    if |regIds| > 0 then Ok(regIds[0])
    else Raise(AssertionError("Registration ID for table " + table + " not found - table may not be registered with the geodatabase!"))
  }
}

=== FILE: field.dfy ===
/** `fieldchecks(occupation, eng, trawl, grab)` of proj/custom/field.py: the
    checks shared by the grab, trawl and combined field submissions.

    The occupation table is always present; the trawl and grab tables are
    optional (`None` in the source, `Option` here). The strata layer, the
    field assignment table and the calculated trawl time and distance come
    from the database and from geodesy the model does not include, so they
    are parameters or given fields of the records.
 */
module Field {
  import opened Wrappers
  import opened Text
  import opened Numeric
  import opened Frames
  import opened Functions
  import opened Grouping
  import opened TimeFormat

  /** A row of tbl_stationoccupation; `row` is its `tmp_row`, which the
      callers set to the index. */
  datatype Occupation = Occupation(
    row: int,
    stationId: string,
    date: int,
    org: string,
    collectionType: string,
    time: Cell,
    depthUnits: string,
    depth: real,
    abandoned: string,
    comments: Option<string>)

  /** A row of tbl_trawlevent. `when` is SampleDate + OverTime as one
      timestamp; `trawlTime` (minutes) and `trawlDistance` (metres) are the
      calculated fields, and `overDistance` the calculated over distance. */
  datatype TrawlEvent = TrawlEvent(
    row: int,
    stationId: string,
    sampleDate: int,
    org: string,
    trawlNumber: int,
    when: int,
    overTime: Cell,
    startTime: Cell,
    endTime: Cell,
    deckTime: Cell,
    onBottomTime: Cell,
    depthUnits: string,
    startDepth: real,
    endDepth: real,
    trawlTime: real,
    trawlDistance: real,
    wireout: real,
    overDistance: real,
    ptSensor: string,
    ptManufacturer: Option<string>,
    ptSerial: Option<string>)

  /** A row of tbl_grabevent. */
  datatype GrabEvent = GrabEvent(
    row: int,
    stationId: string,
    sampleDate: int,
    org: string,
    sampleTime: Cell,
    depthUnits: string,
    stationWaterDepth: real)

  const TrawlTypes: set<string> := {"Trawl 5 Minutes", "Trawl 10 Minutes"}
  const GrabTypes: set<string> := {"Grab"}

  function OccRow(o: Occupation): int { o.row }
  function TrawlRow(e: TrawlEvent): int { e.row }
  function GrabRow(g: GrabEvent): int { g.row }

  // ---------------------------------------------------------------------
  // Strata lookup
  // ---------------------------------------------------------------------

  /** One `(region, stratum)` group of the strata layer, in the order
      `groupby` yields them, with the shapes of its features. */
  datatype StrataGroup<S> = StrataGroup(region: string, stratum: string, shapes: seq<S>)

  /** The grab stations call the bay stratum "Bay", the layer "Bays". */
  function NormaliseStratum(stratum: string): (n: string)
    ensures n != "Bay"
    ensures stratum != "Bay" ==> n == stratum
  {
    if stratum == "Bay" then "Bays" else stratum
  }

  function LookupKey<S>(g: StrataGroup<S>): (string, string) {
    (g.region, NormaliseStratum(g.stratum))
  }

  /** No group after `k` has the same lookup key, so group `k` is the one
      whose shape the dictionary keeps. */
  predicate LastWithKey<S>(groups: seq<StrataGroup<S>>, k: int)
    requires 0 <= k < |groups|
  {
    forall j :: k < j < |groups| ==> LookupKey(groups[j]) != LookupKey(groups[k])
  }

  /** The `strata_lookup` dictionary: each group stores its first shape
      under its normalised key, a later group overwriting an earlier one.
      Groups from `groupby` are never empty. */
  function StrataLookup<S>(groups: seq<StrataGroup<S>>): (m: map<(string, string), S>)
    requires forall k :: 0 <= k < |groups| ==> |groups[k].shapes| >= 1
    ensures forall key :: key in m <==> exists k :: 0 <= k < |groups| && LookupKey(groups[k]) == key
    ensures forall key :: key in m ==> key.1 != "Bay"
    ensures forall k :: 0 <= k < |groups| && LastWithKey(groups, k) ==> m[LookupKey(groups[k])] == groups[k].shapes[0]
  {
    if |groups| == 0 then map[]
    else
      var front := groups[..|groups| - 1];
      var last := groups[|groups| - 1];
      assert forall k :: 0 <= k < |front| ==> front[k] == groups[k];
      var m := StrataLookup(front);
      var m' := m[LookupKey(last) := last.shapes[0]];
      StrataKeysStep(groups, m, m');
      StrataValuesStep(groups, m, m');
      m'
  }

  lemma {:induction false} StrataKeysStep<S>(groups: seq<StrataGroup<S>>, m: map<(string, string), S>, m': map<(string, string), S>)
    requires |groups| >= 1 && |groups[|groups| - 1].shapes| >= 1
    requires forall key :: key in m <==> exists k :: 0 <= k < |groups| - 1 && LookupKey(groups[k]) == key
    requires m' == m[LookupKey(groups[|groups| - 1]) := groups[|groups| - 1].shapes[0]]
    ensures forall key :: key in m' <==> exists k :: 0 <= k < |groups| && LookupKey(groups[k]) == key
  {
    var last := groups[|groups| - 1];
    forall key | key in m' ensures exists k :: 0 <= k < |groups| && LookupKey(groups[k]) == key {
      if key == LookupKey(last) {
        assert LookupKey(groups[|groups| - 1]) == key;
      } else {
        var k :| 0 <= k < |groups| - 1 && LookupKey(groups[k]) == key;
      }
    }
    forall k | 0 <= k < |groups| ensures LookupKey(groups[k]) in m' {
      if k < |groups| - 1 {
        assert LookupKey(groups[k]) in m;
      }
    }
  }

  lemma {:induction false} StrataValuesStep<S>(groups: seq<StrataGroup<S>>, m: map<(string, string), S>, m': map<(string, string), S>)
    requires |groups| >= 1 && |groups[|groups| - 1].shapes| >= 1
    requires forall k :: 0 <= k < |groups| - 1 ==> |groups[k].shapes| >= 1
    requires forall key :: key in m <==> exists k :: 0 <= k < |groups| - 1 && LookupKey(groups[k]) == key
    requires forall k :: 0 <= k < |groups| - 1 && LastWithKey(groups[..|groups| - 1], k) ==> m[LookupKey(groups[k])] == groups[k].shapes[0]
    requires m' == m[LookupKey(groups[|groups| - 1]) := groups[|groups| - 1].shapes[0]]
    ensures forall k :: 0 <= k < |groups| && LastWithKey(groups, k) ==> LookupKey(groups[k]) in m' && m'[LookupKey(groups[k])] == groups[k].shapes[0]
  {
    var front := groups[..|groups| - 1];
    forall k | 0 <= k < |groups| && LastWithKey(groups, k) ensures LookupKey(groups[k]) in m' && m'[LookupKey(groups[k])] == groups[k].shapes[0] {
      if k < |front| {
        assert LookupKey(groups[k]) != LookupKey(groups[|groups| - 1]);
        assert LastWithKey(front, k);
        assert LookupKey(groups[k]) in m;
      }
    }
  }

  /** A "Bay" group and a "Bays" group of the same region share one entry,
      and the group listed later wins. */
  lemma {:induction false} BayAndBaysShareAnEntry<S>(region: string, a: S, b: S)
    ensures var m := StrataLookup([StrataGroup(region, "Bay", [a]), StrataGroup(region, "Bays", [b])]);
      m.Keys == {(region, "Bays")} && m[(region, "Bays")] == b
  {
    var groups := [StrataGroup(region, "Bay", [a]), StrataGroup(region, "Bays", [b])];
    var m := StrataLookup(groups);
    assert LookupKey(groups[0]) == LookupKey(groups[1]) == (region, "Bays");
    assert LastWithKey(groups, 1);
  }

  // ---------------------------------------------------------------------
  // Collection types and existence
  // ---------------------------------------------------------------------

  predicate NotGrab(o: Occupation) { o.collectionType != "Grab" }
  predicate NotTrawl(o: Occupation) { o.collectionType !in TrawlTypes }

  /** Grab-only submission: occupation rows whose collection type is not
      'Grab'. */
  function NotGrabRows(occ: seq<Occupation>): (ids: seq<int>)
    ensures forall x :: x in ids <==> exists i :: 0 <= i < |occ| && occ[i].row == x && occ[i].collectionType != "Grab"
  {
    Select(occ, NotGrab, OccRow)
  }

  /** Trawl-only submission: occupation rows that are neither trawl type. */
  function NotTrawlRows(occ: seq<Occupation>): (ids: seq<int>)
    ensures forall x :: x in ids <==> exists i :: 0 <= i < |occ| && occ[i].row == x && occ[i].collectionType !in TrawlTypes
  {
    Select(occ, NotTrawl, OccRow)
  }

  /** No collection type satisfies both single-kind submissions: every
      occupation row is flagged by at least one of the two checks, and a
      trawl row by the grab-only check. */
  lemma {:induction false} NoRowPassesBothKinds(occ: seq<Occupation>, i: int)
    requires 0 <= i < |occ|
    ensures occ[i].row in NotGrabRows(occ) || occ[i].row in NotTrawlRows(occ)
    ensures occ[i].collectionType in TrawlTypes ==> occ[i].row in NotGrabRows(occ)
  {
  }

  /** What an event is matched on: (stationid, sampledate, samplingorganization). */
  datatype EventKey = EventKey(row: int, stationId: string, date: int, org: string)

  function TrawlKey(e: TrawlEvent): EventKey {
    EventKey(e.row, e.stationId, e.sampleDate, e.org)
  }

  function GrabKey(g: GrabEvent): EventKey {
    EventKey(g.row, g.stationId, g.sampleDate, g.org)
  }

  function TrawlKeys(ts: seq<TrawlEvent>): (ks: seq<EventKey>)
    ensures |ks| == |ts| && forall j :: 0 <= j < |ts| ==> ks[j] == TrawlKey(ts[j])
  {
    seq(|ts|, j requires 0 <= j < |ts| => TrawlKey(ts[j]))
  }

  function GrabKeys(gs: seq<GrabEvent>): (ks: seq<EventKey>)
    ensures |ks| == |gs| && forall j :: 0 <= j < |gs| ==> ks[j] == GrabKey(gs[j])
  {
    seq(|gs|, j requires 0 <= j < |gs| => GrabKey(gs[j]))
  }

  /** The occupation row is at the event's station, on its date
      (occupationdate = sampledate), by its organisation. */
  predicate Occupies(o: Occupation, k: EventKey) {
    o.stationId == k.stationId && o.date == k.date && o.org == k.org
  }

  predicate HasOccupation(occ: seq<Occupation>, k: EventKey, types: set<string>) {
    exists i :: 0 <= i < |occ| && occ[i].collectionType in types && Occupies(occ[i], k)
  }

  predicate OfTypes(occ: seq<Occupation>, types: set<string>) {
    exists i :: 0 <= i < |occ| && occ[i].collectionType in types
  }

  /** Which table the existence check reports on. */
  datatype Existence =
    | Orphans(rows: seq<int>)             // event rows without an occupation of the right type
    | NoOccupationOfType(rows: seq<int>)  // every occupation row, when none has the type

  /** The left merge of the events with the occupation rows of `types`:
      an event is reported when no such row matches it; with no such rows at
      all the whole occupation table is reported instead. */
  function EventExistence(occ: seq<Occupation>, events: seq<EventKey>, types: set<string>): (out: Existence)
    ensures out.NoOccupationOfType? <==> !OfTypes(occ, types)
    ensures out.NoOccupationOfType? ==> forall x :: x in out.rows <==> exists i :: 0 <= i < |occ| && occ[i].row == x
    ensures out.Orphans? ==> forall x :: x in out.rows <==>
      exists j :: 0 <= j < |events| && events[j].row == x && !HasOccupation(occ, events[j], types)
  {
    if !OfTypes(occ, types) then NoOccupationOfType(Select(occ, (o: Occupation) => true, OccRow))
    else Orphans(Select(events, (k: EventKey) => !HasOccupation(occ, k, types), (k: EventKey) => k.row))
  }

  /** Events copied from typed occupation rows are never orphans. */
  lemma {:induction false} OccupiedEventsPass(occ: seq<Occupation>, events: seq<EventKey>, types: set<string>)
    requires OfTypes(occ, types)
    requires forall j :: 0 <= j < |events| ==> exists i :: 0 <= i < |occ| && occ[i].collectionType in types && Occupies(occ[i], events[j])
    ensures EventExistence(occ, events, types) == Orphans([])
  {
  }

  /** Occupation rows of other types do not change the verdict on events. */
  lemma {:induction false} OtherTypesIgnored(occ: seq<Occupation>, o: Occupation, events: seq<EventKey>, types: set<string>)
    requires OfTypes(occ, types) && o.collectionType !in types
    ensures EventExistence(occ + [o], events, types) == EventExistence(occ, events, types)
  {
    var occ' := occ + [o];
    assert occ'[0].collectionType in types || OfTypes(occ, types);
    assert OfTypes(occ', types) by {
      var i :| 0 <= i < |occ| && occ[i].collectionType in types;
      assert occ'[i] == occ[i];
    }
    forall k: EventKey ensures HasOccupation(occ', k, types) == HasOccupation(occ, k, types) {
      if HasOccupation(occ', k, types) {
        var i :| 0 <= i < |occ'| && occ'[i].collectionType in types && Occupies(occ'[i], k);
        assert i < |occ| && occ'[i] == occ[i];
      }
      if HasOccupation(occ, k, types) {
        var i :| 0 <= i < |occ| && occ[i].collectionType in types && Occupies(occ[i], k);
        assert occ'[i] == occ[i];
      }
    }
    SelectCongruent(events, (k: EventKey) => !HasOccupation(occ', k, types), (k: EventKey) => !HasOccupation(occ, k, types), (k: EventKey) => k.row);
  }

  // ---------------------------------------------------------------------
  // Time formats
  // ---------------------------------------------------------------------

  function OccupationTimes(occ: seq<Occupation>): (cs: seq<TimeCell>)
    ensures |cs| == |occ| && forall i :: 0 <= i < |occ| ==> cs[i] == TimeCell(occ[i].row, occ[i].time)
  {
    seq(|occ|, i requires 0 <= i < |occ| => TimeCell(occ[i].row, occ[i].time))
  }

  const TrawlTimeColumns: seq<string> := ["OverTime", "StartTime", "EndTime", "DeckTime", "OnBottomTime"]

  function TrawlTimeCell(e: TrawlEvent, c: int): Cell
    requires 0 <= c < 5
  {
    if c == 0 then e.overTime
    else if c == 1 then e.startTime
    else if c == 2 then e.endTime
    else if c == 3 then e.deckTime
    else e.onBottomTime
  }

  function TrawlTimes(ts: seq<TrawlEvent>, c: int): (cs: seq<TimeCell>)
    requires 0 <= c < 5
    ensures |cs| == |ts| && forall j :: 0 <= j < |ts| ==> cs[j] == TimeCell(ts[j].row, TrawlTimeCell(ts[j], c))
  {
    seq(|ts|, j requires 0 <= j < |ts| => TimeCell(ts[j].row, TrawlTimeCell(ts[j], c)))
  }

  function GrabTimes(gs: seq<GrabEvent>): (cs: seq<TimeCell>)
    ensures |cs| == |gs| && forall j :: 0 <= j < |gs| ==> cs[j] == TimeCell(gs[j].row, gs[j].sampleTime)
  {
    seq(|gs|, j requires 0 <= j < |gs| => TimeCell(gs[j].row, gs[j].sampleTime))
  }

  /** `checkTime(df, col, args)`: a "Formatting Error" over the rows whose
      time does not start with HH:MM:SS, or `{}` when there are none. */
  function CheckTime(table: string, column: string, cells: seq<TimeCell>): (f: Option<Finding>)
    ensures f.Some? <==> exists i :: 0 <= i < |cells| && !PrefixTime(Render(cells[i].value))
    ensures f.Some? ==> f.value.table == table && f.value.columns == column && f.value.errorType == "Formatting Error"
    ensures f.Some? ==> forall x :: x in f.value.rows <==> exists i :: 0 <= i < |cells| && cells[i].row == x && !PrefixTime(Render(cells[i].value))
  {
    CheckData(CheckArgs(table, BadTimes(cells), column, "Formatting Error", false,
      "The column " + column + " is not in a valid 24 hour clock format (HH:MM:SS)"), None).0
  }

  /** The seven time checks, in order: occupation, the five trawl columns,
      the grab sample time; a missing table contributes `{}`. */
  function FieldTimeChecks(occ: seq<Occupation>, trawl: Option<seq<TrawlEvent>>, grab: Option<seq<GrabEvent>>): (fs: seq<Option<Finding>>)
    ensures |fs| == 7
    ensures fs[0] == CheckTime("tbl_stationoccupation", "OccupationTime", OccupationTimes(occ))
    ensures forall c :: 0 <= c < 5 ==> fs[c + 1] == if trawl.Some? then CheckTime("tbl_trawlevent", TrawlTimeColumns[c], TrawlTimes(trawl.value, c)) else None
    ensures fs[6] == if grab.Some? then CheckTime("tbl_grabevent", "SampleTime", GrabTimes(grab.value)) else None
  {
    seq(7, k requires 0 <= k < 7 => TimeCheck(occ, trawl, grab, k))
  }

  /** The `k`th of the seven time checks. */
  function TimeCheck(occ: seq<Occupation>, trawl: Option<seq<TrawlEvent>>, grab: Option<seq<GrabEvent>>, k: int): Option<Finding>
    requires 0 <= k < 7
  {
    if k == 0 then CheckTime("tbl_stationoccupation", "OccupationTime", OccupationTimes(occ))
    else if k < 6 then (if trawl.Some? then CheckTime("tbl_trawlevent", TrawlTimeColumns[k - 1], TrawlTimes(trawl.value, k - 1)) else None)
    else if grab.Some? then CheckTime("tbl_grabevent", "SampleTime", GrabTimes(grab.value)) else None
  }

  /** A blank occupation time is always reported, and an occupation time
      written as a clock reading never is. */
  lemma {:induction false} OccupationTimeVerdicts(occ: seq<Occupation>, trawl: Option<seq<TrawlEvent>>, grab: Option<seq<GrabEvent>>, i: int)
    requires 0 <= i < |occ|
    ensures occ[i].time == Null ==> FieldTimeChecks(occ, trawl, grab)[0].Some? && occ[i].row in FieldTimeChecks(occ, trawl, grab)[0].value.rows
    ensures (exists h, m, sec :: 0 <= h <= 99 && 0 <= m <= 59 && 0 <= sec <= 59 && occ[i].time == Str(Clock(h, m, sec)))
      ==> PrefixTime(Render(OccupationTimes(occ)[i].value))
  {
    MissingCellIsNoTime();
    if exists h, m, sec :: 0 <= h <= 99 && 0 <= m <= 59 && 0 <= sec <= 59 && occ[i].time == Str(Clock(h, m, sec)) {
      var h, m, sec :| 0 <= h <= 99 && 0 <= m <= 59 && 0 <= sec <= 59 && occ[i].time == Str(Clock(h, m, sec));
      ClockRoundTrip(h, m, sec, "");
      assert Clock(h, m, sec) + "" == Clock(h, m, sec);
    }
  }

  // ---------------------------------------------------------------------
  // Units and comments
  // ---------------------------------------------------------------------

  const FeetUnits: set<string> := {"ft", "f"}

  /** `df[['units','tmp_row']].where(df.units.isin(['ft','f'])).dropna()`:
      rows whose depth units are feet. */
  function FeetRows<R>(rows: seq<R>, units: R -> string, id: R -> int): (ids: seq<int>)
    ensures forall x :: x in ids <==> exists i :: 0 <= i < |rows| && units(rows[i]) in FeetUnits && id(rows[i]) == x
    ensures ids == [] <==> forall i :: 0 <= i < |rows| ==> units(rows[i]) !in FeetUnits
  {
    Select(rows, (r: R) => units(r) in FeetUnits, id)
  }

  /** Metre readings are never reported, whatever the table. */
  lemma {:induction false} MetresPass<R>(rows: seq<R>, units: R -> string, id: R -> int)
    requires forall i :: 0 <= i < |rows| ==> units(rows[i]) == "m"
    ensures FeetRows(rows, units, id) == []
  {
  }

  predicate AbandonedSilently(o: Occupation) {
    o.abandoned == "Yes" && o.comments.None?
  }

  /** Occupation rows marked abandoned without a comment. */
  function AbandonedWithoutComment(occ: seq<Occupation>): (ids: seq<int>)
    ensures forall x :: x in ids <==> exists i :: 0 <= i < |occ| && occ[i].row == x && occ[i].abandoned == "Yes" && occ[i].comments.None?
  {
    Select(occ, AbandonedSilently, OccRow)
  }

  /** Giving a comment clears an abandoned row; a row that was not
      abandoned needs none. */
  lemma {:induction false} AbandonedCommentMeaning(occ: seq<Occupation>, i: int)
    requires 0 <= i < |occ|
    requires forall j :: 0 <= j < |occ| && j != i ==> occ[j].row != occ[i].row
    ensures occ[i].row in AbandonedWithoutComment(occ) <==> occ[i].abandoned == "Yes" && occ[i].comments.None?
  {
  }

  // ---------------------------------------------------------------------
  // Sampling organisations
  // ---------------------------------------------------------------------

  /** A row of field_assignment_table: which agency trawls and which grabs
      at a station. */
  datatype Assignment = Assignment(stationId: string, trawlAgency: string, grabAgency: string)

  /** `SELECT DISTINCT stationid FROM field_assignment_table WHERE trawlagency = org`. */
  function TrawlStations(fat: seq<Assignment>, org: string): set<string> {
    set a | a in fat && a.trawlAgency == org :: a.stationId
  }

  function GrabStations(fat: seq<Assignment>, org: string): set<string> {
    set a | a in fat && a.grabAgency == org :: a.stationId
  }

  function OccOrgs(occ: seq<Occupation>): (orgs: seq<string>)
    ensures |orgs| == |occ| && forall i :: 0 <= i < |occ| ==> orgs[i] == occ[i].org
  {
    seq(|occ|, i requires 0 <= i < |occ| => occ[i].org)
  }

  /** `occupation.samplingorganization.unique()`. */
  function Orgs(occ: seq<Occupation>): (orgs: seq<string>)
    ensures forall o :: o in orgs <==> exists i :: 0 <= i < |occ| && occ[i].org == o
    ensures forall a, b :: 0 <= a < b < |orgs| ==> orgs[a] != orgs[b]
  {
    var us := Distinct(OccOrgs(occ));
    assert forall o :: o in OccOrgs(occ) <==> exists i :: 0 <= i < |occ| && occ[i].org == o;
    us
  }

  predicate UnassignedTrawl(fat: seq<Assignment>, org: string, o: Occupation) {
    o.collectionType != "Grab" && o.stationId !in TrawlStations(fat, org)
  }

  predicate UnassignedGrab(fat: seq<Assignment>, org: string, o: Occupation) {
    o.collectionType == "Grab" && o.stationId !in GrabStations(fat, org)
  }

  /** The two assignment warnings of one organisation. */
  datatype OrgRows = OrgRows(org: string, trawlRows: seq<int>, grabRows: seq<int>)

  /** The organisation warnings: the rows of the alphabetically first
      organisation when there are several, then one pair per organisation. */
  datatype OrgReport = OrgReport(severalOrgs: seq<int>, perOrg: seq<OrgRows>)

  /** The rows of the organisation that comes first, reported when there
      is more than one. */
  function SeveralOrgs(occ: seq<Occupation>): (ids: seq<int>)
    ensures ids != [] <==> |Orgs(occ)| > 1
    ensures ids != [] ==> forall x :: x in ids <==>
      exists i :: 0 <= i < |occ| && occ[i].row == x && forall j :: 0 <= j < |occ| ==> StrLe(occ[i].org, occ[j].org)
  {
    var orgs := Orgs(occ);
    if |orgs| <= 1 then []
    else
      var m := MinString(orgs);
      assert forall j :: 0 <= j < |occ| ==> StrLe(m, occ[j].org) by {
        forall j | 0 <= j < |occ| ensures StrLe(m, occ[j].org) {
          assert occ[j].org in orgs;
          var k :| 0 <= k < |orgs| && orgs[k] == occ[j].org;
        }
      }
      forall i | 0 <= i < |occ| && (forall j :: 0 <= j < |occ| ==> StrLe(occ[i].org, occ[j].org))
        ensures occ[i].org == m
      {
        var k :| 0 <= k < |occ| && occ[k].org == m;
        if occ[i].org != m {
          StrLtTransitive(occ[i].org, m, occ[i].org);
          StrLtIrreflexive(occ[i].org);
        }
      }
      var ids := Select(occ, (o: Occupation) => o.org == m, OccRow);
      assert ids != [] by {
        var k :| 0 <= k < |occ| && occ[k].org == m;
      }
      ids
  }

  /** One organisation's warnings as the source builds them: the loop
      variable picks the assigned stations, but the rows are filtered only by
      collection type, so every organisation's rows are judged against it. */
  function OrgRowsAsWritten(occ: seq<Occupation>, fat: seq<Assignment>, org: string): (r: OrgRows)
    ensures r.org == org
    ensures forall x :: x in r.trawlRows <==> exists i :: 0 <= i < |occ| && occ[i].row == x && UnassignedTrawl(fat, org, occ[i])
    ensures forall x :: x in r.grabRows <==> exists i :: 0 <= i < |occ| && occ[i].row == x && UnassignedGrab(fat, org, occ[i])
  {
    OrgRows(org,
      Select(occ, (o: Occupation) => UnassignedTrawl(fat, org, o), OccRow),
      Select(occ, (o: Occupation) => UnassignedGrab(fat, org, o), OccRow))
  }

  /** The evidently intended warnings: only the organisation's own rows. */
  function OrgRowsCorrected(occ: seq<Occupation>, fat: seq<Assignment>, org: string): (r: OrgRows)
    ensures r.org == org
    ensures forall x :: x in r.trawlRows <==> exists i :: 0 <= i < |occ| && occ[i].row == x && occ[i].org == org && UnassignedTrawl(fat, org, occ[i])
    ensures forall x :: x in r.grabRows <==> exists i :: 0 <= i < |occ| && occ[i].row == x && occ[i].org == org && UnassignedGrab(fat, org, occ[i])
  {
    OrgRows(org,
      Select(occ, (o: Occupation) => o.org == org && UnassignedTrawl(fat, org, o), OccRow),
      Select(occ, (o: Occupation) => o.org == org && UnassignedGrab(fat, org, o), OccRow))
  }

  /** The organisation block of field.py: no organisation at all raises
      `Exception("No sampling organization detected")`. */
  function OrgChecks(occ: seq<Occupation>, fat: seq<Assignment>, corrected: bool): (r: Result<OrgReport>)
    ensures r.Raise? <==> |occ| == 0
    ensures r.Raise? ==> r.exception == PlainException("No sampling organization detected")
    ensures r.Ok? ==> r.value.severalOrgs == SeveralOrgs(occ)
    ensures r.Ok? ==> |r.value.perOrg| == |Orgs(occ)| && forall k :: 0 <= k < |Orgs(occ)| ==>
      r.value.perOrg[k] == if corrected then OrgRowsCorrected(occ, fat, Orgs(occ)[k]) else OrgRowsAsWritten(occ, fat, Orgs(occ)[k])
  {
    var orgs := Orgs(occ);
    if |orgs| == 0 then
      Raise(PlainException("No sampling organization detected"))
    else
      assert occ[0].org in orgs;
      Ok(OrgReport(SeveralOrgs(occ), seq(|orgs|, k requires 0 <= k < |orgs| =>
        if corrected then OrgRowsCorrected(occ, fat, orgs[k]) else OrgRowsAsWritten(occ, fat, orgs[k]))))
  }

  /** With a single organisation the loop's missing filter does no harm. */
  lemma {:induction false} OneOrgNoDifference(occ: seq<Occupation>, fat: seq<Assignment>)
    requires |occ| >= 1 && forall i :: 0 <= i < |occ| ==> occ[i].org == occ[0].org
    ensures |Orgs(occ)| == 1
    ensures forall x :: x in OrgChecks(occ, fat, false).value.perOrg[0].trawlRows <==> x in OrgChecks(occ, fat, true).value.perOrg[0].trawlRows
    ensures forall x :: x in OrgChecks(occ, fat, false).value.perOrg[0].grabRows <==> x in OrgChecks(occ, fat, true).value.perOrg[0].grabRows
    ensures OrgChecks(occ, fat, false).value.severalOrgs == []
  {
    DistinctSingle(OccOrgs(occ));
  }

  /** Two organisations, each trawling its own assigned station: the source
      warns that A was not assigned to B's station; the intended check is
      silent. */
  lemma {:induction false} OtherOrgsRowsReported()
    ensures var occ := [ExampleTrawlOccupation(0, "S1", "A"), ExampleTrawlOccupation(1, "S2", "B")];
      var fat := [Assignment("S1", "A", "A"), Assignment("S2", "B", "B")];
      && Orgs(occ) == ["A", "B"]
      && 1 in OrgRowsAsWritten(occ, fat, "A").trawlRows
      && OrgRowsCorrected(occ, fat, "A").trawlRows == []
      && OrgRowsCorrected(occ, fat, "B").trawlRows == []
  {
    var occ := [ExampleTrawlOccupation(0, "S1", "A"), ExampleTrawlOccupation(1, "S2", "B")];
    var fat := [Assignment("S1", "A", "A"), Assignment("S2", "B", "B")];
    assert TrawlStations(fat, "A") == {"S1"} by {
      assert fat[0] in fat;
    }
    assert TrawlStations(fat, "B") == {"S2"} by {
      assert fat[1] in fat;
    }
    assert UnassignedTrawl(fat, "A", occ[1]);
    assert OccOrgs(occ) == ["A", "B"];
    DistinctOfTwo("A", "B");
  }

  /** Two different values are both kept, in order. */
  lemma {:induction false} DistinctOfTwo(a: string, b: string)
    requires a != b
    ensures Distinct([a, b]) == [a, b]
  {
    assert [a, b][..1] == [a];
    assert [a][..0] == [];
  }

  function ExampleTrawlOccupation(row: int, station: string, org: string): Occupation {
    Occupation(row, station, 0, org, "Trawl 10 Minutes", Null, "m", 10.0, "No", None)
  }

  // ---------------------------------------------------------------------
  // Trawl number sequence
  // ---------------------------------------------------------------------

  /** How many trawls of station `s` are strictly earlier than `t`. */
  function CountEarlier(ts: seq<TrawlEvent>, s: string, t: int): nat {
    if |ts| == 0 then 0
    else CountEarlier(ts[..|ts| - 1], s, t) + (if ts[|ts| - 1].stationId == s && ts[|ts| - 1].when < t then 1 else 0)
  }

  /** How many trawls of station `s` are at exactly `t`. */
  function CountSame(ts: seq<TrawlEvent>, s: string, t: int): nat {
    if |ts| == 0 then 0
    else CountSame(ts[..|ts| - 1], s, t) + (if ts[|ts| - 1].stationId == s && ts[|ts| - 1].when == t then 1 else 0)
  }

  /** `groupby('stationid')['datetime'].rank(ascending=1)`: tied trawls get
      the average of the positions they occupy together. */
  function AverageRank(ts: seq<TrawlEvent>, e: TrawlEvent): real {
    CountEarlier(ts, e.stationId, e.when) as real + (CountSame(ts, e.stationId, e.when) as real + 1.0) / 2.0
  }

  predicate StationRepeats(ts: seq<TrawlEvent>, s: string) {
    exists i, j :: 0 <= i < j < |ts| && ts[i].stationId == s && ts[j].stationId == s
  }

  predicate OutOfSequence(ts: seq<TrawlEvent>, e: TrawlEvent) {
    StationRepeats(ts, e.stationId) && e.trawlNumber as real != AverageRank(ts, e)
  }

  /** The sequence check: among stations trawled more than once, a trawl
      whose number differs from its rank by time. The two `len(...) > 1`
      guards of the source hold whenever some station repeats. */
  function TrawlSequence(ts: seq<TrawlEvent>): (ids: seq<int>)
    ensures forall x :: x in ids <==> exists i :: 0 <= i < |ts| && ts[i].row == x && OutOfSequence(ts, ts[i])
  {
    if |ts| > 1 then Select(ts, (e: TrawlEvent) => OutOfSequence(ts, e), TrawlRow) else []
  }

  lemma {:induction false} CountSameExact(ts: seq<TrawlEvent>, s: string, t: int, idx: set<int>)
    requires forall k :: k in idx <==> 0 <= k < |ts| && ts[k].stationId == s && ts[k].when == t
    ensures CountSame(ts, s, t) == |idx|
    decreases |ts|
  {
    if |ts| > 0 {
      var n := |ts| - 1;
      var front := ts[..n];
      var idx' := idx - {n};
      assert forall k :: k in idx' <==> 0 <= k < |front| && front[k].stationId == s && front[k].when == t;
      CountSameExact(front, s, t, idx');
      if n in idx {
        assert idx == idx' + {n};
      } else {
        assert idx == idx';
      }
    } else {
      assert forall k :: k !in idx;
      assert idx == {};
    }
  }

  /** Without ties the rank is one more than the number of earlier trawls,
      so a trawl is out of sequence exactly when its number is not its
      position in time order. */
  lemma {:induction false} DistinctTimesRank(ts: seq<TrawlEvent>, i: int)
    requires 0 <= i < |ts|
    requires forall j :: 0 <= j < |ts| && j != i && ts[j].stationId == ts[i].stationId ==> ts[j].when != ts[i].when
    ensures AverageRank(ts, ts[i]) == CountEarlier(ts, ts[i].stationId, ts[i].when) as real + 1.0
    ensures OutOfSequence(ts, ts[i]) <==> StationRepeats(ts, ts[i].stationId) && ts[i].trawlNumber != CountEarlier(ts, ts[i].stationId, ts[i].when) + 1
  {
    CountSameExact(ts, ts[i].stationId, ts[i].when, {i});
  }

  /** Two trawls of a station at the same time, and no third, rank 1.5
      apart from a whole number: both are reported whatever their numbers. */
  lemma {:induction false} TiedPairReported(ts: seq<TrawlEvent>, i: int, j: int)
    requires 0 <= i < j < |ts|
    requires ts[i].stationId == ts[j].stationId && ts[i].when == ts[j].when
    requires forall k :: 0 <= k < |ts| && k != i && k != j && ts[k].stationId == ts[i].stationId ==> ts[k].when != ts[i].when
    ensures ts[i].row in TrawlSequence(ts) && ts[j].row in TrawlSequence(ts)
  {
    var s, t := ts[i].stationId, ts[i].when;
    CountSameExact(ts, s, t, {i, j});
    var c := CountEarlier(ts, s, t) as real;
    assert AverageRank(ts, ts[i]) == c + 1.5;
    assert AverageRank(ts, ts[j]) == c + 1.5;
    WholeIsNotHalf(ts[i].trawlNumber, CountEarlier(ts, s, t));
    WholeIsNotHalf(ts[j].trawlNumber, CountEarlier(ts, s, t));
  }

  lemma {:induction false} WholeIsNotHalf(n: int, c: int)
    ensures n as real != c as real + 1.5
  {
    if n <= c + 1 {
      assert n as real <= c as real + 1.0;
    } else {
      assert n as real >= c as real + 2.0;
    }
  }

  /** A station trawled once is never in sequence trouble. */
  lemma {:induction false} SingleTrawlNotReported(ts: seq<TrawlEvent>, i: int)
    requires 0 <= i < |ts|
    requires forall j :: 0 <= j < |ts| && j != i ==> ts[j].stationId != ts[i].stationId
    ensures !OutOfSequence(ts, ts[i])
  {
  }

  // ---------------------------------------------------------------------
  // Depth agreement
  // ---------------------------------------------------------------------

  /** `abs(reference - measured) / measured * 100` on float columns. */
  function PercentOff(measured: real, reference: real): Float {
    Scale(Divide(AbsReal(reference - measured), measured), 100.0)
  }

  predicate TenPercentOff(measured: real, reference: real) {
    Gt(PercentOff(measured, reference), 10.0)
  }

  /** For a positive depth the test is "differs by more than a tenth"; a
      zero depth fails against any other depth (an infinite quotient) but
      passes against zero (NaN); a negative depth never fails. */
  lemma {:induction false} TenPercentOffMeaning(measured: real, reference: real)
    ensures measured > 0.0 ==> (TenPercentOff(measured, reference) <==> AbsReal(reference - measured) * 10.0 > measured)
    ensures measured == 0.0 ==> (TenPercentOff(measured, reference) <==> reference != 0.0)
    ensures measured < 0.0 ==> !TenPercentOff(measured, reference)
  {
    if measured > 0.0 {
      PositiveDepthOff(measured, reference);
    } else if measured < 0.0 {
      NegativeDepthNeverOff(measured, reference);
    }
  }

  lemma {:induction false} PositiveDepthOff(measured: real, reference: real)
    requires measured > 0.0
    ensures TenPercentOff(measured, reference) <==> AbsReal(reference - measured) * 10.0 > measured
  {
    var d := AbsReal(reference - measured);
    var q := d / measured;
    assert Divide(d, measured) == Finite(q);
    assert PercentOff(measured, reference) == Finite(q * 100.0);
    assert TenPercentOff(measured, reference) <==> q * 100.0 > 10.0;
    assert q * 100.0 > 10.0 <==> q * 10.0 > 1.0;
    assert q * measured == d;
    if q * 10.0 > 1.0 {
      assert (q * 10.0 - 1.0) * measured > 0.0;
      assert (q * 10.0 - 1.0) * measured == d * 10.0 - measured;
    } else {
      ProductNonNegative(1.0 - q * 10.0, measured);
      assert (1.0 - q * 10.0) * measured == measured - d * 10.0;
    }
  }

  lemma {:induction false} NegativeDepthNeverOff(measured: real, reference: real)
    requires measured < 0.0
    ensures !TenPercentOff(measured, reference)
  {
    var d := AbsReal(reference - measured);
    var q := d / measured;
    assert Divide(d, measured) == Finite(q);
    assert PercentOff(measured, reference) == Finite(q * 100.0);
    assert q * (-measured) == -d;
    ScaleByPositive(q, 0.0, -measured);
    assert q <= 0.0;
  }

  lemma {:induction false} ProductNonNegative(x: real, y: real)
    requires x >= 0.0 && y > 0.0
    ensures x * y >= 0.0
  {
  }

  lemma {:induction false} ScaleByPositive(a: real, b: real, c: real)
    requires c > 0.0
    ensures a > b <==> a * c > b * c
  {
    assert a * c - b * c == (a - b) * c;
  }

  /** The occupation row is a trawl occupation at the station. */
  predicate TrawlOccupationAt(o: Occupation, s: string) {
    o.collectionType in TrawlTypes && o.stationId == s
  }

  /** The right merge of trawl occupations with the trawls on stationid
      alone: a trawl is reported when some trawl occupation of its station
      is more than 10% off its depth; without one, NaN compares false. */
  predicate DepthOff(occ: seq<Occupation>, e: TrawlEvent, depth: TrawlEvent -> real) {
    exists o :: o in occ && TrawlOccupationAt(o, e.stationId) && TenPercentOff(depth(e), o.depth)
  }

  function DepthOffRows(occ: seq<Occupation>, ts: seq<TrawlEvent>, depth: TrawlEvent -> real): (ids: seq<int>)
    ensures forall x :: x in ids <==> exists j :: 0 <= j < |ts| && ts[j].row == x && DepthOff(occ, ts[j], depth)
  {
    Select(ts, (e: TrawlEvent) => DepthOff(occ, e, depth), TrawlRow)
  }

  function StartDepth(e: TrawlEvent): real { e.startDepth }
  function EndDepth(e: TrawlEvent): real { e.endDepth }

  /** A trawl at a station without a trawl occupation is never reported,
      and one that matches its occupation depth exactly is not reported on
      that occupation's account. */
  lemma {:induction false} DepthOffNeedsPartner(occ: seq<Occupation>, ts: seq<TrawlEvent>, j: int)
    requires 0 <= j < |ts|
    requires forall k :: 0 <= k < |ts| && ts[k].row == ts[j].row ==> k == j
    ensures (forall o :: o in occ ==> !TrawlOccupationAt(o, ts[j].stationId)) ==>
      ts[j].row !in DepthOffRows(occ, ts, StartDepth) && ts[j].row !in DepthOffRows(occ, ts, EndDepth)
    ensures forall o :: o in occ && o.depth == ts[j].startDepth ==> !TenPercentOff(ts[j].startDepth, o.depth)
  {
    forall o | o in occ && o.depth == ts[j].startDepth ensures !TenPercentOff(ts[j].startDepth, o.depth) {
      TenPercentOffMeaning(ts[j].startDepth, o.depth);
    }
  }

  // ---------------------------------------------------------------------
  // Trawl distance and duration windows
  // ---------------------------------------------------------------------

  /** The right merge of trawl occupations (stationid, collectiontype) with
      the trawls on stationid: a trawl is reported when some occupation of
      its station has collection type `ct` and the trawl is `bad`. */
  predicate OccupiedWithType(occ: seq<Occupation>, s: string, ct: string) {
    exists o :: o in occ && o.collectionType in TrawlTypes && o.collectionType == ct && o.stationId == s
  }

  function WindowRows(occ: seq<Occupation>, ts: seq<TrawlEvent>, ct: string, bad: TrawlEvent -> bool): (ids: seq<int>)
    ensures forall x :: x in ids <==> exists j :: 0 <= j < |ts| && ts[j].row == x && bad(ts[j]) && OccupiedWithType(occ, ts[j].stationId, ct)
  {
    Select(ts, (e: TrawlEvent) => bad(e) && OccupiedWithType(occ, e.stationId, ct), TrawlRow)
  }

  predicate ShortTen(e: TrawlEvent) { e.trawlDistance < 650.0 }
  predicate ShortFive(e: TrawlEvent) { e.trawlDistance < 325.0 }
  predicate TenOutsideWindow(e: TrawlEvent) { e.trawlTime < 8.0 || e.trawlTime > 16.0 }
  predicate FiveOutsideWindow(e: TrawlEvent) { e.trawlTime < 4.0 || e.trawlTime > 8.0 }

  /** The four window warnings of field.py in order: 10-minute distance,
      5-minute distance, 10-minute duration, 5-minute duration. */
  function TrawlWindows(occ: seq<Occupation>, ts: seq<TrawlEvent>): (ws: seq<seq<int>>)
    ensures |ws| == 4
    ensures ws[0] == WindowRows(occ, ts, "Trawl 10 Minutes", ShortTen)
    ensures ws[1] == WindowRows(occ, ts, "Trawl 5 Minutes", ShortFive)
    ensures ws[2] == WindowRows(occ, ts, "Trawl 10 Minutes", TenOutsideWindow)
    ensures ws[3] == WindowRows(occ, ts, "Trawl 5 Minutes", FiveOutsideWindow)
  {
    [WindowRows(occ, ts, "Trawl 10 Minutes", ShortTen),
     WindowRows(occ, ts, "Trawl 5 Minutes", ShortFive),
     WindowRows(occ, ts, "Trawl 10 Minutes", TenOutsideWindow),
     WindowRows(occ, ts, "Trawl 5 Minutes", FiveOutsideWindow)]
  }

  /** The windows are closed: a 10-minute trawl of 8 to 16 minutes covering
      at least 650 m passes both 10-minute checks. But the merge is on the
      station only, so if the same station also has a 5-minute occupation,
      a 12-minute trawl is reported by the 5-minute duration check. */
  lemma {:induction false} WindowsMeaning(occ: seq<Occupation>, ts: seq<TrawlEvent>, j: int)
    requires 0 <= j < |ts|
    requires forall k :: 0 <= k < |ts| && ts[k].row == ts[j].row ==> k == j
    ensures 8.0 <= ts[j].trawlTime <= 16.0 && ts[j].trawlDistance >= 650.0 ==>
      ts[j].row !in TrawlWindows(occ, ts)[0] && ts[j].row !in TrawlWindows(occ, ts)[2]
    ensures ts[j].trawlTime == 12.0 && (exists o :: o in occ && o.collectionType == "Trawl 5 Minutes" && o.stationId == ts[j].stationId) ==>
      ts[j].row in TrawlWindows(occ, ts)[3]
  {
  }

  // ---------------------------------------------------------------------
  // PT sensor and grab station checks
  // ---------------------------------------------------------------------

  predicate SensorWithoutManufacturer(e: TrawlEvent) {
    e.ptSensor == "Yes" && e.ptManufacturer.None?
  }

  predicate SensorWithoutSerial(e: TrawlEvent) {
    e.ptSensor == "Yes" && e.ptSerial.None?
  }

  /** PT sensor 'Yes' requires a manufacturer. */
  function PtManufacturerMissing(ts: seq<TrawlEvent>): (ids: seq<int>)
    ensures forall x :: x in ids <==> exists j :: 0 <= j < |ts| && ts[j].row == x && ts[j].ptSensor == "Yes" && ts[j].ptManufacturer.None?
  {
    Select(ts, SensorWithoutManufacturer, TrawlRow)
  }

  /** The serial-number check as written: its rows test the manufacturer
      column again, so it repeats the manufacturer check. */
  function PtSerialMissingAsWritten(ts: seq<TrawlEvent>): (ids: seq<int>)
    ensures ids == PtManufacturerMissing(ts)
  {
    Select(ts, SensorWithoutManufacturer, TrawlRow)
  }

  /** The serial-number check as its message describes it. */
  function PtSerialMissing(ts: seq<TrawlEvent>): (ids: seq<int>)
    ensures forall x :: x in ids <==> exists j :: 0 <= j < |ts| && ts[j].row == x && ts[j].ptSensor == "Yes" && ts[j].ptSerial.None?
  {
    Select(ts, SensorWithoutSerial, TrawlRow)
  }

  /** A sensor with a manufacturer but no serial number passes the check as
      written and is reported by the intended one. */
  lemma {:induction false} SerialCheckMissesSerial(e: TrawlEvent)
    requires e.ptSensor == "Yes" && e.ptManufacturer.Some? && e.ptSerial.None?
    ensures PtSerialMissingAsWritten([e]) == []
    ensures PtSerialMissing([e]) == [e.row]
  {
  }

  /** The grab stations missing from the field assignment table, and
      whether the strata check runs (only when there are none). */
  datatype GrabAssignmentResult = GrabAssignmentResult(rows: seq<int>, strataCheck: bool)

  function GrabAssignment(gs: seq<GrabEvent>, fat: seq<Assignment>): (r: GrabAssignmentResult)
    ensures forall x :: x in r.rows <==> exists j :: 0 <= j < |gs| && gs[j].row == x && forall a :: a in fat ==> a.stationId != gs[j].stationId
    ensures r.strataCheck <==> forall j :: 0 <= j < |gs| ==> exists a :: a in fat && a.stationId == gs[j].stationId
  {
    var rows := Select(gs, (g: GrabEvent) => forall a :: a in fat ==> a.stationId != g.stationId, GrabRow);
    GrabAssignmentResult(rows, rows == [])
  }
}

=== FILE: field_grab.dfy ===
/** The grab field rule module, proj/custom/field_grab_custom.py.

    It repeats parts of field.py for a grab-only submission: occupation
    existence, the HH:MM:SS prefix test, depth units, the abandoned-comment
    rule, the organisation warnings and the ±10% depth agreement. Each
    check fills one of two reused argument dicts, `occupation_args` and
    `grab_args`, and passes it to `checkData`; the model keeps that reuse
    explicit, because one call passes the wrong dict.
 */
module FieldGrab {
  import opened Wrappers
  import opened Text
  import opened Frames
  import opened Functions
  import opened TimeFormat
  import opened Field
  import opened Numeric
  import opened Grouping
  import Db

  // ---------------------------------------------------------------------
  // Grab ↔ occupation existence
  // ---------------------------------------------------------------------

  /** Some occupation row, of any collection type, is at the grab's
      station on its date by its organisation. */
  predicate AnyOccupation(occ: seq<Occupation>, g: GrabEvent) {
    exists i :: 0 <= i < |occ| && Occupies(occ[i], GrabKey(g))
  }

  /** A row of `occupation.merge(grab.assign(present='yes'), how='right')`:
      the matching occupation row (NaN columns when there is none), the
      grab, and the `present` marker, which comes from the grab side. */
  datatype MergedGrab = MergedGrab(occupation: Option<Occupation>, grab: GrabEvent, present: Option<string>)

  /** The merged rows one grab contributes when it has partners: one per
      matching occupation row. */
  function Partners(occ: seq<Occupation>, g: GrabEvent): (ms: seq<MergedGrab>)
    ensures forall m :: m in ms ==> m.grab == g && m.present == Some("yes") && m.occupation.Some?
    ensures forall m :: m in ms ==> m.occupation.value in occ && Occupies(m.occupation.value, GrabKey(g))
    ensures ms == [] <==> !AnyOccupation(occ, g)
  {
    if |occ| == 0 then []
    else
      var rest := Partners(occ[..|occ| - 1], g);
      var o := occ[|occ| - 1];
      assert forall i :: 0 <= i < |occ| - 1 ==> occ[..|occ| - 1][i] == occ[i];
      rest + (if Occupies(o, GrabKey(g)) then [MergedGrab(Some(o), g, Some("yes"))] else [])
  }

  /** The merged rows one grab contributes: its partners, or a single row
      with the occupation side missing. */
  function MergeOne(occ: seq<Occupation>, g: GrabEvent): (ms: seq<MergedGrab>)
    ensures ms != []
    ensures forall m :: m in ms ==> m.grab == g && m.present == Some("yes")
    ensures forall m :: m in ms && m.occupation.Some? ==> Occupies(m.occupation.value, GrabKey(g))
    ensures MergedGrab(None, g, Some("yes")) in ms <==> !AnyOccupation(occ, g)
    ensures forall m :: m in ms && m.occupation.None? ==> !AnyOccupation(occ, g)
  {
    var ps := Partners(occ, g);
    if ps == [] then [MergedGrab(None, g, Some("yes"))] else ps
  }

  /** The right merge: every grab row survives, in order. */
  function RightMerge(occ: seq<Occupation>, gs: seq<GrabEvent>): (ms: seq<MergedGrab>)
    ensures forall m :: m in ms ==> m.grab in gs && m.present == Some("yes")
    ensures forall m :: m in ms && m.occupation.None? ==> !AnyOccupation(occ, m.grab)
    ensures forall j :: 0 <= j < |gs| && !AnyOccupation(occ, gs[j]) ==> MergedGrab(None, gs[j], Some("yes")) in ms
  {
    if |gs| == 0 then []
    else
      var rest := RightMerge(occ, gs[..|gs| - 1]);
      assert forall j :: 0 <= j < |gs| - 1 ==> gs[..|gs| - 1][j] == gs[j];
      rest + MergeOne(occ, gs[|gs| - 1])
  }

  function MergedRow(m: MergedGrab): int { m.grab.row }

  /** `tmp[pd.isnull(tmp.present)].tmp_row` as written: the marker is on
      the side the right merge keeps, so it is never missing and no grab is
      ever reported. */
  function GrabExistenceAsWritten(occ: seq<Occupation>, gs: seq<GrabEvent>): (ids: seq<int>)
    ensures ids == []
  {
    Select(RightMerge(occ, gs), (m: MergedGrab) => m.present.None?, MergedRow)
  }

  /** The test the check means: the rows whose occupation side is missing,
      that is the grabs no occupation row of any type matches. */
  function GrabExistence(occ: seq<Occupation>, gs: seq<GrabEvent>): (ids: seq<int>)
    ensures forall x :: x in ids <==> exists j :: 0 <= j < |gs| && gs[j].row == x && !AnyOccupation(occ, gs[j])
    ensures ids == [] <==> forall j :: 0 <= j < |gs| ==> AnyOccupation(occ, gs[j])
  {
    MissingOccupationRows(occ, gs);
    Select(RightMerge(occ, gs), (m: MergedGrab) => m.occupation.None?, MergedRow)
  }

  /** The merged rows without an occupation side are exactly the
      unoccupied grabs. */
  lemma {:induction false} MissingOccupationRows(occ: seq<Occupation>, gs: seq<GrabEvent>)
    ensures var ids := Select(RightMerge(occ, gs), (m: MergedGrab) => m.occupation.None?, MergedRow);
      forall x :: x in ids <==> exists j :: 0 <= j < |gs| && gs[j].row == x && !AnyOccupation(occ, gs[j])
  {
    var ids := Select(RightMerge(occ, gs), (m: MergedGrab) => m.occupation.None?, MergedRow);
    forall x ensures x in ids <==> exists j :: 0 <= j < |gs| && gs[j].row == x && !AnyOccupation(occ, gs[j]) {
      if x in ids {
        MissingOccupationCause(occ, gs, x);
      }
      if exists j :: 0 <= j < |gs| && gs[j].row == x && !AnyOccupation(occ, gs[j]) {
        var j :| 0 <= j < |gs| && gs[j].row == x && !AnyOccupation(occ, gs[j]);
        MissingOccupationReported(occ, gs, j);
      }
    }
  }

  /** An unoccupied grab keeps a merged row without an occupation side. */
  lemma {:induction false} MissingOccupationReported(occ: seq<Occupation>, gs: seq<GrabEvent>, j: int)
    requires 0 <= j < |gs| && !AnyOccupation(occ, gs[j])
    ensures gs[j].row in Select(RightMerge(occ, gs), (m: MergedGrab) => m.occupation.None?, MergedRow)
  {
    var ms := RightMerge(occ, gs);
    assert MergedGrab(None, gs[j], Some("yes")) in ms;
    var k :| 0 <= k < |ms| && ms[k] == MergedGrab(None, gs[j], Some("yes"));
    assert ms[k].occupation.None? && MergedRow(ms[k]) == gs[j].row;
  }

  /** A merged row without an occupation side comes from an unoccupied
      grab. */
  lemma {:induction false} MissingOccupationCause(occ: seq<Occupation>, gs: seq<GrabEvent>, x: int)
    requires x in Select(RightMerge(occ, gs), (m: MergedGrab) => m.occupation.None?, MergedRow)
    ensures exists j :: 0 <= j < |gs| && gs[j].row == x && !AnyOccupation(occ, gs[j])
  {
    var ms := RightMerge(occ, gs);
    var k :| 0 <= k < |ms| && ms[k].occupation.None? && MergedRow(ms[k]) == x;
    assert ms[k] in ms;
    var j :| 0 <= j < |gs| && gs[j] == ms[k].grab;
    assert !AnyOccupation(occ, gs[j]);
  }

  /** A grab with no occupation row at all passes as written and is
      reported by the intended test. */
  lemma {:induction false} OrphanGrabMissed(g: GrabEvent)
    ensures GrabExistenceAsWritten([], [g]) == []
    ensures GrabExistence([], [g]) == [g.row]
  {
    var ids := GrabExistence([], [g]);
    assert g.row in ids;
    assert forall x :: x in ids ==> x == g.row;
    assert |ids| <= 1 by {
      assert |RightMerge([], [g])| == 1 by {
        assert [g][..0] == [];
      }
    }
  }

  /** The grab module accepts an occupation of any collection type, so it
      reports no more than field.py's test against grab occupations does. */
  lemma {:induction false} AnyTypeIsWeaker(occ: seq<Occupation>, gs: seq<GrabEvent>, x: int)
    requires x in GrabExistence(occ, gs)
    ensures EventExistence(occ, GrabKeys(gs), GrabTypes).Orphans? ==> x in EventExistence(occ, GrabKeys(gs), GrabTypes).rows
  {
    var j :| 0 <= j < |gs| && gs[j].row == x && !AnyOccupation(occ, gs[j]);
    assert !HasOccupation(occ, GrabKeys(gs)[j], GrabTypes);
  }

  /** A grab occupied only by a trawl crew passes here but not in field.py. */
  lemma {:induction false} TrawlOccupationSuffices(g: GrabEvent)
    ensures var o := Occupation(0, g.stationId, g.sampleDate, g.org, "Trawl 10 Minutes", Null, "m", 10.0, "No", None);
      && GrabExistence([o], [g]) == []
      && EventExistence([o], GrabKeys([g]), GrabTypes) == NoOccupationOfType([0])
  {
    var o := Occupation(0, g.stationId, g.sampleDate, g.org, "Trawl 10 Minutes", Null, "m", 10.0, "No", None);
    assert Occupies([o][0], GrabKey([g][0]));
    var rows := EventExistence([o], GrabKeys([g]), GrabTypes).rows;
    assert 0 in rows;
    assert forall x :: x in rows ==> x == 0;
    assert |rows| <= 1;
  }

  // ---------------------------------------------------------------------
  // Time formats and units
  // ---------------------------------------------------------------------

  /** The two time checks, OccupationTime and SampleTime. */
  function GrabTimeChecks(occ: seq<Occupation>, gs: seq<GrabEvent>): (fs: seq<Option<Finding>>)
    ensures |fs| == 2
    ensures fs[0].Some? <==> exists i :: 0 <= i < |occ| && !PrefixTime(Render(occ[i].time))
    ensures fs[1].Some? <==> exists j :: 0 <= j < |gs| && !PrefixTime(Render(gs[j].sampleTime))
    ensures fs[1].Some? ==> forall x :: x in fs[1].value.rows <==> exists j :: 0 <= j < |gs| && gs[j].row == x && !PrefixTime(Render(gs[j].sampleTime))
  {
    [CheckTime("tbl_stationoccupation", "OccupationTime", OccupationTimes(occ)),
     CheckTime("tbl_grabevent", "SampleTime", GrabTimes(gs))]
  }

  /** The pattern and columns are field.py's: both checks agree with the
      corresponding entries of field.py's time checks. */
  lemma {:induction false} SameTimeChecksAsField(occ: seq<Occupation>, gs: seq<GrabEvent>)
    ensures GrabTimeChecks(occ, gs)[0] == FieldTimeChecks(occ, None, Some(gs))[0]
    ensures GrabTimeChecks(occ, gs)[1] == FieldTimeChecks(occ, None, Some(gs))[6]
  {
  }

  function OccupationUnits(o: Occupation): string { o.depthUnits }
  function GrabUnits(g: GrabEvent): string { g.depthUnits }

  /** The occupation depth-unit finding: feet are an "Undefined Error". */
  function OccupationUnitsFinding(occ: seq<Occupation>): (f: Option<Finding>)
    ensures f.Some? <==> exists i :: 0 <= i < |occ| && occ[i].depthUnits in FeetUnits
    ensures f.Some? ==> f.value.table == "tbl_stationoccupation" && f.value.columns == "OccupationDepthUnits"
    ensures f.Some? ==> forall x :: x in f.value.rows <==> exists i :: 0 <= i < |occ| && occ[i].depthUnits in FeetUnits && occ[i].row == x
  {
    CheckData(CheckArgs("tbl_stationoccupation", FeetRows(occ, OccupationUnits, OccRow), "OccupationDepthUnits",
      "Undefined Error", false, "OccupationDepthUnits should be in meters, not feet"), None).0
  }

  /** The grab depth-unit finding, built from `grab_args`. */
  function GrabUnitsFinding(gs: seq<GrabEvent>): (f: Option<Finding>)
    ensures f.Some? <==> exists j :: 0 <= j < |gs| && gs[j].depthUnits in FeetUnits
    ensures f.Some? ==> f.value.table == "tbl_grabevent" && f.value.columns == "stationwaterdepthunits"
    ensures f.Some? ==> forall x :: x in f.value.rows <==> exists j :: 0 <= j < |gs| && gs[j].depthUnits in FeetUnits && gs[j].row == x
  {
    CheckData(CheckArgs("tbl_grabevent", FeetRows(gs, GrabUnits, GrabRow), "stationwaterdepthunits",
      "Undefined Error", false, "stationwaterdepthunits should be in meters, not feet"), None).0
  }

  /** The finding the abandoned-comment rule computes into
      `occupation_args`. */
  function AbandonedFinding(occ: seq<Occupation>): (f: Option<Finding>)
    ensures f.Some? <==> exists i :: 0 <= i < |occ| && occ[i].abandoned == "Yes" && occ[i].comments.None?
    ensures f.Some? ==> f.value.table == "tbl_stationoccupation" && f.value.columns == "Comments" && f.value.errorType == "Missing Required Data"
    ensures f.Some? ==> forall x :: x in f.value.rows <==> exists i :: 0 <= i < |occ| && occ[i].row == x && occ[i].abandoned == "Yes" && occ[i].comments.None?
  {
    var rows := AbandonedWithoutComment(occ);
    assert rows != [] <==> exists i :: 0 <= i < |occ| && occ[i].abandoned == "Yes" && occ[i].comments.None? by {
      if exists i :: 0 <= i < |occ| && occ[i].abandoned == "Yes" && occ[i].comments.None? {
        var i :| 0 <= i < |occ| && occ[i].abandoned == "Yes" && occ[i].comments.None?;
        assert occ[i].row in rows;
      }
    }
    CheckData(CheckArgs("tbl_stationoccupation", rows, "Comments",
      "Missing Required Data", false, "A comment is required if the station was abandoned"), None).0
  }

  /** The existence finding, as written or corrected. */
  function ExistenceFinding(occ: seq<Occupation>, gs: seq<GrabEvent>, corrected: bool): (f: Option<Finding>)
    ensures f.Some? <==> corrected && exists j :: 0 <= j < |gs| && !AnyOccupation(occ, gs[j])
    ensures f.Some? ==> f.value.rows == GrabExistence(occ, gs) && f.value.errorType == "Logic Error"
  {
    var rows := if corrected then GrabExistence(occ, gs) else GrabExistenceAsWritten(occ, gs);
    CheckData(CheckArgs("tbl_grabevent", rows, "StationID,SampleDate,SamplingOrganization", "Logic Error", false, ExistenceMessage), None).0
  }

  const ExistenceMessage := "Each Grab record must have a corresponding Occupation record. Records are matched on StationID, SampleDate, and SamplingOrganization."

  /** The errors of the first checks, in order: existence, the two times,
      the two unit checks, and the abandoned-comment slot. As written that
      slot calls `checkData(**grab_args)`, whose contents are still the
      grab unit check's, so the abandoned rows are never reported and a
      grab unit error is reported twice; corrected, it reports
      `occupation_args`. */
  function GrabErrors(occ: seq<Occupation>, gs: seq<GrabEvent>, corrected: bool): (errs: seq<Option<Finding>>)
    ensures |errs| == 6
    ensures errs[3] == OccupationUnitsFinding(occ) && errs[4] == GrabUnitsFinding(gs)
    ensures errs[5] == if corrected then AbandonedFinding(occ) else GrabUnitsFinding(gs)
  {
    seq(6, k requires 0 <= k < 6 => GrabError(occ, gs, corrected, k))
  }

  /** The `k`th of those errors. */
  function GrabError(occ: seq<Occupation>, gs: seq<GrabEvent>, corrected: bool, k: int): Option<Finding>
    requires 0 <= k < 6
  {
    if k == 0 then ExistenceFinding(occ, gs, corrected)
    else if k < 3 then GrabTimeChecks(occ, gs)[k - 1]
    else if k == 3 then OccupationUnitsFinding(occ)
    else if k == 4 || !corrected then GrabUnitsFinding(gs)
    else AbandonedFinding(occ)
  }

  /** The first three errors: existence, then the occupation and grab
      time checks. */
  lemma {:induction false} GrabErrorsLeadingSlots(occ: seq<Occupation>, gs: seq<GrabEvent>, corrected: bool)
    ensures GrabErrors(occ, gs, corrected)[0] == ExistenceFinding(occ, gs, corrected)
    ensures GrabErrors(occ, gs, corrected)[1] == GrabTimeChecks(occ, gs)[0]
    ensures GrabErrors(occ, gs, corrected)[2] == GrabTimeChecks(occ, gs)[1]
  {
    var errs := GrabErrors(occ, gs, corrected);
    assert errs[0] == GrabError(occ, gs, corrected, 0);
    assert errs[1] == GrabError(occ, gs, corrected, 1);
    assert errs[2] == GrabError(occ, gs, corrected, 2);
  }

  /** An abandoned station without a comment goes unreported as written,
      while the intended check reports it; a grab in feet is reported
      twice as written. */
  lemma {:induction false} AbandonedCommentLost(o: Occupation, g: GrabEvent)
    requires o.abandoned == "Yes" && o.comments.None? && o.depthUnits == "m"
    requires g.depthUnits == "ft"
    ensures var errs := GrabErrors([o], [g], false);
      errs[5] == errs[4] && errs[5].Some? && errs[5].value.table == "tbl_grabevent"
    ensures var f := GrabErrors([o], [g], true)[5];
      f.Some? && f.value.table == "tbl_stationoccupation" && f.value.rows == [o.row]
  {
    assert [g][0].depthUnits in FeetUnits;
    SoleAbandonedRow(o);
  }

  /** A lone abandoned occupation without a comment is reported alone. */
  lemma {:induction false} SoleAbandonedRow(o: Occupation)
    requires o.abandoned == "Yes" && o.comments.None?
    ensures AbandonedFinding([o]).Some? && AbandonedFinding([o]).value.rows == [o.row]
  {
    assert [o][0].abandoned == "Yes" && [o][0].comments.None?;
    var rows := AbandonedWithoutComment([o]);
    assert o.row in rows;
    assert |rows| <= 1;
    assert forall x :: x in rows ==> x == o.row;
  }

  // ---------------------------------------------------------------------
  // Sampling organisations
  // ---------------------------------------------------------------------

  /** The organisation warnings of the grab and trawl modules, which share
      the block: several organisations give one warning and nothing else;
      otherwise the two assignment warnings. */
  datatype AgencyWarnings =
    | SeveralAgencies(rows: seq<int>)
    | AssignmentWarnings(agency: string, trawlRows: seq<int>, grabRows: seq<int>)

  /** `f"{sampling_organization}"` with the `unique()` array of at most
      one element: numpy renders it with its brackets and quotes. */
  function ArrayText(orgs: seq<string>): (t: string)
    requires |orgs| <= 1
    ensures |t| >= 2 && t[0] == '['
  {
    if |orgs| == 0 then "[]" else "['" + orgs[0] + "']"
  }

  /** The quoted text the station queries compare the agency columns with:
      as written the rendered array, corrected the organisation itself. */
  function AgencyText(orgs: seq<string>, corrected: bool): (t: string)
    requires |orgs| <= 1
    ensures corrected && |orgs| == 1 ==> t == orgs[0]
    ensures !corrected ==> t == ArrayText(orgs)
  {
    if corrected && |orgs| == 1 then orgs[0] else ArrayText(orgs)
  }

  /** The organisation block. The two station queries put the agency text
      between single quotes. As written that text is the rendered array,
      whose own quotes end the SQL literal early, so the database rejects
      the statement unless the whole quoted text still reads as one
      literal; the stations are then looked up under the value that
      literal reads as. Corrected, the organisation itself is looked up.
      Several organisations give one warning and no query. */
  function AgencyChecks(occ: seq<Occupation>, fat: seq<Assignment>, corrected: bool): (r: Result<AgencyWarnings>)
    ensures r.Raise? <==> !corrected && |Orgs(occ)| <= 1 && Db.ReadLiteral("'" + ArrayText(Orgs(occ)) + "'").None?
    ensures r.Raise? ==> r.exception.DatabaseError?
    ensures r.Ok? ==> (r.value.SeveralAgencies? <==> |Orgs(occ)| > 1)
    ensures r.Ok? && r.value.SeveralAgencies? ==> r.value.rows == SeveralOrgs(occ)
    ensures r.Ok? && r.value.AssignmentWarnings? ==>
      && (forall x :: x in r.value.trawlRows <==> exists i :: 0 <= i < |occ| && occ[i].row == x && UnassignedTrawl(fat, r.value.agency, occ[i]))
      && (forall x :: x in r.value.grabRows <==> exists i :: 0 <= i < |occ| && occ[i].row == x && UnassignedGrab(fat, r.value.agency, occ[i]))
    ensures r.Ok? && r.value.AssignmentWarnings? && corrected && |occ| > 0 ==> r.value.agency == occ[0].org
    ensures r.Ok? && r.value.AssignmentWarnings? && !corrected ==> Db.ReadLiteral("'" + ArrayText(Orgs(occ)) + "'") == Some(r.value.agency)
  {
    var orgs := Orgs(occ);
    if |orgs| > 1 then Ok(SeveralAgencies(SeveralOrgs(occ)))
    else
      var quoted := "'" + AgencyText(orgs, corrected) + "'";
      var read := if corrected then Some(AgencyText(orgs, corrected)) else Db.ReadLiteral(quoted);
      if read.None? then Raise(DatabaseError("SELECT DISTINCT stationid FROM field_assignment_table WHERE trawlagency = " + quoted))
      else
        assert |occ| > 0 ==> occ[0].org in orgs;
        var w := OrgRowsAsWritten(occ, fat, read.value);
        Ok(AssignmentWarnings(read.value, w.trawlRows, w.grabRows))
  }

  /** As written, a submission from one organisation whose name does not
      start with a quote makes the station query a syntax error: the
      literal closes after the bracket and the name follows it. */
  lemma {:induction false} SingleAgencyRaises(occ: seq<Occupation>, fat: seq<Assignment>)
    requires |occ| >= 1 && forall j :: 0 <= j < |occ| ==> occ[j].org == occ[0].org
    requires occ[0].org != "" && occ[0].org[0] != '\''
    ensures AgencyChecks(occ, fat, false).Raise?
  {
    DistinctSingle(OccOrgs(occ));
    var org := occ[0].org;
    assert Orgs(occ) == [org];
    assert "'" + ArrayText([org]) + "'" == "'" + "[" + "'" + (org + "']'");
    Db.ReadLiteralPlain("[", org + "']'");
  }

  /** An empty table renders as `[]`, which is a valid literal: as written
      nothing raises and, no row being there, nothing is warned. */
  lemma {:induction false} EmptyTableQuiet(fat: seq<Assignment>)
    ensures AgencyChecks([], fat, false) == Ok(AssignmentWarnings("[]", [], []))
  {
    assert Orgs([]) == [];
    assert "'" + ArrayText([]) + "'" == "'" + "[]" + "'" + "";
    Db.ReadLiteralPlain("[]", "");
  }

  /** Corrected, a single-agency submission gets the warnings field.py
      gives it, and an empty submission gets none instead of an exception. */
  lemma {:induction false} CorrectedMatchesField(occ: seq<Occupation>, fat: seq<Assignment>)
    ensures |occ| >= 1 && (forall j :: 0 <= j < |occ| ==> occ[j].org == occ[0].org) ==>
      var w := AgencyChecks(occ, fat, true);
      var f := OrgChecks(occ, fat, true).value.perOrg[0];
      w.Ok? && w.value.AssignmentWarnings? && (forall x :: x in w.value.trawlRows <==> x in f.trawlRows) && (forall x :: x in w.value.grabRows <==> x in f.grabRows)
    ensures |occ| == 0 ==> AgencyChecks(occ, fat, true) == Ok(AssignmentWarnings("[]", [], [])) && OrgChecks(occ, fat, true).Raise?
  {
    if |occ| >= 1 && (forall j :: 0 <= j < |occ| ==> occ[j].org == occ[0].org) {
      DistinctSingle(OccOrgs(occ));
    }
  }

  // ---------------------------------------------------------------------
  // Depth agreement
  // ---------------------------------------------------------------------

  /** The right merge of the grab occupations with the grabs on stationid
      alone, filtered by `abs(swd - od) / swd * 100 > 10`. */
  predicate GrabDepthOff(occ: seq<Occupation>, g: GrabEvent) {
    exists o :: o in occ && o.collectionType == "Grab" && o.stationId == g.stationId && TenPercentOff(g.stationWaterDepth, o.depth)
  }

  function GrabDepthRows(occ: seq<Occupation>, gs: seq<GrabEvent>): (ids: seq<int>)
    ensures forall x :: x in ids <==> exists j :: 0 <= j < |gs| && gs[j].row == x && GrabDepthOff(occ, gs[j])
  {
    Select(gs, (g: GrabEvent) => GrabDepthOff(occ, g), GrabRow)
  }

  /** For a positive water depth, a grab is reported exactly when some grab
      occupation of its station differs from it by more than a tenth of it;
      without a grab occupation at the station it is never reported. */
  lemma {:induction false} GrabDepthMeaning(occ: seq<Occupation>, gs: seq<GrabEvent>, j: int)
    requires 0 <= j < |gs| && gs[j].stationWaterDepth > 0.0
    requires forall k :: 0 <= k < |gs| && gs[k].row == gs[j].row ==> k == j
    ensures gs[j].row in GrabDepthRows(occ, gs) <==>
      exists o :: o in occ && o.collectionType == "Grab" && o.stationId == gs[j].stationId
        && AbsReal(o.depth - gs[j].stationWaterDepth) * 10.0 > gs[j].stationWaterDepth
  {
    var g := gs[j];
    forall o | o in occ ensures TenPercentOff(g.stationWaterDepth, o.depth) <==> AbsReal(o.depth - g.stationWaterDepth) * 10.0 > g.stationWaterDepth {
      TenPercentOffMeaning(g.stationWaterDepth, o.depth);
    }
  }

  /** The merge is on the station only: a grab occupation of another date
      can report a grab whose own occupation agrees with it. */
  lemma {:induction false} OtherDateCounts()
    ensures var g := GrabEvent(0, "S", 1, "A", Null, "m", 10.0);
      var same := Occupation(0, "S", 1, "A", "Grab", Null, "m", 10.0, "No", None);
      var other := Occupation(1, "S", 2, "A", "Grab", Null, "m", 20.0, "No", None);
      GrabDepthRows([same], [g]) == [] && GrabDepthRows([same, other], [g]) == [0]
  {
    var g := GrabEvent(0, "S", 1, "A", Null, "m", 10.0);
    var same := Occupation(0, "S", 1, "A", "Grab", Null, "m", 10.0, "No", None);
    var other := Occupation(1, "S", 2, "A", "Grab", Null, "m", 20.0, "No", None);
    TenPercentOffMeaning(10.0, 10.0);
    TenPercentOffMeaning(10.0, 20.0);
    assert !GrabDepthOff([same], g);
    assert GrabDepthOff([same, other], g) by {
      assert other in [same, other];
    }
    var ids := GrabDepthRows([same, other], [g]);
    assert 0 in ids;
    assert forall x :: x in ids ==> x == 0;
    assert |ids| <= 1;
  }
}

=== FILE: field_trawl.dfy ===
/** The trawl field rule module, proj/custom/field_trawl_custom.py.

    Its first statement merges the occupation table with the trawls on a
    misspelt key column, which raises `KeyError` before any finding is
    made, whatever the data. The checks after it are modelled as they
    would run with the key spelt right: the six HH:MM:SS columns, the depth
    units, time to bottom, the trawl-number sequence, the ±10% depths and
    the duration and distance windows, two of which cannot fire as written.
 */
module FieldTrawl {
  import opened Wrappers
  import opened Numeric
  import opened Frames
  import opened Functions
  import opened TimeFormat
  import opened Field

  // ---------------------------------------------------------------------
  // The existence merge
  // ---------------------------------------------------------------------

  /** `left.merge(right, on=keys)`: pandas looks the keys up in order and
      raises `KeyError` for the first one a frame lacks. */
  function MergeKeys(left: set<string>, right: set<string>, keys: seq<string>): (r: Result<()>)
    ensures r.Ok? <==> forall k :: 0 <= k < |keys| ==> keys[k] in left && keys[k] in right
    ensures r.Raise? ==> exists k :: FirstMissing(left, right, keys, k) && r.exception == KeyError(keys[k])
  {
    if |keys| == 0 then Ok(())
    else if keys[0] !in left || keys[0] !in right then Raise(KeyError(keys[0]))
    else
      var r := MergeKeys(left, right, keys[1..]);
      if r.Raise? then
        var k :| FirstMissing(left, right, keys[1..], k) && r.exception == KeyError(keys[1..][k]);
        assert forall k' :: 1 <= k' < k + 1 ==> keys[k'] == keys[1..][k' - 1];
        assert FirstMissing(left, right, keys, k + 1);
        r
      else r
  }

  /** `keys[k]` is the first key one of the frames lacks. */
  predicate FirstMissing(left: set<string>, right: set<string>, keys: seq<string>, k: int) {
    0 <= k < |keys| && (keys[k] !in left || keys[k] !in right)
    && forall k' :: 0 <= k' < k ==> keys[k'] in left && keys[k'] in right
  }

  const MergeKeysAsWritten: seq<string> := ["staitonid", "sampledate", "samplingorganization"]

  /** Each trawl has an occupation row of any type at its station, on its
      date, by its organisation. */
  predicate TrawlOccupied(occ: seq<Occupation>, e: TrawlEvent) {
    exists i :: 0 <= i < |occ| && Occupies(occ[i], TrawlKey(e))
  }

  /** The trawl rows without an occupation: what the check's message asks
      for. */
  function TrawlExistence(occ: seq<Occupation>, ts: seq<TrawlEvent>): (ids: seq<int>)
    ensures forall x :: x in ids <==> exists j :: 0 <= j < |ts| && ts[j].row == x && !TrawlOccupied(occ, ts[j])
    ensures ids == [] <==> forall j :: 0 <= j < |ts| ==> TrawlOccupied(occ, ts[j])
  {
    Select(ts, (e: TrawlEvent) => !TrawlOccupied(occ, e), TrawlRow)
  }

  /** The existence check as written, given the column names of the two
      tables: the misspelt key is no column of the occupation table, so the
      merge raises on it. */
  function TrawlExistenceAsWritten(occ: seq<Occupation>, ts: seq<TrawlEvent>, occColumns: set<string>, trawlColumns: set<string>): (r: Result<seq<int>>)
    requires "staitonid" !in occColumns
    ensures r == Raise(KeyError("staitonid"))
  {
    var merged := MergeKeys(occColumns, trawlColumns + {"present"}, MergeKeysAsWritten);
    if merged.Raise? then Raise(merged.exception) else Ok(TrawlExistence(occ, ts))
  }

  /** The data never matters: two submissions, one with every trawl
      occupied and one with none, fail the same way. */
  lemma {:induction false} KeyErrorWhateverTheData(e: TrawlEvent, occColumns: set<string>, trawlColumns: set<string>)
    requires "staitonid" !in occColumns
    ensures var o := Occupation(0, e.stationId, e.sampleDate, e.org, "Trawl 10 Minutes", Null, "m", 10.0, "No", None);
      && TrawlExistence([o], [e]) == []
      && TrawlExistence([], [e]) == [e.row]
      && TrawlExistenceAsWritten([o], [e], occColumns, trawlColumns) == TrawlExistenceAsWritten([], [e], occColumns, trawlColumns)
  {
    var o := Occupation(0, e.stationId, e.sampleDate, e.org, "Trawl 10 Minutes", Null, "m", 10.0, "No", None);
    assert Occupies([o][0], TrawlKey(e));
    var ids := TrawlExistence([], [e]);
    assert e.row in ids;
    assert forall x :: x in ids ==> x == e.row;
    assert |ids| <= 1;
  }

  // ---------------------------------------------------------------------
  // Times and units
  // ---------------------------------------------------------------------

  /** Some trawl's time in column `c` does not start with HH:MM:SS. */
  predicate BadTimeIn(ts: seq<TrawlEvent>, c: int)
    requires 0 <= c < 5
  {
    exists j :: 0 <= j < |ts| && !PrefixTime(Render(TrawlTimeCell(ts[j], c)))
  }

  /** The six time checks: OccupationTime, then OverTime, StartTime,
      EndTime, DeckTime and OnBottomTime of the trawls. */
  function TrawlTimeChecks(occ: seq<Occupation>, ts: seq<TrawlEvent>): (fs: seq<Option<Finding>>)
    ensures |fs| == 6
    ensures fs[0].Some? <==> exists i :: 0 <= i < |occ| && !PrefixTime(Render(occ[i].time))
    ensures forall c :: 0 <= c < 5 ==> (fs[c + 1].Some? <==> BadTimeIn(ts, c))
    ensures forall c :: 0 <= c < 5 ==> fs[c + 1].Some? ==> fs[c + 1].value.columns == TrawlTimeColumns[c]
  {
    FieldTimeChecks(occ, Some(ts), None)[..6]
  }

  /** The trawl module makes exactly the first six of field.py's time
      checks. */
  lemma {:induction false} SameTimeChecksAsField(occ: seq<Occupation>, ts: seq<TrawlEvent>, g: Option<seq<GrabEvent>>)
    ensures TrawlTimeChecks(occ, ts) == FieldTimeChecks(occ, Some(ts), g)[..6]
  {
  }

  function TrawlUnits(e: TrawlEvent): string { e.depthUnits }

  /** Trawls whose depth units are feet. */
  function TrawlFeet(ts: seq<TrawlEvent>): (ids: seq<int>)
    ensures forall x :: x in ids <==> exists j :: 0 <= j < |ts| && ts[j].depthUnits in FeetUnits && ts[j].row == x
  {
    FeetRows(ts, TrawlUnits, TrawlRow)
  }

  // ---------------------------------------------------------------------
  // Time to bottom
  // ---------------------------------------------------------------------

  /** A wire-out of 0 is replaced by -88 before it divides anything. */
  function WireoutFixed(wireout: real): (w: real)
    ensures w != 0.0
    ensures wireout != 0.0 ==> w == wireout
    ensures wireout == 0.0 ==> w == Missing
  {
    if wireout == 0.0 then Missing else wireout
  }

  /** `trawloverdistance / wireout` after the replacement: always a finite
      number. */
  function TimeToBottom(overDistance: real, wireout: real): (q: Float)
    ensures q.Finite? && q.v * WireoutFixed(wireout) == overDistance
  {
    Divide(overDistance, WireoutFixed(wireout))
  }

  /** Without the replacement a zero wire-out would give an infinite or
      undefined quotient; with it, the quotient is the negated distance
      over 88. */
  lemma {:induction false} ReplacementAvoidsZeroDivision(overDistance: real)
    ensures !Divide(overDistance, 0.0).Finite?
    ensures TimeToBottom(overDistance, 0.0) == Finite(overDistance / Missing)
  {
  }

  // ---------------------------------------------------------------------
  // Duration and distance windows
  // ---------------------------------------------------------------------

  /** A cell of the merged collectiontype column: pandas compares it with
      the Python value on the other side of `==`, and a string never equals
      a number. */
  datatype Scalar = Text(s: string) | Number(n: int)

  predicate PyEquals(a: Scalar, b: Scalar) {
    a == b
  }

  /** Some trawl occupation of the station has a collection type equal to
      `v`; the merge is on the station only. */
  predicate OccupiedWithValue(occ: seq<Occupation>, s: string, v: Scalar) {
    exists o :: o in occ && o.collectionType in TrawlTypes && o.stationId == s && PyEquals(Text(o.collectionType), v)
  }

  /** The 5-minute distance check as written: `collectiontype == 5` is
      never true of the text column, so nothing is reported. */
  function FiveMinuteDistanceAsWritten(occ: seq<Occupation>, ts: seq<TrawlEvent>): (ids: seq<int>)
    ensures ids == []
  {
    Select(ts, (e: TrawlEvent) => OccupiedWithValue(occ, e.stationId, Number(5)) && ShortFive(e), TrawlRow)
  }

  /** `(trawltime < 4) & (trawltime > 8)`: no duration satisfies both. */
  predicate FiveOutsideWindowAsWritten(e: TrawlEvent) {
    e.trawlTime < 4.0 && e.trawlTime > 8.0
  }

  /** The 5-minute duration check as written: nothing is reported. */
  function FiveMinuteTimeAsWritten(occ: seq<Occupation>, ts: seq<TrawlEvent>): (ids: seq<int>)
    ensures ids == []
  {
    Select(ts, (e: TrawlEvent) => FiveOutsideWindowAsWritten(e) && OccupiedWithType(occ, e.stationId, "Trawl 5 Minutes"), TrawlRow)
  }

  /** The four window warnings as written: the 10-minute checks are
      field.py's, the two 5-minute checks are empty. */
  function TrawlWindowsAsWritten(occ: seq<Occupation>, ts: seq<TrawlEvent>): (ws: seq<seq<int>>)
    ensures |ws| == 4
    ensures ws[0] == TrawlWindows(occ, ts)[0] && ws[2] == TrawlWindows(occ, ts)[2]
    ensures ws[1] == [] && ws[3] == []
  {
    [WindowRows(occ, ts, "Trawl 10 Minutes", ShortTen),
     FiveMinuteDistanceAsWritten(occ, ts),
     WindowRows(occ, ts, "Trawl 10 Minutes", TenOutsideWindow),
     FiveMinuteTimeAsWritten(occ, ts)]
  }

  /** A short, quick 5-minute trawl at a 5-minute station: the intended
      checks report it twice, the checks as written not at all. */
  lemma {:induction false} FiveMinuteTrawlMissed(o: Occupation, e: TrawlEvent)
    requires o.collectionType == "Trawl 5 Minutes" && o.stationId == e.stationId
    requires e.trawlDistance < 325.0 && e.trawlTime < 4.0
    ensures TrawlWindowsAsWritten([o], [e])[1] == [] && TrawlWindowsAsWritten([o], [e])[3] == []
    ensures e.row in TrawlWindows([o], [e])[1] && e.row in TrawlWindows([o], [e])[3]
  {
    assert o in [o];
    assert OccupiedWithType([o], [e][0].stationId, "Trawl 5 Minutes");
  }

  /** A 10-minute occupation also makes a station's trawls subject to the
      10-minute windows as written, exactly as in field.py. */
  lemma {:induction false} TenMinuteWindowsKept(o: Occupation, e: TrawlEvent)
    requires o.collectionType == "Trawl 10 Minutes" && o.stationId == e.stationId
    requires e.trawlDistance < 650.0 && e.trawlTime > 16.0
    ensures e.row in TrawlWindowsAsWritten([o], [e])[0] && e.row in TrawlWindowsAsWritten([o], [e])[2]
  {
    assert o in [o];
    assert OccupiedWithType([o], [e][0].stationId, "Trawl 10 Minutes");
  }

  // ---------------------------------------------------------------------
  // The checks after the merge
  // ---------------------------------------------------------------------

  /** What the module would report with the key spelt right, in source
      order; `corrected` also repairs the two 5-minute windows. */
  datatype TrawlReport = TrawlReport(
    existence: seq<int>,
    times: seq<Option<Finding>>,
    occupationFeet: seq<int>,
    trawlFeet: seq<int>,
    abandoned: seq<int>,
    sequence: seq<int>,
    startDepth: seq<int>,
    endDepth: seq<int>,
    windows: seq<seq<int>>,
    ptManufacturer: seq<int>,
    ptSerial: seq<int>)

  function OccUnits(o: Occupation): string { o.depthUnits }

  function TrawlChecks(occ: seq<Occupation>, ts: seq<TrawlEvent>, corrected: bool): (r: TrawlReport)
    ensures r.existence == TrawlExistence(occ, ts) && r.times == TrawlTimeChecks(occ, ts)
    ensures r.occupationFeet == FeetRows(occ, OccUnits, OccRow) && r.trawlFeet == TrawlFeet(ts)
    ensures r.abandoned == AbandonedWithoutComment(occ) && r.sequence == TrawlSequence(ts)
    ensures r.startDepth == DepthOffRows(occ, ts, StartDepth) && r.endDepth == DepthOffRows(occ, ts, EndDepth)
    ensures r.windows == if corrected then TrawlWindows(occ, ts) else TrawlWindowsAsWritten(occ, ts)
    ensures r.ptSerial == if corrected then PtSerialMissing(ts) else PtManufacturerMissing(ts)
  {
    TrawlReport(
      TrawlExistence(occ, ts),
      TrawlTimeChecks(occ, ts),
      FeetRows(occ, OccUnits, OccRow),
      TrawlFeet(ts),
      AbandonedWithoutComment(occ),
      TrawlSequence(ts),
      DepthOffRows(occ, ts, StartDepth),
      DepthOffRows(occ, ts, EndDepth),
      if corrected then TrawlWindows(occ, ts) else TrawlWindowsAsWritten(occ, ts),
      PtManufacturerMissing(ts),
      if corrected then PtSerialMissing(ts) else PtSerialMissingAsWritten(ts))
  }

  /** The module: as written, the merge raises and nothing else runs;
      corrected, every check of `TrawlChecks` runs. */
  function TrawlModule(occ: seq<Occupation>, ts: seq<TrawlEvent>, occColumns: set<string>, trawlColumns: set<string>, corrected: bool): (r: Result<TrawlReport>)
    requires "staitonid" !in occColumns
    ensures !corrected ==> r == Raise(KeyError("staitonid"))
    ensures corrected ==> r == Ok(TrawlChecks(occ, ts, true))
  {
    if corrected then Ok(TrawlChecks(occ, ts, true))
    else
      var existence := TrawlExistenceAsWritten(occ, ts, occColumns, trawlColumns);
      if existence.Raise? then Raise(existence.exception) else Ok(TrawlChecks(occ, ts, false))
  }

  /** The same trawl-number rule as field.py: a tied pair at a station is
      reported by the trawl module too. */
  lemma {:induction false} SequenceAsInField(ts: seq<TrawlEvent>, i: int, j: int)
    requires 0 <= i < j < |ts|
    requires ts[i].stationId == ts[j].stationId && ts[i].when == ts[j].when
    requires forall k :: 0 <= k < |ts| && k != i && k != j && ts[k].stationId == ts[i].stationId ==> ts[k].when != ts[i].when
    ensures ts[i].row in TrawlChecks([], ts, true).sequence && ts[j].row in TrawlChecks([], ts, true).sequence
  {
    TiedPairReported(ts, i, j);
  }
}

=== FILE: fish.dfy ===
/** The trawl fish module (proj/custom/fish_custom.py): abundance and
    biomass records checked against the trawl events, the lookup lists, the
    field assignment table, the species' size and depth ranges and each
    other.

    The database reads become the fields of `Lookups`. The biomass column is
    rounded to one decimal half way through, exactly as the module does,
    and the final large-biomass warning indexes the third largest value of
    the whole table: with one or two biomass records that raises
    `IndexError`, which `FishAsWritten` keeps and `Fish` corrects.
 */
module Fish {
  import opened Wrappers
  import opened Text
  import opened Numeric
  import opened Frames
  import opened Functions
  import opened Grouping
  import opened Catch
  import PtSensor

  // ---------------------------------------------------------------------
  // Data model
  // ---------------------------------------------------------------------

  /** A trawl event's key: station, date, organisation, trawl number. */
  type EventKey = PtSensor.EventKey

  /** The columns a trawl's depths are merged on. */
  datatype Visit = Visit(stationid: string, sampledate: int, samplingorganization: string)

  /** The columns biomass records are matched to abundance records on. */
  datatype SpeciesKey = SpeciesKey(stationid: string, sampledate: int, samplingorganization: string, fishspecies: string)

  /** A `tbl_trawlfishabundance` record; `row` is its index label, which the
      module also copies into `tmp_row`. */
  datatype Abundance = Abundance(
    row: int,
    event: EventKey,
    species: string,
    anomaly: Cell,
    qualifier: Cell,
    comments: Cell,
    abundance: real,
    sizeclass: real)

  /** A row of the size-class lookup: a species' largest size class, -88
      when none is recorded. */
  datatype SizeRange = SizeRange(species: string, maxSizeClass: real)

  /** What the module reads from the database. `fat` holds the
      (station, trawl agency) pairs assigned for trawling. */
  datatype Lookups = Lookups(
    events: seq<EventKey>,
    anomalies: set<string>,
    qualifiers: set<string>,
    fat: seq<(string, string)>,
    sizes: seq<SizeRange>,
    depths: seq<SpeciesDepth>,
    tows: seq<TowDepth<Visit>>)

  function AbundanceRow(r: Abundance): int { r.row }

  const AbundanceTable := "tbl_trawlfishabundance"
  const BiomassTable := "tbl_trawlfishbiomass"
  const EventColumns := "stationid,sampledate,samplingorganization,trawlnumber"
  const SpeciesColumns := "stationid,sampledate,samplingorganization,fishspecies"
  const LogicError := "Logic Error"
  const LookupError := "Lookup Error"
  const UndefinedError := "Undefined Error"
  const UndefinedWarning := "Undefined Warning"
  const RangeError := "Range Error"
  const AbundanceEventMessage := "Each record in trawlfishabundance must have a corresponding record in tbl_trawlevent. Records are matched based on stationid, sampledate, samplingorganization, trawlnumber"
  const BiomassEventMessage := "Each record in trawlfishbiomass must have a corresponding record in tbl_trawlevent. Records are matched based on stationid, sampledate, samplingorganization, trawlnumber"
  const AnomalyMessage := "You are required to enter at least one fish anomaly, and they must all be found in the lookup list. If entering multiple anomalies, they must be separated by commas."
  const AnomalyAbundanceMessage := "There is an anomaly here, but the abundance is greater than 1. This is uncommon."
  const QualifierMessage := "You are required to enter at least one qualifier code, and they must all be found in the lookup list. If entering multiple qualifiers, they must be separated by commas."
  const CommentMessage := "A comment is required for records that have anomalies 'Deformity (Skeletal)', 'Tumor', or 'Lesion'"
  const FatMessage := "You have submitted stations that are not bight stations or were not assigned to your organization."
  const SizeClassMessage := "The size class for these fish are above the maximum recorded. Please verify the species and size class are correct."
  const DepthTail := " was caught in a depth range that does not include the range it is typically found."
  const BiomassMatchMessage := "Each record in biomass must match a record in abundance - records are matched based on stationid,sampledate,samplingorganization,fishspecies"
  const ZeroMessage := "Weight submitted as 0 should have been <0.1kg"
  const BelowTenthMessage := "Biomass values that were less than 0.1 kg (e.g. 0.004 kg) should have been submitted as <0.1 kg (.1 in biomass column, and 'less than' in the biomass qualifier column"
  const QualifiedMessage := "if using < qualifier, biomass value should be 0.1. Units are always kg."
  const LargeBiomassMessage := "Impossibly large/questionable biomass values submitted for low abundances of extremely small taxa"

  /** A reported finding names a row and is not a core error. */
  predicate Proper(e: Option<Finding>) {
    e.Some? ==> e.value.rows != [] && !e.value.isCoreError
  }

  function Error(table: string, ids: seq<int>, columns: string, errorType: string, message: string): (e: Option<Finding>)
    ensures e.None? <==> ids == []
    ensures e.Some? ==> e.value == Finding(table, ids, columns, errorType, false, message)
    ensures Proper(e)
  {
    CheckData(CheckArgs(table, ids, columns, errorType, false, message), None).0
  }

  // ---------------------------------------------------------------------
  // Trawl events
  // ---------------------------------------------------------------------

  /** `mismatch(abundance, trawlevent, matchcols)`: positions of the
      abundance records whose four-column key is no trawl event's. */
  function AbundanceEventOrphans(rows: seq<Abundance>, events: seq<EventKey>): (ps: seq<int>)
    ensures forall p :: p in ps <==> 0 <= p < |rows| && rows[p].event !in events
  {
    Orphans(rows, (r: Abundance) => r.event, events)
  }

  function BiomassEventOrphans(rows: seq<Biomass>, events: seq<EventKey>): (ps: seq<int>)
    ensures forall p :: p in ps <==> 0 <= p < |rows| && rows[p].event !in events
  {
    Orphans(rows, (b: Biomass) => b.event, events)
  }

  // ---------------------------------------------------------------------
  // Abundance lookups and comments
  // ---------------------------------------------------------------------

  /** Records with an anomaly entry that is not on the lookup list. */
  function AnomalyRows(rows: seq<Abundance>, anomalies: set<string>): (ids: seq<int>)
    ensures forall x :: x in ids <==> exists i :: 0 <= i < |rows| && rows[i].row == x && !TokensListed(rows[i].anomaly, anomalies, ',')
  {
    Select(rows, (r: Abundance) => !TokensListed(r.anomaly, anomalies, ','), AbundanceRow)
  }

  function QualifierRows(rows: seq<Abundance>, qualifiers: set<string>): (ids: seq<int>)
    ensures forall x :: x in ids <==> exists i :: 0 <= i < |rows| && rows[i].row == x && !TokensListed(rows[i].qualifier, qualifiers, ',')
  {
    Select(rows, (r: Abundance) => !TokensListed(r.qualifier, qualifiers, ','), AbundanceRow)
  }

  /** `anomaly != 'None'`: true of a missing cell as well. */
  predicate HasAnomaly(c: Cell) {
    c != Str("None")
  }

  /** The warning: an anomaly recorded on a count above one. */
  function AnomalyAbundanceRows(rows: seq<Abundance>): (ids: seq<int>)
    ensures forall x :: x in ids <==> exists i :: 0 <= i < |rows| && rows[i].row == x && rows[i].anomaly != Str("None") && rows[i].abundance > 1.0
  {
    Select(rows, (r: Abundance) => HasAnomaly(r.anomaly) && r.abundance > 1.0, AbundanceRow)
  }

  const Severe: set<string> := {"Deformity (Skeletal)", "Tumor", "Lesion"}

  /** The text of a cell after `.replace(np.NaN, '')`. */
  function Blanked(c: Cell): string {
    match c
    case Str(s) => s
    case Null => ""
  }

  /** An anomaly cell with a skeletal deformity, a tumor or a lesion among
      its entries. */
  predicate ListsSevere(c: Cell) {
    TokenSet(Blanked(c), ',') * Severe != {}
  }

  /** A record that lists a severe anomaly but has no comment. */
  predicate NeedsComment(r: Abundance) {
    ListsSevere(r.anomaly) && Blanked(r.comments) == ""
  }

  function CommentRows(rows: seq<Abundance>): (ids: seq<int>)
    ensures forall x :: x in ids <==> exists i :: 0 <= i < |rows| && rows[i].row == x && NeedsComment(rows[i])
  {
    Select(rows, NeedsComment, AbundanceRow)
  }

  /** The stripped entries of a list meet the severe anomalies exactly when
      one of them is severe. */
  lemma {:induction false} SevereEntry(parts: seq<string>)
    ensures (set p | p in parts :: Strip(p)) * Severe != {} <==> exists k :: 0 <= k < |parts| && Strip(parts[k]) in Severe
  {
    var ts := set p | p in parts :: Strip(p);
    if exists k :: 0 <= k < |parts| && Strip(parts[k]) in Severe {
      var k :| 0 <= k < |parts| && Strip(parts[k]) in Severe;
      assert parts[k] in parts;
      assert Strip(parts[k]) in ts * Severe;
    }
  }

  /** For an anomaly cell holding a comma-separated list, a comment is
      demanded exactly when some stripped entry is a skeletal deformity, a
      tumor or a lesion and the comment is missing or empty. */
  lemma {:induction false} CommentRuleMeaning(r: Abundance, parts: seq<string>)
    requires |parts| >= 1 && forall k :: 0 <= k < |parts| ==> ',' !in parts[k]
    requires r.anomaly == Str(Join(parts, ','))
    ensures NeedsComment(r) <==> (exists k :: 0 <= k < |parts| && Strip(parts[k]) in Severe) && (r.comments == Null || r.comments == Str(""))
  {
    SevereInList(parts);
    Uncommented(r.comments);
    NeedsCommentParts(r, Join(parts, ','));
  }

  /** The comment rule on a record whose anomaly cell holds `j`. */
  lemma {:induction false} NeedsCommentParts(r: Abundance, j: string)
    requires r.anomaly == Str(j)
    ensures NeedsComment(r) <==> ListsSevere(Str(j)) && Blanked(r.comments) == ""
  {
  }

  lemma {:induction false} Uncommented(c: Cell)
    ensures Blanked(c) == "" <==> c == Null || c == Str("")
  {
  }

  lemma {:induction false} SevereInList(parts: seq<string>)
    requires |parts| >= 1 && forall k :: 0 <= k < |parts| ==> ',' !in parts[k]
    ensures ListsSevere(Str(Join(parts, ','))) <==> exists k :: 0 <= k < |parts| && Strip(parts[k]) in Severe
  {
    var joined := Join(parts, ',');
    assert Blanked(Str(joined)) == joined;
    TokenSetOfJoin(parts, ',');
    SevereEntry(parts);
  }

  /** A record without an anomaly never needs a comment. */
  lemma {:induction false} NoAnomalyNoComment(r: Abundance)
    requires r.anomaly == Null
    ensures !NeedsComment(r)
  {
    SplitJoin([""], ',');
    assert Strip("") == "";
    assert TokenSet("", ',') == {""};
  }

  // ---------------------------------------------------------------------
  // Field assignment
  // ---------------------------------------------------------------------

  /** `(stationid, samplingorganization) in unique_fat_records`. */
  predicate Assigned(fat: seq<(string, string)>, e: EventKey) {
    (e.stationid, e.samplingorganization) in fat
  }

  function AbundanceFatRows(rows: seq<Abundance>, fat: seq<(string, string)>): (ids: seq<int>)
    ensures forall x :: x in ids <==> exists i :: 0 <= i < |rows| && rows[i].row == x && !Assigned(fat, rows[i].event)
    ensures fat == [] ==> forall i :: 0 <= i < |rows| ==> rows[i].row in ids
  {
    Select(rows, (r: Abundance) => !Assigned(fat, r.event), AbundanceRow)
  }

  function BiomassFatRows(rows: seq<Biomass>, fat: seq<(string, string)>): (ids: seq<int>)
    ensures forall x :: x in ids <==> exists i :: 0 <= i < |rows| && rows[i].row == x && !Assigned(fat, rows[i].event)
    ensures fat == [] ==> forall i :: 0 <= i < |rows| ==> rows[i].row in ids
  {
    Select(rows, (b: Biomass) => !Assigned(fat, b.event), BiomassRow)
  }

  // ---------------------------------------------------------------------
  // Size class
  // ---------------------------------------------------------------------

  /** `fishspecies.isin(size_ranges[maximumsizeclass != -88].fishspecies)`. */
  predicate Limited(sizes: seq<SizeRange>, species: string) {
    exists j :: 0 <= j < |sizes| && sizes[j].species == species && sizes[j].maxSizeClass != -88.0
  }

  /** One row of the merge of the records with the size lookup. */
  datatype Sized = Sized(row: int, species: string, sizeclass: real, maxSizeClass: real)

  /** The size-class error: every (record, lookup row) pair of the same
      species whose size class is above that row's maximum, provided the
      species has some real maximum on file. */
  function SizeClassRows(rows: seq<Abundance>, sizes: seq<SizeRange>): (ids: seq<int>)
    ensures forall x :: x in ids <==> exists i, j :: 0 <= i < |rows| && 0 <= j < |sizes| && sizes[j].species == rows[i].species && rows[i].sizeclass > sizes[j].maxSizeClass && Limited(sizes, rows[i].species) && rows[i].row == x
  {
    var ps := InnerJoin(rows, sizes, (r: Abundance, s: SizeRange) => r.species == s.species);
    var svr := seq(|ps|, k requires 0 <= k < |ps| => Sized(rows[ps[k].0].row, rows[ps[k].0].species, rows[ps[k].0].sizeclass, sizes[ps[k].1].maxSizeClass));
    var ids := Select(svr, (m: Sized) => m.sizeclass > m.maxSizeClass && Limited(sizes, m.species), (m: Sized) => m.row);
    SizeClassRowsMeaning(rows, sizes, ps, svr, ids);
    ids
  }

  lemma {:induction false} SizeClassRowsMeaning(rows: seq<Abundance>, sizes: seq<SizeRange>, ps: seq<(int, int)>, svr: seq<Sized>, ids: seq<int>)
    requires forall i, j :: 0 <= i < |rows| && 0 <= j < |sizes| && rows[i].species == sizes[j].species ==> (i, j) in ps
    requires forall k :: 0 <= k < |ps| ==> 0 <= ps[k].0 < |rows| && 0 <= ps[k].1 < |sizes| && rows[ps[k].0].species == sizes[ps[k].1].species
    requires |svr| == |ps|
    requires forall k :: 0 <= k < |ps| ==> svr[k] == Sized(rows[ps[k].0].row, rows[ps[k].0].species, rows[ps[k].0].sizeclass, sizes[ps[k].1].maxSizeClass)
    requires forall x :: x in ids <==> exists k :: 0 <= k < |svr| && svr[k].sizeclass > svr[k].maxSizeClass && Limited(sizes, svr[k].species) && svr[k].row == x
    ensures forall x :: x in ids <==> exists i, j :: 0 <= i < |rows| && 0 <= j < |sizes| && sizes[j].species == rows[i].species && rows[i].sizeclass > sizes[j].maxSizeClass && Limited(sizes, rows[i].species) && rows[i].row == x
  {
    forall x | x in ids ensures exists i, j :: 0 <= i < |rows| && 0 <= j < |sizes| && sizes[j].species == rows[i].species && rows[i].sizeclass > sizes[j].maxSizeClass && Limited(sizes, rows[i].species) && rows[i].row == x {
      var k :| 0 <= k < |svr| && svr[k].sizeclass > svr[k].maxSizeClass && Limited(sizes, svr[k].species) && svr[k].row == x;
      var i, j := ps[k].0, ps[k].1;
      assert sizes[j].species == rows[i].species && rows[i].sizeclass > sizes[j].maxSizeClass;
    }
    forall x | exists i, j :: 0 <= i < |rows| && 0 <= j < |sizes| && sizes[j].species == rows[i].species && rows[i].sizeclass > sizes[j].maxSizeClass && Limited(sizes, rows[i].species) && rows[i].row == x
      ensures x in ids
    {
      var i, j :| 0 <= i < |rows| && 0 <= j < |sizes| && sizes[j].species == rows[i].species && rows[i].sizeclass > sizes[j].maxSizeClass && Limited(sizes, rows[i].species) && rows[i].row == x;
      assert (i, j) in ps;
      var k :| 0 <= k < |ps| && ps[k] == (i, j);
      assert svr[k].sizeclass > svr[k].maxSizeClass && Limited(sizes, svr[k].species) && svr[k].row == x;
    }
  }

  /** With one lookup row per species, a record is flagged exactly when its
      species has a real maximum and the record's size class exceeds it. */
  lemma {:induction false} SizeClassOneRange(rows: seq<Abundance>, sizes: seq<SizeRange>, i: int, j: int)
    requires 0 <= i < |rows| && 0 <= j < |sizes| && sizes[j].species == rows[i].species
    requires forall j' :: 0 <= j' < |sizes| && sizes[j'].species == rows[i].species ==> j' == j
    requires forall i' :: 0 <= i' < |rows| && rows[i'].row == rows[i].row ==> i' == i
    ensures rows[i].row in SizeClassRows(rows, sizes) <==> sizes[j].maxSizeClass != -88.0 && rows[i].sizeclass > sizes[j].maxSizeClass
  {
    var ids := SizeClassRows(rows, sizes);
    if rows[i].row in ids {
      var i', j' :| 0 <= i' < |rows| && 0 <= j' < |sizes| && sizes[j'].species == rows[i'].species && rows[i'].sizeclass > sizes[j'].maxSizeClass && Limited(sizes, rows[i'].species) && rows[i'].row == rows[i].row;
      var l :| 0 <= l < |sizes| && sizes[l].species == rows[i].species && sizes[l].maxSizeClass != -88.0;
    }
  }

  /** A species listed twice, once with the -88 placeholder and once with a
      real maximum, has all its records flagged: every size class is above
      -88. */
  lemma {:induction false} PlaceholderBesideLimit(r: Abundance)
    requires r.sizeclass == 1.0
    ensures r.row in SizeClassRows([r], [SizeRange(r.species, -88.0), SizeRange(r.species, 5.0)])
  {
    var sizes := [SizeRange(r.species, -88.0), SizeRange(r.species, 5.0)];
    assert sizes[1].maxSizeClass != -88.0;
    assert Limited(sizes, r.species);
    assert [r][0] == r && sizes[0].species == r.species;
  }

  // ---------------------------------------------------------------------
  // Depth range
  // ---------------------------------------------------------------------

  function AbundanceVisit(r: Abundance): Visit {
    Visit(r.event.stationid, r.event.sampledate, r.event.samplingorganization)
  }

  function Species(r: Abundance): string { r.species }

  /** One warning per out-of-range combination of record, species range
      and trawl. */
  function DepthRangeWarnings(rows: seq<Abundance>, depths: seq<SpeciesDepth>, tows: seq<TowDepth<Visit>>): (fs: seq<Finding>)
    ensures forall f :: f in fs ==> f.table == AbundanceTable && f.columns == "FishSpecies" && f.errorType == UndefinedWarning && |f.rows| == 1
  {
    DepthWarnings(DepthMatches(rows, Species, AbundanceVisit, AbundanceRow, depths, tows), AbundanceTable, "FishSpecies", DepthTail)
  }

  // ---------------------------------------------------------------------
  // Biomass against abundance
  // ---------------------------------------------------------------------

  function BiomassKey(b: Biomass): SpeciesKey {
    SpeciesKey(b.event.stationid, b.event.sampledate, b.event.samplingorganization, b.species)
  }

  function AbundanceKeys(rows: seq<Abundance>): (ks: seq<SpeciesKey>)
    ensures |ks| == |rows|
    ensures forall i :: 0 <= i < |rows| ==> ks[i] == SpeciesKey(rows[i].event.stationid, rows[i].event.sampledate, rows[i].event.samplingorganization, rows[i].species)
  {
    seq(|rows|, i requires 0 <= i < |rows| => SpeciesKey(rows[i].event.stationid, rows[i].event.sampledate, rows[i].event.samplingorganization, rows[i].species))
  }

  /** `mismatch(biomass, abundance, matchcols)`: biomass records with no
      abundance record for the same species in the same trawl visit. */
  function BiomassOrphans(bio: seq<Biomass>, rows: seq<Abundance>): (ps: seq<int>)
    ensures forall p :: p in ps <==> 0 <= p < |bio| && !exists i :: 0 <= i < |rows| && AbundanceKeys(rows)[i] == BiomassKey(bio[p])
  {
    Orphans(bio, BiomassKey, AbundanceKeys(rows))
  }

  // ---------------------------------------------------------------------
  // Biomass values
  // ---------------------------------------------------------------------

  /** `biomassqualifier.isin(values)`: a missing cell is in no list. */
  predicate QualifierIn(c: Cell, values: set<string>) {
    c.Str? && c.s in values
  }

  /** Rounded to the tenth, below 0.1, without the 'less than' qualifier. */
  predicate BelowTenth(b: Biomass) {
    Round1(b.biomass) < 0.1 && !QualifierIn(b.qualifier, {"less than"})
  }

  /** A less-than qualifier on anything but exactly 0.1 once rounded. */
  predicate QualifiedNotTenth(b: Biomass) {
    QualifierIn(b.qualifier, {"less than", "<"}) && Round1(b.biomass) != 0.1
  }

  function BelowTenthRows(bio: seq<Biomass>): (ids: seq<int>)
    ensures forall x :: x in ids <==> exists i :: 0 <= i < |bio| && bio[i].row == x && BelowTenth(bio[i])
  {
    Select(bio, BelowTenth, BiomassRow)
  }

  function QualifiedNotTenthRows(bio: seq<Biomass>): (ids: seq<int>)
    ensures forall x :: x in ids <==> exists i :: 0 <= i < |bio| && bio[i].row == x && QualifiedNotTenth(bio[i])
  {
    Select(bio, QualifiedNotTenth, BiomassRow)
  }

  /** A biomass value passes the three value rules exactly when a
      less-than qualifier ('less than' or '<') goes with a value strictly
      between 0.05 and 0.15 kg, and any other qualifier with a value above
      0.05 kg. */
  lemma {:induction false} BiomassAccepted(b: Biomass)
    ensures (b.biomass != 0.0 && !BelowTenth(b) && !QualifiedNotTenth(b)) <==>
      if QualifierIn(b.qualifier, {"less than", "<"}) then 0.05 < b.biomass < 0.15 else b.biomass > 0.05
  {
    RoundedBelowTenth(b.biomass);
    RoundedIsTenth(b.biomass);
  }

  /** The zero rule never fires alone: a zero weight breaks one of the two
      rounding rules as well. */
  lemma {:induction false} ZeroAlsoFlaggedByRounding(b: Biomass)
    requires b.biomass == 0.0
    ensures BelowTenth(b) || QualifiedNotTenth(b)
  {
    RoundedBelowTenth(0.0);
    RoundedIsTenth(0.0);
  }

  // ---------------------------------------------------------------------
  // Large biomass warning
  // ---------------------------------------------------------------------

  function Rounded(bio: seq<Biomass>): (xs: seq<real>)
    ensures |xs| == |bio|
    ensures forall i :: 0 <= i < |bio| ==> xs[i] == Round1(bio[i].biomass)
  {
    seq(|bio|, i requires 0 <= i < |bio| => Round1(bio[i].biomass))
  }

  function SpeciesList(bio: seq<Biomass>): (ss: seq<string>)
    ensures |ss| == |bio|
    ensures forall i :: 0 <= i < |bio| ==> ss[i] == bio[i].species
  {
    seq(|bio|, i requires 0 <= i < |bio| => bio[i].species)
  }

  /** The records of one species whose rounded biomass exceeds the limit. */
  function LargeRows(bio: seq<Biomass>, spec: string, limit: real): (ids: seq<int>)
    ensures forall x :: x in ids <==> exists i :: 0 <= i < |bio| && bio[i].row == x && bio[i].species == spec && Round1(bio[i].biomass) > limit
  {
    Select(bio, (b: Biomass) => b.species == spec && Round1(b.biomass) > limit, BiomassRow)
  }

  /** The loop over the species: one warning for each species with a record
      above the limit. */
  function LargeWarnings(bio: seq<Biomass>, specs: seq<string>, limit: real): (fs: seq<Finding>)
    ensures |fs| <= |specs|
    ensures forall f :: f in fs ==> f.table == BiomassTable && f.errorType == UndefinedWarning && f.rows != [] && exists k :: 0 <= k < |specs| && f.rows == LargeRows(bio, specs[k], limit)
    ensures forall k :: 0 <= k < |specs| && LargeRows(bio, specs[k], limit) != [] ==> Finding(BiomassTable, LargeRows(bio, specs[k], limit), "Biomass", UndefinedWarning, false, LargeBiomassMessage) in fs
  {
    if |specs| == 0 then []
    else
      var ids := LargeRows(bio, specs[0], limit);
      var rest := LargeWarnings(bio, specs[1..], limit);
      assert forall k :: 1 <= k < |specs| ==> specs[k] == specs[1..][k - 1];
      (if ids != [] then [Finding(BiomassTable, ids, "Biomass", UndefinedWarning, false, LargeBiomassMessage)] else []) + rest
  }

  /** The limit: twice the third largest rounded biomass of the table. */
  function Limit(bio: seq<Biomass>): real
    requires |bio| >= 3
  {
    2.0 * SortDesc(Rounded(bio))[2]
  }

  /** The warning loop as written: with no records it does not run; with one
      or two the `[2]` index raises. */
  function LargeBiomassAsWritten(bio: seq<Biomass>): (r: Result<seq<Finding>>)
    ensures r.Raise? <==> 1 <= |bio| < 3
    ensures r.Raise? ==> r.exception == IndexError
  {
    if |bio| == 0 then Ok([])
    else if |bio| < 3 then Raise(IndexError)
    else Ok(LargeWarnings(bio, Distinct(SpeciesList(bio)), Limit(bio)))
  }

  /** The loop with the short table skipped: nothing to compare against. */
  function LargeBiomass(bio: seq<Biomass>): (fs: seq<Finding>)
    ensures |bio| < 3 ==> fs == []
    ensures |bio| >= 3 ==> LargeBiomassAsWritten(bio) == Ok(fs)
  {
    if |bio| < 3 then [] else LargeWarnings(bio, Distinct(SpeciesList(bio)), Limit(bio))
  }

  /** One or two biomass records are enough to stop the whole module. */
  lemma {:induction false} ShortBiomassCrashes(b: Biomass)
    ensures LargeBiomassAsWritten([b]) == Raise(IndexError)
    ensures LargeBiomass([b]) == []
  {
  }

  /** With non-negative values at most two records of the table are above
      the limit, so at most two rows are warned about across all species,
      and each warned row is above twice the third largest value. */
  lemma {:induction false} AtMostTwoLargeRows(bio: seq<Biomass>)
    requires |bio| >= 3 && forall i :: 0 <= i < |bio| ==> bio[i].biomass >= 0.0
    ensures CountAbove(Rounded(bio), Limit(bio)) <= 2
    ensures forall f, x :: f in LargeBiomass(bio) && x in f.rows ==> exists i :: 0 <= i < |bio| && bio[i].row == x && Round1(bio[i].biomass) > Limit(bio)
  {
    var xs := Rounded(bio);
    var s := SortDesc(xs);
    AtMostTwoAboveThird(xs);
    assert s[2] in multiset(xs);
    var i :| 0 <= i < |xs| && xs[i] == s[2];
    assert s[2] >= 0.0 by {
      RoundNonNegative(bio[i].biomass);
    }
    CountAboveMonotone(xs, s[2], Limit(bio));
  }

  // ---------------------------------------------------------------------
  // The module
  // ---------------------------------------------------------------------

  /** What an error call fixes besides its rows. */
  datatype Call = Call(table: string, columns: string, errorType: string, message: string)

  /** The twelve error calls, in the order the module makes them. */
  const Calls: seq<Call> := [
    Call(AbundanceTable, EventColumns, LogicError, AbundanceEventMessage),
    Call(BiomassTable, EventColumns, LogicError, BiomassEventMessage),
    Call(AbundanceTable, "Anomaly", LookupError, AnomalyMessage),
    Call(AbundanceTable, "AbundanceQualifier", LookupError, QualifierMessage),
    Call(AbundanceTable, "Comments", UndefinedError, CommentMessage),
    Call(AbundanceTable, "StationID,SamplingOrganization", UndefinedError, FatMessage),
    Call(AbundanceTable, "FishSpecies, SizeClass", RangeError, SizeClassMessage),
    Call(BiomassTable, SpeciesColumns, LogicError, BiomassMatchMessage),
    Call(BiomassTable, "Biomass", UndefinedError, ZeroMessage),
    Call(BiomassTable, "Biomass,BiomassQualifier", UndefinedError, BelowTenthMessage),
    Call(BiomassTable, "Biomass,BiomassQualifier", UndefinedError, QualifiedMessage),
    Call(BiomassTable, "StationID,SamplingOrganization", UndefinedError, FatMessage)]

  /** The rows call `k` reports. */
  function CallRows(rows: seq<Abundance>, bio: seq<Biomass>, lu: Lookups, k: int): seq<int>
    requires 0 <= k < 12
  {
    if k == 0 then AbundanceEventOrphans(rows, lu.events)
    else if k == 1 then BiomassEventOrphans(bio, lu.events)
    else if k == 2 then AnomalyRows(rows, lu.anomalies)
    else if k == 3 then QualifierRows(rows, lu.qualifiers)
    else if k == 4 then CommentRows(rows)
    else if k == 5 then AbundanceFatRows(rows, lu.fat)
    else if k == 6 then SizeClassRows(rows, lu.sizes)
    else if k == 7 then BiomassOrphans(bio, rows)
    else if k == 8 then ZeroRows(bio)
    else if k == 9 then BelowTenthRows(bio)
    else if k == 10 then QualifiedNotTenthRows(bio)
    else BiomassFatRows(bio, lu.fat)
  }

  /** The twelve error entries: call `k` reports its rows, or nothing when
      it has none. */
  function Errors(rows: seq<Abundance>, bio: seq<Biomass>, lu: Lookups): (errs: seq<Option<Finding>>)
    ensures |errs| == 12
    ensures forall k :: 0 <= k < 12 ==> (errs[k].None? <==> CallRows(rows, bio, lu, k) == [])
    ensures forall k :: 0 <= k < 12 && errs[k].Some? ==> errs[k].value.table == Calls[k].table && errs[k].value.message == Calls[k].message && errs[k].value.rows == CallRows(rows, bio, lu, k)
  {
    seq(12, k requires 0 <= k < 12 => Error(Calls[k].table, CallRows(rows, bio, lu, k), Calls[k].columns, Calls[k].errorType, Calls[k].message))
  }

  /** Of the twelve calls only the sixth reports unassigned abundance
      records. */
  lemma {:induction false} OnlySixthCallIsFat(j: int)
    requires 0 <= j < 12 && j != 5
    ensures !(Calls[j].table == AbundanceTable && Calls[j].message == FatMessage)
  {
    if j < 5 {
      assert Calls[j].message != FatMessage;
    } else if j == 11 {
      assert Calls[j].table == BiomassTable;
    } else if j == 6 {
      assert Calls[j].message == SizeClassMessage;
    } else {
      assert Calls[j].table == BiomassTable;
    }
  }

  /** The sixth call reports every abundance record when no station is
      assigned for trawling. */
  lemma {:induction false} UnassignedAbundanceReported(rows: seq<Abundance>, bio: seq<Biomass>, lu: Lookups)
    requires rows != [] && lu.fat == []
    ensures Errors(rows, bio, lu)[5].Some?
    ensures Errors(rows, bio, lu)[5].value.table == AbundanceTable && Errors(rows, bio, lu)[5].value.message == FatMessage
    ensures forall i :: 0 <= i < |rows| ==> rows[i].row in Errors(rows, bio, lu)[5].value.rows
  {
    SixthCallRows(rows, bio, lu);
    assert rows[0].row in AbundanceFatRows(rows, lu.fat);
  }

  /** The sixth call reports the unassigned abundance records. */
  lemma {:induction false} SixthCallRows(rows: seq<Abundance>, bio: seq<Biomass>, lu: Lookups)
    ensures CallRows(rows, bio, lu, 5) == AbundanceFatRows(rows, lu.fat)
  {
  }

  /** The warnings before the large-biomass loop: the anomaly-count call
      (which may be empty) and the depth warnings. */
  function EarlyWarnings(rows: seq<Abundance>, lu: Lookups): (ws: seq<Option<Finding>>)
    ensures |ws| >= 1 && (ws[0].None? <==> AnomalyAbundanceRows(rows) == [])
    ensures forall k :: 1 <= k < |ws| ==> ws[k].Some?
  {
    [Error(AbundanceTable, AnomalyAbundanceRows(rows), "Abundance", UndefinedWarning, AnomalyAbundanceMessage)]
      + Wrap(DepthRangeWarnings(rows, lu.depths, lu.tows))
  }

  /** `fish(all_dfs)` as written. The size-range lookup builds its frame by
      hand, so an empty `lu_fishspeciesdepthrange` raises ValueError before
      the large-biomass loop is reached. */
  function FishAsWritten(rows: seq<Abundance>, bio: seq<Biomass>, lu: Lookups): (r: Result<Report>)
    ensures lu.sizes == [] ==> r == Raise(LengthMismatch)
    ensures r.Raise? <==> lu.sizes == [] || 1 <= |bio| < 3
    ensures r.Ok? ==> r.value.errors == Errors(rows, bio, lu)
  {
    if lu.sizes == [] then Raise(LengthMismatch)
    else
      var large :- LargeBiomassAsWritten(bio);
      Ok(Report(Errors(rows, bio, lu), EarlyWarnings(rows, lu) + Wrap(large)))
  }

  /** `fish(all_dfs)` with the large-biomass loop skipped on short tables
      and an empty size-range table read as an empty frame; on every other
      input it is the module as written. */
  function Fish(rows: seq<Abundance>, bio: seq<Biomass>, lu: Lookups): (rep: Report)
    ensures rep.errors == Errors(rows, bio, lu)
    ensures lu.sizes != [] && !(1 <= |bio| < 3) ==> FishAsWritten(rows, bio, lu) == Ok(rep)
  {
    Report(Errors(rows, bio, lu), EarlyWarnings(rows, lu) + Wrap(LargeBiomass(bio)))
  }

  /** An empty size-range table makes the module as written raise, while
      the corrected module reports the size-class check as finding
      nothing. */
  lemma {:induction false} EmptySizeTableRaises(rows: seq<Abundance>, bio: seq<Biomass>, lu: Lookups)
    requires lu.sizes == []
    ensures FishAsWritten(rows, bio, lu) == Raise(LengthMismatch)
    ensures Fish(rows, bio, lu).errors[6].None?
  {
    assert CallRows(rows, bio, lu, 6) == [];
  }
}

=== FILE: frames.dfy ===
/** Row selection and key matching: the pandas idioms every check uses.

    A table is a sequence of records, each carrying the `tmp_row` id it had
    when it was read. `Select` is `df[mask].tmp_row.tolist()`; the two
    existence tests distinguish pandas' column-wise `isin` from a tuple-wise
    merge.
 */
module Frames {

  /** `df[mask].tmp_row.tolist()`: ids of the rows that satisfy `keep`, in order. */
  function Select<R>(rows: seq<R>, keep: R -> bool, id: R -> int): (ids: seq<int>)
    ensures |ids| <= |rows|
    ensures forall x :: x in ids <==> exists i :: 0 <= i < |rows| && keep(rows[i]) && id(rows[i]) == x
    ensures ids == [] <==> forall i :: 0 <= i < |rows| ==> !keep(rows[i])
  {
    if |rows| == 0 then []
    else
      var rest := Select(rows[1..], keep, id);
      assert forall i :: 1 <= i < |rows| ==> rows[i] == rows[1..][i - 1];
      (if keep(rows[0]) then [id(rows[0])] else []) + rest
  }

  /** A stronger filter selects fewer rows, and no filter selects an id that
      is not in the table. */
  lemma {:induction false} SelectMonotone<R>(rows: seq<R>, p: R -> bool, q: R -> bool, id: R -> int)
    requires forall i :: 0 <= i < |rows| ==> p(rows[i]) ==> q(rows[i])
    ensures forall x :: x in Select(rows, p, id) ==> x in Select(rows, q, id)
    ensures forall x :: x in Select(rows, q, id) ==> exists i :: 0 <= i < |rows| && id(rows[i]) == x
  {
  }

  /** Filters that agree on every row select the same ids. */
  lemma {:induction false} SelectCongruent<R>(rows: seq<R>, p: R -> bool, q: R -> bool, id: R -> int)
    requires forall i :: 0 <= i < |rows| ==> p(rows[i]) == q(rows[i])
    ensures Select(rows, p, id) == Select(rows, q, id)
  {
    if |rows| > 0 {
      assert forall i :: 0 <= i < |rows[1..]| ==> rows[1..][i] == rows[i + 1];
      SelectCongruent(rows[1..], p, q, id);
    }
  }

  /** `mismatch(df, reference, cols)` on typed rows: the positions of the
      rows whose key tuple is not among the reference tuples. The left merge
      it runs keeps one row per row of `df` and numbers them from 0. */
  function Orphans<R, K(==)>(rows: seq<R>, key: R -> K, reference: seq<K>): (ps: seq<int>)
    ensures forall p :: p in ps <==> 0 <= p < |rows| && key(rows[p]) !in reference
    ensures ps == [] <==> forall p :: 0 <= p < |rows| ==> key(rows[p]) in reference
    decreases |rows|
  {
    if |rows| == 0 then []
    else
      var n := |rows| - 1;
      var front := Orphans(rows[..n], key, reference);
      assert forall p :: 0 <= p < n ==> rows[..n][p] == rows[p];
      front + (if key(rows[n]) !in reference then [n] else [])
  }

  /** `rows.merge(lookup, on=...)`, an inner join, as the pairs of positions
      it joins: every row and lookup row that agree, and no other pair. */
  function InnerJoin<R, L>(rows: seq<R>, lookup: seq<L>, on: (R, L) -> bool): (ps: seq<(int, int)>)
    ensures forall i, j :: 0 <= i < |rows| && 0 <= j < |lookup| && on(rows[i], lookup[j]) ==> (i, j) in ps
    ensures forall k :: 0 <= k < |ps| ==> 0 <= ps[k].0 < |rows| && 0 <= ps[k].1 < |lookup| && on(rows[ps[k].0], lookup[ps[k].1])
    decreases |rows|
  {
    if |rows| == 0 then []
    else
      var n := |rows| - 1;
      var front := InnerJoin(rows[..n], lookup, on);
      assert forall i :: 0 <= i < n ==> rows[..n][i] == rows[i];
      front + Partners(n, rows[n], lookup, on)
  }
  /** The lookup rows row `i` is joined to, as position pairs. */
  function Partners<R, L>(i: int, r: R, lookup: seq<L>, on: (R, L) -> bool): (ps: seq<(int, int)>)
    ensures forall j :: 0 <= j < |lookup| && on(r, lookup[j]) ==> (i, j) in ps
    ensures forall k :: 0 <= k < |ps| ==> ps[k].0 == i && 0 <= ps[k].1 < |lookup| && on(r, lookup[ps[k].1])
    decreases |lookup|
  {
    if |lookup| == 0 then []
    else
      var n := |lookup| - 1;
      var front := Partners(i, r, lookup[..n], on);
      assert forall j :: 0 <= j < n ==> lookup[..n][j] == lookup[j];
      front + (if on(r, lookup[n]) then [(i, n)] else [])
  }

  /** `df1[cols].isin(df2[cols].to_dict(orient='list')).all(axis=1)`: every
      component of the key occurs somewhere in the same column of the
      reference, not necessarily in one reference row. */
  predicate ColumnwiseFound<V(==)>(key: seq<V>, reference: seq<seq<V>>) {
    forall c | 0 <= c < |key| ::
      exists j | 0 <= j < |reference| :: c < |reference[j]| && reference[j][c] == key[c]
  }

  /** A left merge on all key columns finds a partner: the whole tuple occurs. */
  predicate TupleFound<V(==)>(key: seq<V>, reference: seq<seq<V>>) {
    key in reference
  }

  /** Every tuple-wise match is a column-wise match. */
  lemma {:induction false} TupleFoundIsColumnwiseFound<V>(key: seq<V>, reference: seq<seq<V>>)
    requires TupleFound(key, reference)
    ensures ColumnwiseFound(key, reference)
  {
    var j :| 0 <= j < |reference| && reference[j] == key;
    forall c | 0 <= c < |key|
      ensures exists j' | 0 <= j' < |reference| :: c < |reference[j']| && reference[j'][c] == key[c]
    {
      assert c < |reference[j]| && reference[j][c] == key[c];
    }
  }

  /** The converse fails: a key whose parts come from different reference
      rows passes the column-wise test though no reference row equals it. */
  lemma {:induction false} ColumnwiseFoundIsWeaker()
    ensures ColumnwiseFound([1, 2], [[1, 3], [4, 2]])
    ensures !TupleFound([1, 2], [[1, 3], [4, 2]])
  {
    var key, reference := [1, 2], [[1, 3], [4, 2]];
    assert reference[0][0] == key[0];
    assert reference[1][1] == key[1];
  }

  /** Both tests accept a key drawn from the reference, so checking a table
      against itself finds no orphans. */
  lemma {:induction false} FoundReflexive<V>(key: seq<V>, reference: seq<seq<V>>)
    requires key in reference
    ensures TupleFound(key, reference) && ColumnwiseFound(key, reference)
  {
    TupleFoundIsColumnwiseFound(key, reference);
  }
}

=== FILE: functions.dfy ===
/** The generic primitives every rule module is built from
    (proj/custom/functions.py): the finding recorder `checkData`, the
    column-wise existence check `checkLogic`, the tuple-wise `mismatch` and the
    multi-token lookup `multivalue_lookup_check`.

    Here a DataFrame is a set of column names, an index and one map per row
    from column name to cell value.
 */
module Functions {
  import opened Wrappers
  import opened Text
  import opened Frames

  /** The record a check reports: the dict `checkData` builds. */
  datatype Finding = Finding(
    table: string,
    rows: seq<int>,
    columns: string,
    errorType: string,
    isCoreError: bool,
    message: string)

  /** The keyword arguments the rule modules pass to `checkData`. */
  datatype CheckArgs = CheckArgs(
    table: string,
    badrows: seq<int>,
    badcolumn: string,
    errorType: string,
    isCoreError: bool,
    message: string)

  /** `checkData(**args, q=queue)`. `None` stands for the empty dict `{}`;
      the second component is the queue after the call (`None` when no
      queue was passed). */
  function CheckData(args: CheckArgs, queue: Option<seq<Finding>>): (out: (Option<Finding>, Option<seq<Finding>>))
    ensures out.0.None? <==> |args.badrows| == 0
    ensures out.0.None? ==> out.1 == queue
    ensures out.0.Some? ==>
      && out.0.value.table == args.table
      && out.0.value.rows == args.badrows
      && out.0.value.columns == args.badcolumn
      && out.0.value.errorType == args.errorType
      && out.0.value.isCoreError == args.isCoreError
      && out.0.value.message == args.message
    ensures out.0.Some? ==> out.1 == if queue.Some? then Some(queue.value + [out.0.value]) else None
  {
    if |args.badrows| > 0 then
      var f := Finding(args.table, args.badrows, args.badcolumn, args.errorType, args.isCoreError, args.message);
      (Some(f), if queue.Some? then Some(queue.value + [f]) else None)
    else
      (None, queue)
  }

  /** `[e for e in errs if len(e) > 0]`: the non-empty findings, in order. */
  function NonEmpty(errs: seq<Option<Finding>>): (fs: seq<Finding>)
    ensures |fs| <= |errs|
    ensures forall f :: f in fs <==> Some(f) in errs
    ensures fs == [] <==> forall k :: 0 <= k < |errs| ==> errs[k].None?
  {
    if |errs| == 0 then []
    else
      var rest := NonEmpty(errs[1..]);
      assert forall e :: e in errs <==> e == errs[0] || e in errs[1..];
      (if errs[0].Some? then [errs[0].value] else []) + rest
  }

  /** A check module's return value, `{'errors': errs, 'warnings': warnings}`,
      where `None` stands for an empty record `{}`. */
  datatype Report = Report(errors: seq<Option<Finding>>, warnings: seq<Option<Finding>>)

  /** Findings appended one by one, none of them empty. */
  function Wrap(fs: seq<Finding>): (errs: seq<Option<Finding>>)
    ensures |errs| == |fs|
    ensures forall k :: 0 <= k < |fs| ==> errs[k] == Some(fs[k])
  {
    seq(|fs|, k requires 0 <= k < |fs| => Some(fs[k]))
  }

  /** Every reported finding names at least one row, whichever way the
      findings of a module are collected. */
  lemma {:induction false} FindingsAreNeverEmpty(calls: seq<CheckArgs>)
    ensures forall f :: f in NonEmpty(seq(|calls|, k requires 0 <= k < |calls| => CheckData(calls[k], None).0)) ==> |f.rows| > 0
  {
    var errs := seq(|calls|, k requires 0 <= k < |calls| => CheckData(calls[k], None).0);
    forall f | f in NonEmpty(errs) ensures |f.rows| > 0 {
      var k :| 0 <= k < |errs| && errs[k] == Some(f);
    }
  }

  /** A DataFrame: column names, index labels and the cells of each row. */
  datatype Frame<V> = Frame(columns: set<string>, index: seq<int>, rows: seq<map<string, V>>) {
    predicate Valid() {
      |index| == |rows| && forall i :: 0 <= i < |rows| ==> rows[i].Keys == columns
    }
  }

  /** A row together with the label it is reported under. */
  datatype Labelled<V> = Labelled(tag: int, cells: map<string, V>)

  /** The rows of a frame labelled by their index labels. */
  function ByIndex<V>(df: Frame<V>): (rs: seq<Labelled<V>>)
    requires df.Valid()
    ensures |rs| == |df.rows|
    ensures forall i :: 0 <= i < |rs| ==> rs[i] == Labelled(df.index[i], df.rows[i])
  {
    seq(|df.rows|, i requires 0 <= i < |df.rows| => Labelled(df.index[i], df.rows[i]))
  }

  /** The rows of a frame labelled by their positions (a merge result's
      fresh RangeIndex). */
  function ByPosition<V>(df: Frame<V>): (rs: seq<Labelled<V>>)
    ensures |rs| == |df.rows|
    ensures forall i :: 0 <= i < |rs| ==> rs[i] == Labelled(i, df.rows[i])
  {
    seq(|df.rows|, i requires 0 <= i < |df.rows| => Labelled(i, df.rows[i]))
  }

  /** `[x.lower() for x in cols]`. */
  function LowerAll(cols: seq<string>): (lc: seq<string>)
    ensures |lc| == |cols|
    ensures forall k :: 0 <= k < |cols| ==> lc[k] == Lower(cols[k])
  {
    seq(|cols|, k requires 0 <= k < |cols| => Lower(cols[k]))
  }

  predicate HasColumns<V>(df: Frame<V>, cols: seq<string>) {
    forall k :: 0 <= k < |cols| ==> cols[k] in df.columns
  }

  /** The values of `cols` in one row, as a tuple. */
  function KeyOf<V>(cells: map<string, V>, cols: seq<string>): seq<V>
    requires forall k :: 0 <= k < |cols| ==> cols[k] in cells
  {
    seq(|cols|, k requires 0 <= k < |cols| => cells[cols[k]])
  }

  /** `df[cols]` as a list of tuples. */
  function Keys<V>(df: Frame<V>, cols: seq<string>): (ks: seq<seq<V>>)
    requires df.Valid() && HasColumns(df, cols)
    ensures |ks| == |df.rows|
    ensures forall i :: 0 <= i < |ks| ==> ks[i] == KeyOf(df.rows[i], cols)
  {
    seq(|df.rows|, i requires 0 <= i < |df.rows| => KeyOf(df.rows[i], cols))
  }

  /** `checkLogic(df1, df2, cols)`: both frames must have the lower-cased key
      columns (otherwise the `assert` raises); a df1 row is reported, by its
      index label, when some key value of it appears nowhere in the same
      column of df2. */
  function CheckLogic<V(==)>(df1: Frame<V>, df2: Frame<V>, cols: seq<string>): (r: Result<seq<int>>)
    requires df1.Valid() && df2.Valid()
    ensures r.Ok? <==> HasColumns(df1, LowerAll(cols)) && HasColumns(df2, LowerAll(cols))
    ensures r.Ok? ==> forall x :: x in r.value <==>
      exists i :: 0 <= i < |df1.rows| && df1.index[i] == x &&
        !ColumnwiseFound(KeyOf(df1.rows[i], LowerAll(cols)), Keys(df2, LowerAll(cols)))
    ensures r.Ok? ==> (r.value == [] <==> forall i :: 0 <= i < |df1.rows| ==>
      ColumnwiseFound(KeyOf(df1.rows[i], LowerAll(cols)), Keys(df2, LowerAll(cols))))
  {
    var lc := LowerAll(cols);
    var _ :- Need(HasColumns(df1, lc), "key columns not in columns of df1");
    var _ :- Need(HasColumns(df2, lc), "key columns not in columns of df2");
    var reference := Keys(df2, lc);
    Ok(Select(ByIndex(df1), (r: Labelled<V>) => !(forall k :: 0 <= k < |lc| ==> lc[k] in r.cells) || !ColumnwiseFound(KeyOf(r.cells, lc), reference),
              (r: Labelled<V>) => r.tag))
  }

  /** `mismatch(df1, df2, cols)`: the positions of df1 rows whose whole key
      tuple equals no df2 tuple. A missing column is a `KeyError`. */
  function Mismatch<V(==)>(df1: Frame<V>, df2: Frame<V>, cols: seq<string>): (r: Result<seq<int>>)
    requires df1.Valid() && df2.Valid()
    ensures r.Ok? <==> HasColumns(df1, cols) && HasColumns(df2, cols)
    ensures r.Ok? ==> forall p :: p in r.value ==> 0 <= p < |df1.rows|
    ensures r.Ok? ==> forall i :: 0 <= i < |df1.rows| ==>
      (i in r.value <==> !TupleFound(KeyOf(df1.rows[i], cols), Keys(df2, cols)))
    ensures r.Ok? ==> (r.value == [] <==> forall i :: 0 <= i < |df1.rows| ==>
      TupleFound(KeyOf(df1.rows[i], cols), Keys(df2, cols)))
  {
    if !(HasColumns(df1, cols) && HasColumns(df2, cols)) then Raise(KeyError("merge column"))
    else
      var reference := Keys(df2, cols);
      Ok(Select(ByPosition(df1), (r: Labelled<V>) => !(forall k :: 0 <= k < |cols| ==> cols[k] in r.cells) || !TupleFound(KeyOf(r.cells, cols), reference),
                (r: Labelled<V>) => r.tag))
  }

  /** Checking a frame against itself finds no orphans, column-wise or
      tuple-wise. */
  lemma {:induction false} CheckAgainstItself<V>(df: Frame<V>, cols: seq<string>)
    requires df.Valid() && HasColumns(df, cols) && HasColumns(df, LowerAll(cols))
    ensures CheckLogic(df, df, cols) == Ok([])
    ensures Mismatch(df, df, cols) == Ok([])
  {
    var lc := LowerAll(cols);
    forall i | 0 <= i < |df.rows|
      ensures ColumnwiseFound(KeyOf(df.rows[i], lc), Keys(df, lc))
      ensures TupleFound(KeyOf(df.rows[i], cols), Keys(df, cols))
    {
      FoundReflexive(KeyOf(df.rows[i], lc), Keys(df, lc));
    }
  }

  /** The column-wise check reports only rows the tuple-wise check reports:
      with lower-case key names, every df1 row `checkLogic` flags sits at a
      position `mismatch` flags. */
  lemma {:induction false} CheckLogicWeakerThanMismatch<V>(df1: Frame<V>, df2: Frame<V>, cols: seq<string>, i: int)
    requires df1.Valid() && df2.Valid() && LowerAll(cols) == cols
    requires HasColumns(df1, cols) && HasColumns(df2, cols)
    requires 0 <= i < |df1.rows| && df1.index[i] in CheckLogic(df1, df2, cols).value
    requires forall j :: 0 <= j < |df1.index| && j != i ==> df1.index[j] != df1.index[i]
    ensures i in Mismatch(df1, df2, cols).value
  {
    var key := KeyOf(df1.rows[i], cols);
    if TupleFound(key, Keys(df2, cols)) {
      TupleFoundIsColumnwiseFound(key, Keys(df2, cols));
    }
  }

  /** Only the distinct key tuples of df2 matter (`drop_duplicates`): two
      reference frames with the same tuples give the same answer. */
  lemma {:induction false} MismatchIgnoresDuplicates<V>(df1: Frame<V>, df2: Frame<V>, df3: Frame<V>, cols: seq<string>)
    requires df1.Valid() && df2.Valid() && df3.Valid()
    requires HasColumns(df1, cols) && HasColumns(df2, cols) && HasColumns(df3, cols)
    requires forall t :: t in Keys(df2, cols) <==> t in Keys(df3, cols)
    ensures Mismatch(df1, df2, cols) == Mismatch(df1, df3, cols)
  {
    var k2, k3 := Keys(df2, cols), Keys(df3, cols);
    SelectCongruent(ByPosition(df1),
      (r: Labelled<V>) => !(forall k :: 0 <= k < |cols| ==> cols[k] in r.cells) || !TupleFound(KeyOf(r.cells, cols), k2),
      (r: Labelled<V>) => !(forall k :: 0 <= k < |cols| ==> cols[k] in r.cells) || !TupleFound(KeyOf(r.cells, cols), k3),
      (r: Labelled<V>) => r.tag);
  }

  /** A cell of a free-text column; `str()` of a missing cell is "nan". */
  datatype Cell = Str(s: string) | Null

  function Render(c: Cell): string {
    match c
    case Str(s) => s
    case Null => "nan"
  }

  /** A cell passes the multi-value lookup when each stripped token of it is
      a lookup value. */
  predicate TokensListed(c: Cell, lookup: set<string>, sep: char) {
    TokenSet(Render(c), sep) <= lookup
  }

  /** The `badrows` / `badcolumn` / `error_type` part of a `checkData` call,
      as the helper checks hand it back. */
  datatype RowArgs = RowArgs(badrows: seq<int>, badcolumn: string, errorType: string)

  /** `multivalue_lookup_check(df, field, ..., displayfieldname, sep)` with the
      lookup list passed in as a set. `tmpRow` is the frame's `tmp_row`
      column when it has one; otherwise the index is used. */
  function MultivalueLookupCheck(
    df: Frame<Cell>, tmpRow: Option<seq<int>>, field: string,
    display: Option<string>, lookup: set<string>, sep: char): (r: Result<RowArgs>)
    requires df.Valid() && (tmpRow.Some? ==> |tmpRow.value| == |df.rows|)
    ensures var name := if display.Some? && display.value != "" then display.value else field;
      && (r.Ok? <==> Lower(name) in df.columns && field in df.columns)
      && (r.Ok? ==> r.value.badcolumn == name && r.value.errorType == "Lookup Error")
    ensures r.Ok? ==> var ids := tmpRow.GetOr(df.index);
      forall x :: x in r.value.badrows <==>
        exists i :: 0 <= i < |df.rows| && ids[i] == x && !TokensListed(df.rows[i][field], lookup, sep)
  {
    var name := if display.Some? && display.value != "" then display.value else field;
    if !(Lower(name) in df.columns) then Raise(AssertionError("displayfieldname not in columns"))
    else if !(field in df.columns) then Raise(AssertionError("field not in columns"))
    else Ok(RowArgs(UnlistedRows(df, tmpRow.GetOr(df.index), field, lookup, sep), name, "Lookup Error"))
  }

  /** The ids of the rows whose `field` holds a token outside `lookup`. */
  function UnlistedRows(df: Frame<Cell>, ids: seq<int>, field: string, lookup: set<string>, sep: char): (bad: seq<int>)
    requires df.Valid() && field in df.columns && |ids| == |df.rows|
    ensures forall x :: x in bad <==> exists i :: 0 <= i < |df.rows| && ids[i] == x && !TokensListed(df.rows[i][field], lookup, sep)
  {
    var labelled := Relabel(df, ids);
    Select(labelled, (r: Labelled<Cell>) => field !in r.cells || !TokensListed(r.cells[field], lookup, sep),
           (r: Labelled<Cell>) => r.tag)
  }

  /** The rows of a frame labelled by a column of ids. */
  function Relabel<V>(df: Frame<V>, ids: seq<int>): (rs: seq<Labelled<V>>)
    requires |ids| == |df.rows|
    ensures |rs| == |df.rows|
    ensures forall i :: 0 <= i < |rs| ==> rs[i] == Labelled(ids[i], df.rows[i])
  {
    seq(|df.rows|, i requires 0 <= i < |df.rows| => Labelled(ids[i], df.rows[i]))
  }

  lemma {:induction false} StripIdentity(v: string)
    requires v == [] || (!IsSpace(v[0]) && !IsSpace(v[|v| - 1]))
    ensures Strip(v) == v
  {
    assert TrimStart(v) == v;
  }

  /** The token set of a joined list is the set of its stripped pieces. */
  lemma {:induction false} TokenSetOfJoin(parts: seq<string>, sep: char)
    requires |parts| >= 1
    requires forall k :: 0 <= k < |parts| ==> sep !in parts[k]
    ensures TokenSet(Join(parts, sep), sep) == set p | p in parts :: Strip(p)
  {
    SplitJoin(parts, sep);
  }

  /** Both directions of the lookup rule on a cell typed as a separated list:
      it passes exactly when every stripped entry is listed. */
  lemma {:induction false} TokensListedMeaning(parts: seq<string>, lookup: set<string>, sep: char)
    requires |parts| >= 1
    requires forall k :: 0 <= k < |parts| ==> sep !in parts[k]
    ensures TokensListed(Str(Join(parts, sep)), lookup, sep) <==>
      forall k :: 0 <= k < |parts| ==> Strip(parts[k]) in lookup
  {
    TokenSetOfJoin(parts, sep);
    var ts := set p | p in parts :: Strip(p);
    if forall k :: 0 <= k < |parts| ==> Strip(parts[k]) in lookup {
      assert ts <= lookup;
    } else {
      var k :| 0 <= k < |parts| && Strip(parts[k]) !in lookup;
      assert Strip(parts[k]) in ts;
    }
  }

  /** A single listed value without padding passes; a missing cell passes
      only if "nan" is itself a lookup value. */
  lemma {:induction false} SingleValueLookup(v: string, lookup: set<string>, sep: char)
    requires sep !in v
    requires v == [] || (!IsSpace(v[0]) && !IsSpace(v[|v| - 1]))
    ensures TokensListed(Str(v), lookup, sep) <==> v in lookup
  {
    SplitJoin([v], sep);
    StripIdentity(v);
    assert TokenSet(v, sep) == {v};
  }

  lemma {:induction false} MissingCellLookup(lookup: set<string>, sep: char)
    requires sep !in "nan"
    ensures TokensListed(Null, lookup, sep) <==> "nan" in lookup
  {
    SingleValueLookup("nan", lookup, sep);
  }
}

=== FILE: grouping.dfy ===
/** `groupby` as the checks use it: the distinct keys among the rows in
    scope, the members of one group, and "every row of a failing group"
    (the `merge(..., how='inner')` back onto the table that follows each
    aggregation).

    The order in which pandas lists the groups is not modelled: groups are
    sets of keys.
 */
module Grouping {
  import opened Frames

  /** The keys `df[scope].groupby(key)` produces. */
  function GroupKeys<R, K(==,!new)>(rows: seq<R>, scope: R -> bool, key: R -> K): (ks: set<K>)
    ensures forall k :: k in ks <==> exists i :: 0 <= i < |rows| && scope(rows[i]) && key(rows[i]) == k
  {
    set i | 0 <= i < |rows| && scope(rows[i]) :: key(rows[i])
  }

  /** One finding per key that has a failing row: `finding(k)` for every
      key `k` of a row that `fails`, and nothing else. */
  function KeyedFindings<R, K(==,!new), F(==)>(rows: seq<R>, fails: R -> bool, key: R -> K, finding: K -> F): (fs: set<F>)
    ensures forall i :: 0 <= i < |rows| && fails(rows[i]) ==> finding(key(rows[i])) in fs
    ensures forall f :: f in fs ==> exists i :: 0 <= i < |rows| && fails(rows[i]) && f == finding(key(rows[i]))
    ensures fs == {} <==> forall i :: 0 <= i < |rows| ==> !fails(rows[i])
  {
    var fs := set i | 0 <= i < |rows| && fails(rows[i]) :: finding(key(rows[i]));
    assert forall i :: 0 <= i < |rows| && fails(rows[i]) ==> finding(key(rows[i])) in fs;
    fs
  }

  /** The members of group `k`, in table order. */
  function Members<R, K(==,!new)>(rows: seq<R>, scope: R -> bool, key: R -> K, k: K): (g: seq<R>)
    ensures |g| <= |rows|
    ensures forall j :: 0 <= j < |g| ==> scope(g[j]) && key(g[j]) == k && g[j] in rows
    ensures forall i :: 0 <= i < |rows| && scope(rows[i]) && key(rows[i]) == k ==> rows[i] in g
    ensures (exists i :: 0 <= i < |rows| && scope(rows[i]) && key(rows[i]) == k) ==> |g| >= 1
  {
    if |rows| == 0 then []
    else
      var rest := Members(rows[1..], scope, key, k);
      assert forall i :: 1 <= i < |rows| ==> rows[i] == rows[1..][i - 1];
      if scope(rows[0]) && key(rows[0]) == k then [rows[0]] + rest else rest
  }

  /** One value per member (`subdf.column`). */
  function Column<R, T>(g: seq<R>, f: R -> T): (xs: seq<T>)
    ensures |xs| == |g|
    ensures forall j :: 0 <= j < |g| ==> xs[j] == f(g[j])
  {
    seq(|g|, j requires 0 <= j < |g| => f(g[j]))
  }

  /** The ids of every row (in or out of scope) whose key is one of the
      failing keys: the inner merge of the table with the failing groups. */
  function RowsOfGroups<R, K(==,!new)>(rows: seq<R>, key: R -> K, failing: set<K>, id: R -> int): (ids: seq<int>)
    ensures forall x :: x in ids <==> exists i :: 0 <= i < |rows| && key(rows[i]) in failing && id(rows[i]) == x
    ensures ids == [] <==> forall i :: 0 <= i < |rows| ==> key(rows[i]) !in failing
  {
    Select(rows, (r: R) => key(r) in failing, id)
  }

  /** `Series.unique()`: each value once, in order of first appearance. */
  function Distinct<T(==,!new)>(xs: seq<T>): (us: seq<T>)
    ensures forall x :: x in us <==> x in xs
    ensures forall a, b :: 0 <= a < b < |us| ==> us[a] != us[b]
    ensures |us| <= |xs|
    ensures us == [] <==> xs == []
  {
    if |xs| == 0 then []
    else
      var front := xs[..|xs| - 1];
      var last := xs[|xs| - 1];
      assert xs == front + [last];
      var r := Distinct(front);
      if last in r then r else r + [last]
  }

  /** `len(col.unique()) == 1` exactly when the column is non-empty and
      holds a single value. */
  lemma DistinctSingle<T(!new)>(xs: seq<T>)
    ensures |Distinct(xs)| == 1 <==> |xs| >= 1 && forall k :: 0 <= k < |xs| ==> xs[k] == xs[0]
  {
    var us := Distinct(xs);
    if |us| == 1 {
      assert xs[0] in us;
      forall k | 0 <= k < |xs| ensures xs[k] == xs[0] {
        assert xs[k] in us;
      }
    }
    if |xs| >= 1 && forall k :: 0 <= k < |xs| ==> xs[k] == xs[0] {
      assert xs[0] in us;
      assert forall a :: 0 <= a < |us| ==> us[a] == xs[0] by {
        forall a | 0 <= a < |us| ensures us[a] == xs[0] {
          assert us[a] in xs;
        }
      }
    }
  }

  /** No earlier row has the same key. */
  predicate FirstOfKind<R, K(==)>(rows: seq<R>, key: R -> K, i: int)
    requires 0 <= i < |rows|
  {
    forall k :: 0 <= k < i ==> key(rows[k]) != key(rows[i])
  }

  /** `drop_duplicates(subset=..., keep='first')`: the rows no earlier row
      shares a key with, in table order. */
  function DropDuplicates<R(!new), K(==)>(rows: seq<R>, key: R -> K): (out: seq<R>)
    ensures |out| <= |rows|
    ensures forall x :: x in out <==> exists i :: 0 <= i < |rows| && rows[i] == x && FirstOfKind(rows, key, i)
  {
    if |rows| == 0 then []
    else
      var n := |rows| - 1;
      var front := rows[..n];
      var kept := DropDuplicates(front, key);
      assert forall x :: x in kept <==> exists i :: 0 <= i < n && rows[i] == x && FirstOfKind(rows, key, i) by {
        forall i | 0 <= i < n ensures front[i] == rows[i] && (FirstOfKind(front, key, i) <==> FirstOfKind(rows, key, i)) {
          FrontFirstOfKind(rows, key, i);
        }
      }
      kept + (if FirstOfKind(rows, key, n) then [rows[n]] else [])
  }

  /** Dropping the last row changes no earlier row's verdict. */
  lemma FrontFirstOfKind<R, K>(rows: seq<R>, key: R -> K, i: int)
    requires 0 <= i < |rows| - 1
    ensures rows[..|rows| - 1][i] == rows[i]
    ensures FirstOfKind(rows[..|rows| - 1], key, i) <==> FirstOfKind(rows, key, i)
  {
    var front := rows[..|rows| - 1];
    assert forall k :: 0 <= k < i ==> front[k] == rows[k];
  }

  /** Every key has a first row: the earliest row sharing it. So dropping
      duplicates keeps one row of every key. */
  lemma {:induction false} FirstOfKindExists<R, K>(rows: seq<R>, key: R -> K, i: int)
    requires 0 <= i < |rows|
    ensures exists p :: 0 <= p <= i && key(rows[p]) == key(rows[i]) && FirstOfKind(rows, key, p)
    decreases i
  {
    if !FirstOfKind(rows, key, i) {
      var k :| 0 <= k < i && key(rows[k]) == key(rows[i]);
      FirstOfKindExists(rows, key, k);
    }
  }
}

=== FILE: invert.dfy ===
/** The trawl invertebrate module (proj/custom/invert_custom.py).

    Three things in it behave differently from what its comments describe,
    and the model keeps both readings (`InvertAsWritten`, `Invert`):
    - the trawl events are held in one `zip` iterator that the abundance
      pass consumes, so the biomass pass tests its records against whatever
      the abundance pass left over;
    - the biomass-against-abundance orphan test is pandas' column-wise
      `isin`, which accepts a record whose key values all occur in the
      abundance table but never together;
    - the biomass depth warnings take the species name for their message
      from the abundance merge at the biomass row's position, naming the
      wrong species or raising `KeyError` when there is no such position.
 */
module Invert {
  import opened Wrappers
  import opened Frames
  import opened Functions
  import opened Grouping
  import opened Catch
  import opened OneShot
  import PtSensor

  // ---------------------------------------------------------------------
  // Data model
  // ---------------------------------------------------------------------

  /** A trawl event's key: station, date, organisation, trawl number. */
  type EventKey = PtSensor.EventKey

  /** A `tbl_trawlinvertebrateabundance` record; `row` is its `tmp_row`. */
  datatype Abundance = Abundance(row: int, event: EventKey, species: string, anomaly: Cell, qualifier: Cell, comments: Cell)

  /** What the module reads from the database. */
  datatype Lookups = Lookups(
    anomalies: set<string>,
    qualifiers: set<string>,
    synonyms: set<string>,
    notAllowed: set<string>,
    depths: seq<SpeciesDepth>,
    tows: seq<TowDepth<EventKey>>)

  /** The trawl events on file. Both reads of `tbl_trawlevent` select the
      same four key columns, the second with the depths as well, so the
      events are the keys of the tows. */
  function Events(lu: Lookups): (es: seq<EventKey>)
    ensures |es| == |lu.tows| && forall k :: 0 <= k < |lu.tows| ==> es[k] == lu.tows[k].key
  {
    seq(|lu.tows|, k requires 0 <= k < |lu.tows| => lu.tows[k].key)
  }

  /** One of the lookup reads that build their frame by hand returned no
      row, in source order: the synonyms (line 207), the trawl events with
      their depths (278-279), the depth ranges (284-285) and the species
      not allowed (321). The first read of the events is guarded; these
      are not. */
  predicate SomeReadEmpty(lu: Lookups) {
    lu.synonyms == {} || lu.tows == [] || lu.depths == [] || lu.notAllowed == {}
  }

  function AbundanceRow(r: Abundance): int { r.row }
  function AbundanceEvent(r: Abundance): EventKey { r.event }
  function BiomassEvent(b: Biomass): EventKey { b.event }
  function AbundanceSpecies(r: Abundance): string { r.species }
  function BiomassSpecies(b: Biomass): string { b.species }

  const AbundanceTable := "tbl_trawlinvertebrateabundance"
  const BiomassTable := "tbl_trawlinvertebratebiomass"
  const EventColumns := "stationid,sampledate,samplingorganization,trawlnumber"
  const LogicError := "Logic Error"
  const UndefinedError := "Undefined Error"
  const UndefinedWarning := "Undefined Warning"
  const AbundanceEventMessage := "Each invertebrate abundance record must have a corresponding trawl assemblage event record. Records are matched on StationID, SampleDate, SamplingOrganiztion and TrawlNumber."
  const BiomassEventMessage := "Each invertebrate biomass record must have a corresponding trawl assemblage event record. Records are matched on StationID, SampleDate, SamplingOrganization and TrawlNumber."
  const EmptyMessage := "Table is Empty."
  const SynonymMessage := "The species you entered is possibly a synonym. Please verify by checking the lookup list: lu_invertsynonyms"
  const OrphanColumns := "stationid,sampledate,samplingorganization,invertspecies"
  const OrphanMessage := "Orphan records for biomass vs. abundance."
  const NotAllowedMessage := "Holoplanktonic or infaunal species. See lookup list: lu_invertspeciesnotallowed"
  const OtherMessage := "A comment is required for all anomalies listed as Other."
  const SingleMessage := "Anomalies and clean organisms may be lumped together( e.g. 128 urchins, all with parasites isnt likely"
  const ZeroMessage := "Weight submitted as 0 should have been <0.1kg"
  const BelowTenthMessage := "Biomass values that were less than 0.1 kg (e.g. 0.004 kg) should have been submitted as <0.1 kg"
  const QualifiedMessage := "Less than qualifiers must have corresponding biomass value of 0.1kg."
  const DepthTail := " was caught in a depth range that does not include the range it is typically found."

  function Error(table: string, ids: seq<int>, columns: string, errorType: string, message: string): (e: Option<Finding>)
    ensures e.None? <==> ids == []
    ensures e.Some? ==> e.value == Finding(table, ids, columns, errorType, false, message)
  {
    CheckData(CheckArgs(table, ids, columns, errorType, false, message), None).0
  }

  // ---------------------------------------------------------------------
  // Trawl events
  // ---------------------------------------------------------------------

  /** The four-column event keys of a table, one per record in order. */
  function EventKeys<R>(rows: seq<R>, event: R -> EventKey): (ks: seq<EventKey>)
    ensures |ks| == |rows| && forall i :: 0 <= i < |rows| ==> ks[i] == event(rows[i])
  {
    seq(|rows|, i requires 0 <= i < |rows| => event(rows[i]))
  }

  /** With no trawl events on file both tables are reported whole. */
  function EmptyEventFindings(rows: seq<Abundance>, bio: seq<Biomass>): (errs: seq<Option<Finding>>)
    ensures |errs| == 2
    ensures errs[0].None? <==> rows == []
    ensures errs[1].None? <==> bio == []
    ensures errs[0].Some? ==> errs[0].value.errorType == "Abundance Error" && forall i :: 0 <= i < |rows| ==> rows[i].row in errs[0].value.rows
    ensures errs[1].Some? ==> errs[1].value.errorType == "Biomass Error" && forall i :: 0 <= i < |bio| ==> bio[i].row in errs[1].value.rows
  {
    [ Error(AbundanceTable, Select(rows, (r: Abundance) => true, AbundanceRow), "stationid", "Abundance Error", EmptyMessage),
      Error(BiomassTable, Select(bio, (b: Biomass) => true, BiomassRow), "stationid", "Biomass Error", EmptyMessage) ]
  }

  /** The two logic errors as written: one iterator over the events serves
      the abundance pass and then, whatever is left of it, the biomass
      pass. */
  function EventFindingsAsWritten(rows: seq<Abundance>, bio: seq<Biomass>, events: seq<EventKey>): (errs: seq<Option<Finding>>)
    ensures |errs| == 2
    ensures events == [] ==> errs == EmptyEventFindings(rows, bio)
    ensures events != [] ==> forall k :: 0 <= k < 2 && errs[k].Some? ==> errs[k].value.errorType == LogicError
  {
    if |events| == 0 then EmptyEventFindings(rows, bio)
    else
      var ab := Scan(EventKeys(rows, AbundanceEvent), events);
      var bm := Scan(EventKeys(bio, BiomassEvent), ab.1);
      [ Error(AbundanceTable, Unfound(rows, ab.0, AbundanceRow), EventColumns, LogicError, AbundanceEventMessage),
        Error(BiomassTable, Unfound(bio, bm.0, BiomassRow), EventColumns, LogicError, BiomassEventMessage) ]
  }

  /** `key in events` for each key, as a whole-tuple comparison. */
  function OnFile(keys: seq<EventKey>, events: seq<EventKey>): (found: seq<bool>)
    ensures |found| == |keys| && forall i :: 0 <= i < |keys| ==> (found[i] <==> keys[i] in events)
  {
    seq(|keys|, i requires 0 <= i < |keys| => keys[i] in events)
  }

  /** The logic errors the comment describes: a record is reported exactly
      when its key is not among the trawl events. */
  function EventFindings(rows: seq<Abundance>, bio: seq<Biomass>, events: seq<EventKey>): (errs: seq<Option<Finding>>)
    ensures |errs| == 2
    ensures events == [] ==> errs == EmptyEventFindings(rows, bio)
    ensures events != [] ==> (errs[0].None? <==> forall i :: 0 <= i < |rows| ==> rows[i].event in events)
    ensures events != [] ==> (errs[1].None? <==> forall i :: 0 <= i < |bio| ==> bio[i].event in events)
    ensures events != [] && errs[1].Some? ==> forall x :: x in errs[1].value.rows <==> exists i :: 0 <= i < |bio| && bio[i].row == x && bio[i].event !in events
  {
    if |events| == 0 then EmptyEventFindings(rows, bio)
    else
      [ Error(AbundanceTable, Unfound(rows, OnFile(EventKeys(rows, AbundanceEvent), events), AbundanceRow), EventColumns, LogicError, AbundanceEventMessage),
        Error(BiomassTable, Unfound(bio, OnFile(EventKeys(bio, BiomassEvent), events), BiomassRow), EventColumns, LogicError, BiomassEventMessage) ]
  }

  /** The iterator never finds a key that is not there: every record the
      intended check reports is reported as written too. */
  lemma {:induction false} AsWrittenReportsUnmatched(rows: seq<Abundance>, bio: seq<Biomass>, events: seq<EventKey>)
    requires events != []
    ensures var meant, written := EventFindings(rows, bio, events), EventFindingsAsWritten(rows, bio, events);
      meant[0].Some? ==> written[0].Some? && forall x :: x in meant[0].value.rows ==> x in written[0].value.rows
    ensures var meant, written := EventFindings(rows, bio, events), EventFindingsAsWritten(rows, bio, events);
      meant[1].Some? ==> written[1].Some? && forall x :: x in meant[1].value.rows ==> x in written[1].value.rows
  {
    var ab := Scan(EventKeys(rows, AbundanceEvent), events);
    var bm := Scan(EventKeys(bio, BiomassEvent), ab.1);
    SuffixMembers(ab.1, events);
    assert forall i :: 0 <= i < |bio| && bm.0[i] ==> OnFile(EventKeys(bio, BiomassEvent), events)[i];
    FewerFound(rows, ab.0, OnFile(EventKeys(rows, AbundanceEvent), events), AbundanceRow);
    FewerFound(bio, bm.0, OnFile(EventKeys(bio, BiomassEvent), events), BiomassRow);
  }

  /** A test that finds less reports more. */
  lemma {:induction false} FewerFound<R>(rows: seq<R>, found: seq<bool>, meant: seq<bool>, id: R -> int)
    requires |found| == |rows| == |meant|
    requires forall i :: 0 <= i < |rows| && found[i] ==> meant[i]
    ensures forall x :: x in Unfound(rows, meant, id) ==> x in Unfound(rows, found, id)
    ensures Unfound(rows, meant, id) != [] ==> Unfound(rows, found, id) != []
  {
  }

  /** One trawl event, one abundance record and one biomass record from
      it: the abundance pass uses the event up, so as written the biomass
      record is reported; the intended check reports nothing. */
  lemma {:induction false} BiomassPassStarved(r: Abundance, b: Biomass, e: EventKey)
    requires r.event == e && b.event == e
    ensures EventFindingsAsWritten([r], [b], [e])[1] == Some(Finding(BiomassTable, [b.row], EventColumns, LogicError, false, BiomassEventMessage))
    ensures EventFindings([r], [b], [e]) == [None, None]
  {
    var ab := Scan(EventKeys([r], AbundanceEvent), [e]);
    LookupEmpties(EventKeys([r], AbundanceEvent), [e]);
    NothingFoundInEmpty(EventKeys([b], BiomassEvent));
    var bm := Scan(EventKeys([b], BiomassEvent), ab.1);
    assert !bm.0[0];
    assert ab.1 == [];
    assert !bm.0[0];
    var ids := Unfound([b], bm.0, BiomassRow);
    assert b.row in ids && |ids| <= 1;
    assert ids == [b.row];
  }

  // ---------------------------------------------------------------------
  // Lookup lists
  // ---------------------------------------------------------------------

  /** `multivalue_lookup_check`'s rows: entries that are not all listed. */
  function UnlistedAbundance(rows: seq<Abundance>, lookup: set<string>, field: Abundance -> Cell): (ids: seq<int>)
    ensures forall x :: x in ids <==> exists i :: 0 <= i < |rows| && rows[i].row == x && !TokensListed(field(rows[i]), lookup, ',')
  {
    Select(rows, (r: Abundance) => !TokensListed(field(r), lookup, ','), AbundanceRow)
  }

  function UnlistedBiomass(bio: seq<Biomass>, lookup: set<string>): (ids: seq<int>)
    ensures forall x :: x in ids <==> exists i :: 0 <= i < |bio| && bio[i].row == x && !TokensListed(bio[i].qualifier, lookup, ',')
  {
    Select(bio, (b: Biomass) => !TokensListed(b.qualifier, lookup, ','), BiomassRow)
  }

  function LookupMessage(listname: string): string {
    "One of the values here is not in the lookup list <a href=/scraper?action=help&layer=" + listname + ">" + listname + "</a>"
  }

  function AnomalyCell(r: Abundance): Cell { r.anomaly }
  function QualifierCell(r: Abundance): Cell { r.qualifier }

  /** Records whose species is on a list (`invertspecies.isin(list)`). */
  function ListedSpecies<R>(rows: seq<R>, species: R -> string, id: R -> int, list: set<string>): (ids: seq<int>)
    ensures forall x :: x in ids <==> exists i :: 0 <= i < |rows| && id(rows[i]) == x && species(rows[i]) in list
  {
    Select(rows, (r: R) => species(r) in list, id)
  }

  // ---------------------------------------------------------------------
  // Biomass against abundance
  // ---------------------------------------------------------------------

  type Part = PtSensor.Part

  /** The five compared columns of a record, in order. */
  function Key5(e: EventKey, species: string): (t: seq<Part>)
    ensures |t| == 5
  {
    [PtSensor.Text(e.stationid), PtSensor.Number(e.sampledate), PtSensor.Text(e.samplingorganization), PtSensor.Number(e.trawlnumber), PtSensor.Text(species)]
  }

  function AbundanceKey5s(rows: seq<Abundance>): (ks: seq<seq<Part>>)
    ensures |ks| == |rows| && forall i :: 0 <= i < |rows| ==> ks[i] == Key5(rows[i].event, rows[i].species)
  {
    seq(|rows|, i requires 0 <= i < |rows| => Key5(rows[i].event, rows[i].species))
  }

  /** As written: `isin(abundance[cols].to_dict('list')).all(axis=1)`, each
      value looked for anywhere in its own column. */
  function BiomassOrphansAsWritten(bio: seq<Biomass>, rows: seq<Abundance>): (ids: seq<int>)
    ensures forall x :: x in ids <==> exists i :: 0 <= i < |bio| && bio[i].row == x && !ColumnwiseFound(Key5(bio[i].event, bio[i].species), AbundanceKey5s(rows))
  {
    var reference := AbundanceKey5s(rows);
    Select(bio, (b: Biomass) => !ColumnwiseFound(Key5(b.event, b.species), reference), BiomassRow)
  }

  /** The orphan test as meant: no abundance record for the same species in
      the same trawl. */
  function BiomassOrphans(bio: seq<Biomass>, rows: seq<Abundance>): (ids: seq<int>)
    ensures forall x :: x in ids <==> exists i :: 0 <= i < |bio| && bio[i].row == x && !exists j :: 0 <= j < |rows| && rows[j].event == bio[i].event && rows[j].species == bio[i].species
  {
    var ids := Select(bio, (b: Biomass) => !exists j :: 0 <= j < |rows| && rows[j].event == b.event && rows[j].species == b.species, BiomassRow);
    ids
  }

  /** Two keys give the same five values only when they agree on the trawl
      and the species. */
  lemma {:induction false} Key5Injective(e: EventKey, s: string, e': EventKey, s': string)
    requires Key5(e, s) == Key5(e', s')
    ensures e == e' && s == s'
  {
    assert Key5(e, s)[0] == Key5(e', s')[0] && Key5(e, s)[1] == Key5(e', s')[1];
    assert Key5(e, s)[2] == Key5(e', s')[2] && Key5(e, s)[3] == Key5(e', s')[3];
    assert Key5(e, s)[4] == Key5(e', s')[4];
  }

  /** The tuple-wise test on the five columns is the intended one: a key is
      found exactly when an abundance record has the same trawl and
      species. */
  lemma {:induction false} TupleTestIsIntended(b: Biomass, rows: seq<Abundance>)
    ensures TupleFound(Key5(b.event, b.species), AbundanceKey5s(rows)) <==> exists j :: 0 <= j < |rows| && rows[j].event == b.event && rows[j].species == b.species
  {
    var ks := AbundanceKey5s(rows);
    if TupleFound(Key5(b.event, b.species), ks) {
      var j :| 0 <= j < |ks| && ks[j] == Key5(b.event, b.species);
      Key5Injective(rows[j].event, rows[j].species, b.event, b.species);
    }
  }

  /** A biomass record with an abundance partner passes the column-wise
      test. */
  lemma {:induction false} PartnerPasses(b: Biomass, rows: seq<Abundance>, j: int)
    requires 0 <= j < |rows| && rows[j].event == b.event && rows[j].species == b.species
    ensures ColumnwiseFound(Key5(b.event, b.species), AbundanceKey5s(rows))
  {
    assert AbundanceKey5s(rows)[j] == Key5(b.event, b.species);
    TupleFoundIsColumnwiseFound(Key5(b.event, b.species), AbundanceKey5s(rows));
  }

  /** Every orphan the column-wise test reports is a true orphan. */
  lemma {:induction false} AsWrittenOrphansAreOrphans(bio: seq<Biomass>, rows: seq<Abundance>)
    ensures forall x :: x in BiomassOrphansAsWritten(bio, rows) ==> x in BiomassOrphans(bio, rows)
  {
    forall i, j | 0 <= i < |bio| && 0 <= j < |rows| && rows[j].event == bio[i].event && rows[j].species == bio[i].species
      ensures ColumnwiseFound(Key5(bio[i].event, bio[i].species), AbundanceKey5s(rows))
    {
      PartnerPasses(bio[i], rows, j);
    }
  }

  /** The converse fails: a biomass record for trawl 1 of a species caught
      only in trawl 2, at a station where trawl 1 caught something else,
      passes the column-wise test. */
  lemma {:induction false} OrphanMissed(e: EventKey, s: string, t: string)
    requires s != t
    ensures var b := Biomass(0, e, s, 1.0, Null);
      var rows := [Abundance(0, e.(trawlnumber := e.trawlnumber + 1), s, Null, Null, Null), Abundance(1, e, t, Null, Null, Null)];
      BiomassOrphansAsWritten([b], rows) == [] && BiomassOrphans([b], rows) == [0]
  {
    var b := Biomass(0, e, s, 1.0, Null);
    var rows := [Abundance(0, e.(trawlnumber := e.trawlnumber + 1), s, Null, Null, Null), Abundance(1, e, t, Null, Null, Null)];
    var ks := AbundanceKey5s(rows);
    var key := Key5(e, s);
    assert ks[1][0] == key[0] && ks[1][1] == key[1] && ks[1][2] == key[2] && ks[1][3] == key[3];
    assert ks[0][4] == key[4];
    assert ColumnwiseFound(key, ks);
    assert [b][0] == b;
    var ids := BiomassOrphans([b], rows);
    assert 0 in ids;
  }

  // ---------------------------------------------------------------------
  // Abundance-only rules
  // ---------------------------------------------------------------------

  /** `anomaly == 'Other'` with a comment that is empty or missing. */
  predicate OtherWithoutComment(r: Abundance) {
    r.anomaly == Str("Other") && (r.comments == Str("") || r.comments == Null)
  }

  function OtherRows(rows: seq<Abundance>): (ids: seq<int>)
    ensures forall x :: x in ids <==> exists i :: 0 <= i < |rows| && rows[i].row == x && OtherWithoutComment(rows[i])
  {
    Select(rows, OtherWithoutComment, AbundanceRow)
  }

  function SpeciesEvent(r: Abundance): (EventKey, string) {
    (r.event, r.species)
  }

  /** `~duplicated(subset=..., keep=False)`: no other record has the same
      trawl and species. */
  predicate Single(rows: seq<Abundance>, i: int)
    requires 0 <= i < |rows|
  {
    forall j :: 0 <= j < |rows| && j != i ==> SpeciesEvent(rows[j]) != SpeciesEvent(rows[i])
  }

  /** The single records that carry an anomaly other than 'None'. */
  function SingleAnomalyRows(rows: seq<Abundance>): (ids: seq<int>)
    ensures forall x :: x in ids <==> exists i :: 0 <= i < |rows| && rows[i].row == x && Single(rows, i) && rows[i].anomaly != Str("None")
  {
    var flagged := seq(|rows|, i requires 0 <= i < |rows| => Single(rows, i) && rows[i].anomaly != Str("None"));
    Unfound(rows, seq(|rows|, i requires 0 <= i < |rows| => !flagged[i]), AbundanceRow)
  }

  /** A record that shares its trawl and species with another is never
      warned about, whatever its anomaly. */
  lemma {:induction false} PairedRecordsNotWarned(rows: seq<Abundance>, i: int, j: int)
    requires 0 <= i < |rows| && 0 <= j < |rows| && i != j
    requires rows[i].event == rows[j].event && rows[i].species == rows[j].species
    requires forall k :: 0 <= k < |rows| && rows[k].row == rows[i].row ==> k == i
    ensures rows[i].row !in SingleAnomalyRows(rows)
  {
    assert SpeciesEvent(rows[j]) == SpeciesEvent(rows[i]);
  }

  // ---------------------------------------------------------------------
  // Depth ranges
  // ---------------------------------------------------------------------

  /** The abundance merge, `tam`. */
  function AbundanceMatches(rows: seq<Abundance>, lu: Lookups): seq<DepthMatch> {
    DepthMatches(rows, AbundanceSpecies, AbundanceEvent, AbundanceRow, lu.depths, lu.tows)
  }

  /** The biomass merge, `tbm`. */
  function BiomassMatches(bio: seq<Biomass>, lu: Lookups): seq<DepthMatch> {
    DepthMatches(bio, BiomassSpecies, BiomassEvent, BiomassRow, lu.depths, lu.tows)
  }

  /** The biomass warnings as written: the loop runs over `tbm`'s
      out-of-range rows, and the message for the row at position `k` is
      built from `tam`'s row `k`, which raises `KeyError` when `tam` has no
      such row. */
  function BiomassDepthAsWritten(tam: seq<DepthMatch>, tbm: seq<DepthMatch>): (r: Result<seq<Finding>>)
    ensures r.Raise? <==> exists k :: 0 <= k < |tbm| && OutOfDepth(tbm[k]) && k >= |tam|
    ensures r.Ok? ==> forall f :: f in r.value ==> exists k :: 0 <= k < |tbm| && k < |tam| && OutOfDepth(tbm[k]) && f.rows == [tbm[k].row] && f.message == tam[k].species + DepthTail
    decreases |tbm|
  {
    if |tbm| == 0 then Ok([])
    else
      var n := |tbm| - 1;
      assert forall k :: 0 <= k < n ==> tbm[..n][k] == tbm[k];
      var front :- BiomassDepthAsWritten(tam, tbm[..n]);
      if !OutOfDepth(tbm[n]) then Ok(front)
      else if n >= |tam| then Raise(KeyError("tam row label"))
      else Ok(front + [Finding(BiomassTable, [tbm[n].row], "invertspecies", UndefinedWarning, false, tam[n].species + DepthTail)])
  }

  /** The biomass warnings with each message naming the biomass record's
      own species. */
  function BiomassDepth(tbm: seq<DepthMatch>): (fs: seq<Finding>)
    ensures forall f :: f in fs <==> exists k :: 0 <= k < |tbm| && OutOfDepth(tbm[k]) && f == DepthWarning(BiomassTable, "invertspecies", DepthTail, tbm[k])
  {
    DepthWarnings(tbm, BiomassTable, "invertspecies", DepthTail)
  }

  /** An out-of-range biomass record with no abundance merge behind it
      stops the module. */
  lemma {:induction false} BiomassDepthKeyError(m: DepthMatch)
    requires OutOfDepth(m)
    ensures BiomassDepthAsWritten([], [m]).Raise?
    ensures BiomassDepth([m]) == [DepthWarning(BiomassTable, "invertspecies", DepthTail, m)]
  {
    assert [m][..0] == [];
  }

  /** With an abundance merge row in place, the warning names the abundance
      row's species instead of the biomass record's. */
  lemma {:induction false} BiomassDepthWrongSpecies(a: DepthMatch, m: DepthMatch)
    requires OutOfDepth(m) && a.species != m.species
    ensures BiomassDepthAsWritten([a], [m]) == Ok([Finding(BiomassTable, [m.row], "invertspecies", UndefinedWarning, false, a.species + DepthTail)])
    ensures BiomassDepth([m])[0].message == m.species + DepthTail
  {
    assert [m][..0] == [];
    assert BiomassDepthAsWritten([a], []) == Ok([]);
    var w := Finding(BiomassTable, [m.row], "invertspecies", UndefinedWarning, false, a.species + DepthTail);
    assert [] + [w] == [w];
  }

  // ---------------------------------------------------------------------
  // Biomass values
  // ---------------------------------------------------------------------

  predicate LessThan(b: Biomass) {
    b.qualifier == Str("<")
  }

  /** Rounded below 0.1, whatever the qualifier. */
  function BelowTenthRows(bio: seq<Biomass>): (ids: seq<int>)
    ensures forall x :: x in ids <==> exists i :: 0 <= i < |bio| && bio[i].row == x && Round1(bio[i].biomass) < 0.1
  {
    Select(bio, (b: Biomass) => Round1(b.biomass) < 0.1, BiomassRow)
  }

  function QualifiedNotTenthRows(bio: seq<Biomass>): (ids: seq<int>)
    ensures forall x :: x in ids <==> exists i :: 0 <= i < |bio| && bio[i].row == x && LessThan(bio[i]) && Round1(bio[i].biomass) != 0.1
  {
    Select(bio, (b: Biomass) => LessThan(b) && Round1(b.biomass) != 0.1, BiomassRow)
  }

  /** A biomass value passes the three value rules exactly when it is above
      0.05 kg and, with the '<' qualifier, below 0.15 kg as well. Unlike the
      fish rules, 'less than' is not a less-than qualifier here. */
  lemma {:induction false} BiomassAccepted(b: Biomass)
    ensures (b.biomass != 0.0 && Round1(b.biomass) >= 0.1 && !(LessThan(b) && Round1(b.biomass) != 0.1)) <==>
      b.biomass > 0.05 && (LessThan(b) ==> b.biomass < 0.15)
  {
    RoundedBelowTenth(b.biomass);
    RoundedIsTenth(b.biomass);
  }

  // ---------------------------------------------------------------------
  // The module
  // ---------------------------------------------------------------------

  /** The error calls after the logic check, in order. */
  function LaterErrors(rows: seq<Abundance>, bio: seq<Biomass>, lu: Lookups, orphans: seq<int>): (errs: seq<Option<Finding>>)
    ensures |errs| == 9
    ensures errs[3] == Error(BiomassTable, orphans, OrphanColumns, "Biomass Error", OrphanMessage)
  {
    seq(9, k requires 0 <= k < 9 => LaterError(rows, bio, lu, orphans, k))
  }

  /** The `k`th call after the logic check. */
  function LaterError(rows: seq<Abundance>, bio: seq<Biomass>, lu: Lookups, orphans: seq<int>, k: int): Option<Finding>
    requires 0 <= k < 9
  {
    if k == 0 then Error(AbundanceTable, UnlistedAbundance(rows, lu.anomalies, AnomalyCell), "Anomaly", "Lookup Error", LookupMessage("lu_invertanomalies"))
    else if k == 1 then Error(AbundanceTable, UnlistedAbundance(rows, lu.qualifiers, QualifierCell), "AbundanceQualifier", "Lookup Error", LookupMessage("lu_trawlqualifier"))
    else if k == 2 then Error(BiomassTable, UnlistedBiomass(bio, lu.qualifiers), "BiomassQualifier", "Lookup Error", LookupMessage("lu_trawlqualifier"))
    else if k == 3 then Error(BiomassTable, orphans, OrphanColumns, "Biomass Error", OrphanMessage)
    else if k == 4 then Error(AbundanceTable, ListedSpecies(rows, AbundanceSpecies, AbundanceRow, lu.notAllowed), "invertspecies", UndefinedError, NotAllowedMessage)
    else if k == 5 then Error(AbundanceTable, OtherRows(rows), "anomaly,comment", UndefinedError, OtherMessage)
    else if k == 6 then Error(BiomassTable, ZeroRows(bio), "biomass", UndefinedError, ZeroMessage)
    else if k == 7 then Error(BiomassTable, BelowTenthRows(bio), "biomass", UndefinedError, BelowTenthMessage)
    else Error(BiomassTable, QualifiedNotTenthRows(bio), "biomass", UndefinedError, QualifiedMessage)
  }

  /** The warnings before the biomass depth loop. */
  function EarlyWarnings(rows: seq<Abundance>, bio: seq<Biomass>, lu: Lookups): (ws: seq<Option<Finding>>)
    ensures |ws| >= 3
  {
    [ Error(AbundanceTable, ListedSpecies(rows, AbundanceSpecies, AbundanceRow, lu.synonyms), "invertspecies", UndefinedWarning, SynonymMessage),
      Error(BiomassTable, ListedSpecies(bio, BiomassSpecies, BiomassRow, lu.synonyms), "invertspecies", UndefinedWarning, SynonymMessage) ]
      + Wrap(DepthWarnings(AbundanceMatches(rows, lu), AbundanceTable, "invertspecies", DepthTail))
      + [Error(AbundanceTable, SingleAnomalyRows(rows), "anomaly", UndefinedWarning, SingleMessage)]
  }

  /** `invert(all_dfs)` as written: an empty lookup read raises first;
      otherwise the biomass depth loop may raise KeyError. */
  function InvertAsWritten(rows: seq<Abundance>, bio: seq<Biomass>, lu: Lookups): (r: Result<Report>)
    ensures SomeReadEmpty(lu) ==> r == Raise(LengthMismatch)
    ensures r.Raise? <==> SomeReadEmpty(lu) || exists k :: 0 <= k < |BiomassMatches(bio, lu)| && OutOfDepth(BiomassMatches(bio, lu)[k]) && k >= |AbundanceMatches(rows, lu)|
    ensures r.Ok? ==> |r.value.errors| == 11 && r.value.errors[..2] == EventFindingsAsWritten(rows, bio, Events(lu))
  {
    if SomeReadEmpty(lu) then Raise(LengthMismatch)
    else
      var late :- BiomassDepthAsWritten(AbundanceMatches(rows, lu), BiomassMatches(bio, lu));
      Ok(Report(EventFindingsAsWritten(rows, bio, Events(lu)) + LaterErrors(rows, bio, lu, BiomassOrphansAsWritten(bio, rows)),
                EarlyWarnings(rows, bio, lu) + Wrap(late)))
  }

  /** `invert(all_dfs)` with four corrections: tuple membership for both
      logic checks, the tuple-wise orphan test, the biomass record's own
      species in its depth warning, and an empty lookup read taken as an
      empty table rather than raising ValueError, so that with no trawl
      event on file the "Table is Empty" findings are reported. */
  function Invert(rows: seq<Abundance>, bio: seq<Biomass>, lu: Lookups): (rep: Report)
    ensures |rep.errors| == 11
    ensures rep.errors[..2] == EventFindings(rows, bio, Events(lu))
    ensures rep.errors[5] == Error(BiomassTable, BiomassOrphans(bio, rows), OrphanColumns, "Biomass Error", OrphanMessage)
  {
    Report(EventFindings(rows, bio, Events(lu)) + LaterErrors(rows, bio, lu, BiomassOrphans(bio, rows)),
           EarlyWarnings(rows, bio, lu) + Wrap(BiomassDepth(BiomassMatches(bio, lu))))
  }

  /** With no trawl event on file, the module as written raises ValueError
      at the second, unguarded read of the events, so the "Table is Empty"
      findings the first read leads to are never returned; corrected, they
      are the module's first two errors. */
  lemma {:induction false} EmptyEventsNeverReported(rows: seq<Abundance>, bio: seq<Biomass>, lu: Lookups)
    requires lu.tows == []
    ensures EventFindingsAsWritten(rows, bio, Events(lu)) == EmptyEventFindings(rows, bio)
    ensures InvertAsWritten(rows, bio, lu) == Raise(LengthMismatch)
    ensures Invert(rows, bio, lu).errors[..2] == EmptyEventFindings(rows, bio)
  {
    assert Events(lu) == [];
  }
}

=== FILE: logger.dfy ===
/** The water-quality logger checks (proj/custom/logger.py).

    An upload has five data tables: minidot, CTD, troll, tidbit and "other".
    At least one of them must hold rows. Each measurement column then goes
    through a range test. Most tests exempt the -88 "no value" sentinel from
    their lower bound only, and a blank cell (NaN) never fails a comparison.
    Every test calls `checkData`, so a test that flags nothing still adds an
    empty record to its list.
 */
module Logger {
  import opened Wrappers
  import opened Text
  import opened Frames
  import opened Functions
  import opened Numeric

  /** A numeric cell: a number, or a blank cell that pandas reads as NaN. */
  datatype Reading = Value(v: real) | Blank

  /** One row of a logger data table, with the index label `.index.tolist()`
      reports. A table's checks read only the columns that table has. */
  datatype LoggerRow = LoggerRow(
    row: int,
    h2otemp: Reading,
    doPercent: Reading,
    doMgl: Reading,
    qvalue: Reading,
    conductivity: Reading,
    salinity: Reading,
    ph: Reading,
    turbidity: Reading,
    orp: Reading)

  datatype Measure = H2oTemp | DoPercent | DoMgl | Qvalue | Conductivity | Salinity | Ph | Turbidity | Orp

  function Read(r: LoggerRow, m: Measure): Reading {
    match m
    case H2oTemp => r.h2otemp
    case DoPercent => r.doPercent
    case DoMgl => r.doMgl
    case Qvalue => r.qvalue
    case Conductivity => r.conductivity
    case Salinity => r.salinity
    case Ph => r.ph
    case Turbidity => r.turbidity
    case Orp => r.orp
  }

  /** The column each measure is stored in; the turbidity column's name is
      spelled this way in the database. */
  function ColumnName(m: Measure): string {
    match m
    case H2oTemp => "h2otemp_c"
    case DoPercent => "do_percent"
    case DoMgl => "do_mgl"
    case Qvalue => "qvalue"
    case Conductivity => "conductivity_sm"
    case Salinity => "salinity_ppt"
    case Ph => "ph"
    case Turbidity => "turbitidy_ntu"
    case Orp => "orp_mv"
  }

  /** The five data tables, in the order of the `nonrequired` dict. */
  datatype Table = Mdot | Ctd | Troll | Tidbit | Other

  function TableName(t: Table): string {
    match t
    case Mdot => "tbl_logger_mdot_data"
    case Ctd => "tbl_logger_ctd_data"
    case Troll => "tbl_logger_troll_data"
    case Tidbit => "tbl_logger_tidbit_data"
    case Other => "tbl_logger_other_data"
  }

  /** The data tables of one submission. Only the minidot table's column
      names matter: they are reported when every table is empty. The
      metadata table has no checks here. */
  datatype Upload = Upload(
    mdotColumns: seq<string>,
    mdot: seq<LoggerRow>,
    ctd: seq<LoggerRow>,
    troll: seq<LoggerRow>,
    tidbit: seq<LoggerRow>,
    other: seq<LoggerRow>)

  function Rows(u: Upload, t: Table): seq<LoggerRow> {
    match t
    case Mdot => u.mdot
    case Ctd => u.ctd
    case Troll => u.troll
    case Tidbit => u.tidbit
    case Other => u.other
  }

  /** The four shapes of range test the module writes. */
  datatype Test =
    | AboveOrBelowUnlessMissing(lo: real, hi: real)  // x > hi or (x != -88 and x < lo)
    | BelowUnlessMissing(lo: real)                   // x < lo and x != -88
    | Above(hi: real)                                // x > hi
    | Outside(lo: real, hi: real)                    // x < lo or x > hi

  /** The test on one cell. A blank cell is NaN, every comparison with which
      is false, while `NaN != -88` is true. */
  predicate Fails(t: Test, x: Reading) {
    match x
    case Blank => false
    case Value(v) =>
      match t
      case AboveOrBelowUnlessMissing(lo, hi) => OutsideExceptMissing(v, lo, hi)
      case BelowUnlessMissing(lo) => v < lo && v != Missing
      case Above(hi) => v > hi
      case Outside(lo, hi) => v < lo || v > hi
  }

  /** One range check: which table's rows are read, which table name the
      finding carries, the column, the test and the wording. */
  datatype Rule = Rule(source: Table, filedAs: Table, measure: Measure, test: Test, errorType: string, message: string)

  const OutOfRange := "Value out of range"
  const NegativeValue := "Negative value"

  const MdotTempMessage := "Your h2otemp_c is out of range. Value should not exceed 100 degrees C."
  const MdotDoPercentMessage := "Your do_percent is negative. Value must be nonnegative and at least 0."
  const MdotDoPercentWarning := "Your do_percent is greater than 110. This is an unexpected value, but will be accepted."
  const MdotDoMglMessage := "Your do_mql value is out of range. Value should not exceed 60."
  const MdotQvalueMessage := "Your qvalue is out of range. Must be less than 1.1."
  const ConductivityMessage := "Your conductivity_sm value is out of range. Value must be within 0-10. If no value to provide, enter -88."
  const TempMessage := "Your h2otemp_c value is out of range. Value should not exceed 100 degrees C. If no value to provide, enter -88."
  const CtdSalinityMessage := "Your salinity_ppt value is less than 0. Value should be nonnegative. If no value to provide, enter -88."
  const OtherTempMessage := "Your h2otemp_c value is out of range. Value should be within 0 to 100 degrees C. If no value to provide, enter -88."
  const OtherPhMessage := "pH value is out of range. Value should be between 1 and 14. If no value to provide, enter -88."
  const OtherTurbidityMessage := "Turbidity_NTU value is out of range. Value should be within 0-3000. If no value to provide, enter -88."
  const OtherDoMglMessage := "DO_mgL value is out of range. Value should be within 0-60. If no value to provide, enter -88."
  const OtherDoPercentMessage := "DO_percent is negative. Value must be nonnegative and at least 0."
  const OtherDoPercentWarning := "DO_percent is greater than 110. This is an unexpected value, but will be accepted."
  const OtherOrpMessage := "ORP_mV is out of range. Value must be within -999 to 999."
  const OtherSalinityMessage := "Salinity_ppt entered is negative. Value must be at least 0. If no value to provide, enter -88."

  /** The pH test as written: no exemption for -88, although the message
      asks for -88 when there is no value. */
  const PhTestAsWritten := Outside(1.0, 14.0)
  /** The pH test the message describes. */
  const PhTest := AboveOrBelowUnlessMissing(1.0, 14.0)

  /** The seventeen error checks, in the order the module runs them, with
      the "other" table's pH test and conductivity label as written. */
  const ErrorRulesAsWritten: seq<Rule> := [
    Rule(Mdot, Mdot, H2oTemp, AboveOrBelowUnlessMissing(0.0, 100.0), OutOfRange, MdotTempMessage),
    Rule(Mdot, Mdot, DoPercent, BelowUnlessMissing(0.0), OutOfRange, MdotDoPercentMessage),
    Rule(Mdot, Mdot, DoMgl, AboveOrBelowUnlessMissing(0.0, 60.0), OutOfRange, MdotDoMglMessage),
    Rule(Mdot, Mdot, Qvalue, AboveOrBelowUnlessMissing(0.0, 1.1), OutOfRange, MdotQvalueMessage),
    Rule(Ctd, Ctd, Conductivity, AboveOrBelowUnlessMissing(0.0, 10.0), OutOfRange, ConductivityMessage),
    Rule(Ctd, Ctd, H2oTemp, AboveOrBelowUnlessMissing(0.0, 100.0), OutOfRange, TempMessage),
    Rule(Ctd, Ctd, Salinity, BelowUnlessMissing(0.0), NegativeValue, CtdSalinityMessage),
    Rule(Troll, Troll, H2oTemp, AboveOrBelowUnlessMissing(0.0, 100.0), OutOfRange, TempMessage),
    Rule(Tidbit, Tidbit, H2oTemp, AboveOrBelowUnlessMissing(0.0, 100.0), OutOfRange, TempMessage),
    Rule(Other, Other, H2oTemp, AboveOrBelowUnlessMissing(0.0, 100.0), OutOfRange, OtherTempMessage),
    Rule(Other, Other, Ph, PhTestAsWritten, OutOfRange, OtherPhMessage),
    Rule(Other, Ctd, Conductivity, AboveOrBelowUnlessMissing(0.0, 10.0), OutOfRange, ConductivityMessage),
    Rule(Other, Other, Turbidity, AboveOrBelowUnlessMissing(0.0, 3000.0), OutOfRange, OtherTurbidityMessage),
    Rule(Other, Other, DoMgl, AboveOrBelowUnlessMissing(0.0, 60.0), OutOfRange, OtherDoMglMessage),
    Rule(Other, Other, DoPercent, BelowUnlessMissing(0.0), OutOfRange, OtherDoPercentMessage),
    Rule(Other, Other, Orp, Outside(-999.0, 999.0), OutOfRange, OtherOrpMessage),
    Rule(Other, Other, Salinity, BelowUnlessMissing(0.0), OutOfRange, OtherSalinityMessage)
  ]

  /** Where the as-written list departs from what its messages describe. */
  const PhRule := 10
  const OtherConductivityRule := 11

  /** The error checks with the pH test exempting -88 and the "other"
      table's conductivity finding carrying the "other" table's name. */
  const ErrorRules: seq<Rule> :=
    ErrorRulesAsWritten[PhRule := ErrorRulesAsWritten[PhRule].(test := PhTest)]
                       [OtherConductivityRule := ErrorRulesAsWritten[OtherConductivityRule].(filedAs := Other)]

  /** The two warnings: a saturation above 110% is accepted but noted. */
  const WarningRules: seq<Rule> := [
    Rule(Mdot, Mdot, DoPercent, Above(110.0), OutOfRange, MdotDoPercentWarning),
    Rule(Other, Other, DoPercent, Above(110.0), OutOfRange, OtherDoPercentWarning)
  ]

  predicate RowFails(rule: Rule, r: LoggerRow) {
    Fails(rule.test, Read(r, rule.measure))
  }

  function RowIndex(r: LoggerRow): int {
    r.row
  }

  /** `checkData(**args)` for one rule: `{}` when no row of its table fails
      the test, otherwise a finding listing exactly the failing rows. */
  function Apply(rule: Rule, u: Upload): (e: Option<Finding>)
    ensures e.None? <==> forall i :: 0 <= i < |Rows(u, rule.source)| ==> !RowFails(rule, Rows(u, rule.source)[i])
    ensures e.Some? ==> forall x :: x in e.value.rows <==> exists i :: 0 <= i < |Rows(u, rule.source)| && RowFails(rule, Rows(u, rule.source)[i]) && Rows(u, rule.source)[i].row == x
    ensures e.Some? ==> e.value.table == TableName(rule.filedAs) && e.value.columns == ColumnName(rule.measure)
    ensures e.Some? ==> e.value.errorType == rule.errorType && e.value.message == rule.message && !e.value.isCoreError
  {
    var rows := Rows(u, rule.source);
    var ids := Select(rows, r => RowFails(rule, r), RowIndex);
    CheckData(CheckArgs(TableName(rule.filedAs), ids, ColumnName(rule.measure), rule.errorType, false, rule.message), None).0
  }

  predicate AllEmpty(u: Upload) {
    |u.mdot| == 0 && |u.ctd| == 0 && |u.troll| == 0 && |u.tidbit| == 0 && |u.other| == 0
  }

  const MissingData := "Missing required data"
  const MissingDataMessage := "Data must be provided for one of tbl_logger_mdot_data, tbl_logger_ctd_data, tbl_logger_troll_data, tbl_logger_tidbit_data, tbl_logger_other_data"

  /** The record for an upload without data. The loop over the five tables
      returns inside its first iteration, so only the minidot table is named,
      with a one-row frame of blanks standing in for it. */
  function MissingDataFinding(columns: seq<string>): (e: Option<Finding>)
    ensures e.Some? && e.value.table == TableName(Mdot) && e.value.rows == [0]
    ensures e.value.columns == ColumnList(columns) && e.value.errorType == MissingData
  {
    CheckData(CheckArgs(TableName(Mdot), [0], ColumnList(columns), MissingData, false, MissingDataMessage), None).0
  }

  /** `",".join(df.columns)`, which is "" for a frame without columns. */
  function ColumnList(columns: seq<string>): string {
    if |columns| == 0 then "" else Join(columns, ',')
  }

  function ApplyAll(rules: seq<Rule>, u: Upload): (es: seq<Option<Finding>>)
    ensures |es| == |rules|
    ensures forall k :: 0 <= k < |rules| ==> es[k] == Apply(rules[k], u)
  {
    seq(|rules|, k requires 0 <= k < |rules| => Apply(rules[k], u))
  }

  /** The module with a given list of error checks. */
  function Run(rules: seq<Rule>, u: Upload): (rep: Report)
    ensures AllEmpty(u) ==> rep.errors == [MissingDataFinding(u.mdotColumns)] && rep.warnings == []
    ensures !AllEmpty(u) ==> |rep.errors| == |rules| && |rep.warnings| == |WarningRules|
  {
    if AllEmpty(u) then Report([MissingDataFinding(u.mdotColumns)], [])
    else Report(ApplyAll(rules, u), ApplyAll(WarningRules, u))
  }

  /** `logger(all_dfs)` as written. */
  function LoggerAsWritten(u: Upload): (rep: Report)
    ensures AllEmpty(u) <==> |rep.errors| == 1
    ensures AllEmpty(u) ==> rep.warnings == []
  {
    Run(ErrorRulesAsWritten, u)
  }

  /** `logger(all_dfs)` with the pH exemption and the table name corrected. */
  function LoggerCorrected(u: Upload): (rep: Report)
    ensures AllEmpty(u) <==> |rep.errors| == 1
    ensures AllEmpty(u) ==> rep.warnings == []
  {
    Run(ErrorRules, u)
  }

  /** An upload with no data gets exactly one error, for the minidot table
      and its first row, naming every column of that table; an upload with
      data in any table gets all seventeen error records and both warnings. */
  lemma {:induction false} RequiredDataRule(u: Upload)
    ensures AllEmpty(u) ==> LoggerCorrected(u).errors == [MissingDataFinding(u.mdotColumns)]
    ensures AllEmpty(u) ==> LoggerCorrected(u).errors[0].value.table == "tbl_logger_mdot_data"
    ensures !AllEmpty(u) ==> |LoggerCorrected(u).errors| == 17 && |LoggerCorrected(u).warnings| == 2
  {
  }

  /** A row is reported by a check exactly when its value fails the test
      of that check. */
  lemma {:induction false} ReportedIffFails(u: Upload, k: int, x: int)
    requires !AllEmpty(u) && 0 <= k < |ErrorRules|
    ensures (LoggerCorrected(u).errors[k].Some? && x in LoggerCorrected(u).errors[k].value.rows)
      <==> exists i :: 0 <= i < |Rows(u, ErrorRules[k].source)| && RowFails(ErrorRules[k], Rows(u, ErrorRules[k].source)[i]) && Rows(u, ErrorRules[k].source)[i].row == x
  {
  }

  /** The meaning of the most common test: with -88 below the range, a value
      fails exactly when it is present, is not -88 and lies outside the
      closed range; a blank never fails. */
  lemma {:induction false} RangeTestMeaning(x: Reading, lo: real, hi: real)
    requires Missing < lo <= hi
    ensures Fails(AboveOrBelowUnlessMissing(lo, hi), x) <==> x.Value? && x.v != Missing && !(lo <= x.v <= hi)
    ensures !Fails(AboveOrBelowUnlessMissing(lo, hi), Blank)
  {
    if x.Value? {
      OutsideExceptMissingMeaning(x.v, lo, hi);
    }
  }

  /** The one-sided tests: below zero unless -88, and above the bound. */
  lemma {:induction false} OneSidedTestMeaning(x: Reading, lo: real, hi: real)
    requires Missing < lo
    ensures Fails(BelowUnlessMissing(lo), x) <==> x.Value? && x.v != Missing && x.v < lo
    ensures Fails(Above(hi), x) <==> x.Value? && x.v > hi
  {
  }

  lemma {:induction false} RuleSentinel(k: int)
    requires 0 <= k < |ErrorRules|
    ensures !Fails(ErrorRules[k].test, Value(Missing))
  {
    var t := ErrorRules[k].test;
    if k == PhRule {
      assert t == PhTest;
    } else if k < PhRule {
      assert t == ErrorRulesAsWritten[k].test;
    } else {
      assert t == ErrorRulesAsWritten[k].test;
    }
  }

  /** Corrected, -88 passes every error check and every warning, so a row
      of sentinels is never reported. */
  lemma {:induction false} SentinelAccepted()
    ensures forall k :: 0 <= k < |ErrorRules| ==> !Fails(ErrorRules[k].test, Value(Missing))
    ensures forall k :: 0 <= k < |WarningRules| ==> !Fails(WarningRules[k].test, Value(Missing))
  {
    forall k | 0 <= k < |ErrorRules| ensures !Fails(ErrorRules[k].test, Value(Missing)) {
      RuleSentinel(k);
    }
  }

  /** Corrected, every finding names the table whose rows it lists. */
  lemma {:induction false} LabelsMatchSources()
    ensures forall k :: 0 <= k < |ErrorRules| ==> ErrorRules[k].filedAs == ErrorRules[k].source
    ensures forall k :: 0 <= k < |WarningRules| ==> WarningRules[k].filedAs == WarningRules[k].source
  {
  }

  /** As written, -88 fails the pH check, and the "other" table's
      conductivity finding is filed under the CTD table while listing the
      "other" table's rows; these are the only differences from the
      corrected checks. */
  lemma {:induction false} AsWrittenDiffers()
    ensures Fails(ErrorRulesAsWritten[PhRule].test, Value(Missing))
    ensures ErrorRulesAsWritten[PhRule].measure == Ph
    ensures ErrorRulesAsWritten[OtherConductivityRule].source == Other
    ensures ErrorRulesAsWritten[OtherConductivityRule].filedAs == Ctd
    ensures |ErrorRulesAsWritten| == |ErrorRules|
    ensures forall k :: 0 <= k < |ErrorRules| && k != PhRule && k != OtherConductivityRule ==> ErrorRules[k] == ErrorRulesAsWritten[k]
  {
  }

  /** A row of the "other" table reporting pH as -88, with every other
      column blank. */
  const SentinelPhRow := LoggerRow(4, Blank, Blank, Blank, Blank, Blank, Blank, Value(Missing), Blank, Blank)

  /** As written, that row is reported as an out-of-range pH; corrected,
      it is not. */
  lemma {:induction false} SentinelPhReported()
    ensures LoggerAsWritten(Upload([], [], [], [], [], [SentinelPhRow])).errors[PhRule] ==
      Some(Finding("tbl_logger_other_data", [4], "ph", OutOfRange, false, OtherPhMessage))
    ensures LoggerCorrected(Upload([], [], [], [], [], [SentinelPhRow])).errors[PhRule] == None
  {
    var u := Upload([], [], [], [], [], [SentinelPhRow]);
    assert Select(u.other, r => RowFails(ErrorRulesAsWritten[PhRule], r), RowIndex) == [4];
  }

  /** A minidot row whose saturation exceeds 110% and is otherwise valid
      produces no error, only the minidot warning. */
  lemma {:induction false} HighSaturationOnlyWarned(r: LoggerRow)
    requires r.doPercent.Value? && r.doPercent.v > 110.0
    requires !Fails(AboveOrBelowUnlessMissing(0.0, 100.0), r.h2otemp)
    requires !Fails(AboveOrBelowUnlessMissing(0.0, 60.0), r.doMgl)
    requires !Fails(AboveOrBelowUnlessMissing(0.0, 1.1), r.qvalue)
    ensures forall k :: 0 <= k < 4 ==> LoggerCorrected(Upload([], [r], [], [], [], [])).errors[k].None?
    ensures LoggerCorrected(Upload([], [r], [], [], [], [])).warnings[0].Some?
    ensures r.row in LoggerCorrected(Upload([], [r], [], [], [], [])).warnings[0].value.rows
  {
    var u := Upload([], [r], [], [], [], []);
    assert RowFails(WarningRules[0], u.mdot[0]);
    forall k | 0 <= k < 4 ensures Apply(ErrorRules[k], u).None? {
      assert ErrorRules[k] == ErrorRulesAsWritten[k];
    }
  }
}

=== FILE: numeric.dfy ===
/** Numeric building blocks shared by the rule modules.

    Measurements are exact `real`s. The only place where float64 behaviour
    changes a verdict is division by zero inside pandas/numpy expressions,
    which yields an infinity or NaN instead of raising; `Float` models
    exactly that, and comparisons against NaN are false as in IEEE 754.
 */
module Numeric {

  /** The value the submission templates use for "no value / not applicable". */
  const Missing: real := -88.0

  /** A numpy quotient: finite, an infinity, or NaN. */
  datatype Float = Finite(v: real) | PosInf | NegInf | NaN

  /** `a / b` on float64 columns (no exception on a zero divisor). */
  function Divide(a: real, b: real): Float {
    if b != 0.0 then Finite(a / b)
    else if a > 0.0 then PosInf
    else if a < 0.0 then NegInf
    else NaN
  }

  function AbsReal(x: real): real {
    if x < 0.0 then -x else x
  }

  function Abs(q: Float): Float {
    match q
    case Finite(v) => Finite(AbsReal(v))
    case PosInf => PosInf
    case NegInf => PosInf
    case NaN => NaN
  }

  /** `q * k` for a positive constant `k`. */
  function Scale(q: Float, k: real): Float
    requires k > 0.0
  {
    match q
    case Finite(v) => Finite(v * k)
    case _ => q
  }

  /** The comparisons of a quotient with a finite threshold; NaN compares false. */
  predicate Ge(q: Float, t: real) {
    match q
    case Finite(v) => v >= t
    case PosInf => true
    case NegInf => false
    case NaN => false
  }

  predicate Gt(q: Float, t: real) {
    match q
    case Finite(v) => v > t
    case PosInf => true
    case NegInf => false
    case NaN => false
  }

  predicate Le(q: Float, t: real) {
    match q
    case Finite(v) => v <= t
    case PosInf => false
    case NegInf => true
    case NaN => false
  }

  /** The largest value of a non-empty column (`Series.max()`). */
  function Max(xs: seq<real>): (m: real)
    requires |xs| >= 1
    ensures m in xs
    ensures forall k :: 0 <= k < |xs| ==> xs[k] <= m
  {
    if |xs| == 1 then xs[0]
    else
      var rest := Max(xs[1..]);
      assert rest in xs;
      if xs[0] >= rest then xs[0] else rest
  }

  /** The smallest value of a non-empty column (`Series.min()`). */
  function Min(xs: seq<real>): (m: real)
    requires |xs| >= 1
    ensures m in xs
    ensures forall k :: 0 <= k < |xs| ==> m <= xs[k]
  {
    if |xs| == 1 then xs[0]
    else
      var rest := Min(xs[1..]);
      assert rest in xs;
      if xs[0] <= rest then xs[0] else rest
  }

  /** Relative percent difference of a group of replicate values, as a
      fraction: `abs((max - min) / ((max + min) / 2))`. */
  function Rpd(xs: seq<real>): Float
    requires |xs| >= 1
  {
    Abs(Divide(Max(xs) - Min(xs), (Max(xs) + Min(xs)) / 2.0))
  }

  /** Replicates that agree exactly have an RPD of zero, except a group of
      zeros, whose 0/0 quotient is NaN and so passes and fails nothing. */
  lemma {:induction false} RpdOfAgreeingReplicates(xs: seq<real>, x: real)
    requires |xs| >= 1
    requires forall k :: 0 <= k < |xs| ==> xs[k] == x
    ensures x != 0.0 ==> Rpd(xs) == Finite(0.0)
    ensures x == 0.0 ==> Rpd(xs) == NaN
  {
    assert Max(xs) == x && Min(xs) == x;
  }

  /** For positive replicates the RPD is a finite fraction in [0, 2). */
  lemma {:induction false} RpdOfPositiveReplicates(xs: seq<real>)
    requires |xs| >= 1
    requires forall k :: 0 <= k < |xs| ==> xs[k] > 0.0
    ensures Rpd(xs).Finite? && 0.0 <= Rpd(xs).v < 2.0
  {
    var hi, lo := Max(xs), Min(xs);
    assert lo in xs && lo > 0.0;
    assert lo <= hi;
    var d := hi - lo;
    var m := (hi + lo) / 2.0;
    assert m > 0.0;
    assert d < 2.0 * m;
    QuotientBelow(d, m, 2.0);
    assert d / m >= 0.0;
  }

  // Real-division steps, kept apart from the callers because inside their
  // larger contexts the solver does not find them within its budget.

  lemma {:induction false} QuotientBelow(d: real, m: real, k: real)
    requires m > 0.0 && d < k * m
    ensures d / m < k
  {
    assert k - d / m == (k * m - d) / m;
  }

  lemma {:induction false} QuotientMonotone(a: real, b: real, n: real)
    requires n > 0.0 && a <= b
    ensures a / n <= b / n
  {
    assert b / n - a / n == (b - a) / n;
  }

  lemma {:induction false} WholeFraction(n: nat)
    requires n >= 1
    ensures (n as real) / (n as real) == 1.0
  {
  }

  /** Two replicate pairs differing only in order have the same RPD. */
  lemma {:induction false} RpdOrderInsensitive(a: real, b: real)
    ensures Rpd([a, b]) == Rpd([b, a])
  {
    assert Max([a, b]) == Max([b, a]);
    assert Min([a, b]) == Min([b, a]);
  }

  /** `sum(bools)`: how many entries are true. */
  function CountTrue(bs: seq<bool>): (n: nat)
    ensures n <= |bs|
    ensures n == |bs| <==> forall k :: 0 <= k < |bs| ==> bs[k]
    ensures n == 0 <==> forall k :: 0 <= k < |bs| ==> !bs[k]
  {
    if |bs| == 0 then 0
    else
      var rest := CountTrue(bs[1..]);
      assert forall k :: 1 <= k < |bs| ==> bs[k] == bs[1..][k - 1];
      (if bs[0] then 1 else 0) + rest
  }

  /** `sum(bools) / len(bools) >= t` for a non-empty group. */
  predicate FractionAtLeast(bs: seq<bool>, t: real)
    requires |bs| >= 1
  {
    (CountTrue(bs) as real) / (|bs| as real) >= t
  }

  /** Turning entries from false to true never lowers the count. */
  lemma {:induction false} CountTrueMonotone(bs: seq<bool>, cs: seq<bool>)
    requires |bs| == |cs|
    requires forall k :: 0 <= k < |bs| ==> bs[k] ==> cs[k]
    ensures CountTrue(bs) <= CountTrue(cs)
  {
    if |bs| > 0 {
      CountTrueMonotone(bs[1..], cs[1..]);
    }
  }

  /** A pass-fraction test is monotone: improving any member of a passing
      group keeps it passing. */
  lemma {:induction false} FractionAtLeastMonotone(bs: seq<bool>, cs: seq<bool>, t: real)
    requires |bs| == |cs| >= 1
    requires forall k :: 0 <= k < |bs| ==> bs[k] ==> cs[k]
    requires FractionAtLeast(bs, t)
    ensures FractionAtLeast(cs, t)
  {
    CountTrueMonotone(bs, cs);
    QuotientMonotone(CountTrue(bs) as real, CountTrue(cs) as real, |bs| as real);
  }

  /** A group whose members all pass meets every threshold up to 1. */
  lemma {:induction false} FractionOfAllPassing(cs: seq<bool>, t: real)
    requires |cs| >= 1 && t <= 1.0
    requires forall k :: 0 <= k < |cs| ==> cs[k]
    ensures FractionAtLeast(cs, t)
  {
    assert CountTrue(cs) == |cs|;
    WholeFraction(|cs|);
  }

  /** `x` lies in the closed interval between `a` and `b`, in either order. */
  predicate Between(x: real, a: real, b: real) {
    (a <= x <= b) || (b <= x <= a)
  }

  /** Closed-interval overlap as the fish and invertebrate depth checks write
      it: not (max(s, e) < lo or min(s, e) > hi). */
  predicate Overlaps(s: real, e: real, lo: real, hi: real) {
    !((if s >= e then s else e) < lo || (if s <= e then s else e) > hi)
  }

  /** For a well-formed range the test is exactly "some depth of the tow lies
      inside the species' depth range", whichever end of the tow is first. */
  lemma {:induction false} OverlapsMeansSharedDepth(s: real, e: real, lo: real, hi: real)
    requires lo <= hi
    ensures Overlaps(s, e, lo, hi) <==>
      exists x :: Between(x, s, e) && Between(x, lo, hi)
    ensures Overlaps(s, e, lo, hi) == Overlaps(e, s, lo, hi)
  {
    var a := if s <= e then s else e;
    var b := if s >= e then s else e;
    if Overlaps(s, e, lo, hi) {
      var x := if a >= lo then a else lo;
      assert Between(x, s, e) && Between(x, lo, hi);
    }
  }

  /** `x > hi or (x != -88 and x < lo)`: the logger's range test, where the
      sentinel is exempt only from the lower bound. */
  predicate OutsideExceptMissing(x: real, lo: real, hi: real) {
    x > hi || (x != Missing && x < lo)
  }

  /** With the sentinel below the range, the test is "outside [lo, hi] and
      not the sentinel", so a reported -88 is never flagged. */
  lemma {:induction false} OutsideExceptMissingMeaning(x: real, lo: real, hi: real)
    requires Missing < lo <= hi
    ensures OutsideExceptMissing(x, lo, hi) <==> x != Missing && (x < lo || x > hi)
    ensures !OutsideExceptMissing(Missing, lo, hi)
  {
  }

  // ---------------------------------------------------------------------
  // sorted(xs, reverse=True)
  // ---------------------------------------------------------------------

  /** How many of the values lie strictly above `t`. */
  function CountAbove(xs: seq<real>, t: real): (n: nat)
    ensures n <= |xs|
  {
    if |xs| == 0 then 0 else (if xs[0] > t then 1 else 0) + CountAbove(xs[1..], t)
  }

  predicate SortedDesc(xs: seq<real>) {
    forall a, b :: 0 <= a < b < |xs| ==> xs[a] >= xs[b]
  }

  lemma {:induction false} CountAboveCons(a: real, s: seq<real>)
    ensures forall t :: CountAbove([a] + s, t) == (if a > t then 1 else 0) + CountAbove(s, t)
  {
    assert ([a] + s)[1..] == s;
  }

  /** One step of the sort: `x` placed before the first value below it. */
  function InsertDesc(x: real, s: seq<real>): (r: seq<real>)
    requires SortedDesc(s)
    ensures |r| == |s| + 1 && (r[0] == x || (|s| > 0 && r[0] == s[0]))
    ensures SortedDesc(r)
    ensures multiset(r) == multiset(s) + multiset{x}
  {
    if |s| == 0 || x >= s[0] then
      [x] + s
    else
      var rest := InsertDesc(x, s[1..]);
      assert s == [s[0]] + s[1..];
      [s[0]] + rest
  }

  /** Inserting a value adds one to the count above every bar it exceeds. */
  lemma {:induction false} InsertDescCount(x: real, s: seq<real>)
    requires SortedDesc(s)
    ensures forall t :: CountAbove(InsertDesc(x, s), t) == CountAbove(s, t) + (if x > t then 1 else 0)
  {
    if |s| == 0 || x >= s[0] {
      CountAboveCons(x, s);
    } else {
      var rest := InsertDesc(x, s[1..]);
      InsertDescCount(x, s[1..]);
      CountAboveCons(s[0], rest);
      CountAboveCons(s[0], s[1..]);
      assert s == [s[0]] + s[1..];
    }
  }

  /** `sorted(xs, reverse=True)`: the same values, largest first. */
  function SortDesc(xs: seq<real>): (s: seq<real>)
    ensures SortedDesc(s)
    ensures multiset(s) == multiset(xs) && |s| == |xs|
    ensures forall t :: CountAbove(s, t) == CountAbove(xs, t)
  {
    if |xs| == 0 then []
    else
      assert xs == [xs[0]] + xs[1..];
      InsertDescCount(xs[0], SortDesc(xs[1..]));
      CountAboveCons(xs[0], xs[1..]);
      InsertDesc(xs[0], SortDesc(xs[1..]))
  }

  lemma {:induction false} NoneAbove(xs: seq<real>, t: real)
    requires forall k :: 0 <= k < |xs| ==> xs[k] <= t
    ensures CountAbove(xs, t) == 0
  {
    if |xs| > 0 {
      assert forall k :: 0 <= k < |xs[1..]| ==> xs[1..][k] == xs[k + 1];
      NoneAbove(xs[1..], t);
    }
  }

  /** In a descending list, only the first two values can lie above the
      third. */
  lemma {:induction false} FewAboveThird(s: seq<real>)
    requires SortedDesc(s) && |s| >= 3
    ensures CountAbove(s, s[2]) <= 2
  {
    var rest := s[3..];
    assert forall k :: 0 <= k < |rest| ==> rest[k] == s[k + 3];
    NoneAbove(rest, s[2]);
    assert s == [s[0]] + ([s[1]] + ([s[2]] + rest));
    CountAboveCons(s[2], rest);
    CountAboveCons(s[1], [s[2]] + rest);
    CountAboveCons(s[0], [s[1]] + ([s[2]] + rest));
  }

  /** Whatever the values, at most two of them exceed the third largest. */
  lemma {:induction false} AtMostTwoAboveThird(xs: seq<real>)
    requires |xs| >= 3
    ensures CountAbove(xs, SortDesc(xs)[2]) <= 2
  {
    FewAboveThird(SortDesc(xs));
  }

  /** A higher bar has no more values above it. */
  lemma {:induction false} CountAboveMonotone(xs: seq<real>, a: real, b: real)
    requires a <= b
    ensures CountAbove(xs, b) <= CountAbove(xs, a)
  {
    if |xs| > 0 {
      CountAboveMonotone(xs[1..], a, b);
    }
  }
}

=== FILE: ocean_acidification.dfy ===
/** The ocean-acidification checks (proj/custom/ocean_acidification_custom.py):
    a CTD cast table and a bottle-sample table, checked in four gated stages.

    1. Times are stripped and must be whole `H:MM:SS` / `HH:MM:SS` strings
       with an hour of at most 23.
    2. Each table holds one agency and one season.
    3. Every bottle row's six key values occur in the CTD table (column-wise).
    4. Depth and time agreement between bottle and CTD, the order of field
       replicates, and range checks on five CTD measurements.

    A stage runs only while the error list, emptied of `{}` records, is
    still empty. The fourth stage appends its records without that clean-up,
    so its `{}` records stay in the result.
 */
module OceanAcidification {
  import opened Wrappers
  import opened Text
  import opened Frames
  import opened Functions
  import opened Grouping
  import opened TimeFormat

  /** A row of `tbl_oactd`. */
  datatype CtdRow = CtdRow(
    row: int,
    season: string,
    agency: string,
    sampleDate: int,       // days since an epoch
    station: string,
    fieldRep: int,
    labRep: int,
    sampleTime: Cell,
    depth: real,
    temperature: real,
    salinity: real,
    density: real,
    ph: real)

  /** A row of `tbl_oabottle`. */
  datatype BottleRow = BottleRow(
    row: int,
    season: string,
    agency: string,
    sampleDate: int,
    station: string,
    fieldRep: int,
    labRep: int,
    sampleTime: Cell,
    depth: real)

  const CtdTable := "tbl_oactd"
  const BottleTable := "tbl_oabottle"
  const FormattingError := "Formatting Error"
  const UndefinedError := "Undefined Error"
  const LogicError := "Logic Error"
  const TimeMessage := "The sampletime here doesnt match the 24 hour clock format HH:MM:SS"
  const AgencyMessage := "There may be only one Agency per submission."
  const SeasonMessage := "There may be only one Season per submission."
  const LogicColumns := "season,agency,sampledate,station,fieldrep,labrep"
  const LogicMessage := "Each Bottle record must have a corresponding CTD record. Records are matched on Season, Agency, SampleDate, Station, FieldRep and LabRep."
  const DepthMessage := "Each record in bottle must have a matching record in ctd such that the difference in depth is not more than one foot."
  const TimeAgreementMessage := "CTD SampleTime and Bottle SampleTime are outside allowable time difference."
  const ReplicateMessage := "For a given station, replicate 2 records should only occur after replicate 1 records."

  /** Four hours, the allowed lead of a CTD cast over its bottle sample. */
  const MaxLag := 4 * 3600

  // ---------------------------------------------------------------------
  // Cleaning: both time columns are replaced by their stripped strings

  /** `str(x).strip()`. */
  function Cleaned(c: Cell): string {
    Strip(Render(c))
  }

  function CtdTime(c: CtdRow): Cell { c.sampleTime }
  function BottleTime(b: BottleRow): Cell { b.sampleTime }
  function CtdWithTime(c: CtdRow, t: Cell): CtdRow { c.(sampleTime := t) }
  function BottleWithTime(b: BottleRow, t: Cell): BottleRow { b.(sampleTime := t) }

  /** `df.sampletime = df.sampletime.apply(lambda x: str(x).strip())` on a
      table whose time cell `time` reads and `withTime` replaces: each row
      gets the stripped `str()` of its cell in its place. */
  function CleanTimes<R>(rows: seq<R>, time: R -> Cell, withTime: (R, Cell) -> R): (out: seq<R>)
    ensures |out| == |rows|
    ensures forall i :: 0 <= i < |rows| ==> out[i] == withTime(rows[i], Str(Cleaned(time(rows[i]))))
  {
    seq(|rows|, i requires 0 <= i < |rows| => withTime(rows[i], Str(Cleaned(time(rows[i])))))
  }

  /** Cleaning a CTD row changes its sample time and nothing else. */
  lemma {:induction false} CleanCtdRow(ctd: seq<CtdRow>, i: int)
    requires 0 <= i < |ctd|
    ensures CleanTimes(ctd, CtdTime, CtdWithTime)[i] == ctd[i].(sampleTime := Str(Cleaned(ctd[i].sampleTime)))
  {
  }

  /** A clock reading has no whitespace at either end, so stripping keeps it. */
  lemma {:induction false} CleanedClock(h: int, m: int, sec: int)
    requires 0 <= h <= 99 && 0 <= m <= 59 && 0 <= sec <= 59
    ensures Cleaned(Str(Clock(h, m, sec))) == Clock(h, m, sec)
  {
    var c := Clock(h, m, sec);
    ClockRoundTrip(h, m, sec, "");
    assert c + "" == c;
    assert IsDigit(c[0]) && IsDigit(c[7]);
    StripIdentity(c);
  }

  /** Leading and trailing blanks around a string are stripped. */
  lemma {:induction false} StripAround(c: string)
    requires |c| > 0 && !IsSpace(c[0]) && !IsSpace(c[|c| - 1])
    ensures Strip(" " + c + "\t") == c
  {
    var s := " " + c + "\t";
    assert s[1..] == c + "\t";
    assert TrimStart(s) == TrimStart(c + "\t");
    assert TrimStart(c + "\t") == c + "\t";
    assert (c + "\t")[..|c|] == c;
    assert TrimEnd(c + "\t") == TrimEnd(c);
  }

  // ---------------------------------------------------------------------
  // Stage 1: time format

  predicate BadFormat(c: TimeCell) {
    !AnchoredTime(Render(c.value))
  }

  /** The time cell of each row, with the row's id. */
  function CtdCell(c: CtdRow): TimeCell { TimeCell(c.row, c.sampleTime) }
  function BottleCell(b: BottleRow): TimeCell { TimeCell(b.row, b.sampleTime) }

  /** The format check on a cleaned column: rows whose time is not a whole
      time string. The `isnull` guard tests the string `str()` already
      produced, so it never holds. */
  function FormatRows(cells: seq<TimeCell>): (ids: seq<int>)
    ensures forall x :: x in ids <==> exists i :: 0 <= i < |cells| && cells[i].row == x && !AnchoredTime(Render(cells[i].value))
    ensures ids == [] <==> forall i :: 0 <= i < |cells| ==> AnchoredTime(Render(cells[i].value))
  {
    Select(cells, BadFormat, RowOf)
  }

  /** After cleaning, a clock reading passes however much whitespace
      surrounds it. */
  lemma {:induction false} PaddedClockPasses(h: int, m: int, sec: int)
    requires 0 <= h <= 99 && 0 <= m <= 59 && 0 <= sec <= 59
    ensures AnchoredTime(Cleaned(Str(" " + Clock(h, m, sec) + "\t")))
  {
    var c := Clock(h, m, sec);
    ClockRoundTrip(h, m, sec, "");
    assert c + "" == c;
    assert IsDigit(c[0]) && IsDigit(c[7]);
    StripAround(c);
  }

  /** A missing cell, whose `str()` is "nan", is reported: the format test
      runs on the string, so the `isnull` guard never holds. */
  lemma {:induction false} MissingCellReported()
    ensures !AnchoredTime(Cleaned(Null))
  {
    assert Render(Null) == "nan";
    StripIdentity("nan");
    AnchoredLength(Cleaned(Null));
  }

  /** A reading followed by anything but a final newline is reported. */
  lemma {:induction false} SuffixedClockReported(h: int, m: int, sec: int)
    requires 0 <= h <= 99 && 0 <= m <= 59 && 0 <= sec <= 59
    ensures !AnchoredTime(Cleaned(Str(Clock(h, m, sec) + " PM")))
  {
    var s := Clock(h, m, sec) + " PM";
    ClockRoundTrip(h, m, sec, " PM");
    assert IsDigit(s[0]) && s[10] == 'M';
    StripIdentity(s);
    assert |s| == 11;
    AnchoredLength(s);
  }

  /** A row of the submitted table is reported by the format check exactly
      when its stripped `str()` is not a whole time string. */
  lemma {:induction false} FormatOnSubmittedRows(ctd: seq<CtdRow>, i: int)
    requires 0 <= i < |ctd|
    ensures !AnchoredTime(Cleaned(ctd[i].sampleTime)) ==> ctd[i].row in FormatRows(Column(CleanTimes(ctd, CtdTime, CtdWithTime), CtdCell))
    ensures FormatRows(Column(CleanTimes(ctd, CtdTime, CtdWithTime), CtdCell)) == [] ==> AnchoredTime(Cleaned(ctd[i].sampleTime))
  {
    var cells := Column(CleanTimes(ctd, CtdTime, CtdWithTime), CtdCell);
    assert Render(cells[i].value) == Cleaned(ctd[i].sampleTime);
  }

  // ---------------------------------------------------------------------
  // Stage 1: the hour

  /** The hour test as written: `re.match(pattern, x).groups()[0]`. The
      pattern has no capture group, so a matching time raises IndexError on
      the empty tuple, and a non-matching one raises AttributeError on the
      `None` that `re.match` returns. `apply` stops at the first row. */
  function HourCheckAsWritten(cells: seq<TimeCell>): (r: Result<seq<int>>)
    ensures r.Ok? <==> |cells| == 0
    ensures r.Ok? ==> r.value == []
    ensures |cells| > 0 && AnchoredTime(Render(cells[0].value)) ==> r == Raise(IndexError)
  {
    if |cells| == 0 then Ok([])
    else if AnchoredTime(Render(cells[0].value)) then Raise(IndexError)
    else Raise(AttributeError(NoGroups))
  }

  const NoGroups := "'NoneType' object has no attribute 'groups'"

  /** A table holding one valid clock reading passes the format test and
      then stops the module at the hour test. */
  lemma {:induction false} HourCheckAlwaysRaises(h: int, m: int, sec: int)
    requires 0 <= h <= 23 && 0 <= m <= 59 && 0 <= sec <= 59
    ensures FormatRows([TimeCell(0, Str(Clock(h, m, sec)))]) == []
    ensures HourCheckAsWritten([TimeCell(0, Str(Clock(h, m, sec)))]) == Raise(IndexError)
  {
    ClockRoundTrip(h, m, sec, "");
  }

  /** The hour of an accepted time string. */
  function Hour(t: string): (h: int)
    requires AnchoredTime(t)
    ensures 0 <= h <= 99
  {
    AnchoredIsPrefix(t);
    Fields(t).0
  }

  predicate HourTooLarge(c: TimeCell) {
    AnchoredTime(Render(c.value)) && Hour(Render(c.value)) > 23
  }

  /** The intended hour test: accepted times whose hour exceeds 23 (times
      the format test rejects are reported there already). */
  function HourRows(cells: seq<TimeCell>): (ids: seq<int>)
    ensures forall x :: x in ids <==> exists i :: 0 <= i < |cells| && cells[i].row == x && HourTooLarge(cells[i])
    ensures ids == [] <==> forall i :: 0 <= i < |cells| ==> !HourTooLarge(cells[i])
  {
    Select(cells, HourTooLarge, RowOf)
  }

  /** A clock reading is rejected by the hour test exactly when its hour
      exceeds 23. */
  lemma {:induction false} ClockHourFlagged(h: int, m: int, sec: int)
    requires 0 <= h <= 99 && 0 <= m <= 59 && 0 <= sec <= 59
    ensures HourRows([TimeCell(0, Str(Clock(h, m, sec)))]) == (if h > 23 then [0] else [])
  {
    ClockRoundTrip(h, m, sec, "");
    assert Clock(h, m, sec) + "" == Clock(h, m, sec);
    assert Hour(Clock(h, m, sec)) == h;
  }

  /** A cell the first stage lets through. */
  predicate GoodCell(c: TimeCell) {
    !BadFormat(c) && !HourTooLarge(c)
  }

  predicate AllGood(cells: seq<TimeCell>) {
    forall i :: 0 <= i < |cells| ==> GoodCell(cells[i])
  }

  /** Both tests pass a column exactly when every cell is a clock reading
      whose hour is at most 23. */
  lemma {:induction false} TimeChecksPass(cells: seq<TimeCell>)
    ensures FormatRows(cells) == [] && HourRows(cells) == [] <==> AllGood(cells)
  {
  }

  /** A column that passes holds clock readings with hours up to 23. */
  lemma {:induction false} AllGoodMeaning(cells: seq<TimeCell>)
    ensures AllGood(cells) <==> forall i :: 0 <= i < |cells| ==> AnchoredTime(Render(cells[i].value)) && Hour(Render(cells[i].value)) <= 23
  {
  }

  function TimeFinding(table: string, ids: seq<int>): (f: Option<Finding>)
    ensures f.None? <==> ids == []
    ensures f.Some? ==> f.value.errorType == FormattingError
  {
    CheckData(CheckArgs(table, ids, "sampletime", FormattingError, false, TimeMessage), None).0
  }

  /** Four records, none of them `{}`, clean up to nothing. */
  lemma {:induction false} NoneOfFour(a: Option<Finding>, b: Option<Finding>, c: Option<Finding>, d: Option<Finding>)
    ensures NonEmpty([a, b, c, d]) == [] <==> a.None? && b.None? && c.None? && d.None?
  {
    var errs := [a, b, c, d];
    assert errs[0] == a && errs[1] == b && errs[2] == c && errs[3] == d;
  }

  /** The first stage with the intended hour test: format and hour, CTD then
      bottle, with `{}` records removed. */
  function Stage1(ctd: seq<CtdRow>, bottle: seq<BottleRow>): (fs: seq<Finding>)
    ensures |fs| <= 4
    ensures forall f :: f in fs ==> f.errorType == FormattingError
    ensures fs == [] <==> AllGood(Column(ctd, CtdCell)) && AllGood(Column(bottle, BottleCell))
  {
    var cc, bc := Column(ctd, CtdCell), Column(bottle, BottleCell);
    var a, b := TimeFinding(CtdTable, FormatRows(cc)), TimeFinding(BottleTable, FormatRows(bc));
    var c, d := TimeFinding(CtdTable, HourRows(cc)), TimeFinding(BottleTable, HourRows(bc));
    TimeChecksPass(cc);
    TimeChecksPass(bc);
    NoneOfFour(a, b, c, d);
    var fs := NonEmpty([a, b, c, d]);
    assert forall f :: f in fs ==> f.errorType == FormattingError by {
      forall f | f in fs ensures f.errorType == FormattingError {
        assert Some(f) in [a, b, c, d];
      }
    }
    fs
  }

  // ---------------------------------------------------------------------
  // Stage 2: one agency and one season per table

  /** `if len(col.unique()) != 1`: report every row of the table. This is
      the intended reading, in which an empty table has no rows to report
      and so gets no record. */
  function OneValueFinding(table: string, column: string, message: string, values: seq<string>, ids: seq<int>): (f: Option<Finding>)
    requires |values| == |ids|
    ensures f.Some? <==> |values| > 0 && exists k :: 0 <= k < |values| && values[k] != values[0]
    ensures f.Some? ==> f.value.rows == ids && f.value.table == table && f.value.columns == column
  {
    DistinctSingle(values);
    if |Distinct(values)| != 1 then CheckData(CheckArgs(table, ids, column, UndefinedError, false, message), None).0 else None
  }

  function CtdRowId(c: CtdRow): int {
    c.row
  }

  function BottleRowId(b: BottleRow): int {
    b.row
  }

  function CtdIds(ctd: seq<CtdRow>): (ids: seq<int>)
    ensures |ids| == |ctd|
    ensures forall i :: 0 <= i < |ctd| ==> ids[i] == ctd[i].row
  {
    Column(ctd, CtdRowId)
  }

  function BottleIds(bottle: seq<BottleRow>): (ids: seq<int>)
    ensures |ids| == |bottle|
    ensures forall i :: 0 <= i < |bottle| ==> ids[i] == bottle[i].row
  {
    Column(bottle, BottleRowId)
  }

  predicate OneAgencyAndSeason(ctd: seq<CtdRow>, bottle: seq<BottleRow>) {
    && (forall i :: 0 <= i < |ctd| ==> ctd[i].agency == ctd[0].agency && ctd[i].season == ctd[0].season)
    && (forall i :: 0 <= i < |bottle| ==> bottle[i].agency == bottle[0].agency && bottle[i].season == bottle[0].season)
  }

  /** Every row holds the first row's value in the column. */
  predicate AllSame<R>(rows: seq<R>, field: R -> string) {
    forall i :: 0 <= i < |rows| ==> field(rows[i]) == field(rows[0])
  }

  /** A column's one-value check stays silent exactly when every row holds
      the first row's value. */
  lemma {:induction false} OneValueNone<R>(table: string, column: string, message: string, rows: seq<R>, field: R -> string, ids: seq<int>)
    requires |rows| == |ids|
    ensures OneValueFinding(table, column, message, Column(rows, field), ids).None? <==> AllSame(rows, field)
  {
    var values := Column(rows, field);
    if exists k :: 0 <= k < |values| && values[k] != values[0] {
      var k :| 0 <= k < |values| && values[k] != values[0];
      assert field(rows[k]) != field(rows[0]);
    }
  }

  function CtdAgency(c: CtdRow): string { c.agency }
  function CtdSeason(c: CtdRow): string { c.season }
  function BottleAgency(b: BottleRow): string { b.agency }
  function BottleSeason(b: BottleRow): string { b.season }

  lemma {:induction false} OneAgencyAndSeasonColumns(ctd: seq<CtdRow>, bottle: seq<BottleRow>)
    ensures OneAgencyAndSeason(ctd, bottle) <==> AllSame(ctd, CtdAgency) && AllSame(ctd, CtdSeason) && AllSame(bottle, BottleAgency) && AllSame(bottle, BottleSeason)
  {
  }

  /** Two entries about the CTD rows and two about the bottle rows give
      findings that name one table's rows or the other's. */
  lemma {:induction false} RowsOfFour(a: Option<Finding>, b: Option<Finding>, c: Option<Finding>, d: Option<Finding>, x: seq<int>, y: seq<int>)
    requires a.Some? ==> a.value.rows == x
    requires b.Some? ==> b.value.rows == x
    requires c.Some? ==> c.value.rows == y
    requires d.Some? ==> d.value.rows == y
    ensures forall f :: f in NonEmpty([a, b, c, d]) ==> f.rows == x || f.rows == y
  {
    forall f | f in NonEmpty([a, b, c, d]) ensures f.rows == x || f.rows == y {
      assert Some(f) in [a, b, c, d];
    }
  }

  function Stage2(ctd: seq<CtdRow>, bottle: seq<BottleRow>): (fs: seq<Finding>)
    ensures |fs| <= 4
    ensures fs == [] <==> OneAgencyAndSeason(ctd, bottle)
    ensures forall f :: f in fs ==> f.rows == CtdIds(ctd) || f.rows == BottleIds(bottle)
  {
    var a := OneValueFinding(CtdTable, "Agency", AgencyMessage, Column(ctd, CtdAgency), CtdIds(ctd));
    var b := OneValueFinding(CtdTable, "Season", SeasonMessage, Column(ctd, CtdSeason), CtdIds(ctd));
    var c := OneValueFinding(BottleTable, "Agency", AgencyMessage, Column(bottle, BottleAgency), BottleIds(bottle));
    var d := OneValueFinding(BottleTable, "Season", SeasonMessage, Column(bottle, BottleSeason), BottleIds(bottle));
    OneValueNone(CtdTable, "Agency", AgencyMessage, ctd, CtdAgency, CtdIds(ctd));
    OneValueNone(CtdTable, "Season", SeasonMessage, ctd, CtdSeason, CtdIds(ctd));
    OneValueNone(BottleTable, "Agency", AgencyMessage, bottle, BottleAgency, BottleIds(bottle));
    OneValueNone(BottleTable, "Season", SeasonMessage, bottle, BottleSeason, BottleIds(bottle));
    OneAgencyAndSeasonColumns(ctd, bottle);
    NoneOfFour(a, b, c, d);
    RowsOfFour(a, b, c, d, CtdIds(ctd), BottleIds(bottle));
    NonEmpty([a, b, c, d])
  }

  // ---------------------------------------------------------------------
  // Stage 3: every bottle row has its key values in the CTD table

  /** The six columns both tables are matched on. */
  datatype Key = Key(season: string, agency: string, sampleDate: int, station: string, fieldRep: int, labRep: int)

  function CtdKey(c: CtdRow): Key {
    Key(c.season, c.agency, c.sampleDate, c.station, c.fieldRep, c.labRep)
  }

  function BottleKey(b: BottleRow): Key {
    Key(b.season, b.agency, b.sampleDate, b.station, b.fieldRep, b.labRep)
  }

  /** One cell of a key, for the column-by-column comparison. */
  datatype KeyPart = KeyText(s: string) | KeyNumber(n: int)

  function Parts(k: Key): (p: seq<KeyPart>)
    ensures |p| == 6
  {
    [KeyText(k.season), KeyText(k.agency), KeyNumber(k.sampleDate), KeyText(k.station), KeyNumber(k.fieldRep), KeyNumber(k.labRep)]
  }

  /** Two keys with the same parts are the same key. */
  lemma {:induction false} PartsInjective(a: Key, b: Key)
    requires Parts(a) == Parts(b)
    ensures a == b
  {
    assert Parts(a)[0] == Parts(b)[0] && Parts(a)[1] == Parts(b)[1] && Parts(a)[2] == Parts(b)[2];
    assert Parts(a)[3] == Parts(b)[3] && Parts(a)[4] == Parts(b)[4] && Parts(a)[5] == Parts(b)[5];
  }

  function CtdParts(ctd: seq<CtdRow>): (ps: seq<seq<KeyPart>>)
    ensures |ps| == |ctd|
    ensures forall i :: 0 <= i < |ctd| ==> ps[i] == Parts(CtdKey(ctd[i]))
  {
    seq(|ctd|, i requires 0 <= i < |ctd| => Parts(CtdKey(ctd[i])))
  }

  /** `~bottle[cols].isin(ctd[cols].to_dict(orient='list')).all(axis=1)`. */
  predicate KeyMissing(ctd: seq<CtdRow>, b: BottleRow) {
    !ColumnwiseFound(Parts(BottleKey(b)), CtdParts(ctd))
  }

  function LogicRows(ctd: seq<CtdRow>, bottle: seq<BottleRow>): (ids: seq<int>)
    ensures forall x :: x in ids <==> exists i :: 0 <= i < |bottle| && bottle[i].row == x && KeyMissing(ctd, bottle[i])
    ensures ids == [] <==> forall i :: 0 <= i < |bottle| ==> !KeyMissing(ctd, bottle[i])
  {
    Select(bottle, b => KeyMissing(ctd, b), BottleRowId)
  }

  function Stage3(ctd: seq<CtdRow>, bottle: seq<BottleRow>): (fs: seq<Finding>)
    ensures |fs| <= 1
    ensures fs == [] <==> forall i :: 0 <= i < |bottle| ==> !KeyMissing(ctd, bottle[i])
  {
    var f := CheckData(CheckArgs(BottleTable, LogicRows(ctd, bottle), LogicColumns, UndefinedError, false, LogicMessage), None).0;
    assert NonEmpty([f]) == (if f.Some? then [f.value] else []) by {
      assert [f][1..] == [];
    }
    NonEmpty([f])
  }

  /** A CTD row with the bottle row's exact key lets the bottle row pass. */
  lemma {:induction false} PartneredBottlePasses(ctd: seq<CtdRow>, b: BottleRow, i: int)
    requires 0 <= i < |ctd| && CtdKey(ctd[i]) == BottleKey(b)
    ensures !KeyMissing(ctd, b)
  {
    assert CtdParts(ctd)[i] == Parts(BottleKey(b));
    TupleFoundIsColumnwiseFound(Parts(BottleKey(b)), CtdParts(ctd));
  }

  // ---------------------------------------------------------------------
  // Stage 4: depth agreement

  /** Some CTD row shares the bottle row's six keys (the inner merge). */
  predicate Partnered(ctd: seq<CtdRow>, b: BottleRow) {
    exists i :: 0 <= i < |ctd| && CtdKey(ctd[i]) == BottleKey(b)
  }

  /** Some partner's depth is within one unit of the bottle's, ends included. */
  predicate DepthAgrees(ctd: seq<CtdRow>, b: BottleRow) {
    exists i :: 0 <= i < |ctd| && CtdKey(ctd[i]) == BottleKey(b) && b.depth - 1.0 <= ctd[i].depth <= b.depth + 1.0
  }

  /** Rows that drop out of the merge are never reported: only a partnered
      bottle row with no partner close enough in depth. */
  predicate DepthDisagrees(ctd: seq<CtdRow>, b: BottleRow) {
    Partnered(ctd, b) && !DepthAgrees(ctd, b)
  }

  function DepthRows(ctd: seq<CtdRow>, bottle: seq<BottleRow>): (ids: seq<int>)
    ensures forall x :: x in ids <==> exists i :: 0 <= i < |bottle| && bottle[i].row == x && DepthDisagrees(ctd, bottle[i])
    ensures ids == [] <==> forall i :: 0 <= i < |bottle| ==> !DepthDisagrees(ctd, bottle[i])
  {
    Select(bottle, b => DepthDisagrees(ctd, b), BottleRowId)
  }

  /** The merge, `between` and group-wise `sum(x) > 0` of the depth check,
      done row by row: for each bottle row, scan the CTD rows for partners
      and note whether any partner is within range. */
  method DepthAgreement(ctd: seq<CtdRow>, bottle: seq<BottleRow>) returns (ids: seq<int>)
    ensures ids == DepthRows(ctd, bottle)
  {
    ids := [];
    var j := |bottle|;
    while j > 0
      invariant 0 <= j <= |bottle|
      invariant ids == Select(bottle[j..], b => DepthDisagrees(ctd, b), BottleRowId)
    {
      j := j - 1;
      var b := bottle[j];
      var partnered, inside := false, false;
      var k := 0;
      while k < |ctd|
        invariant 0 <= k <= |ctd|
        invariant partnered <==> exists i :: 0 <= i < k && CtdKey(ctd[i]) == BottleKey(b)
        invariant inside <==> exists i :: 0 <= i < k && CtdKey(ctd[i]) == BottleKey(b) && b.depth - 1.0 <= ctd[i].depth <= b.depth + 1.0
      {
        if CtdKey(ctd[k]) == BottleKey(b) {
          partnered := true;
          if b.depth - 1.0 <= ctd[k].depth <= b.depth + 1.0 {
            inside := true;
          }
        }
        k := k + 1;
      }
      assert bottle[j..][1..] == bottle[j + 1..];
      ids := (if partnered && !inside then [b.row] else []) + ids;
    }
    assert bottle[0..] == bottle;
  }

  /** A bottle row sampled at its CTD partner's depth passes; a bottle row
      without any partner passes too, whatever its depth. */
  lemma {:induction false} DepthMeaning(ctd: seq<CtdRow>, bottle: seq<BottleRow>, j: int)
    requires 0 <= j < |bottle|
    requires forall a, b :: 0 <= a < |bottle| && 0 <= b < |bottle| && bottle[a].row == bottle[b].row ==> a == b
    ensures (exists i :: 0 <= i < |ctd| && CtdKey(ctd[i]) == BottleKey(bottle[j]) && ctd[i].depth == bottle[j].depth)
      ==> bottle[j].row !in DepthRows(ctd, bottle)
    ensures !Partnered(ctd, bottle[j]) ==> bottle[j].row !in DepthRows(ctd, bottle)
  {
  }

  // ---------------------------------------------------------------------
  // Stage 4: time agreement

  /** `pd.Timestamp(time)`, in seconds after midnight; both sides fall on
      the same day, so the day cancels in the difference. */
  function Seconds(c: Cell): int {
    var t := Render(c);
    if PrefixTime(t) then
      var f := Fields(t);
      f.0 * 3600 + f.1 * 60 + f.2
    else 0
  }

  /** A clock reading is that many seconds after midnight. */
  lemma {:induction false} ClockSeconds(h: int, m: int, sec: int)
    requires 0 <= h <= 23 && 0 <= m <= 59 && 0 <= sec <= 59
    ensures Seconds(Str(Clock(h, m, sec))) == h * 3600 + m * 60 + sec
  {
    ClockRoundTrip(h, m, sec, "");
    assert Clock(h, m, sec) + "" == Clock(h, m, sec);
  }

  /** `pd.Timestamp` of each time cell, computed once per table. */
  function Timestamps(cells: seq<TimeCell>): (ts: seq<int>)
    ensures |ts| == |cells|
    ensures forall i :: 0 <= i < |cells| ==> ts[i] == Seconds(cells[i].value)
  {
    seq(|cells|, i requires 0 <= i < |cells| => Seconds(cells[i].value))
  }

  /** Some merged pair of key group `k` has the CTD time more than four hours
      after the bottle time (`sampletime_x - sampletime_y > 4 h`); `cs` and
      `bs` are the two tables' timestamps. */
  predicate LatePair(ctd: seq<CtdRow>, bottle: seq<BottleRow>, cs: seq<int>, bs: seq<int>, k: Key) {
    && |cs| == |ctd| && |bs| == |bottle|
    && exists i, j :: 0 <= i < |ctd| && 0 <= j < |bottle| && CtdKey(ctd[i]) == k && BottleKey(bottle[j]) == k && cs[i] - bs[j] > MaxLag
  }

  /** `bottle.merge(invalids, on=keys).tmp_row.unique()`: every bottle row of
      a key group holding a late pair, once each. */
  function LateRows(ctd: seq<CtdRow>, bottle: seq<BottleRow>, cs: seq<int>, bs: seq<int>): (ids: seq<int>)
    ensures forall x :: x in ids <==> exists j :: 0 <= j < |bottle| && bottle[j].row == x && LatePair(ctd, bottle, cs, bs, BottleKey(bottle[j]))
    ensures forall a, b :: 0 <= a < b < |ids| ==> ids[a] != ids[b]
    ensures ids == [] <==> forall j :: 0 <= j < |bottle| ==> !LatePair(ctd, bottle, cs, bs, BottleKey(bottle[j]))
    ensures |ids| <= |bottle|
  {
    Distinct(Select(bottle, b => LatePair(ctd, bottle, cs, bs, BottleKey(b)), BottleRowId))
  }

  function TimeRows(ctd: seq<CtdRow>, bottle: seq<BottleRow>): seq<int> {
    LateRows(ctd, bottle, Timestamps(Column(ctd, CtdCell)), Timestamps(Column(bottle, BottleCell)))
  }

  /** A late pair reports its whole key group, every bottle row of it. */
  lemma {:induction false} TimeGroupReportedTogether(ctd: seq<CtdRow>, bottle: seq<BottleRow>, cs: seq<int>, bs: seq<int>, k: Key)
    requires LatePair(ctd, bottle, cs, bs, k)
    ensures forall j :: 0 <= j < |bottle| && BottleKey(bottle[j]) == k ==> bottle[j].row in LateRows(ctd, bottle, cs, bs)
  {
  }

  /** Times that never run more than four hours ahead of a bottle of their
      key group report nothing, however far the bottles run ahead. */
  lemma {:induction false} NoLateCastNoReport(ctd: seq<CtdRow>, bottle: seq<BottleRow>, cs: seq<int>, bs: seq<int>)
    requires |cs| == |ctd| && |bs| == |bottle|
    requires forall i, j :: 0 <= i < |ctd| && 0 <= j < |bottle| && CtdKey(ctd[i]) == BottleKey(bottle[j]) ==> cs[i] <= bs[j] + MaxLag
    ensures LateRows(ctd, bottle, cs, bs) == []
  {
  }

  function ExampleCtd(t: string): CtdRow {
    CtdRow(0, "Summer", "SCCWRP", 0, "B23-1", 1, 1, Str(t), 10.0, 12.0, 33.4, 25.0, 8.0)
  }

  function ExampleBottle(t: string): BottleRow {
    BottleRow(7, "Summer", "SCCWRP", 0, "B23-1", 1, 1, Str(t), 10.0)
  }

  /** The test is one-directional: a CTD cast five hours after its bottle
      sample is reported, a bottle sample five hours after its cast is not. */
  lemma {:induction false} TimeOneDirectional()
    ensures TimeRows([ExampleCtd(Clock(13, 0, 0))], [ExampleBottle(Clock(8, 0, 0))]) == [7]
    ensures TimeRows([ExampleCtd(Clock(8, 0, 0))], [ExampleBottle(Clock(13, 0, 0))]) == []
  {
    ClockSeconds(13, 0, 0);
    ClockSeconds(8, 0, 0);
    var late := [ExampleCtd(Clock(13, 0, 0))];
    var early := [ExampleBottle(Clock(8, 0, 0))];
    var cs, bs := Timestamps(Column(late, CtdCell)), Timestamps(Column(early, BottleCell));
    assert cs[0] == 13 * 3600 && bs[0] == 8 * 3600;
    assert LatePair(late, early, cs, bs, BottleKey(early[0]));
    var ids := LateRows(late, early, cs, bs);
    assert 7 in ids;
    assert ids[0] == 7;
    var ctd2, bottle2 := [ExampleCtd(Clock(8, 0, 0))], [ExampleBottle(Clock(13, 0, 0))];
    var cs2, bs2 := Timestamps(Column(ctd2, CtdCell)), Timestamps(Column(bottle2, BottleCell));
    assert cs2[0] == 8 * 3600 && bs2[0] == 13 * 3600;
    NoLateCastNoReport(ctd2, bottle2, cs2, bs2);
  }

  // ---------------------------------------------------------------------
  // Stage 4: order of field replicates

  /** The cast's date and time, in seconds, for each CTD row. */
  function Whens(ctd: seq<CtdRow>): (ws: seq<int>)
    ensures |ws| == |ctd|
    ensures forall i :: 0 <= i < |ctd| ==> ws[i] == ctd[i].sampleDate * 86400 + Seconds(ctd[i].sampleTime)
  {
    seq(|ctd|, i requires 0 <= i < |ctd| => ctd[i].sampleDate * 86400 + Seconds(ctd[i].sampleTime))
  }

  /** Some replicate-2 cast of the station precedes one of its replicate-1
      casts (the merge on station of the two replicate sets); `ws` holds the
      casts' times. */
  predicate InvalidStation(ctd: seq<CtdRow>, ws: seq<int>, s: string) {
    && |ws| == |ctd|
    && exists i, j ::
         0 <= i < |ctd| && 0 <= j < |ctd| && ctd[i].station == s && ctd[j].station == s && ctd[i].fieldRep == 1 && ctd[j].fieldRep == 2 && ws[j] < ws[i]
  }

  /** The columns `drop_duplicates(subset=[...])` compares; the time is the
      cleaned string. */
  datatype CastKey = CastKey(station: string, agency: string, fieldRep: int, sampleTime: Cell)

  function CastKeyOf(c: CtdRow): CastKey {
    CastKey(c.station, c.agency, c.fieldRep, c.sampleTime)
  }

  /** `ctd[ctd.station.isin(invalid)].drop_duplicates(...)`: the first row of
      each cast key among the invalid stations' rows. Filtering first or
      last selects the same rows, as the station is part of the cast key. */
  function ReplicateRows(ctd: seq<CtdRow>, ws: seq<int>): (ids: seq<int>)
    ensures forall x :: x in ids <==> exists i :: 0 <= i < |ctd| && ctd[i].row == x && InvalidStation(ctd, ws, ctd[i].station) && FirstOfKind(ctd, CastKeyOf, i)
  {
    var kept := DropDuplicates(ctd, CastKeyOf);
    var ids := Select(kept, (c: CtdRow) => InvalidStation(ctd, ws, c.station), CtdRowId);
    ReplicateRowsMembership(ctd, ws, kept, ids);
    ids
  }

  lemma {:induction false} ReplicateRowsMembership(ctd: seq<CtdRow>, ws: seq<int>, kept: seq<CtdRow>, ids: seq<int>)
    requires kept == DropDuplicates(ctd, CastKeyOf)
    requires ids == Select(kept, (c: CtdRow) => InvalidStation(ctd, ws, c.station), CtdRowId)
    ensures forall x :: x in ids <==> exists i :: 0 <= i < |ctd| && ctd[i].row == x && InvalidStation(ctd, ws, ctd[i].station) && FirstOfKind(ctd, CastKeyOf, i)
  {
    forall x | x in ids
      ensures exists i :: 0 <= i < |ctd| && ctd[i].row == x && InvalidStation(ctd, ws, ctd[i].station) && FirstOfKind(ctd, CastKeyOf, i)
    {
      var j :| 0 <= j < |kept| && InvalidStation(ctd, ws, kept[j].station) && kept[j].row == x;
      assert kept[j] in kept;
      var i :| 0 <= i < |ctd| && ctd[i] == kept[j] && FirstOfKind(ctd, CastKeyOf, i);
    }
    forall i | 0 <= i < |ctd| && InvalidStation(ctd, ws, ctd[i].station) && FirstOfKind(ctd, CastKeyOf, i)
      ensures ctd[i].row in ids
    {
      assert ctd[i] in kept;
      var j :| 0 <= j < |kept| && kept[j] == ctd[i];
    }
  }

  /** Every station with a replicate out of order is reported through at
      least one of its rows. */
  lemma {:induction false} EveryInvalidStationReported(ctd: seq<CtdRow>, ws: seq<int>, s: string)
    requires InvalidStation(ctd, ws, s)
    ensures exists i :: 0 <= i < |ctd| && ctd[i].station == s && ctd[i].row in ReplicateRows(ctd, ws)
  {
    var i, j :| 0 <= i < |ctd| && 0 <= j < |ctd| && ctd[i].station == s && ctd[j].station == s
      && ctd[i].fieldRep == 1 && ctd[j].fieldRep == 2 && ws[j] < ws[i];
    FirstOfKindExists(ctd, CastKeyOf, i);
    var p :| 0 <= p <= i && CastKeyOf(ctd[p]) == CastKeyOf(ctd[i]) && FirstOfKind(ctd, CastKeyOf, p);
    assert ctd[p].station == s;
    assert InvalidStation(ctd, ws, ctd[p].station);
    assert ctd[p].row in ReplicateRows(ctd, ws);
  }

  /** Replicates in order report nothing. */
  lemma {:induction false} OrderedReplicatesPass(ctd: seq<CtdRow>, ws: seq<int>)
    requires |ws| == |ctd|
    requires forall i, j ::
      0 <= i < |ctd| && 0 <= j < |ctd| && ctd[i].station == ctd[j].station && ctd[i].fieldRep == 1 && ctd[j].fieldRep == 2 ==> ws[i] <= ws[j]
    ensures forall x :: x !in ReplicateRows(ctd, ws)
  {
  }

  // ---------------------------------------------------------------------
  // Stage 4: range checks

  datatype Measure = Depth | Temperature | Salinity | Density | Ph

  /** The inclusive bounds the code tests (the messages quote narrower
      ranges for temperature and salinity). */
  function Bounds(m: Measure): (b: (real, real))
    ensures b.0 < b.1
  {
    match m
    case Depth => (0.0, 200.0)
    case Temperature => (0.0, 20.0)
    case Salinity => (33.0, 33.7)
    case Density => (20.0, 30.0)
    case Ph => (7.5, 8.2)
  }

  function Value(c: CtdRow, m: Measure): real {
    match m
    case Depth => c.depth
    case Temperature => c.temperature
    case Salinity => c.salinity
    case Density => c.density
    case Ph => c.ph
  }

  function ColumnName(m: Measure): string {
    match m
    case Depth => "Depth"
    case Temperature => "Temperature"
    case Salinity => "Salinity"
    case Density => "Density"
    case Ph => "pH"
  }

  predicate OutOfRange(c: CtdRow, m: Measure) {
    Value(c, m) < Bounds(m).0 || Value(c, m) > Bounds(m).1
  }

  function RangeRows(ctd: seq<CtdRow>, m: Measure): (ids: seq<int>)
    ensures forall x :: x in ids <==> exists i :: 0 <= i < |ctd| && ctd[i].row == x && !(Bounds(m).0 <= Value(ctd[i], m) <= Bounds(m).1)
  {
    Select(ctd, (c: CtdRow) => OutOfRange(c, m), CtdRowId)
  }

  /** Both ends of every range are accepted, and nothing beyond them. */
  lemma {:induction false} RangesInclusive(c: CtdRow, m: Measure)
    ensures Value(c, m) == Bounds(m).0 ==> RangeRows([c], m) == []
    ensures Value(c, m) == Bounds(m).1 ==> RangeRows([c], m) == []
    ensures (Value(c, m) < Bounds(m).0 || Value(c, m) > Bounds(m).1) ==> RangeRows([c], m) == [c.row]
  {
  }

  // ---------------------------------------------------------------------
  // The stages together

  const RangeWarning := "Range Warning"
  const DepthRangeMessage := "Depth value is outside of what would be considered a normal range of values, (0 to 200)"
  const TemperatureMessage := "Temperature value outside of what would be considered a normal range (e.g. 0-15)."
  const SalinityMessage := "Salinity value outside of what would be condsidered a normal range (e.g. 33.2-33.5)."
  const DensityMessage := "Density value outside of what would be considered a normal range (e.g. 20-30)."
  const PhMessage := "pH value outside of what would be considered a normal range (e.g. 7.5-8.2)."

  function RangeMessage(m: Measure): string {
    match m
    case Depth => DepthRangeMessage
    case Temperature => TemperatureMessage
    case Salinity => SalinityMessage
    case Density => DensityMessage
    case Ph => PhMessage
  }

  function RangeFinding(ctd: seq<CtdRow>, m: Measure): Option<Finding> {
    CheckData(CheckArgs(CtdTable, RangeRows(ctd, m), ColumnName(m), RangeWarning, false, RangeMessage(m)), None).0
  }

  function DepthFinding(ctd: seq<CtdRow>, bottle: seq<BottleRow>): Option<Finding> {
    CheckData(CheckArgs(BottleTable, DepthRows(ctd, bottle), "Depth", UndefinedError, false, DepthMessage), None).0
  }

  function TimeAgreementFinding(ctd: seq<CtdRow>, bottle: seq<BottleRow>): Option<Finding> {
    CheckData(CheckArgs(BottleTable, TimeRows(ctd, bottle), "SampleTime", LogicError, false, TimeAgreementMessage), None).0
  }

  function ReplicateFinding(ctd: seq<CtdRow>): Option<Finding> {
    CheckData(CheckArgs(CtdTable, ReplicateRows(ctd, Whens(ctd)), "SampleTime", UndefinedError, false, ReplicateMessage), None).0
  }

  /** The fourth stage, `{}` records included. */
  function Stage4(ctd: seq<CtdRow>, bottle: seq<BottleRow>): (errs: seq<Option<Finding>>)
    ensures |errs| == 8
  {
    [DepthFinding(ctd, bottle), TimeAgreementFinding(ctd, bottle), ReplicateFinding(ctd),
     RangeFinding(ctd, Depth), RangeFinding(ctd, Temperature), RangeFinding(ctd, Salinity),
     RangeFinding(ctd, Density), RangeFinding(ctd, Ph)]
  }

  /** The stages on the cleaned tables: each runs only while the earlier
      ones reported nothing. */
  function Gated(ctd: seq<CtdRow>, bottle: seq<BottleRow>): (errs: seq<Option<Finding>>)
    ensures |errs| <= 8
    ensures |errs| == 8 <==> Stage1(ctd, bottle) == [] && Stage2(ctd, bottle) == [] && Stage3(ctd, bottle) == []
  {
    var s1 := Stage1(ctd, bottle);
    if s1 != [] then Wrap(s1)
    else
      var s2 := Stage2(ctd, bottle);
      if s2 != [] then Wrap(s2)
      else
        var s3 := Stage3(ctd, bottle);
        if s3 != [] then Wrap(s3)
        else Stage4(ctd, bottle)
  }

  /** The module's `errors` list, with the intended hour test. Its
      `warnings` list is always empty: the range warnings go to `errors`. */
  function OceanAcidification(ctd: seq<CtdRow>, bottle: seq<BottleRow>): seq<Option<Finding>> {
    Gated(CleanTimes(ctd, CtdTime, CtdWithTime), CleanTimes(bottle, BottleTime, BottleWithTime))
  }

  /** What reaching the fourth stage guarantees: every time is a clock
      reading with an hour of at most 23, each table has one agency and one
      season, and every bottle row's key values occur in the CTD table. A
      bad time hides every other check. */
  lemma {:induction false} GatesMeaning(ctd: seq<CtdRow>, bottle: seq<BottleRow>)
    ensures |Gated(ctd, bottle)| == 8 ==>
      && AllGood(Column(ctd, CtdCell)) && AllGood(Column(bottle, BottleCell))
      && OneAgencyAndSeason(ctd, bottle)
      && (forall i :: 0 <= i < |bottle| ==> !KeyMissing(ctd, bottle[i]))
    ensures !AllGood(Column(ctd, CtdCell)) || !AllGood(Column(bottle, BottleCell)) ==>
      forall e :: e in Gated(ctd, bottle) ==> e.Some? && e.value.errorType == FormattingError
  {
    var errs := Gated(ctd, bottle);
    var s1 := Stage1(ctd, bottle);
    if s1 != [] {
      assert errs == Wrap(s1);
      forall e | e in errs ensures e.Some? && e.value.errorType == FormattingError {
        var k :| 0 <= k < |errs| && errs[k] == e;
        assert s1[k] in s1;
      }
    }
  }

  /** As written, any row in either table stops the module at the hour
      test, so none of the later checks is ever reached on real data. */
  lemma {:induction false} AsWrittenNeverPastStageOne(ctd: seq<CtdRow>, bottle: seq<BottleRow>)
    requires |ctd| > 0 || |bottle| > 0
    ensures HourCheckAsWritten(Column(CleanTimes(ctd, CtdTime, CtdWithTime), CtdCell)).Raise? || HourCheckAsWritten(Column(CleanTimes(bottle, BottleTime, BottleWithTime), BottleCell)).Raise?
  {
  }

  const OrphanCtd := [CtdRow(0, "S", "A", 0, "X", 1, 2, Null, 5.0, 10.0, 33.4, 25.0, 8.0),
                      CtdRow(1, "S", "A", 0, "X", 2, 1, Null, 5.0, 10.0, 33.4, 25.0, 8.0)]
  const OrphanBottle := BottleRow(9, "S", "A", 0, "X", 1, 1, Null, 50.0)

  /** Column-wise key matching lets through a bottle row no CTD row
      partners; the depth check then passes it as well, since it only
      compares partners. */
  lemma {:induction false} OrphanBottleUnreported()
    ensures !KeyMissing(OrphanCtd, OrphanBottle)
    ensures !Partnered(OrphanCtd, OrphanBottle)
    ensures DepthRows(OrphanCtd, [OrphanBottle]) == []
  {
    var key, ref := Parts(BottleKey(OrphanBottle)), CtdParts(OrphanCtd);
    forall c | 0 <= c < |key| ensures exists j | 0 <= j < |ref| :: c < |ref[j]| && ref[j][c] == key[c] {
      if c == 5 { assert ref[1][c] == key[c]; } else { assert ref[0][c] == key[c]; }
    }
    assert CtdKey(OrphanCtd[0]) != BottleKey(OrphanBottle);
    assert CtdKey(OrphanCtd[1]) != BottleKey(OrphanBottle);
  }
}

=== FILE: one_shot.dfy ===
/** Python's one-shot iterators, as the trawl modules use them.

    A `zip(...)` object can be walked once. `x in it` advances `it` until it
    yields an element equal to `x`, so a later membership test sees only
    what is left: the rest after a hit, nothing after a miss. An iterator
    over a sequence is modelled by the part of the sequence still to come.
 */
module OneShot {

  /** `it[j..]` for some `j`: what is left of an iterator over `it`. */
  predicate IsSuffix<K(==)>(rest: seq<K>, it: seq<K>) {
    |rest| <= |it| && rest == it[|it| - |rest|..]
  }

  /** `x in it` on an iterator: the answer, and what is left of the iterator.
      A hit consumes everything up to and including the first equal
      element; a miss consumes everything. */
  function Lookup<K(==)>(x: K, it: seq<K>): (out: (bool, seq<K>))
    ensures out.0 <==> x in it
    ensures IsSuffix(out.1, it)
    ensures !out.0 ==> out.1 == []
    ensures out.0 ==> |out.1| < |it| && x !in it[..|it| - |out.1| - 1] && it[|it| - |out.1| - 1] == x
  {
    if |it| == 0 then (false, [])
    else if it[0] == x then (true, it[1..])
    else
      var r := Lookup(x, it[1..]);
      if r.0 then
        var n := |it| - |r.1| - 1;
        assert it[1..][..n - 1] == it[1..n];
        assert it[..n] == [it[0]] + it[1..n];
        r
      else
        r
  }

  /** `pd.Series(keys).apply(lambda x: x in it)`: the answers in row order
      and the iterator's state afterwards. */
  function Scan<K(==)>(keys: seq<K>, it: seq<K>): (out: (seq<bool>, seq<K>))
    ensures |out.0| == |keys|
    ensures IsSuffix(out.1, it)
    ensures forall i :: 0 <= i < |keys| && out.0[i] ==> keys[i] in it
  {
    if |keys| == 0 then ([], it)
    else
      var first := Lookup(keys[0], it);
      var rest := Scan(keys[1..], first.1);
      SuffixMembers(first.1, it);
      assert it[|it| - |rest.1|..] == first.1[|first.1| - |rest.1|..];
      ([first.0] + rest.0, rest.1)
  }

  /** `df.loc[~answers].tmp_row.tolist()`: the ids of the rows whose
      membership test said no. */
  function Unfound<R>(rows: seq<R>, found: seq<bool>, id: R -> int): (ids: seq<int>)
    requires |found| == |rows|
    ensures |ids| <= |rows|
    ensures forall x :: x in ids <==> exists i :: 0 <= i < |rows| && !found[i] && id(rows[i]) == x
    ensures ids == [] <==> forall i :: 0 <= i < |rows| ==> found[i]
  {
    if |rows| == 0 then []
    else
      var rest := Unfound(rows[1..], found[1..], id);
      assert forall i :: 1 <= i < |rows| ==> rows[i] == rows[1..][i - 1] && found[i] == found[1..][i - 1];
      (if found[0] then [] else [id(rows[0])]) + rest
  }

  /** Whatever is left of an iterator was in it to begin with. */
  lemma {:induction false} SuffixMembers<K>(rest: seq<K>, it: seq<K>)
    requires IsSuffix(rest, it)
    ensures forall y :: y in rest ==> y in it
  {
    forall y | y in rest ensures y in it {
      var j :| 0 <= j < |rest| && rest[j] == y;
      assert it[|it| - |rest| + j] == y;
    }
  }

  /** After a miss the iterator is exhausted, and stays so for the rest of
      the pass. */
  lemma {:induction false} MissExhausts<K>(keys: seq<K>, it: seq<K>, i: int)
    requires 0 <= i < |keys| && !Scan(keys, it).0[i]
    ensures Scan(keys, it).1 == []
  {
    var first := Lookup(keys[0], it);
    if i == 0 {
      EmptyStaysEmpty(keys[1..]);
    } else {
      MissExhausts(keys[1..], first.1, i - 1);
    }
  }

  /** One lookup in a one-element iterator leaves it empty. */
  lemma {:induction false} LookupEmpties<K>(keys: seq<K>, it: seq<K>)
    requires |keys| >= 1 && |it| <= 1
    ensures Scan(keys, it).1 == []
  {
    var first := Lookup(keys[0], it);
    assert first.1 == [];
    if |keys| > 1 {
      EmptyStaysEmpty(keys[1..]);
    }
  }

  /** An exhausted iterator stays exhausted. */
  lemma {:induction false} EmptyStaysEmpty<K>(keys: seq<K>)
    ensures Scan(keys, []).1 == []
  {
    if |keys| > 0 {
      EmptyStaysEmpty(keys[1..]);
    }
  }

  /** An exhausted iterator answers every question with "no". */
  lemma {:induction false} NothingFoundInEmpty<K>(keys: seq<K>)
    ensures forall i :: 0 <= i < |keys| ==> !Scan(keys, []).0[i]
  {
  }
}

=== FILE: ptsensor.dfy ===
/** The pressure/temperature sensor check (proj/custom/ptsensor_custom.py).

    Every sensor record must match a trawl event on station, sample date,
    sampling organisation and trawl number. The reference tuples are held
    in a `zip` object, which is a one-shot iterator: `x in it` advances `it`
    past the first match, or to its end when there is none. The module runs
    the membership test once inside a `print` and then again to compute the
    bad rows, so the second pass sees only what the first left over. The
    model follows that code, and also gives the tuple-membership check the
    comments describe.
 */
module PtSensor {
  import opened Wrappers
  import opened Frames
  import opened Functions
  import opened OneShot

  /** The four matching columns, as one tuple. */
  datatype EventKey = EventKey(stationid: string, sampledate: int, samplingorganization: string, trawlnumber: int)

  /** A sensor record: its index label, which `assign(tmp_row=index)` makes
      the reported row id, and its key. */
  datatype SensorRow = SensorRow(index: int, key: EventKey)

  const Table := "tbl_ptsensorresults"
  const KeyColumns := "stationid,sampledate,samplingorganization,trawlnumber"
  const LogicError := "Logic Error"
  const LogicMessage := "Each PTSensorResult record must have a corresponding Occupation and Trawl Event record. Records are matched on StationID, SampleDate, Sampling Organization, and Trawl Number."
  const UndefinedError := "Undefined Error"
  const NoEventsMessage := "Field data must be submitted before ptsensorresults data."

  /** `tmp_row`, the row id a finding reports. */
  function TmpRow(r: SensorRow): int {
    r.index
  }

  function Keys(rows: seq<SensorRow>): (ks: seq<EventKey>)
    ensures |ks| == |rows|
    ensures forall i :: 0 <= i < |rows| ==> ks[i] == rows[i].key
  {
    seq(|rows|, i requires 0 <= i < |rows| => rows[i].key)
  }

  /** With no trawl events at all, every record is reported under
      "stationid". */
  function NoEventsFinding(rows: seq<SensorRow>): (e: Option<Finding>)
    ensures e.None? <==> rows == []
    ensures e.Some? ==> e.value.columns == "stationid" && e.value.errorType == UndefinedError
    ensures e.Some? ==> forall i :: 0 <= i < |rows| ==> rows[i].index in e.value.rows
  {
    var ids := Select(rows, (r: SensorRow) => true, TmpRow);
    CheckData(CheckArgs(Table, ids, "stationid", UndefinedError, false, NoEventsMessage), None).0
  }

  function LogicFinding(ids: seq<int>): Option<Finding> {
    CheckData(CheckArgs(Table, ids, KeyColumns, LogicError, false, LogicMessage), None).0
  }

  /** `ptsensor(all_dfs)` as written: the `print` pass consumes the iterator
      first, and the bad rows come from a second pass over what is left. */
  function PtSensorAsWritten(rows: seq<SensorRow>, events: seq<EventKey>): (rep: Report)
    ensures |rep.errors| == 1 && rep.warnings == []
    ensures events == [] ==> rep.errors[0] == NoEventsFinding(rows)
    ensures events != [] ==> forall f :: rep.errors[0] == Some(f) ==> f.errorType == LogicError && f.columns == KeyColumns
  {
    if |events| > 0 then
      var printed := Scan(Keys(rows), events);
      var counted := Scan(Keys(rows), printed.1);
      Report([LogicFinding(Unfound(rows, counted.0, TmpRow))], [])
    else
      Report([NoEventsFinding(rows)], [])
  }

  /** The check the comments describe: a record is reported exactly when
      its four-column tuple is not among the trawl events. */
  function PtSensor(rows: seq<SensorRow>, events: seq<EventKey>): (rep: Report)
    ensures |rep.errors| == 1 && rep.warnings == []
    ensures events == [] ==> rep.errors[0] == NoEventsFinding(rows)
    ensures events != [] ==> (rep.errors[0].None? <==> forall i :: 0 <= i < |rows| ==> TupleFound(KeyTuple(rows[i].key), EventTuples(events)))
    ensures events != [] && rep.errors[0].Some? ==> forall x :: x in rep.errors[0].value.rows <==> exists i :: 0 <= i < |rows| && rows[i].index == x && rows[i].key !in events
  {
    if |events| > 0 then
      var found := seq(|rows|, i requires 0 <= i < |rows| => rows[i].key in events);
      forall i | 0 <= i < |rows| ensures found[i] <==> TupleFound(KeyTuple(rows[i].key), EventTuples(events)) {
        KeyTupleMembership(rows[i].key, events);
      }
      Report([LogicFinding(Unfound(rows, found, TmpRow))], [])
    else
      Report([NoEventsFinding(rows)], [])
  }

  /** The key as the tuple a merge compares. */
  datatype Part = Text(s: string) | Number(n: int)

  function KeyTuple(k: EventKey): (t: seq<Part>)
    ensures |t| == 4
  {
    [Text(k.stationid), Number(k.sampledate), Text(k.samplingorganization), Number(k.trawlnumber)]
  }

  function EventTuples(events: seq<EventKey>): (ts: seq<seq<Part>>)
    ensures |ts| == |events|
    ensures forall j :: 0 <= j < |events| ==> ts[j] == KeyTuple(events[j])
  {
    seq(|events|, j requires 0 <= j < |events| => KeyTuple(events[j]))
  }

  /** Tuples are compared whole: two keys give the same tuple only when they
      agree on all four columns. */
  lemma {:induction false} KeyTupleMembership(k: EventKey, events: seq<EventKey>)
    ensures TupleFound(KeyTuple(k), EventTuples(events)) <==> k in events
  {
    if TupleFound(KeyTuple(k), EventTuples(events)) {
      var j :| 0 <= j < |events| && EventTuples(events)[j] == KeyTuple(k);
      assert KeyTuple(events[j])[0] == Text(k.stationid);
      assert KeyTuple(events[j])[1] == Number(k.sampledate);
      assert KeyTuple(events[j])[2] == Text(k.samplingorganization);
      assert KeyTuple(events[j])[3] == Number(k.trawlnumber);
      assert events[j] == k;
    }
    if k in events {
      var j :| 0 <= j < |events| && events[j] == k;
      assert EventTuples(events)[j] == KeyTuple(k);
    }
  }

  /** The iterator never reports a match that is not there, so every record
      the intended check reports is reported as written too. */
  lemma {:induction false} AsWrittenReportsUnmatched(rows: seq<SensorRow>, events: seq<EventKey>)
    ensures forall f, g :: PtSensor(rows, events).errors[0] == Some(f) && PtSensorAsWritten(rows, events).errors[0] == Some(g) ==> forall x :: x in f.rows ==> x in g.rows
    ensures PtSensor(rows, events).errors[0].Some? ==> PtSensorAsWritten(rows, events).errors[0].Some?
  {
    if |events| > 0 {
      var printed := Scan(Keys(rows), events);
      var counted := Scan(Keys(rows), printed.1);
      forall i | 0 <= i < |rows| && rows[i].key !in events ensures !counted.0[i] {
        SuffixMembers(printed.1, events);
      }
    }
  }

  /** With a single trawl event on file, the first pass leaves the iterator
      empty whatever it finds, so as written every record is reported, the
      matching ones included; the intended check reports none of them when
      they all match. */
  lemma {:induction false} SingleEventReportsEverything(rows: seq<SensorRow>, e: EventKey)
    requires |rows| >= 1
    ensures PtSensorAsWritten(rows, [e]).errors[0].Some?
    ensures forall i :: 0 <= i < |rows| ==> rows[i].index in PtSensorAsWritten(rows, [e]).errors[0].value.rows
    ensures (forall i :: 0 <= i < |rows| ==> rows[i].key == e) ==> PtSensor(rows, [e]).errors[0].None?
  {
    var printed := Scan(Keys(rows), [e]);
    LookupEmpties(Keys(rows), [e]);
    var counted := Scan(Keys(rows), printed.1);
    NothingFoundInEmpty(Keys(rows));
    assert !counted.0[0];
  }
}

=== FILE: text.dfy ===
/** The handful of Python `str` operations the checks rely on:
    `strip()`, `split(sep)`, `lower()` and the `in` substring test.

    Characters are Dafny `char`s, that is Unicode scalar values. Whitespace
    is the set `str.isspace()` accepts, which is what `str.strip()` removes;
    `lower()` folds only the ASCII letters.
 */
module Text {

  /** The characters `str.strip()` treats as whitespace: the ASCII
      whitespace, the four information separators, NEXT LINE, NO-BREAK
      SPACE and the Unicode space and line separators. */
  predicate IsSpace(c: char) {
    || c == ' ' || ('\t' <= c <= '\r') || ('\U{001C}' <= c <= '\U{001F}')
    || c == '\U{0085}' || c == '\U{00A0}' || c == '\U{1680}'
    || ('\U{2000}' <= c <= '\U{200A}') || c == '\U{2028}' || c == '\U{2029}'
    || c == '\U{202F}' || c == '\U{205F}' || c == '\U{3000}'
  }

  /** `s.lstrip()`: drops the leading whitespace and nothing else. */
  function TrimStart(s: string): (r: string)
    ensures |r| <= |s| && r == s[|s| - |r|..]
    ensures r == [] || !IsSpace(r[0])
    ensures forall k :: 0 <= k < |s| - |r| ==> IsSpace(s[k])
    decreases |s|
  {
    if |s| > 0 && IsSpace(s[0]) then TrimStart(s[1..]) else s
  }

  /** `s.rstrip()`: drops the trailing whitespace and nothing else. */
  function TrimEnd(s: string): (r: string)
    ensures |r| <= |s| && r == s[..|r|]
    ensures r == [] || !IsSpace(r[|r| - 1])
    ensures forall k :: |r| <= k < |s| ==> IsSpace(s[k])
    decreases |s|
  {
    if |s| > 0 && IsSpace(s[|s| - 1]) then TrimEnd(s[..|s| - 1]) else s
  }

  /** `s.strip()`. */
  function Strip(s: string): string {
    TrimEnd(TrimStart(s))
  }

  /** A stripped string has no whitespace at either end, and stripping it
      again changes nothing. */
  lemma {:induction false} StripNormalises(s: string)
    ensures var t := Strip(s); t == [] || (!IsSpace(t[0]) && !IsSpace(t[|t| - 1]))
    ensures Strip(Strip(s)) == Strip(s)
  {
    var a := TrimStart(s);
    var t := TrimEnd(a);
    if t != [] {
      assert t[0] == a[0];
    }
    assert TrimStart(t) == t;
    assert TrimEnd(t) == t;
  }

  /** `sep.join(parts)` for a one-character separator. */
  function Join(parts: seq<string>, sep: char): string
    requires |parts| >= 1
    decreases |parts|
  {
    if |parts| == 1 then parts[0] else parts[0] + [sep] + Join(parts[1..], sep)
  }

  lemma {:induction false} JoinCons(c: char, parts: seq<string>, sep: char)
    requires |parts| >= 1
    ensures Join([[c] + parts[0]] + parts[1..], sep) == [c] + Join(parts, sep)
  {
    var p := [[c] + parts[0]] + parts[1..];
    if |parts| > 1 {
      assert p[1..] == parts[1..];
    }
  }

  /** `s.split(sep)` for a one-character separator: never empty, no piece
      contains the separator, and joining the pieces gives `s` back. */
  function Split(s: string, sep: char): (parts: seq<string>)
    ensures |parts| >= 1
    ensures forall k :: 0 <= k < |parts| ==> sep !in parts[k]
    ensures Join(parts, sep) == s
    decreases |s|
  {
    if |s| == 0 then [""]
    else
      var rest := Split(s[1..], sep);
      if s[0] == sep then
        assert ([""] + rest)[1..] == rest;
        [""] + rest
      else
        JoinCons(s[0], rest, sep);
        assert s == [s[0]] + s[1..];
        [[s[0]] + rest[0]] + rest[1..]
  }

  /** The other half of the round trip: splitting a join of separator-free
      pieces gives the pieces back. */
  lemma {:induction false} SplitJoin(parts: seq<string>, sep: char)
    requires |parts| >= 1
    requires forall k :: 0 <= k < |parts| ==> sep !in parts[k]
    ensures Split(Join(parts, sep), sep) == parts
    decreases |parts|, |parts[0]|
  {
    if |parts[0]| == 0 {
      if |parts| == 1 {
      } else {
        SplitJoin(parts[1..], sep);
        var j := Join(parts, sep);
        assert j == [sep] + Join(parts[1..], sep);
        assert j[1..] == Join(parts[1..], sep);
        assert [""] + parts[1..] == parts;
      }
    } else {
      var c := parts[0][0];
      var tail := [parts[0][1..]] + parts[1..];
      assert forall k :: 0 <= k < |tail| ==> sep !in tail[k] by {
        forall k | 0 <= k < |tail| ensures sep !in tail[k] {
          if k == 0 {
            assert forall x :: x in parts[0][1..] ==> x in parts[0];
          } else {
            assert tail[k] == parts[k];
          }
        }
      }
      SplitJoin(tail, sep);
      JoinCons(c, tail, sep);
      assert parts[0] == [c] + parts[0][1..];
      assert [[c] + tail[0]] + tail[1..] == parts;
      assert Join(parts, sep) == [c] + Join(tail, sep);
      assert (Join(parts, sep))[1..] == Join(tail, sep);
      assert c == parts[0][0] && c != sep;
    }
  }

  /** The set of stripped pieces of `s.split(sep)`. */
  function TokenSet(s: string, sep: char): set<string> {
    set t | t in Split(s, sep) :: Strip(t)
  }

  /** `str.lower()` restricted to ASCII letters. */
  function LowerChar(c: char): char {
    if 'A' <= c <= 'Z' then (c as int + 32) as char else c
  }

  function Lower(s: string): string {
    seq(|s|, i requires 0 <= i < |s| => LowerChar(s[i]))
  }

  /** `sub` occurs in `s` starting at position `i`. */
  predicate OccursAt(s: string, sub: string, i: int) {
    0 <= i && i + |sub| <= |s| && s[i..i + |sub|] == sub
  }

  /** Python's `sub in s`. */
  predicate Contains(s: string, sub: string) {
    exists i | 0 <= i <= |s| - |sub| :: OccursAt(s, sub, i)
  }

  /** `sub in s.lower()`, which is how the checks test sample types. */
  predicate ContainsIgnoreCase(s: string, sub: string) {
    Contains(Lower(s), sub)
  }

  /** Python's `a < b` on strings: the first differing character decides,
      and a proper prefix comes first. */
  predicate StrLt(a: string, b: string)
    decreases |a|
  {
    |b| > 0 && (|a| == 0 || a[0] < b[0] || (a[0] == b[0] && StrLt(a[1..], b[1..])))
  }

  predicate StrLe(a: string, b: string) {
    a == b || StrLt(a, b)
  }

  /** The order is total: of two different strings one comes first. */
  lemma {:induction false} StrLtTotal(a: string, b: string)
    ensures a == b || StrLt(a, b) || StrLt(b, a)
    decreases |a|
  {
    if |a| > 0 && |b| > 0 && a[0] == b[0] {
      StrLtTotal(a[1..], b[1..]);
      if a[1..] == b[1..] {
        assert a == [a[0]] + a[1..] && b == [b[0]] + b[1..];
      }
    }
  }

  /** ... and transitive. */
  lemma {:induction false} StrLtTransitive(a: string, b: string, c: string)
    requires StrLt(a, b) && StrLt(b, c)
    ensures StrLt(a, c)
    decreases |a|
  {
    if |a| > 0 && a[0] == b[0] && b[0] == c[0] {
      StrLtTransitive(a[1..], b[1..], c[1..]);
    }
  }

  /** ... and irreflexive, so `<` and `>=` never both hold. */
  lemma {:induction false} StrLtIrreflexive(a: string)
    ensures !StrLt(a, a)
    decreases |a|
  {
    if |a| > 0 {
      StrLtIrreflexive(a[1..]);
    }
  }

  /** `min()` of a non-empty column of strings. */
  function MinString(xs: seq<string>): (m: string)
    requires |xs| >= 1
    ensures m in xs
    ensures forall k :: 0 <= k < |xs| ==> StrLe(m, xs[k])
  {
    if |xs| == 1 then xs[0]
    else
      var rest := MinString(xs[1..]);
      assert rest in xs;
      if StrLe(xs[0], rest) then
        assert forall k :: 1 <= k < |xs| ==> StrLe(xs[0], xs[k]) by {
          forall k | 1 <= k < |xs| ensures StrLe(xs[0], xs[k]) {
            assert StrLe(rest, xs[1..][k - 1]);
            if xs[0] != rest && rest != xs[k] {
              StrLtTransitive(xs[0], rest, xs[k]);
            }
          }
        }
        xs[0]
      else
        StrLtTotal(xs[0], rest);
        rest
  }
}

=== FILE: time_format.dfy ===
/** The HH:MM:SS tests of the field and ocean-acidification modules.

    field.py, field_grab_custom.py and field_trawl_custom.py test
    `re.match('([0-9]{1,2}):[0-5][0-9]:[0-5][0-9]', str(value))`, which only
    anchors the start: anything may follow the time. The ocean-acidification
    module strips the string first and ends the pattern with `$`, so the time
    must be the whole string. Neither pattern bounds the hour.
 */
module TimeFormat {
  import opened Frames
  import opened Functions

  predicate IsDigit(c: char) {
    '0' <= c <= '9'
  }

  /** `[0-5]`, the first digit of minutes and seconds. */
  predicate IsSixtiesDigit(c: char) {
    '0' <= c <= '5'
  }

  /** `[0-9]{n}:[0-5][0-9]:[0-5][0-9]` matches the first `n + 6` characters
      of `s`, for an hour of one or two digits. */
  predicate MatchesWith(s: string, n: int) {
    (n == 1 || n == 2) && |s| >= n + 6
    && (forall k :: 0 <= k < n ==> IsDigit(s[k]))
    && s[n] == ':' && IsSixtiesDigit(s[n + 1]) && IsDigit(s[n + 2])
    && s[n + 3] == ':' && IsSixtiesDigit(s[n + 4]) && IsDigit(s[n + 5])
  }

  /** `re.match(pattern, s)` succeeds: some hour width lets the pattern match
      a prefix of `s`. */
  predicate PrefixTime(s: string) {
    MatchesWith(s, 1) || MatchesWith(s, 2)
  }

  /** `re.match(pattern + '$', s)` succeeds: the match ends the string, or
      stops just before a final newline, which is where `$` also matches. */
  predicate AnchoredTime(s: string) {
    exists n | n in {1, 2} :: MatchesWith(s, n) && (|s| == n + 6 || (|s| == n + 7 && s[n + 6] == '\n'))
  }

  /** A whole time string is seven to nine characters long. */
  lemma {:induction false} AnchoredLength(s: string)
    ensures AnchoredTime(s) ==> 7 <= |s| <= 9
  {
    if AnchoredTime(s) {
      var n :| n in {1, 2} && MatchesWith(s, n) && (|s| == n + 6 || (|s| == n + 7 && s[n + 6] == '\n'));
    }
  }

  function DigitValue(c: char): (d: int)
    requires IsDigit(c)
    ensures 0 <= d <= 9
  {
    c as int - '0' as int
  }

  function DigitChar(d: int): (c: char)
    requires 0 <= d <= 9
    ensures IsDigit(c) && DigitValue(c) == d
  {
    ('0' as int + d) as char
  }

  /** The hour, minutes and seconds a matching string starts with. The two
      hour widths never both match: with one digit the second character is
      the colon, with two it is a digit. */
  function Fields(s: string): (t: (int, int, int))
    requires PrefixTime(s)
    ensures 0 <= t.0 <= 99 && 0 <= t.1 <= 59 && 0 <= t.2 <= 59
    ensures MatchesWith(s, 1) ==> t.0 <= 9
  {
    var n := if MatchesWith(s, 2) then 2 else 1;
    var h := if n == 2 then 10 * DigitValue(s[0]) + DigitValue(s[1]) else DigitValue(s[0]);
    (h, 10 * DigitValue(s[n + 1]) + DigitValue(s[n + 2]), 10 * DigitValue(s[n + 4]) + DigitValue(s[n + 5]))
  }

  function TwoDigits(v: int): (s: string)
    requires 0 <= v <= 99
    ensures |s| == 2 && IsDigit(s[0]) && IsDigit(s[1])
    ensures 10 * DigitValue(s[0]) + DigitValue(s[1]) == v
  {
    [DigitChar(v / 10), DigitChar(v % 10)]
  }

  /** "HH:MM:SS" with two digits in each field. */
  function Clock(h: int, m: int, sec: int): (s: string)
    requires 0 <= h <= 99 && 0 <= m <= 59 && 0 <= sec <= 59
    ensures |s| == 8
  {
    TwoDigits(h) + ":" + TwoDigits(m) + ":" + TwoDigits(sec)
  }

  /** Every clock reading passes both patterns, whatever follows it in the
      unanchored case, and reads back as the fields it was written from. */
  lemma {:induction false} ClockRoundTrip(h: int, m: int, sec: int, rest: string)
    requires 0 <= h <= 99 && 0 <= m <= 59 && 0 <= sec <= 59
    ensures AnchoredTime(Clock(h, m, sec))
    ensures PrefixTime(Clock(h, m, sec) + rest)
    ensures Fields(Clock(h, m, sec) + rest) == (h, m, sec)
  {
    var c := Clock(h, m, sec);
    var s := c + rest;
    var hh, mm, ss := TwoDigits(h), TwoDigits(m), TwoDigits(sec);
    assert c[0..2] == hh && c[3..5] == mm && c[6..8] == ss;
    assert c[2] == ':' && c[5] == ':';
    assert s[..8] == c;
    assert m / 10 <= 5 && sec / 10 <= 5;
    assert MatchesWith(c, 2);
    assert MatchesWith(s, 2);
  }

  /** The other direction: an eight-character string the anchored pattern
      accepts, other than a one-digit hour followed by a newline, is exactly
      the clock reading of its fields. */
  lemma {:induction false} AnchoredIsClock(s: string)
    requires AnchoredTime(s) && |s| == 8 && s[7] != '\n'
    ensures PrefixTime(s)
    ensures var t := Fields(s); Clock(t.0, t.1, t.2) == s
  {
    var n :| n in {1, 2} && MatchesWith(s, n) && (|s| == n + 6 || (|s| == n + 7 && s[n + 6] == '\n'));
    assert n == 2;
    var t := Fields(s);
    TwoDigitsOf(s[0], s[1]);
    TwoDigitsOf(s[3], s[4]);
    TwoDigitsOf(s[6], s[7]);
    assert s == [s[0], s[1]] + ":" + [s[3], s[4]] + ":" + [s[6], s[7]];
  }

  /** Reading two digits and writing them back gives the same two digits. */
  lemma {:induction false} TwoDigitsOf(a: char, b: char)
    requires IsDigit(a) && IsDigit(b)
    ensures TwoDigits(10 * DigitValue(a) + DigitValue(b)) == [a, b]
  {
    var v := 10 * DigitValue(a) + DigitValue(b);
    assert v / 10 == DigitValue(a) && v % 10 == DigitValue(b);
  }

  /** Anchoring only narrows: whatever the anchored pattern accepts, the
      unanchored one does too. */
  lemma {:induction false} AnchoredIsPrefix(s: string)
    requires AnchoredTime(s)
    ensures PrefixTime(s)
  {
  }

  /** The unanchored pattern ignores whatever follows the time. */
  lemma {:induction false} PrefixTimeExtends(s: string, rest: string)
    requires PrefixTime(s)
    ensures PrefixTime(s + rest)
    ensures Fields(s + rest) == Fields(s)
  {
    var n := if MatchesWith(s, 2) then 2 else 1;
    assert forall k :: 0 <= k < n + 6 ==> (s + rest)[k] == s[k];
    assert MatchesWith(s + rest, n);
    assert MatchesWith(s + rest, 2) <==> MatchesWith(s, 2);
  }

  /** Trailing text separates the two patterns, and neither rejects an hour
      above 23. */
  lemma {:induction false} PatternsDiffer()
    ensures PrefixTime("12:30:45 PM") && !AnchoredTime("12:30:45 PM")
    ensures AnchoredTime("99:59:59") && Fields("99:59:59").0 == 99
    ensures !PrefixTime("1230") && !AnchoredTime("1230")
  {
    ClockRoundTrip(12, 30, 45, " PM");
    assert Clock(12, 30, 45) + " PM" == "12:30:45 PM";
    ClockRoundTrip(99, 59, 59, "");
    assert Clock(99, 59, 59) == "99:59:59";
    assert Clock(99, 59, 59) + "" == "99:59:59";
  }

  /** A missing cell is rendered "nan", which neither pattern accepts. */
  lemma {:induction false} MissingCellIsNoTime()
    ensures !PrefixTime(Render(Null)) && !AnchoredTime(Render(Null))
  {
    assert Render(Null)[0] == 'n';
  }

  /** A time cell with the row it is reported under. */
  datatype TimeCell = TimeCell(row: int, value: Cell)

  predicate BadPrefixTime(c: TimeCell) {
    !PrefixTime(Render(c.value))
  }

  function RowOf(c: TimeCell): int {
    c.row
  }

  /** The field modules' time check on one column: the rows whose `str()`
      does not start with a time. */
  function BadTimes(cells: seq<TimeCell>): (ids: seq<int>)
    ensures forall x :: x in ids <==> exists i :: 0 <= i < |cells| && cells[i].row == x && !PrefixTime(Render(cells[i].value))
    ensures ids == [] <==> forall i :: 0 <= i < |cells| ==> PrefixTime(Render(cells[i].value))
  {
    Select(cells, BadPrefixTime, RowOf)
  }

  /** A column of clock readings passes, and a missing cell is always
      reported. */
  lemma {:induction false} BadTimesMeaning(cells: seq<TimeCell>, i: int)
    requires 0 <= i < |cells|
    ensures cells[i].value == Null ==> cells[i].row in BadTimes(cells)
    ensures (exists h, m, sec, rest :: 0 <= h <= 99 && 0 <= m <= 59 && 0 <= sec <= 59 && cells[i].value == Str(Clock(h, m, sec) + rest))
      ==> PrefixTime(Render(cells[i].value))
  {
    MissingCellIsNoTime();
    if exists h, m, sec, rest :: 0 <= h <= 99 && 0 <= m <= 59 && 0 <= sec <= 59 && cells[i].value == Str(Clock(h, m, sec) + rest) {
      var h, m, sec, rest :| 0 <= h <= 99 && 0 <= m <= 59 && 0 <= sec <= 59 && cells[i].value == Str(Clock(h, m, sec) + rest);
      ClockRoundTrip(h, m, sec, rest);
    }
  }
}

=== FILE: wrappers.dfy ===
/** Failure-carrying datatypes shared by every check module.

    The checker is written in Python, where a failed `assert`, a missing
    column, a bad `dict.update` or a division by zero raises an exception
    that aborts the whole check function. Such outcomes are modelled as
    `Raise(...)` values instead of preconditions, so the error paths stay
    part of the model.
 */
module Wrappers {

  /** Python's `None` versus a present value. */
  datatype Option<+T> = None | Some(value: T) {
    function GetOr(default: T): T {
      match this
      case Some(v) => v
      case None => default
    }
  }

  /** The exception classes the modelled code can raise. */
  datatype Exception =
    | AssertionError(message: string)
    | KeyError(key: string)
    | TypeError(message: string)
    | ZeroDivisionError
    | IndexError
    | AttributeError(message: string)
    | PlainException(message: string)  // a bare `raise Exception(message)`
    | DatabaseError(statement: string)  // the database rejects a statement
    | ValueError(message: string)
    | NameError(name: string)  // a name defined nowhere in scope

  /** `df.columns = cursor.keys()` on `pd.DataFrame(cursor.fetchall())`
      when the query returned no row: the frame has no columns to name. */
  const LengthMismatch := ValueError("Length mismatch")

  /** The outcome of a check function: a value, or the exception it raised. */
  datatype Result<+T> = Ok(value: T) | Raise(exception: Exception) {
    predicate IsFailure() {
      Raise?
    }

    function PropagateFailure<U>(): Result<U>
      requires Raise?
    {
      Raise(exception)
    }

    function Extract(): T
      requires Ok?
    {
      value
    }
  }

  /** Python's `assert cond, message`. */
  function Need(cond: bool, message: string): (r: Result<()>)
    ensures r.Ok? <==> cond
  {
    if cond then Ok(()) else Raise(AssertionError(message))
  }
}
